=== FILE: README.md ===
# Odoonto front end, modelled in Dafny

Odoonto is the web front end of a dental clinic. Receptionists and dentists
use it to keep the patient register and to fill each dentist's agenda with
half-hour appointments. They edit a patient's dental chart (the odontogram:
lesions per tooth face, teeth numbered in the two-digit FDI notation of
ISO 3950) and look after the staff list. This project models the pure
logic of its React pages and components as Dafny functions and lemmas. It
proves what that logic guarantees, and, where a guarantee fails, it
exhibits the failing input next to a corrected definition.

The modules follow the source files:

- **Shared vocabulary.**
  - `Wrappers`: `Option` and `Result`.
  - `Strings`: the JavaScript string operations the components call.
  - `Civil`: day numbers, civil dates and millisecond instants, with the
    roll-over of `new Date(y, m, d)`.
  - `Clock`: "HH:MM" labels and `timeToMinutes`.
  - `Lists`: `filter`, `map`, `findIndex` and `some`.
  - `Statuses`: the Spanish and English appointment status codes.
  - `Appointments`: the appointment record and the id-based list updates.
  - `SlotGrid`: a parameterised half-hour row indexer. `DailySchedule`,
    `DentistColumn` and `TimeColumn` are stated against it; `WeeklySchedule`
    matches its rows by `timeToMinutes` instead, as its source does.
- **Schedule views.**
  - `DailySchedule`: 09:00–16:30, zero-padded labels.
  - `WeeklySchedule`: 9:00–17:30, unpadded labels.
  - `DentistColumn` and `TimeColumn`: 08:00–20:00, 25 slots, a hidden +2
    row shift.
  - `CalendarView`, `AppointmentCalendar` and `SchedulePage`.
  - `AppointmentForm` and `AppointmentDetail`.
- **Patient pages.**
  - `Patients`, `PatientForm`, `PatientList`, `PatientsPage` and
    `PatientDetailPage`.
  - `OdontogramService`: the backend-to-frontend chart normalisation.
  - `PatientOdontogram`: the patient page's chart editor.
  - `ToothChart`: the stand-alone chart component.
- **Staff and frame.**
  - `Doctors`, `DoctorForm` and `DoctorsPage`.
  - `DateUtils`.
  - `HomePage`: the API overview page.
  - `Layout`: the top bar's title and the sidebar's highlight.

The modelling conventions:

- Instants are integer milliseconds on a local time line. There are no time
  zones and no daylight-saving jumps.
  - A day number counts from 1970-01-01.
  - `getDay` is `(n + 4) % 7`.
  - Months are 1..12, JavaScript's `getMonth() + 1`.
- A missing text field is modelled as "", which is falsy like `undefined`.
  The staff page's `id` and `especialidad` are the exception: the page reads
  them without a guard, so a missing one is `None` there and makes the load
  fail.
- A missing `durationSlots` is modelled as 0, which `|| 1` treats like
  `undefined`.
- A JavaScript `NaN` is `None`.
- State setters are modelled as functions from the old state to the new one.
- Every asynchronous reply is a `Result` parameter.

## Model

Each row names a member whose contract states the property in its third column. Predicates, constants and definitions that only compute (`Strings.ParseIntPrefix`, `ToothChart.UpperRow`, `CalendarView.ShowTimeLine`, the modal flags of `SchedulePage`, and the like) have no row of their own: the rows of the lemmas and operations that state their meaning cite their lines. Steps of pure arithmetic that serve a proof (`Civil.DivisibilityChain`, `DailySchedule.RowArithmetic`, `AppointmentForm.OptionParts`, and the like) have no source line and no row.

| member | source | states |
|---|---|---|
| Strings.NatToDecimal | src/components/appointment/DailySchedule.jsx:32-33 | `toString` of a natural is a non-empty digit string without a leading zero, whose length is fixed by the number's decade |
| Strings.DigitsValueOfDecimal | src/components/appointment/DailySchedule.jsx:26 | `Number` reads back what `toString` printed |
| Strings.IntToDecimal | src/pages/DoctorsPage.jsx:104 | `toString` of a negative number is a minus sign before the digits of its magnitude |
| Strings.PadStart | src/pages/DoctorsPage.jsx:104 | `padStart(width, '0')` keeps the string as the suffix, reaches the width when shorter, and fills with zeros only |
| Strings.Pad2 | src/components/appointment/DailySchedule.jsx:32-33 | the two-digit padding of an hour or minute is two digits whose value is the number |
| Strings.TwoDigits | src/components/appointment/DailySchedule.jsx:26-27 | a two-character digit string is determined by the value `Number` reads from it |
| Strings.ToLower | src/components/patient/PatientList.jsx:11-14 | `toLowerCase` keeps the length and lowers each character on its own |
| Strings.ToLowerIdempotent | src/components/patient/PatientList.jsx:11-14 | lowering a string twice is the same as lowering it once, so the lowered search term is matched consistently |
| Strings.UpperChar | src/components/appointment/DailySchedule.jsx:92 | `toUpperCase` of a lower-case letter is the upper-case letter that lowers back to it |
| Strings.Or | src/pages/DoctorsPage.jsx:10 | `a \|\| b` on strings: the first string unless it is empty |
| Strings.ContainsChar | src/pages/DoctorsPage.jsx:111-114 | `includes` of a one-character string holds exactly when the character occurs |
| Strings.EmptyContained | src/components/patient/PatientList.jsx:13-15 | the empty search term is included in every string |
| Strings.IndexOf | src/components/patient/PatientForm.jsx:57 | the first position of a character, or -1 exactly when it does not occur |
| Strings.Split | src/components/appointment/DailySchedule.jsx:26 | `split` yields at least one piece, and a string without the separator yields itself |
| Strings.SplitConcat | src/components/appointment/DailySchedule.jsx:26 | splitting at the first separator puts the part before it first and splits the rest |
| Strings.JoinSplit | src/components/appointment/DailySchedule.jsx:26 | joining the pieces of a split with the separator gives the original string back |
| Strings.SplitTwo | src/components/appointment/AppointmentForm.jsx:108 | a string with exactly one separator splits into its two sides |
| Strings.TrimStart | src/pages/PatientsPage.jsx:84 | the leading cut removes only whitespace and leaves no leading whitespace |
| Strings.TrimEnd | src/pages/PatientsPage.jsx:84 | the trailing cut removes only whitespace and leaves no trailing whitespace |
| Strings.TrimNoEdges | src/pages/PatientsPage.jsx:84 | `trim` leaves a string without whitespace at its ends unchanged |
| Strings.FirstChar | src/pages/DoctorsPage.jsx:89 | `charAt(0)` is "" for the empty string and the first character otherwise |
| Strings.DigitsOf | src/components/patient/PatientForm.jsx:90 | `replace(/\D/g, '')` leaves only digits and never lengthens the string |
| Strings.DigitsOfConcat | src/components/patient/PatientForm.jsx:90 | stripping non-digits works piece by piece |
| Strings.DigitsOfDigits | src/components/patient/PatientForm.jsx:90 | stripping non-digits from a digit string changes nothing |
| Strings.NumberValue | src/components/appointment/DailySchedule.jsx:26 | `Number` gives a value exactly for digit strings, "" read as 0 |
| Strings.DigitPrefixLength | src/components/appointment/AppointmentForm.jsx:94 | `parseInt` reads the longest run of digits at the front |
| Strings.DigitRun | src/components/appointment/AppointmentForm.jsx:94 | the digit run is `NaN` exactly when the text is empty or does not start with a digit |
| Strings.SpacePrefixLength | src/components/appointment/AppointmentForm.jsx:108 | `parseInt` skips the leading whitespace and stops at the first other character |
| Strings.ParseUnsigned | src/components/appointment/AppointmentForm.jsx:108 | `parseInt` of a text starting with a digit reads its digit run |
| Strings.ParseNegative | src/components/appointment/AppointmentForm.jsx:114 | a minus sign before a digit run makes `parseInt` read the run negated |
| Strings.DigitRunOfDecimal | src/components/appointment/AppointmentForm.jsx:114 | the digits `toString` prints for a natural start with a digit and read back as that number |
| Strings.ParseIntToDecimal | src/components/appointment/AppointmentForm.jsx:56-122 | `parseInt` reads back every integer `toString` printed, negative ones included |
| Strings.ParseAllDigits | src/components/appointment/AppointmentForm.jsx:94 | `parseInt` of a non-empty digit string reads its whole value |
| Strings.ParseDecimalThen | src/components/appointment/AppointmentForm.jsx:114 | `parseInt` of a printed number followed by a non-digit reads that number back |
| Strings.Trim | src/pages/PatientsPage.jsx:84 | `trim` gives the middle slice of the string, cutting only whitespace before and after it; no whitespace is left at either end, and the result is "" exactly for an all-whitespace string |
| Strings.Join | src/pages/PatientsPage.jsx:52 | `join` of no parts is "", and a join of one or more parts starts with the first part |
| Strings.DigitChar | src/components/appointment/DailySchedule.jsx:32-33 | the digit printed for 0 … 9 is a digit character that reads back as the same value |
| Strings.DecimalOfTwoDigits | src/components/appointment/DailySchedule.jsx:32-33 | `toString` of 10 … 99 is its tens digit followed by its units digit |
| Strings.DigitPairValue | src/components/appointment/DailySchedule.jsx:26 | two printed digits read back with `Number` as ten times the first plus the second |
| Strings.JoinCons | src/pages/PatientsPage.jsx:52 | `join` of two or more parts puts the separator between the first part and the join of the rest |
| Clock.ClockLabelPadded | src/components/appointment/DailySchedule.jsx:31-35 | an "HH:MM" label is the two zero-padded parts around a colon |
| Clock.ClockLabelSplit | src/components/appointment/DailySchedule.jsx:26 | an "HH:MM" label splits at its colon into exactly the two two-digit parts |
| Clock.ClockLabelMinutes | src/components/appointment/DailySchedule.jsx:25-28 | `timeToMinutes` of an "HH:MM" label gives back 60·HH + MM |
| Clock.ClockLabelFields | src/components/appointment/AppointmentForm.jsx:94-108 | both halves of an "HH:MM" label parse back with `parseInt` to the hour and the minute |
| Clock.UnpaddedLabelMinutes | src/components/appointment/WeeklySchedule.jsx:45-46 | `timeToMinutes` also reads an unpadded "H:MM" label back as 60·H + MM |
| Clock.ClockLabel | src/components/appointment/DailySchedule.jsx:31-35 | an "HH:MM" label has five characters with the colon third, and its two digit pairs read as the hour and the minute |
| Clock.TimeToMinutes | src/components/appointment/DailySchedule.jsx:25-28 | a text without a colon reads as `NaN`, and a number read is never negative |
| Lists.Filter | src/pages/SchedulePage.jsx:181 | `filter` keeps exactly the elements that pass, and nothing else |
| Lists.FilterCount | src/components/appointment/DailySchedule.jsx:215-218 | the length of a filtered list is the number of elements that pass |
| Lists.FilterConcat | src/pages/SchedulePage.jsx:181 | filtering distributes over concatenation |
| Lists.FilterKeepsAll | src/pages/SchedulePage.jsx:181 | filtering a list whose elements all pass changes nothing |
| Lists.FilterIdempotent | src/components/patient/PatientList.jsx:10-16 | filtering twice with the same test is filtering once |
| Lists.ReplaceWhere | src/pages/SchedulePage.jsx:165 | the conditional `map` keeps the length, replaces the matching elements and leaves the others in place |
| Lists.FindIndex | src/components/appointment/DailySchedule.jsx:152 | `findIndex` gives the first position that passes, and -1 exactly when none passes |
| Lists.AnyIffFilterNonEmpty | src/components/appointment/DailySchedule.jsx:141 | `some` holds exactly when the filtered list is non-empty |
| Lists.FilterHead | src/components/appointment/WeeklySchedule.jsx:136 | the first element of a non-empty filter is the element `findIndex` finds |
| Lists.SumConcat | src/pages/DoctorsPage.jsx:103 | a `reduce` sum over a concatenation is the sum of the two sums |
| Statuses.ParseEstado | src/components/appointment/DailySchedule.jsx:56-70 | a code names a Spanish status exactly when it is that status's code |
| Statuses.ParseEstadoCode | src/components/appointment/DailySchedule.jsx:56-70 | reading a Spanish status's code gives the status back |
| Statuses.ParseStatus | src/components/appointment/AppointmentDetail.jsx:36-46 | a code names an English status exactly when it is that status's code |
| Statuses.ParseStatusCode | src/components/appointment/AppointmentForm.jsx:260-265 | reading an English status's code gives the status back |
| Statuses.VocabulariesDisjoint | src/components/appointment/DailySchedule.jsx:56-70 | no code is both a Spanish and an English status |
| Appointments.SlotsOf | src/components/appointment/DailySchedule.jsx:135-137 | `durationSlots \|\| 1` is never 0 and is the recorded length when one is set |
| Appointments.RemoveById | src/pages/SchedulePage.jsx:181 | deleting keeps exactly the appointments with another id, in order |
| Appointments.ReplaceById | src/pages/SchedulePage.jsx:165 | updating replaces every appointment with the id and leaves every other one in place |
| Appointments.RemoveByIdCount | src/pages/SchedulePage.jsx:181 | deleting removes exactly as many appointments as carry the id |
| Appointments.RemoveByIdConcat | src/pages/SchedulePage.jsx:181 | deleting works piece by piece over a concatenated list |
| Appointments.RemoveAbsentId | src/pages/SchedulePage.jsx:181 | deleting an id nobody carries changes nothing |
| Appointments.CreateThenDelete | src/pages/SchedulePage.jsx:154-181 | appending a new appointment with a fresh id and then deleting that id gives the list back |
| Appointments.DeleteAfterReplace | src/pages/SchedulePage.jsx:165-181 | deleting after an update by the same id is deleting without the update |
| SlotGrid.RowOf | src/components/appointment/DailySchedule.jsx:38-51 | a minute finds the row starting exactly there, and no row when none starts there |
| SlotGrid.RowOfRowMinute | src/components/appointment/DailySchedule.jsx:38-51 | every row is found again from its own start minute |
| SlotGrid.OffGridHasNoRow | src/components/appointment/DailySchedule.jsx:50 | a minute off the half-hour grid matches no row |
| SlotGrid.CoversSplit | src/components/appointment/DailySchedule.jsx:159 | a block covers its first row and the rows it continues into, and nothing else |
| SlotGrid.BlockHeight | src/components/appointment/DailySchedule.jsx:251 | a block's pixel height is a whole number of rows, exactly its span |
| DailySchedule.OperatingHoursShape | src/components/appointment/DailySchedule.jsx:5-22 | the sixteen rows are labelled 09:00, 09:30, … 16:30 in order, and exactly the odd rows are half hours |
| DailySchedule.RowMinutes | src/components/appointment/DailySchedule.jsx:5-28 | `timeToMinutes` of row i's label is the grid minute 540 + 30·i |
| DailySchedule.FirstStart | src/components/appointment/DailySchedule.jsx:41-51 | `find` picks the first appointment of the doctor and day that starts at the minute, and finds none exactly when none does |
| DailySchedule.FindAppointmentAtRow | src/components/appointment/DailySchedule.jsx:38-51 | the appointment shown in row i belongs to the doctor and day and starts at 540 + 30·i; none is shown exactly when none starts there |
| DailySchedule.OffGridNotFound | src/components/appointment/DailySchedule.jsx:47-50 | an appointment starting off the half-hour grid (09:15, say) appears in no row |
| DailySchedule.SlotClick | src/components/appointment/DailySchedule.jsx:117-132 | a click offers a draft exactly when no appointment starts in the row; the draft is for the doctor, on the shown day, at the row's time, with zero seconds |
| DailySchedule.IndexFrom | src/components/appointment/DailySchedule.jsx:152 | `findIndex` over the labels gives the first row with the text, and -1 exactly when no row has it |
| DailySchedule.LabelIndexOfClock | src/components/appointment/DailySchedule.jsx:152 | an "HH:MM" half-hour label is found at row 2·(HH − 9) + MM/30 inside 9..16 o'clock and nowhere outside |
| DailySchedule.LabelIndexOfRow | src/components/appointment/DailySchedule.jsx:5-22 | the row labels are distinct, so each is found at its own row |
| DailySchedule.LabelIndexOffGrid | src/components/appointment/DailySchedule.jsx:152-153 | a text that does not read as some row's minute is found in no row |
| DailySchedule.LabelIndexOfOtherLength | src/components/appointment/DailySchedule.jsx:149-153 | a text that is not five characters long (such as "9:00") is found in no row |
| DailySchedule.RowOfClock | src/components/appointment/DailySchedule.jsx:5-22 | the row index of a clock time on the grid converts back to that time |
| DailySchedule.HalfLabel | src/components/appointment/DailySchedule.jsx:149 | the minute part of the start label is '00' for minute 0 and '30' for every other minute |
| DailySchedule.StartIndexAsWritten | src/components/appointment/DailySchedule.jsx:147-153 | as written, a start before 10:00 is found in no row, and a later start finds its hour's row, with any non-zero minute rounded to the half hour |
| DailySchedule.StartIndex | src/components/appointment/DailySchedule.jsx:147-153 | with the hour padded, every start from 09:00 to 16:59 finds its row |
| DailySchedule.OccupiesBelowStart | src/components/appointment/DailySchedule.jsx:140-160 | an appointment starting in row s hides exactly the rows strictly inside its block, never its own first row |
| DailySchedule.NineOClockOccupiesNothingAsWritten | src/components/appointment/DailySchedule.jsx:147-153 | as written, an appointment in the 09:00 hour hides no row, however long it is |
| DailySchedule.QuarterPastCountsAsHalfHour | src/components/appointment/DailySchedule.jsx:149 | a 10:15 start is placed at row 3, as if it began at 10:30 |
| DailySchedule.CellAsWritten | src/components/appointment/DailySchedule.jsx:233-279 | as rendered, a card in row i shows an appointment of that doctor starting at the row's minute, as tall as its slots; the row is hidden exactly when the unpadded start-label test finds it occupied from above, and free exactly when it is neither hidden nor the start of a card |
| DailySchedule.Cell | src/components/appointment/DailySchedule.jsx:233-279 | the corrected render, with continuation rows found from the padded start label: the same card rule, a row hidden exactly when a block reaches it from above, free exactly when neither hidden nor a card start |
| DailySchedule.CellClick | src/components/appointment/DailySchedule.jsx:242 | a click creates a draft exactly on a free row, and the draft starts at that row for that doctor and day |
| DailySchedule.CellClickAsWritten | src/components/appointment/DailySchedule.jsx:242 | as written, a click creates a draft only on a row that the unpadded test finds unoccupied and where no appointment starts |
| DailySchedule.NineOClockDoubleBooking | src/components/appointment/DailySchedule.jsx:140-160 | under a two-slot 09:00 appointment, the 09:30 row is drawn free and accepts a click as written, while the padded rule hides it and ignores the click |
| DailySchedule.GreyCards | src/components/appointment/DailySchedule.jsx:55-72 | a card is grey exactly for the waiting-room code and for unknown codes |
| DailySchedule.FamilyInjective | src/components/appointment/DailySchedule.jsx:55-72 | two colour names give the same palette only when they are the same name |
| DailySchedule.StatusText | src/components/appointment/DailySchedule.jsx:97-114 | an unknown status code is shown as it is |
| DailySchedule.StatusTextDistinct | src/components/appointment/DailySchedule.jsx:97-114 | two known codes with the same text are the same code |
| DailySchedule.IconLetter | src/components/appointment/DailySchedule.jsx:75-94 | the icon is one letter: 'C' without a treatment, otherwise the upper-cased first letter when the name is not a known treatment |
| DailySchedule.IconLetterIgnoresCase | src/components/appointment/DailySchedule.jsx:78-90 | a known treatment gets the same letter, one of E, L, B or R, whatever its letter case |
| DailySchedule.StartLabelAsWritten | src/components/appointment/DailySchedule.jsx:147-149 | the unpadded start label reads back under `timeToMinutes` as the start's hour plus 0 or 30 minutes, but has the rows' five characters exactly for starts from 10:00 on |
| DailySchedule.StartLabel | src/components/appointment/DailySchedule.jsx:147-149 | the padded start label always has five characters and reads back as the start's hour plus 0 or 30 minutes |
| DailySchedule.NineOClockAsWritten | src/components/appointment/DailySchedule.jsx:140-160 | as written, the row under a two-slot 09:00 appointment is not occupied, is drawn free and takes clicks |
| DailySchedule.NineOClockPadded | src/components/appointment/DailySchedule.jsx:140-160 | with the padded label, the row under a two-slot 09:00 appointment is occupied, hidden and ignores clicks |
| WeeklySchedule.BuildOperatingHours | src/components/appointment/WeeklySchedule.jsx:13-17 | the push loop builds exactly the eighteen labels 9:00, 9:30, … 17:30 |
| WeeklySchedule.HourPair | src/components/appointment/WeeklySchedule.jsx:14-16 | hour h's two labels, "h:00" and "h:30", sit at rows 2·(h − 9) and 2·(h − 9) + 1 |
| WeeklySchedule.RowMinutes | src/components/appointment/WeeklySchedule.jsx:13-46 | row i's unpadded label reads as minute 540 + 30·i |
| WeeklySchedule.RowsIncreasing | src/components/appointment/WeeklySchedule.jsx:13-17 | a later row stands for a strictly later time |
| WeeklySchedule.WeekDays | src/components/appointment/WeeklySchedule.jsx:23-40 | the component's week has seven days |
| WeeklySchedule.WeekDaysAgree | src/components/appointment/WeeklySchedule.jsx:23-40 | the component's own week equals the one `dateUtils.getWeekDays` computes: it starts on a Monday, holds the reference day, and goes six days back from a Sunday |
| WeeklySchedule.DayNamesMatchColumns | src/components/appointment/WeeklySchedule.jsx:103 | header i names the weekday of column i |
| WeeklySchedule.FindAppointments | src/components/appointment/WeeklySchedule.jsx:43-61 | the cell's list holds exactly the doctor's appointments of that day that start at the slot's minute |
| WeeklySchedule.StatusColor | src/components/appointment/WeeklySchedule.jsx:71-82 | an unknown code gets the plain grey tint |
| WeeklySchedule.TintInjective | src/components/appointment/WeeklySchedule.jsx:72-79 | two tints give the same class string only when colour and fading agree |
| WeeklySchedule.StatusColorClasses | src/components/appointment/WeeklySchedule.jsx:71-82 | exactly the finished and cancelled visits are faded, and the plain grey tint marks exactly the waiting room and unknown codes |
| WeeklySchedule.Cell | src/components/appointment/WeeklySchedule.jsx:133-158 | a cell is empty exactly when no appointment starts there; otherwise it draws the first one that does, spanning its slot count, in its status colour, and the others are not drawn |
| WeeklySchedule.SlotClick | src/components/appointment/WeeklySchedule.jsx:85-100 | a click offers a draft exactly on an empty cell, for the doctor, on that day, at the row's time |
| WeeklySchedule.Grid | src/components/appointment/WeeklySchedule.jsx:4-136 | without a doctor there is no grid; with one, there are eighteen rows of seven cells, and the cell in row i and column d is the cell of the doctor on day d of the week at row i's time |
| DateUtils.CalculateAge | src/utils/dateUtils.js:54-69 | the age is 0 without a birth date; otherwise it is the largest number of years whose anniversary has been reached by today |
| DateUtils.AgeStepsOnBirthday | src/utils/dateUtils.js:60-66 | on a birthday the age goes up by exactly one from the day before |
| DateUtils.FirstDayOfWeek | src/utils/dateUtils.js:76-82 | the first day of the week is a Monday at most six days back, and six days back from a Sunday |
| DateUtils.FirstDayOfWeekUnique | src/utils/dateUtils.js:76-82 | any Monday at most six days back is the one returned |
| DateUtils.FirstDayOfWeekIdempotent | src/utils/dateUtils.js:76-82 | a Monday is its own first day of week, so applying the function twice is applying it once |
| DateUtils.WeekDays | src/utils/dateUtils.js:89-100 | the week is seven consecutive days starting on a Monday and holding the reference day |
| DateUtils.WeekDaysShareWeek | src/utils/dateUtils.js:89-100 | every day of a week yields that same week |
| DateUtils.OverlapSymmetric | src/utils/dateUtils.js:110-117 | overlap does not depend on which range comes first, and ranges that only touch do not overlap |
| DateUtils.OverlapSharesInstant | src/utils/dateUtils.js:110-117 | two non-empty ranges overlap exactly when they share an instant, each read as half-open |
| DateUtils.InRangeAsOverlap | src/utils/dateUtils.js:126-132 | being in the closed range is overlapping it with a one-millisecond range, and both ends are in range |
| Civil.DaysInMonth | src/components/appointment/AppointmentCalendar.jsx:10 | a month has 28 to 31 days |
| Civil.DaysBeforeMonthYear | src/components/appointment/AppointmentCalendar.jsx:10 | the twelve months add up to the year's length |
| Civil.YearStep | src/components/appointment/AppointmentCalendar.jsx:7 | consecutive years are one year's length of days apart, leap years under the Gregorian rule |
| Civil.EpochIsDayZero | src/utils/dateUtils.js:78 | 1 January 1970 is day 0, the day JavaScript counts `getDay` from |
| Civil.NextMonth | src/components/appointment/AppointmentCalendar.jsx:69 | month index + 1 carries into the next year after December |
| Civil.PrevMonth | src/components/appointment/AppointmentCalendar.jsx:64 | month index − 1 borrows from the previous year before January, and undoes `NextMonth` |
| Civil.PrevOfNext | src/components/appointment/AppointmentCalendar.jsx:64-69 | going a month forward and then back returns to the same month |
| Civil.NextMonthStart | src/components/appointment/AppointmentCalendar.jsx:10 | the first of the next month is the day after the month's last day, which is what day 0 of the next month means |
| Civil.Roll | src/components/appointment/AppointmentCalendar.jsx:23-25 | `new Date(y, m, d)` with d up to 31 is a valid date; it stays in the month exactly when d fits the month, and rolls into the next month otherwise |
| Civil.RollKeepsDay | src/components/appointment/AppointmentCalendar.jsx:23-25 | a rolled date is the same day as d − 1 days after the first of the month |
| Civil.DayNumberOfDay | src/components/appointment/AppointmentCalendar.jsx:35-39 | day d of a month is d − 1 days after its first |
| Civil.Weekday | src/utils/dateUtils.js:78 | `getDay()` is in 0..6 |
| Civil.WeekdayStep | src/utils/dateUtils.js:93-97 | k days later the weekday has advanced by k modulo 7 |
| Civil.Age | src/utils/dateUtils.js:60-66 | the age's anniversary has been reached by today, and the next one has not |
| Civil.AgeNonNegative | src/utils/dateUtils.js:60-66 | from the birth date on, the age is never negative |
| Civil.AgeMonotone | src/utils/dateUtils.js:60-66 | a later day never gives a smaller age |
| Civil.AgeOnBirthday | src/utils/dateUtils.js:60-66 | on the n-th birthday the age is exactly n, and the day before it is n − 1 |
| Civil.MinuteOfDay | src/components/appointment/DailySchedule.jsx:47 | `getHours()·60 + getMinutes()` is a minute of the day, 0..1439 |
| Civil.AtMinuteParts | src/components/appointment/DailySchedule.jsx:124-125 | `setHours(h, m, 0, 0)` on a day gives an instant on that day, at that minute, on a whole minute |
| Civil.AtMinuteWhole | src/components/appointment/AppointmentForm.jsx:108-110 | `setHours(h, m)` with any non-negative minute count lands on a whole minute, on that day or a later one |
| Civil.AtMinuteBefore | src/components/appointment/AppointmentForm.jsx:108-110 | `setHours(h, m)` with a negative minute count lands on a whole minute of an earlier day |
| Civil.AtMinuteSign | src/components/appointment/AppointmentForm.jsx:108-110 | `setHours(h, m)` lands on a whole minute, on the given day or later exactly when the minute count is not negative |
| AppointmentCalendar.StartOffset | src/components/appointment/AppointmentCalendar.jsx:16 | the Monday-first offset of a weekday is in 0..6 |
| AppointmentCalendar.StartOffsetReachesMonday | src/components/appointment/AppointmentCalendar.jsx:13-16 | stepping back by the offset from the first of the month reaches the Monday that `getFirstDayOfWeek` gives |
| AppointmentCalendar.PrevCopy | src/components/appointment/AppointmentCalendar.jsx:23-24 | the "previous month" copy is a valid date |
| AppointmentCalendar.NextCopy | src/components/appointment/AppointmentCalendar.jsx:45-46 | the "next month" copy is a valid date |
| AppointmentCalendar.Run | src/components/appointment/AppointmentCalendar.jsx:27-53 | a loop pushes `count` consecutive days, all with the same flag |
| AppointmentCalendar.Days | src/components/appointment/AppointmentCalendar.jsx:35-39 | `new Date(y, m, i)` for consecutive i gives consecutive day numbers from the first of the month on |
| AppointmentCalendar.Remaining | src/components/appointment/AppointmentCalendar.jsx:43-44 | the trailing padding has at most six days and completes the last week |
| AppointmentCalendar.Offset | src/components/appointment/AppointmentCalendar.jsx:13-22 | the grid shows 0..6 days of the previous week |
| AppointmentCalendar.Leading | src/components/appointment/AppointmentCalendar.jsx:22-32 | the first loop pushes the last `offset` days of the "previous" copy's month, flagged as outside the month |
| AppointmentCalendar.Current | src/components/appointment/AppointmentCalendar.jsx:34-40 | the second loop pushes every day of the shown month, flagged as inside it |
| AppointmentCalendar.Trailing | src/components/appointment/AppointmentCalendar.jsx:42-54 | the third loop pushes the first days of the "next" copy's month up to a whole week, flagged as outside the month |
| AppointmentCalendar.GridCells | src/components/appointment/AppointmentCalendar.jsx:19-54 | the grid as written, cell by cell: the leading days end at the last day of the "previous" copy's month, then the shown month, then the "next" copy's month from its first day |
| AppointmentCalendar.RunsShape | src/components/appointment/AppointmentCalendar.jsx:19-54 | three runs that continue one another make whole weeks of consecutive days, four to six of them, in the month exactly in the middle run |
| AppointmentCalendar.MonthGridShape | src/components/appointment/AppointmentCalendar.jsx:19-54 | a month's grid is 4 to 6 whole weeks of consecutive days starting on a Monday, and a cell belongs to the month exactly when its day does |
| AppointmentCalendar.FirstOfMonthCopies | src/components/appointment/AppointmentCalendar.jsx:23-46 | on the first of a month the copies are the real neighbouring months |
| AppointmentCalendar.NoRollBefore29 | src/components/appointment/AppointmentCalendar.jsx:23-25 | up to day 28 neither copy rolls over, so the grid as written is the month's own grid |
| AppointmentCalendar.March31LeadsWithMarch | src/components/appointment/AppointmentCalendar.jsx:23-29 | on 31 March 2025 the leading days are 27–31 March instead of 24–28 February |
| AppointmentCalendar.January31TrailsWithMarch | src/components/appointment/AppointmentCalendar.jsx:45-50 | on 31 January 2025 the trailing days are 1–2 March instead of 1–2 February |
| AppointmentCalendar.PrevMonthHandler | src/components/appointment/AppointmentCalendar.jsx:63-65 | the previous-month button goes to the first of the month whose next month is the current one |
| AppointmentCalendar.NextMonthHandler | src/components/appointment/AppointmentCalendar.jsx:68-70 | the next-month button goes to the first of the month whose previous month is the current one |
| AppointmentCalendar.HandlersInverse | src/components/appointment/AppointmentCalendar.jsx:63-70 | the two buttons undo each other, and after either one the grid is the correct one |
| AppointmentCalendar.AppointmentCount | src/components/appointment/AppointmentCalendar.jsx:88-95 | without a list the count is 0, otherwise it is the number of appointments on that day |
| AppointmentCalendar.HasIffCount | src/components/appointment/AppointmentCalendar.jsx:78-95 | a day has appointments exactly when its count is positive, exactly when some appointment falls on it |
| AppointmentCalendar.Badge | src/components/appointment/AppointmentCalendar.jsx:162-168 | the badge shows exactly on days with appointments, with the count and "cita" for one, "citas" otherwise |
| AppointmentCalendar.MonthGridAsWritten | src/components/appointment/AppointmentCalendar.jsx:19-54 | whatever month the two copies roll to, the three loops build 4 to 6 whole weeks, and exactly the cells after the leading `startOffset` ones and before the trailing ones are flagged as in the month |
| AppointmentCalendar.MonthGrid | src/components/appointment/AppointmentCalendar.jsx:19-54 | with the real neighbouring months the grid is 4 to 6 whole weeks, and a cell is flagged as in the month exactly when its day is one of the month's |
| DentistColumn.SlotAt | src/components/calendar/dentist-column.jsx:49-67 | after the fill, a slot is empty exactly when no appointment's shifted range covers it; otherwise it holds an appointment that covers it, flagged as the start exactly on that appointment's first shifted slot |
| DentistColumn.FillSlots | src/components/calendar/dentist-column.jsx:49-67 | the fill loop leaves 25 slots, each holding what the last covering write put there |
| DentistColumn.LastWriteWins | src/components/calendar/dentist-column.jsx:54-67 | a slot shows the last appointment that covers it, whatever was written before |
| DentistColumn.OverwrittenCardVanishes | src/components/calendar/dentist-column.jsx:54-147 | an appointment whose first slot is overwritten by a later one has no card in any row |
| DentistColumn.ShiftedStart | src/components/calendar/dentist-column.jsx:55-57 | a stored slot s is drawn at minute 540 + 30·s: the stored slots count from 09:00 although the column starts at 08:00 |
| DentistColumn.CardHeight | src/components/calendar/dentist-column.jsx:173 | a card is one row tall per slot it marks, whatever the shift |
| DentistColumn.MarkedRange | src/components/calendar/dentist-column.jsx:60-66 | the range the loop writes holds exactly the slots the appointment marks |
| DentistColumn.ScanFree | src/components/calendar/dentist-column.jsx:85-92 | a free late slot opens a run or extends the open one, keeping the scan invariant |
| DentistColumn.ScanClose | src/components/calendar/dentist-column.jsx:93-98 | a taken or early slot closes the open run, which is maximal, and keeps the invariant |
| DentistColumn.ScanSkip | src/components/calendar/dentist-column.jsx:93-98 | a taken or early slot with no open run changes nothing |
| DentistColumn.ScanFinish | src/components/calendar/dentist-column.jsx:102-105 | after the last slot, pushing the open run leaves exactly the grouping into maximal runs |
| DentistColumn.FinishRuns | src/components/calendar/dentist-column.jsx:102-105 | the finished runs and the last one are all maximal runs of free slots |
| DentistColumn.FinishApart | src/components/calendar/dentist-column.jsx:102-105 | the last run starts after a gap that follows every finished one |
| DentistColumn.FinishCovers | src/components/calendar/dentist-column.jsx:102-105 | every free slot lies in a finished run or in the last one |
| DentistColumn.ScanStepKeeps | src/components/calendar/dentist-column.jsx:83-100 | each iteration of the grouping loop keeps the scan invariant one slot further on |
| DentistColumn.ScanStart | src/components/calendar/dentist-column.jsx:78-79 | before the first slot, nothing has been scanned and no block is open |
| DentistColumn.GroupFromGroups | src/components/calendar/dentist-column.jsx:83-105 | the rest of the loop, from any scanned state, ends in the grouping |
| DentistColumn.GroupBlocks | src/components/calendar/dentist-column.jsx:70-118 | without NOT AVAILABLE there are no blocks; with it, the blocks are the maximal runs of free slots past slot 14, in order, apart, covering every free slot |
| DentistColumn.BlockUnique | src/components/calendar/dentist-column.jsx:151-159 | the blocks are pairwise disjoint, so a free slot lies in exactly one |
| DentistColumn.BlockStartingAt | src/components/calendar/dentist-column.jsx:154 | `find` gives a block exactly when one starts at the row, and that block starts there |
| DentistColumn.Row | src/components/calendar/dentist-column.jsx:145-215 | a row shows a card exactly at an appointment's first slot, at the card's height; the break exactly at slot 10 when that slot is empty and breaks are shown; a NOT AVAILABLE area exactly where a block starts; a dashed border exactly on odd rows |
| DentistColumn.NotAvailableOnce | src/components/calendar/dentist-column.jsx:194-214 | each free late slot is either a block's first row or inside a block, never both, so the single-cell fallback is never drawn |
| DentistColumn.BreakOnlyAtTen | src/components/calendar/dentist-column.jsx:188-192 | the break is drawn only at slot 10, and only when that slot is empty |
| TimeColumn.RowShape | src/components/calendar/time-column.jsx:4-30 | the 25 rows alternate between the whole hours 08:00 … 20:00 and unlabelled half hours |
| TimeColumn.WholeHourLabel | src/components/calendar/time-column.jsx:4-30 | row 2·k is hour 8 + k padded to two digits, then ":00" |
| TimeColumn.ShownLabel | src/components/calendar/time-column.jsx:42-46 | a label is drawn exactly on the even rows, and it is that row's non-empty time |
| TimeColumn.ShownLabelIsClock | src/components/calendar/time-column.jsx:42-46 | the label drawn on row 2·k is the clock label of hour 8 + k |
| TimeColumn.HourMatchesSlot | src/components/calendar/dentist-column.jsx:48-49 | the clock label of hour 8 + k reads as the start minute of slot 2·k of a doctor's column |
| TimeColumn.LabelsMatchSlots | src/components/calendar/time-column.jsx:37-48 | every drawn label reads as the start minute of the doctor-column slot beside it |
| TimeColumn.EarlyRows | src/components/calendar/time-column.jsx:5-8 | rows 0 … 3 of the literal table are 08:00, a half hour, 09:00, a half hour |
| TimeColumn.MorningRows | src/components/calendar/time-column.jsx:9-12 | rows 4 … 7 alternate between the whole hours 10:00 and 11:00 and unlabelled half hours |
| TimeColumn.MiddayRows | src/components/calendar/time-column.jsx:13-20 | rows 8 … 15 alternate between the whole hours 12:00 … 15:00 and unlabelled half hours |
| TimeColumn.EveningRows | src/components/calendar/time-column.jsx:21-29 | rows 16 … 24 alternate between the whole hours 16:00 … 20:00 and unlabelled half hours |
| CalendarView.Step | src/components/calendar/calendar-view.jsx:18-22 | a step is one day exactly in day view, and seven days otherwise |
| CalendarView.Previous | src/components/calendar/calendar-view.jsx:16-24 | "previous" moves the date back one step and keeps the view and the selection |
| CalendarView.Next | src/components/calendar/calendar-view.jsx:26-34 | "next" moves the date forward one step and keeps the view and the selection |
| CalendarView.NextUndoesPrevious | src/components/calendar/calendar-view.jsx:16-34 | "next" undoes "previous", and "previous" undoes "next" |
| CalendarView.Today | src/components/calendar/calendar-view.jsx:36-38 | "today" always goes to 16 May 2025 and keeps the view and the selection |
| CalendarView.TodayForgetsNavigation | src/components/calendar/calendar-view.jsx:36-38 | navigating before "today" makes no difference, and the fixed day is a Friday |
| CalendarView.DoctorChange | src/components/calendar/calendar-view.jsx:40-42 | an empty choice clears the selection, any other choice selects that id, and the date and view stay |
| CalendarView.FilteredDentists | src/components/calendar/calendar-view.jsx:189-191 | everyone is shown without a selection; otherwise only the doctors with that id |
| CalendarView.FilteredDentistsSelect | src/components/calendar/calendar-view.jsx:189-191 | the filtered list keeps exactly the selected doctors, in their relative order |
| CalendarView.Counts | src/components/calendar/calendar-view.jsx:194-196 | one count per doctor, the length of that doctor's list |
| CalendarView.TotalIsSum | src/components/calendar/calendar-view.jsx:194-196 | the `reduce` total is the sum of the per-doctor counts, nine for the built-in data |
| CalendarView.AppointmentsOf | src/components/calendar/calendar-view.jsx:217 | none when no group has the doctor's `dentistId`; a non-empty list is the appointments of some group of that doctor |
| CalendarView.ColumnsAsWritten | src/components/calendar/calendar-view.jsx:216-227 | as written, NOT AVAILABLE is shown exactly in the third filtered column, and breaks in every column |
| CalendarView.Columns | src/components/calendar/calendar-view.jsx:216-227 | NOT AVAILABLE is shown exactly in Dr. García's column, wherever it is placed |
| CalendarView.SelectingGarciaHidesNotAvailable | src/components/calendar/calendar-view.jsx:223 | selecting Dr. García alone makes the column the first one, and as written it loses its NOT AVAILABLE areas |
| CalendarView.AllDoctorsAgree | src/components/calendar/calendar-view.jsx:223 | with no doctor selected, both rules give the same columns |
| CalendarView.TimeLineInsideColumn | src/components/calendar/calendar-view.jsx:251 | the current-time line is drawn exactly when the time falls within the twelve hours the column's slots start in |
| CalendarView.AddColumn | src/components/calendar/calendar-view.jsx:229-247 | the add column has 25 rows; the odd rows are dashed, every row but the first is bordered, and the add button sits in the last row only |
| CalendarView.CountFrom | src/components/calendar/calendar-view.jsx:194-196 | the `reduce` adds the starting total to the sum of the per-doctor counts |
| CalendarView.TotalAppointments | src/components/calendar/calendar-view.jsx:194-196 | the total is the sum of the per-doctor appointment counts |
| CalendarView.AppointmentsOfFirstMatch | src/components/calendar/calendar-view.jsx:217 | `find` returns the first group with the doctor's id, so the column gets that group's appointments |
| SchedulePage.Initial | src/pages/SchedulePage.jsx:19-31 | the page opens on 16 May 2025 in day view, with nothing loaded, nothing selected and every modal closed |
| SchedulePage.Normalize | src/pages/SchedulePage.jsx:52-58 | a loaded record keeps every server field it has; the missing name, status and treatment get non-empty stand-ins, and a missing or zero `durationSlots` becomes 1 |
| SchedulePage.NormalizeStable | src/pages/SchedulePage.jsx:52-58 | normalising keeps the rows an appointment spans, and a second pass changes nothing |
| SchedulePage.NormalizeAll | src/pages/SchedulePage.jsx:52-58 | the list keeps its length and order, record by record |
| SchedulePage.LoadedSpans | src/pages/SchedulePage.jsx:52-58 | after loading, every record keeps its id and span, and none has a zero span |
| SchedulePage.StartLoading | src/pages/SchedulePage.jsx:45 | the effect sets `loading` and changes nothing else |
| SchedulePage.LoadSucceeded | src/pages/SchedulePage.jsx:47-70 | after a successful load the list is the normalised reply; the first doctor is selected whenever there are doctors, because the effect reads the first render's empty selection; every modal is closed |
| SchedulePage.LoadFailed | src/pages/SchedulePage.jsx:71-76 | a failed load shows the error, stops loading, and changes nothing else |
| SchedulePage.BodyOf | src/pages/SchedulePage.jsx:262-270 | the spinner shows exactly while loading, and the error box exactly when loading is over and an error is set |
| SchedulePage.StepOf | src/pages/SchedulePage.jsx:298-309 | the arrows step one day in day view and seven days in week view |
| SchedulePage.PrevPressed | src/pages/SchedulePage.jsx:83-99 | the left arrow moves the date back one step and nothing else |
| SchedulePage.NextPressed | src/pages/SchedulePage.jsx:89-105 | the right arrow moves the date forward one step and nothing else |
| SchedulePage.ArrowsInverse | src/pages/SchedulePage.jsx:83-105 | the two arrows undo each other |
| SchedulePage.ArrowsMatchCalendarView | src/pages/SchedulePage.jsx:83-105 | the page's arrows move the date exactly as the calendar view's do |
| SchedulePage.SetView | src/pages/SchedulePage.jsx:322-332 | the view buttons set the view and nothing else |
| SchedulePage.TodayPressed | src/pages/SchedulePage.jsx:119-121 | "today" goes to 16 May 2025, a Friday, and changes nothing else |
| SchedulePage.DoctorChange | src/pages/SchedulePage.jsx:191-193 | the select stores its raw value, "" included, and nothing else changes |
| SchedulePage.SelectValue | src/pages/SchedulePage.jsx:346 | the select shows "" without a selection and the selected id otherwise |
| SchedulePage.DoctorOption | src/pages/SchedulePage.jsx:352-354 | an option shows the doctor's full name, or "Doctor <id>" without one |
| SchedulePage.NewAppointment | src/pages/SchedulePage.jsx:124-139 | a draft without doctor or start is ignored; otherwise it becomes the current record, with no id, no patient and status PENDIENTE, and the new-appointment modal opens |
| SchedulePage.AppointmentClick | src/pages/SchedulePage.jsx:141-149 | a record without an id is ignored; any other becomes current and the detail modal opens |
| SchedulePage.CreateFinished | src/pages/SchedulePage.jsx:151-160 | a created record is appended and the modal closes; a failure changes nothing |
| SchedulePage.UpdateFinished | src/pages/SchedulePage.jsx:162-171 | an updated record replaces the records with the form's id and the detail closes; a failure changes nothing |
| SchedulePage.OpenDeleteConfirm | src/pages/SchedulePage.jsx:246-256 | the confirmation opens only for a current record with an id |
| SchedulePage.DeleteFinished | src/pages/SchedulePage.jsx:173-189 | without a current record only the confirmation closes; after a deletion the records with the current id are gone and the modals close; a failure changes nothing |
| SchedulePage.FailuresChangeNothing | src/pages/SchedulePage.jsx:156-188 | a failed server call changes neither the list nor any modal |
| SchedulePage.CreateOpenDelete | src/pages/SchedulePage.jsx:151-189 | creating a record with a fresh id, opening it, confirming and deleting it gives the list back and closes every modal |
| SchedulePage.UpdateThenDelete | src/pages/SchedulePage.jsx:162-189 | updating a record and then deleting it is the same as deleting it |
| SchedulePage.CloseNew | src/pages/SchedulePage.jsx:213-218 | closing the new-appointment modal drops the current record only when the other two are closed, and keeps the list |
| SchedulePage.CloseDetail | src/pages/SchedulePage.jsx:220-225 | closing the detail modal drops the current record only when the other two are closed, and keeps the list |
| SchedulePage.CloseDelete | src/pages/SchedulePage.jsx:227-232 | closing the confirmation drops the current record only when the other two are closed, and keeps the list |
| SchedulePage.CloseKeepsCurrentWhileOpen | src/pages/SchedulePage.jsx:213-232 | after any close, the current record is kept exactly while some modal flag is still set |
| SchedulePage.CancelDeleteBackToDetail | src/pages/SchedulePage.jsx:227-256 | cancelling the confirmation from the detail modal returns to the detail of the same record |
| SchedulePage.TodayAppointments | src/pages/SchedulePage.jsx:204-207 | today's list holds exactly the appointments on the shown day |
| SchedulePage.CreateJoinsToday | src/pages/SchedulePage.jsx:154-207 | a created record joins today's list, at the end, exactly when it falls on the shown day |
| AppointmentForm.Set | src/components/appointment/AppointmentForm.jsx:70-73 | the spread update changes the named field and no other |
| AppointmentForm.DefaultForm | src/components/appointment/AppointmentForm.jsx:11-19 | the initial form takes the `patientId` prop, has no doctor, date or notes, and reads as 08:00, one slot, PENDING |
| AppointmentForm.DefaultTime | src/components/appointment/AppointmentForm.jsx:15 | the default time reads as minute 480 and passes the half-hour rule |
| AppointmentForm.DefaultSlots | src/components/appointment/AppointmentForm.jsx:16 | the default duration reads as one slot |
| AppointmentForm.DefaultStatus | src/components/appointment/AppointmentForm.jsx:17 | the default status is the PENDING code |
| AppointmentForm.Prefill | src/components/appointment/AppointmentForm.jsx:45-59 | editing an appointment fills in its patient, doctor and notes; its time reads back as its start minute; its slot count or 1; its status or PENDING |
| AppointmentForm.TimeLabel | src/components/appointment/AppointmentForm.jsx:49 | the local "HH:MM" of a minute reads back as that minute |
| AppointmentForm.PrefillEffect | src/components/appointment/AppointmentForm.jsx:44-66 | an appointment wins; otherwise a `patientId` prop replaces that field only; otherwise the form stays |
| AppointmentForm.HandleChange | src/components/appointment/AppointmentForm.jsx:68-82 | a change sets the named field and clears its error; every other field and error stays as it was |
| AppointmentForm.Validate | src/components/appointment/AppointmentForm.jsx:84-101 | one error per empty required field, and a time error exactly when the minutes are not 0 or 30, with the half-hour message; status and notes are never flagged |
| AppointmentForm.ValidIff | src/components/appointment/AppointmentForm.jsx:84-101 | the form is valid exactly when patient, doctor, date and duration are filled in and the time is on a half hour |
| AppointmentForm.DefaultFormInvalid | src/components/appointment/AppointmentForm.jsx:11-101 | the initial form is never valid: the doctor and date are missing, and so is the patient unless the prop gave one |
| AppointmentForm.Submit | src/components/appointment/AppointmentForm.jsx:103-129 | an invalid form is rejected with exactly its errors; a valid one throws exactly when the date or the hour or the duration reads as `NaN`; otherwise the payload carries the form's fields and id, the duration `parseInt` reads (sign included), a start on a whole minute that lies on the chosen day or later exactly when the hour read is not negative, and an end 30 minutes per slot after the start |
| AppointmentForm.OptionAt | src/components/appointment/AppointmentForm.jsx:215-226 | the label pushed for hour h and minute 30·j is option 2·(h − 8) + j |
| AppointmentForm.PushOption | src/components/appointment/AppointmentForm.jsx:215-226 | pushing the next label extends the options built so far by the next option |
| AppointmentForm.EmittedStep | src/components/appointment/AppointmentForm.jsx:218 | each hour adds two options inside 8..19 o'clock and none outside |
| AppointmentForm.BuildTimeOptions | src/components/appointment/AppointmentForm.jsx:215-226 | the option loop over hours 0..23 builds exactly the 24 labels 08:00 … 19:30, in order |
| AppointmentForm.OptionIsTimeOption | src/components/appointment/AppointmentForm.jsx:215-226 | option k of the list is the label for 8 + k/2 hours and 30·(k mod 2) minutes |
| AppointmentForm.TimeOptionFacts | src/components/appointment/AppointmentForm.jsx:94-108 | option k reads as minute 480 + 30·k, its hour parses to 8 + k/2, and it passes the half-hour rule |
| AppointmentForm.HalfHourLabel | src/components/appointment/AppointmentForm.jsx:94-108 | a clock label on the hour or half hour reads back with both readers and passes the half-hour rule |
| AppointmentForm.DurationOptionValue | src/components/appointment/AppointmentForm.jsx:242-247 | duration option i submits i + 1 slots |
| AppointmentForm.StatusOptionsAreCodes | src/components/appointment/AppointmentForm.jsx:260-265 | the status options are exactly the English status codes, in order |
| AppointmentForm.SubmitAt | src/components/appointment/AppointmentForm.jsx:106-125 | a valid form whose hour, minutes and duration read as numbers submits exactly those, on the chosen day |
| AppointmentForm.PrefillReadsBack | src/components/appointment/AppointmentForm.jsx:45-59 | the form filled from an appointment on the half-hour grid is valid, its time reads back as the start's hour and minutes, and its duration as the stored slot count |
| AppointmentForm.PrefillThenSubmit | src/components/appointment/AppointmentForm.jsx:45-129 | editing an appointment on the half-hour grid and submitting at once keeps its start minute and its stored slot count, sign included, so a negative count puts the end before the start |
| AppointmentForm.OptionsSubmit | src/components/appointment/AppointmentForm.jsx:103-247 | a form filled from the option lists is submitted, starting on the chosen day at the option's time and ending 30 minutes per chosen slot later |
| AppointmentForm.TimeOptionsInOrder | src/components/appointment/AppointmentForm.jsx:215-226 | the list has 24 options and option k reads as minute 480 + 30·k: the half hours 08:00 … 19:30, in order |
| AppointmentDetail.InitialStatus | src/components/appointment/AppointmentDetail.jsx:6 | the select starts on the appointment's status, or PENDING when there is none, and is never empty |
| AppointmentDetail.DurationText | src/components/appointment/AppointmentDetail.jsx:23-34 | no slots read "N/A" |
| AppointmentDetail.DurationMatchesForm | src/components/appointment/AppointmentDetail.jsx:26-31 | the fixed duration texts for 1..6 slots are the ones the form's duration list offers for the same count |
| AppointmentDetail.LongDurationMinutes | src/components/appointment/AppointmentDetail.jsx:33 | beyond six slots the text starts with the number of minutes, 30 per slot, which `parseInt` reads back |
| AppointmentDetail.StatusLabel | src/components/appointment/AppointmentDetail.jsx:36-47 | an unknown code is shown as it is |
| AppointmentDetail.StatusLabelMatchesSelect | src/components/appointment/AppointmentDetail.jsx:36-47 | the badge shows the same label the status select offers for that code |
| AppointmentDetail.StatusClass | src/components/appointment/AppointmentDetail.jsx:49-60 | an unknown code gets the grey class |
| AppointmentDetail.StatusClassGrey | src/components/appointment/AppointmentDetail.jsx:49-60 | the badge is grey exactly for COMPLETED and unknown codes |
| AppointmentDetail.ClassOfInjective | src/components/appointment/AppointmentDetail.jsx:50-57 | the six status classes are pairwise different |
| AppointmentDetail.StatusClassNamesCode | src/components/appointment/AppointmentDetail.jsx:49-60 | a colour other than grey identifies its code |
| AppointmentDetail.InitialPanel | src/components/appointment/AppointmentDetail.jsx:6-8 | the panel starts on the initial status, not loading, without error |
| AppointmentDetail.WithStatus | src/components/appointment/AppointmentDetail.jsx:70-80 | the record sent and reported differs from the appointment in its status alone |
| AppointmentDetail.ChangeStarted | src/components/appointment/AppointmentDetail.jsx:62-68 | while the update is in flight the select already shows the new value, the spinner runs and the error is cleared |
| AppointmentDetail.ChangeFinished | src/components/appointment/AppointmentDetail.jsx:66-88 | the spinner stops; on success the parent hears the new status exactly when it listens; on failure the error shows and the parent hears nothing |
| AppointmentDetail.StatusChange | src/components/appointment/AppointmentDetail.jsx:62-88 | after the whole change the select shows the new value, and the parent hears only of a successful change it listens for |
| AppointmentDetail.FailedChangeShowsUnsavedStatus | src/components/appointment/AppointmentDetail.jsx:62-88 | after a failed change the select shows a status the appointment does not have, and the parent learns nothing |
| AppointmentDetail.ReportedChangesOnlyStatus | src/components/appointment/AppointmentDetail.jsx:76-81 | a successful change reports the old record with only the status replaced |
| AppointmentDetail.Render | src/components/appointment/AppointmentDetail.jsx:90-155 | the placeholder shows exactly without an appointment; otherwise the duration text, the patient and doctor names with "N/A" for a missing one, status label and class, the notes exactly when present, and the error |
| OdontogramService.CreateLesionCommand | src/services/odontogramService.js:7-13 | the command carries the tooth, face and lesion type it was built from |
| OdontogramService.MapToViewFormat | src/services/odontogramService.js:112-138 | no odontogram maps to nothing; otherwise the view holds exactly the odontogram's teeth, each with exactly its faces, and is a child chart exactly when some tooth id starts with 5, 6, 7 or 8 |
| OdontogramService.MissingTeethIsEmpty | src/services/odontogramService.js:121-128 | an odontogram without teeth maps to an empty adult chart |
| OdontogramService.MapToViewFormatInverse | src/services/odontogramService.js:128-135 | when every tooth has faces, wrapping each view tooth back as `{ faces }` gives the odontogram's teeth again |
| PatientOdontogram.FromBackend | src/components/patient/Odontogram.jsx:13-21 | a tooth is kept exactly when it has `faces`, and then holds exactly those faces |
| PatientOdontogram.IdOf | src/components/patient/Odontogram.jsx:26 | the id is the record's `id`, or else its `odontogramId`, and is missing exactly when both are empty |
| PatientOdontogram.Load | src/components/patient/Odontogram.jsx:10-35 | a backend chart is normalised, a view chart taken as it is, a chart with neither keeps the map; no data empties the map and derives the id from the patient when there is one; the lesion selection and spinner are untouched |
| PatientOdontogram.LoadViewFormat | src/components/patient/Odontogram.jsx:22-25 | a chart produced by the service's view mapping loads with exactly the service chart's teeth |
| PatientOdontogram.ScreenOf | src/components/patient/Odontogram.jsx:37-43 | the missing-patient message shows exactly without a patient id; the no-data message exactly with a patient, no data and a read-only chart |
| PatientOdontogram.TeethIds | src/components/patient/Odontogram.jsx:46-48 | a child chart has 20 teeth and an adult one 32 |
| PatientOdontogram.FdiId | src/components/patient/Odontogram.jsx:46-48 | the id is two digits, the quadrant then the position |
| PatientOdontogram.TeethIdsFormula | src/components/patient/Odontogram.jsx:46-48 | every entry of the list is the FDI id of its quadrant and position, upper right, upper left, lower right, lower left |
| PatientOdontogram.TeethIdsAreFdi | src/components/patient/Odontogram.jsx:46-48 | the ids are distinct FDI ids of the right dentition; the upper half holds the upper quadrants and the lower half the lower ones |
| PatientOdontogram.LesionAt | src/components/patient/Odontogram.jsx:66-67 | a lesion read is the one stored for that tooth and face, and "" exactly when none is stored or it is empty |
| PatientOdontogram.FindLesionType | src/components/patient/Odontogram.jsx:54-60 | a found type is one of the five palette entries with that value; nothing is found exactly when no entry has it |
| PatientOdontogram.FaceColor | src/components/patient/Odontogram.jsx:152-160 | white without a lesion, the palette colour of a known lesion, light grey for an unknown one |
| PatientOdontogram.RemoveFace | src/components/patient/Odontogram.jsx:87-94 | the face is dropped, and the tooth with it when it held no other face; an absent tooth changes nothing |
| PatientOdontogram.AddFace | src/components/patient/Odontogram.jsx:111-116 | the face is painted with the lesion, the tooth created when absent |
| PatientOdontogram.RemoveFaceOnlyThatFace | src/components/patient/Odontogram.jsx:87-94 | after a removal the clicked face is empty, every other face of every tooth keeps its lesion, and no empty tooth is left behind |
| PatientOdontogram.AddFaceOnlyThatFace | src/components/patient/Odontogram.jsx:111-116 | after an addition the clicked face holds the lesion and every other face keeps its own |
| PatientOdontogram.AddThenRemove | src/components/patient/Odontogram.jsx:87-116 | painting an empty face and clearing it again restores the chart, except that a tooth present with no face at all is then gone |
| PatientOdontogram.RemoveThenAdd | src/components/patient/Odontogram.jsx:87-116 | clearing a painted face and painting it with the same lesion restores the chart |
| PatientOdontogram.FaceClickAsWritten | src/components/patient/Odontogram.jsx:63-149 | a click on a read-only, busy or id-less chart does nothing; a failed request leaves the chart and reports nothing; the lesion selection, spinner and id survive every click |
| PatientOdontogram.ReportIsOldMap | src/components/patient/Odontogram.jsx:120-126 | with a backend reply the parent is sent the map from before the click while the chart shows the reply; with the fallback on a new tooth the parent gets the old map too |
| PatientOdontogram.FallbackToggles | src/components/patient/Odontogram.jsx:72-117 | without teeth in the reply a painted face is cleared and an empty one painted with the selected lesion |
| PatientOdontogram.ReportAsData | src/components/patient/Odontogram.jsx:122-125 | the stored report becomes an odontogram whose teeth are the reported teeth |
| PatientOdontogram.ReportFedBackWipesChart | src/components/patient/Odontogram.jsx:13-26 | a report handed back as `data` loads as an empty chart, keeping only the id |
| PatientOdontogram.FaceClick | src/components/patient/Odontogram.jsx:63-149 | the chart after the click is the as-written one, and a report is sent in the same cases but carries the chart after the click |
| PatientOdontogram.ReportAsBackend | src/components/patient/Odontogram.jsx:13-21 | the report in the backend shape has the reported teeth |
| PatientOdontogram.ReportRoundTrip | src/components/patient/Odontogram.jsx:10-126 | a report handed back in the backend shape loads as exactly the editor after the click |
| PatientOdontogram.UpperIdsFormula | src/components/patient/Odontogram.jsx:46-48 | each entry of the upper half is the FDI id of its upper quadrant and position |
| PatientOdontogram.LowerIdsFormula | src/components/patient/Odontogram.jsx:46-48 | each entry of the lower half is the FDI id of its lower quadrant and position |
| ToothChart.Cara | src/components/Odontogram.jsx:7-11 | a face state read is one recorded for that face in the tooth's data, and "" when the data, its faces or the face is missing |
| ToothChart.FaceStatusOf | src/components/Odontogram.jsx:6-12 | each drawn area shows the first recorded of its faces (top: oclusal then superior; centre: vestibular, lingual then palatino; one face for each side), 'normal' when none is, and is never empty |
| ToothChart.NoDataAllNormal | src/components/Odontogram.jsx:6-12 | a tooth with no data or no faces is drawn all 'normal' |
| ToothChart.ColorsDistinct | src/components/Odontogram.jsx:15-30 | the five known states have pairwise different colours, and exactly the unknown states get the default colour |
| ToothChart.ToothStatus | src/components/Odontogram.jsx:32 | the tooth's state is never empty and is 'normal' when none is recorded |
| ToothChart.AbsentIff | src/components/Odontogram.jsx:33 | a tooth is drawn absent exactly when its recorded state is 'ausente' |
| ToothChart.QuadrantsAreFdi | src/components/Odontogram.jsx:131-145 | every quadrant lists its own FDI numbers, eight per adult quadrant 1..4 and five per child quadrant 5..8 |
| ToothChart.AllTeethFormula | src/components/Odontogram.jsx:131-145 | the four quadrants together hold 32 adult or 20 child numbers, all distinct |
| ToothChart.Reverse | src/components/Odontogram.jsx:206 | the reversed list has the same length and entry i is entry n − 1 − i of the original |
| ToothChart.LowerRowAligned | src/components/Odontogram.jsx:197-216 | in the lower row without the two reversals, every column holds the antagonist of the tooth above it |
| ToothChart.LowerRowMirrored | src/components/Odontogram.jsx:197-216 | the lower row as drawn mirrors each half of the aligned row |
| ToothChart.LowerRowMisaligned | src/components/Odontogram.jsx:176-216 | as drawn, tooth 18 stands above 41 and tooth 11 above 48 |
| ToothChart.ToothClick | src/components/Odontogram.jsx:147-155 | a read-only chart ignores clicks; an editable one selects the clicked tooth and face, or the whole tooth |
| ToothChart.WholeToothAfterFace | src/components/Odontogram.jsx:50-63 | a face click followed by the tooth's own click leaves the whole tooth selected on an editable chart and nothing changed on a read-only one |
| ToothChart.ReverseElements | src/components/Odontogram.jsx:206 | `reverse` keeps exactly the elements of the list |
| ToothChart.UpperRow | src/components/Odontogram.jsx:176-195 | the upper row draws the upper-right then the upper-left quadrant: exactly the upper teeth, one cell per listed tooth |
| ToothChart.LowerRowAsWritten | src/components/Odontogram.jsx:197-216 | the lower row as drawn, both quadrants reversed, still holds exactly the lower teeth, one cell per listed tooth |
| ToothChart.LowerRow | src/components/Odontogram.jsx:197-216 | the corrected lower row, quadrants in their own order, holds exactly the lower teeth, one cell per listed tooth |
| Patients.Lookup | src/pages/PatientsPage.jsx:47-50 | a missing address field reads as "" and a present one as its value |
| Patients.Parts | src/pages/PatientsPage.jsx:46-50 | the pieces are at most the listed fields, none of them empty, and there are none exactly when every listed field is missing or empty |
| Patients.FormatAddress | src/pages/PatientsPage.jsx:43-53 | no address, or one with no listed field present, prints the placeholder; otherwise the present fields joined by ", " |
| Patients.FormatAddressSnoc | src/pages/PatientDetailPage.jsx:79-90 | checking one more field at the end adds ", " and its value to the line, replaces the placeholder by the value alone, or changes nothing when the field is missing |
| PatientForm.DefaultForm | src/components/patient/PatientForm.jsx:5-21 | the empty form has every text empty (name, surname, birth date, phone, e-mail), sex MASCULINO, and exactly the seven address fields, each empty |
| PatientForm.Prefill | src/components/patient/PatientForm.jsx:28-48 | the form copies the patient's texts, the birth date's ISO day when there is one, the sex or MASCULINO, and the seven address fields with missing ones empty |
| PatientForm.PrefillEffect | src/components/patient/PatientForm.jsx:25-50 | a patient replaces the whole form; without one the form is kept |
| PatientForm.PrefillKeepsPatient | src/components/patient/PatientForm.jsx:25-50 | a patient whose fields are all present and whose birth date is already a day comes back unchanged from the prefilled form |
| PatientForm.Set | src/components/patient/PatientForm.jsx:66-69 | the named top-level field takes the value and every other field keeps its own |
| PatientForm.HandleChange | src/components/patient/PatientForm.jsx:52-79 | an address input sets the address field its name names; a top-level input sets its field; an unknown name changes no field; the error under the name is cleared |
| PatientForm.AddressSplit | src/components/patient/PatientForm.jsx:56-57 | a name starting with `direccion.` splits into at least two parts on '.' |
| PatientForm.AddressKeyOf | src/components/patient/PatientForm.jsx:56-57 | the input `direccion.X` for a field X without a dot edits exactly field X |
| PatientForm.AddressChangeOnlyThatField | src/components/patient/PatientForm.jsx:56-64 | typing into an address input changes only that address field, and no top-level field |
| PatientForm.PhoneIgnoresSeparators | src/components/patient/PatientForm.jsx:90 | inserting non-digits between the digits does not change whether the phone passes |
| PatientForm.PiecesOk | src/components/patient/PatientForm.jsx:96 | an address assembled as local part, '@', name, '.', rest from plain pieces passes the piecewise e-mail test |
| PatientForm.MatchesThenOk | src/components/patient/PatientForm.jsx:96 | every e-mail the regular expression matches passes the piecewise test |
| PatientForm.OkThenMatches | src/components/patient/PatientForm.jsx:96 | every e-mail passing the piecewise test is matched by the regular expression |
| PatientForm.EmailOkIffMatches | src/components/patient/PatientForm.jsx:96 | the piecewise test and the regular expression accept the same e-mails |
| PatientForm.Validate | src/components/patient/PatientForm.jsx:81-102 | an error is recorded exactly for an empty name, surname or birth date, an empty or short phone, and an empty or malformed e-mail, with the matching message and under no other name |
| PatientForm.ValidIff | src/components/patient/PatientForm.jsx:81-102 | the form is valid exactly when the three required fields are filled, the phone has at least nine digits and the e-mail has its shape |
| PatientForm.Submit | src/components/patient/PatientForm.jsx:104-121 | a valid form is handed on unchanged; an invalid one is not handed on |
| PatientForm.DefaultFormRejected | src/components/patient/PatientForm.jsx:5-102 | a freshly opened form is refused with an error under each of the five checked names |
| PatientForm.AgeShown | src/components/patient/PatientForm.jsx:124-137 | no age shows for an empty birth date; otherwise the age is the number of whole years whose anniversary has been reached on `today` |
| PatientForm.PhoneOk | src/components/patient/PatientForm.jsx:90 | a phone that passes has at least nine characters, since only its digits are counted |
| PatientForm.EmailMatches | src/components/patient/PatientForm.jsx:96 | an e-mail the regular expression matches has at least five characters and an '@' |
| PatientForm.EmailOk | src/components/patient/PatientForm.jsx:96 | an e-mail passing the piecewise test has at least five characters and an '@' |
| PatientForm.NoAt | src/components/patient/PatientForm.jsx:96 | a run of `[^\s@]` characters holds no '@' |
| PatientForm.NoWhitespace | src/components/patient/PatientForm.jsx:96 | three `[^\s@]` runs joined by '@' and '.' hold no whitespace |
| PatientForm.DomainOk | src/components/patient/PatientForm.jsx:96 | the part after the '@' that the pattern matches holds no '@' and has a '.' strictly inside it |
| PatientList.EmptySearchMatches | src/components/patient/PatientList.jsx:10-17 | an empty search lists exactly the entries with a name, surnames or phone |
| PatientList.NoFieldsNeverMatch | src/components/patient/PatientList.jsx:10-17 | an entry with none of the three fields matches no search |
| PatientList.Filtered | src/components/patient/PatientList.jsx:10-17 | the filtered list holds only matching entries of the list and every matching entry |
| PatientList.SliceBound | src/components/patient/PatientList.jsx:22 | a bound inside the array is kept and one beyond it is clamped to the length |
| PatientList.PageContents | src/components/patient/PatientList.jsx:20-22 | page p from one on holds at most ten entries, exactly the ones from position (p − 1)·10 on |
| PatientList.TotalPages | src/components/patient/PatientList.jsx:24 | there are no pages exactly for no entries; otherwise t pages hold more than 10·(t − 1) and at most 10·t entries |
| PatientList.PagesCoverList | src/components/patient/PatientList.jsx:20-24 | pages one to `totalPages`, read in order, are exactly the filtered list |
| PatientList.PageEmptyIff | src/components/patient/PatientList.jsx:20-24 | a page is empty exactly when its number is beyond `totalPages` |
| PatientList.SetSearch | src/components/patient/PatientList.jsx:34-40 | typing in the search box keeps the current page |
| PatientList.Click | src/components/patient/PatientList.jsx:69-103 | hidden or disabled controls change nothing; a numbered button i goes to page i + 1; the search is kept |
| PatientList.ClickKeepsPagePositive | src/components/patient/PatientList.jsx:69-103 | no click takes the page below one |
| PatientList.ClickKeepsPageInRange | src/components/patient/PatientList.jsx:69-103 | while the list does not change, clicks keep the page within one and `totalPages` |
| PatientList.Render | src/components/patient/PatientList.jsx:56-66 | the "no patients" message shows exactly for an empty page; otherwise the cards of the page |
| PatientList.NarrowSearchOnLaterPage | src/components/patient/PatientList.jsx:5-66 | on page two or later, a search with at most ten matches shows the "no patients" message |
| PatientList.Matches | src/components/patient/PatientList.jsx:10-17 | only an entry with a name, surnames or phone can match a search |
| PatientList.Page | src/components/patient/PatientList.jsx:20-22 | whatever the page number, even zero or negative, the page holds at most ten entries, all taken from the list |
| PatientList.Pages | src/components/patient/PatientList.jsx:20-24 | the first k pages together hold ten entries per page until the list runs out |
| PatientList.Slice | src/components/patient/PatientList.jsx:22 | `slice` never returns more elements than the list has |
| PatientsPage.Initials | src/pages/PatientsPage.jsx:79 | the initials have one character per present name part, the name's first then the surname's first |
| PatientsPage.ToRow | src/pages/PatientsPage.jsx:78-95 | the row keeps the id, shows the trimmed full name with placeholders for missing parts, the phone and e-mail or their placeholders, the four-field address line and the initials |
| PatientsPage.RowName | src/pages/PatientsPage.jsx:84 | a name and surname without outer blanks show as "name surname", placeholders standing in for missing ones |
| PatientsPage.Rows | src/pages/PatientsPage.jsx:78-96 | one row per patient, in order, each with its patient's id |
| PatientsPage.AvatarGreyIff | src/pages/PatientsPage.jsx:11-27 | the avatar is grey exactly when its initials are not one of the eleven keys |
| PatientsPage.AvatarOfFullName | src/pages/PatientsPage.jsx:8-27 | a patient with both name and surname gets a colour exactly for the initials "MM" and "JH" |
| PatientsPage.Loaded | src/pages/PatientsPage.jsx:71-105 | loading ends; success stores the patients' rows, failure the message or the default one |
| PatientsPage.ScreenOf | src/pages/PatientsPage.jsx:166-180 | the spinner shows exactly while loading, the error exactly when loaded with a message, the no-patients notice exactly when loaded without a message and without rows, and otherwise the table of the stored rows |
| PatientsPage.EmptyLoadShowsNotice | src/pages/PatientsPage.jsx:175-177 | a successful load of an empty list shows the notice, not an empty table |
| PatientsPage.FailedLoadShowsError | src/pages/PatientsPage.jsx:99-175 | a failed load always ends on the error message, never on an empty table |
| PatientsPage.AvatarColor | src/pages/PatientsPage.jsx:11-27 | empty initials and initials of three or more letters always get the grey avatar |
| PatientDetailPage.CalculateAge | src/pages/PatientDetailPage.jsx:60-77 | no birth date gives 'N/A'; otherwise the number of whole years whose anniversary has been reached on `today` |
| PatientDetailPage.ChildChartIff | src/pages/PatientDetailPage.jsx:304 | the primary-teeth chart is used exactly when there is a birth date and the eighteenth anniversary is still ahead |
| PatientDetailPage.DetailAddressExtendsTable | src/pages/PatientDetailPage.jsx:79-90 | the detail line is the table's line followed by the state: unchanged without a state, the state alone for an otherwise empty address, else with ", " between |
| PatientDetailPage.StatusClassFacts | src/pages/PatientDetailPage.jsx:105-118 | the badge ignores case, is grey exactly for statuses outside the four, and gives the four coloured statuses four different colours |
| PatientDetailPage.SexLabel | src/pages/PatientDetailPage.jsx:259 | the two codes are named, an empty value shows 'No especificado', and every other value shows as stored |
| PatientDetailPage.SexLabelNeverEmpty | src/pages/PatientDetailPage.jsx:259 | no shown label is empty, and the stored value shows exactly when it is not one of the codes or empty |
| PatientDetailPage.Save | src/pages/PatientDetailPage.jsx:120-131 | the spinner stops; success stores the updated patient and ends editing; failure records the message or the default one and changes nothing else |
| PatientDetailPage.Delete | src/pages/PatientDetailPage.jsx:133-144 | nothing happens unless confirmed; a successful delete goes to the patient list; a failed one records the error and stops the spinner |
| PatientDetailPage.DeleteNavigatesOnlyOnSuccess | src/pages/PatientDetailPage.jsx:133-144 | the page leaves exactly after a confirmed successful delete, and the error changes only after a confirmed failed one |
| PatientDetailPage.OdontogramUpdated | src/pages/PatientDetailPage.jsx:146-148 | the reported odontogram becomes the page's and nothing else changes |
| PatientDetailPage.UpdateRoundTripAsWritten | src/pages/PatientDetailPage.jsx:146-148 | the editor's report, stored and handed back as `data`, loads with no lesions at all |
| PatientDetailPage.UpdateRoundTrip | src/pages/PatientDetailPage.jsx:146-148 | a report in the backend shape, stored and handed back, reloads exactly the chart after the click |
| PatientDetailPage.ScreenOf | src/pages/PatientDetailPage.jsx:150-180 | the spinner shows exactly while loading, the error screen exactly when loaded with an error, and the details only with the patient and no error |
| PatientDetailPage.FailureReplacesPage | src/pages/PatientDetailPage.jsx:159-213 | a failed save or delete ends on the error screen, so the banner inside the details never shows |
| PatientDetailPage.IsChild | src/pages/PatientDetailPage.jsx:304 | 'N/A' compared with 18 is false, so only a known age can pick the child chart |
| PatientDetailPage.DetailAddress | src/pages/PatientDetailPage.jsx:79-90 | no address gives the placeholder, and a present street starts the line |
| PatientDetailPage.StatusClass | src/pages/PatientDetailPage.jsx:105-118 | the badge is one of the five colour classes, grey for a missing status |
| DoctorForm.Prefill | src/components/doctor/DoctorForm.jsx:12-19 | editing fills both fields from the doctor; creating keeps the form |
| DoctorForm.HandleChange | src/components/doctor/DoctorForm.jsx:21-35 | the named field takes the value, an unknown name changes neither field, and the error under the name is cleared |
| DoctorForm.ChangeIsLocal | src/components/doctor/DoctorForm.jsx:21-35 | a change leaves the other field and the other field's error as they were |
| DoctorForm.Validate | src/components/doctor/DoctorForm.jsx:37-45 | an error is recorded exactly for each empty field, with its message, and under no other name |
| DoctorForm.ValidIff | src/components/doctor/DoctorForm.jsx:37-45 | the form is valid exactly when both fields are filled in |
| DoctorForm.Submit | src/components/doctor/DoctorForm.jsx:47-53 | the form is handed on, unchanged, exactly when both fields are filled in |
| DoctorForm.EditUnchangedSubmits | src/components/doctor/DoctorForm.jsx:12-53 | editing a doctor with both fields and submitting at once hands on that doctor's two fields |
| DoctorsPage.NameParts | src/pages/DoctorsPage.jsx:88 | there is always a first word, and a missing name reads as the words "D" and "R" |
| DoctorsPage.Initials | src/pages/DoctorsPage.jsx:89 | at most two letters, "DR" for a missing name |
| DoctorsPage.InitialsOfTwoWords | src/pages/DoctorsPage.jsx:88-89 | a name of two words separated by one space gives the first letter of each |
| DoctorsPage.Seed | src/pages/DoctorsPage.jsx:94 | the seed is the id's last four characters, or the whole id when it is shorter |
| DoctorsPage.WorkingDaysPeriodic | src/pages/DoctorsPage.jsx:94-100 | days i and i plus the seed's length are classified alike |
| DoctorsPage.WorkingDaysBelow | src/pages/DoctorsPage.jsx:92-100 | the loop collects, in increasing order, exactly the days below its bound that the seed marks |
| DoctorsPage.WorkingDays | src/pages/DoctorsPage.jsx:92-100 | the week's working days are strictly increasing days of 0..6, exactly the ones the seed marks |
| DoctorsPage.EmptyIdNoWorkingDays | src/pages/DoctorsPage.jsx:94-100 | an empty id has no working day |
| DoctorsPage.AreaCode | src/pages/DoctorsPage.jsx:104 | the area code lies in 100..999 |
| DoctorsPage.LineNumber | src/pages/DoctorsPage.jsx:104 | the line number lies in 1000..9999 |
| DoctorsPage.Phone | src/pages/DoctorsPage.jsx:103-104 | every phone has twelve characters |
| DoctorsPage.PhoneLayout | src/pages/DoctorsPage.jsx:104 | the phone is a three-digit area code, " 555-" and a four-digit line number, the padding never applying |
| DoctorsPage.PhoneParts | src/pages/DoctorsPage.jsx:103-104 | reading the phone back gives the area code from its first three characters and the line number from its last four |
| DoctorsPage.Email | src/pages/DoctorsPage.jsx:107 | the address is the lowered first word at the clinic's domain, "d" for a missing name |
| DoctorsPage.LowerKeepsPlain | src/pages/DoctorsPage.jsx:107 | lowering never introduces whitespace or '@' |
| DoctorsPage.EmailIsValid | src/pages/DoctorsPage.jsx:107 | a non-empty first word without '@' or whitespace gives an address the patient form's e-mail check accepts |
| DoctorsPage.Services | src/pages/DoctorsPage.jsx:110-119 | one or two services; the oral service exactly when the specialty mentions 2 or 4; the dental service, listed first, exactly when it mentions 1, 3 or 5 or the oral one is absent |
| DoctorsPage.Enhance | src/pages/DoctorsPage.jsx:86-133 | the row keeps the record and adds its initials, working days, phone, e-mail, services and schedule |
| DoctorsPage.EnhanceDeterministic | src/pages/DoctorsPage.jsx:86-133 | two records with the same id, name and specialty get the same display fields |
| DoctorsPage.EnhanceAll | src/pages/DoctorsPage.jsx:86-133 | the `map` over complete records gives one drawable row per record, in order |
| DoctorsPage.Fetched | src/pages/DoctorsPage.jsx:71-142 | loading ends; a reply list whose records all have `id` and `especialidad` becomes its enhanced rows, in order, all drawable; a record missing either makes the derivation throw, which keeps the rows and records the `TypeError` message; a failed request keeps the rows and records its message or the default one |
| DoctorsPage.MissingIdKeepsList | src/pages/DoctorsPage.jsx:94 | one record without an `id` loses the whole reply: the rows stay and the error is the thrown message |
| DoctorsPage.OpenForm | src/pages/DoctorsPage.jsx:144-152 | the form opens on the given doctor, or on none, and the rows are kept |
| DoctorsPage.WithoutDoctor | src/pages/DoctorsPage.jsx:159 | the remaining rows are exactly the rows whose id differs |
| DoctorsPage.Delete | src/pages/DoctorsPage.jsx:154-166 | nothing happens unless confirmed; then the pending id is cleared, and success removes exactly that doctor's rows while failure records the error |
| DoctorsPage.SubmitAsWritten | src/pages/DoctorsPage.jsx:168-186 | the spinner stops; success stores the server's record as it comes and closes the form; failure keeps the rows and the form |
| DoctorsPage.CreatedDoctorNotRenderable | src/pages/DoctorsPage.jsx:338-342 | after creating a doctor as written, some row has no working days or services to draw |
| DoctorsPage.Submit | src/pages/DoctorsPage.jsx:168-186 | success stores the server's record enhanced and closes the form; failure is as written |
| DoctorsPage.CreateAppends | src/pages/DoctorsPage.jsx:177-178 | creating appends exactly one row, the new doctor, after the old ones |
| DoctorsPage.EditReplaces | src/pages/DoctorsPage.jsx:172-175 | editing replaces the rows with the edited id and keeps every other row in place |
| DoctorsPage.WithoutDoctorRenderable | src/pages/DoctorsPage.jsx:159 | removing rows keeps every remaining row drawable |
| DoctorsPage.SubmitRenderable | src/pages/DoctorsPage.jsx:168-186 | a saved form keeps every row drawable when the stored record is enhanced |
| DoctorsPage.SavedRenderable | src/pages/DoctorsPage.jsx:172-178 | replacing or appending a drawable row in a drawable list leaves every row drawable |
| DoctorsPage.DeleteRenderable | src/pages/DoctorsPage.jsx:154-166 | deleting, confirmed or not, keeps every row drawable |
| DoctorsPage.HandlersKeepRenderable | src/pages/DoctorsPage.jsx:71-186 | fetching, deleting and the corrected submit keep every row drawable |
| DoctorsPage.Saved | src/pages/DoctorsPage.jsx:172-178 | saving an edit keeps the number of rows, saving a new doctor adds one, and every row afterwards is an old row or the saved one |
| HomePage.PerSection.With | src/pages/HomePage.jsx:31-34 | the chosen section holds the new value and every other section keeps its own |
| HomePage.Fetch | src/pages/HomePage.jsx:22-41 | loading ends for that section only; a reply is stored unless it is HTML, which records the HTML error; a failure records its message or the default one |
| HomePage.OdontogramPlan | src/pages/HomePage.jsx:49-65 | an HTML patient reply fails with the HTML message; otherwise the first patient's chart is requested exactly when the reply is truthy with a positive length, and the failure names the missing patients |
| HomePage.EmptyListNoOdontogram | src/pages/HomePage.jsx:58-61 | an empty or missing patient list never requests an odontogram |
| HomePage.FetchKeepsConsistent | src/pages/HomePage.jsx:6-41 | a fetch keeps each section consistent: nothing held while loading, no data beside a non-empty error |
| HomePage.BadgeAgrees | src/pages/HomePage.jsx:78-90 | in a consistent section the colour is red exactly for ERROR, green exactly for SUCCESS, grey exactly for LOADING and NO DATA |
| HomePage.AllHaveErrorsIff | src/pages/HomePage.jsx:145 | the banner condition holds exactly when all four sections have finished with an error, and not at the start |
| HomePage.FourFailuresRaiseBanner | src/pages/HomePage.jsx:22-65 | four failed fetches raise the connection banner |
| HomePage.Toggle | src/pages/HomePage.jsx:69-74 | the chosen section's flag flips and every other flag is kept |
| HomePage.ToggleTwice | src/pages/HomePage.jsx:69-74 | toggling a section twice restores every flag |
| HomePage.Schema | src/pages/HomePage.jsx:132-134 | an array shows `Array[` and its length, anything else 'Object' |
| HomePage.BodyOf | src/pages/HomePage.jsx:107-138 | the spinner exactly while loading, the failure exactly when loaded with an error, 'No data available' for a falsy or empty-array reply, else the response with its schema |
| HomePage.SchemaLength | src/pages/HomePage.jsx:132-134 | the digits after `Array[` read back as the array's length |
| HomePage.EmptyArraySucceedsWithoutData | src/pages/HomePage.jsx:88-119 | an empty array shows SUCCESS on the badge and 'No data available' in the body |
| HomePage.StatusText | src/pages/HomePage.jsx:84-90 | the badge text is one of LOADING, ERROR, SUCCESS and NO DATA; LOADING exactly while loading, even beside an error; SUCCESS only for truthy data without an error |
| HomePage.StatusColor | src/pages/HomePage.jsx:78-82 | the badge is red exactly when an error is set, even while loading, and green only for truthy data after loading |
| Layout.PrefixesClash | src/components/layout/Sidebar.jsx:7-9 | two prefixes differing at some position never both start one path |
| Layout.SectionsExclusive | src/components/layout/Sidebar.jsx:61-95 | no pathname is under two of the three sections |
| Layout.SectionUnderRoot | src/components/layout/Sidebar.jsx:45-47 | a path under a section is also under "/" |
| Layout.TitleIff | src/components/layout/Topbar.jsx:8-17 | the title is "API Test" exactly for "/", each section's title exactly for the paths under it, and "Odoonto" exactly for the rest |
| Layout.SubpageKeepsTitle | src/components/layout/Topbar.jsx:8-17 | every page under a section takes that section's title |
| Layout.ExactlyOneHighlighted | src/components/layout/Sidebar.jsx:43-106 | for every path starting with "/" exactly one entry is highlighted |
| Layout.NothingHighlightedOffRoot | src/components/layout/Sidebar.jsx:43-106 | a path not starting with "/" highlights no entry |
| Layout.TitleAgreesWithSidebar | src/components/layout/Topbar.jsx:8-17 | a section's title shows exactly when its entry is highlighted, and the "API Test" title only with its entry highlighted |
| Layout.UnknownPageHighlightsApiTest | src/components/layout/Sidebar.jsx:45-47 | an unknown page such as "/settings" highlights the API test entry under the generic title |
| Layout.Title | src/components/layout/Topbar.jsx:8-17 | "/" is titled "API Test", a path under a section takes that section's title whatever the order of the tests, and "Odoonto" shows exactly off "/" and every section |
| Layout.Highlighted | src/components/layout/Sidebar.jsx:43-95 | an entry is highlighted only for a path under "/" |
| Layout.SectionsUnderRoot | src/components/layout/Sidebar.jsx:43-47 | a path under any section route is also under "/" |

## Left out

- The network: every request is replaced by its reply, passed in as a `Result` (or `Reply`) parameter. The HTTP wrappers, the odontogram service's diagnostics and `useApi` are not part of this model.
- Concurrency: the four requests of the API overview page, and the create, update and delete requests of the schedule page, are applied one reply at a time, in the order given. Interleavings are not modelled.
- Effects, refs and memo bookkeeping: each effect is a function applied when its dependencies change. The grouping effect's ref guard in `dentist-column.jsx` is not modelled.
- Time zones, daylight saving and the host clock: instants are integer milliseconds on one local time line, and "today" is a parameter.
- Locale formatting: `Intl.DateTimeFormat`, `toLocale*`, `toDateString` and `toISOString`. This covers `formatDate`, `formatTime` and `formatDateTime` in `dateUtils.js`, the schedule page's header date and the patient pages' dates. The form's ISO birth date is a parameter of `PatientForm.Prefill`.
- Floating-point pixel positions of the current-time line in the daily schedule and the calendar view. The line's visibility rule is modelled.
- Random stand-ins on the schedule page (patient name, status and treatment of a loaded appointment): they are a parameter of `SchedulePage.Normalize`.
- The schedule page's month navigation (`handlePrevMonth`, `handleNextMonth`), which relies on `setMonth` overflow and is not wired to any control. The fixed header total of 16 is a display constant.
- `window.confirm` is a boolean parameter. `window.location.reload` and `navigate` are left out, except that the patient page records where it navigates.
- The odontogram editor's error branch: choosing the message and offering a reload. A failed request leaves the chart unchanged, as in the source.
- The console logging everywhere.
- Avatar colours on the staff page (`DoctorAvatar`), and the page's tab and view toggles, search box and table markup. The same holds for the patients page's view toggle and display placeholders (registration date, last visit, last treatment).
- The top bar's search input, which has no handler.
- The patient detail page's initial fetch of patient, odontogram and appointments, with its nested error handling. The page is modelled from the loaded state on.
- The API overview page: the odontogram request's patient id (`patients[0].id`) is not tracked. Replies are abstracted to `HomePage.Value`, which keeps truthiness, array length and text only.
- Strings are sequences of Unicode scalar values, not UTF-16 code units. `charCodeAt` is the character's code point, which agrees for every character below U+10000.
- Strings.ToLower: lowers ASCII and Latin-1 capitals only, not the whole of Unicode's case mapping.
- Strings.NumberValue: reads unsigned decimal digits only. Signs, surrounding whitespace, fractions and exponents, which `Number` also accepts, are left out because `timeToMinutes` is only applied to the schedule's own "HH:MM" labels, whose pieces are digits.
- Strings.UpperChar: upper-cases the ASCII and Latin-1 lower-case letters only, one character in and one out. JavaScript also maps 'ÿ' to 'Ÿ', 'ß' to "SS", and Greek and Cyrillic letters to their capitals; `DailySchedule.IconLetter` inherits this, so a treatment name starting with such a letter gets the letter unchanged in the model.
- DailySchedule.IconLetter: upper-cases the first letter of an unknown treatment with `Strings.UpperChar`, so a name starting with a letter outside ASCII and Latin-1 (or with 'ÿ' or 'ß') keeps that letter as written.
- PatientDetailPage.CalculateAge: takes the birth date already read as a civil date. An unparsable date text, which the source turns into `NaN`, is not modelled.
- AppointmentForm.HandleChange: clears an error by removing its key, where the source stores `null`. Every reader tests the entry for truthiness, so the two agree.
- PatientForm.HandleChange: clears an error by removing its key, where the source stores `null`. The two agree for every reader.
- DoctorForm.HandleChange: clears an error by removing its key, where the source stores `null`. An input name other than the two fields would add a key to the source's form. The form has only those two inputs, so the model keeps the form unchanged instead.
- DentistColumn.FillSlots: drops writes that fall outside slots 0..24, where the source would extend the array. An appointment whose stored end slot is 23 or more, or whose start slot is below -2, would write there after the +2 shift.

## Findings

| source | as written | input that shows it | evidently intended | confidence | as-written member | corrected member |
|---|---|---|---|---|---|---|
| src/components/appointment/AppointmentCalendar.jsx:23-46 | the previous and next month are copies of the current date moved by `setMonth(±1)`; from day 29 on the copy can roll into the month after | opening the calendar on 31 March 2025 leads the grid with 27–31 March; on 31 January 2025 it trails with 1–2 March | the padding days of the real previous and next months, as after the navigation handlers, which always set day 1 | high, not executed | `AppointmentCalendar.MonthGridAsWritten`, shown by `AppointmentCalendar.March31LeadsWithMarch` | `AppointmentCalendar.MonthGrid`, with `AppointmentCalendar.MonthGridShape` |
| src/components/patient/Odontogram.jsx:121-126 | `onUpdate` receives `{ id, teeth: toothData }`, the map from before the click, in the editor's own face-map shape under the key `teeth` | the patient page stores the report and hands it back as `data`; the load effect reads each face map as a backend tooth without `faces` and drops it, so the chart empties | the report carries the chart after the click in the backend shape, so feeding it back reloads the same chart | high, not executed | `PatientOdontogram.FaceClickAsWritten`, shown by `PatientOdontogram.ReportFedBackWipesChart` | `PatientOdontogram.FaceClick`, with `PatientOdontogram.ReportRoundTrip` |
| src/components/appointment/DailySchedule.jsx:147-153 | the start label of an appointment is built without zero padding, so a 09:00 start reads "9:00" and matches no "09:00" row | a two-slot appointment at 09:00 leaves the 09:30 row free and clickable, so a second appointment can be booked inside it | continuation rows are found from the padded start label, as the rows themselves are labelled | high, not executed | `DailySchedule.CellAsWritten` and `DailySchedule.CellClickAsWritten`, shown by `DailySchedule.NineOClockDoubleBooking` | `DailySchedule.Cell` and `DailySchedule.CellClick`, with `DailySchedule.OccupiesBelowStart` |
| src/components/calendar/calendar-view.jsx:223 | the NOT AVAILABLE areas are switched on for the column at position 2 of the filtered list | selecting doctor "3" alone shows one column, at position 0, and its NOT AVAILABLE areas vanish | the areas belong to doctor "3", whose column is third when all doctors are shown | medium, not executed | `CalendarView.ColumnsAsWritten`, shown by `CalendarView.SelectingGarciaHidesNotAvailable` | `CalendarView.Columns`, with `CalendarView.AllDoctorsAgree` |
| src/components/Odontogram.jsx:197-216 | both lower quadrants are reversed before drawing | the adult chart draws 41 under 18 and 48 under 11 | each lower tooth drawn under its upper counterpart (48 under 18, 38 under 28), as dental charts are laid out | medium, not executed | `ToothChart.LowerRowAsWritten`, shown by `ToothChart.LowerRowMisaligned` | `ToothChart.LowerRow`, with `ToothChart.LowerRowAligned` |
| src/pages/DoctorsPage.jsx:168-186 | a saved doctor is stored as the server returns it, without the display fields that fetched doctors get | after creating a doctor the table reaches a row without `workingDays` or `services`, which lines 338-342 read | the stored record is enhanced like the fetched ones, so every row stays drawable | high, not executed | `DoctorsPage.SubmitAsWritten`, shown by `DoctorsPage.CreatedDoctorNotRenderable` | `DoctorsPage.Submit`, with `DoctorsPage.HandlersKeepRenderable` |

=== FILE: appointment_calendar.dfy ===
/**
 * The month picker (`AppointmentCalendar`): a grid of whole Monday-first weeks
 * holding the shown month, padded with the end of the previous month and the
 * start of the next; month navigation; and the per-day appointment badge.
 *
 * The shown month is kept as a full date (`currentMonth`). The padding months
 * are found by copying that date and moving it one month back or forward,
 * which rolls over into the wrong month when the day is 29, 30 or 31 and the
 * target month is shorter. `MonthGridAsWritten` follows the component;
 * `MonthGrid` is the grid for the month itself, which is what it draws
 * whenever the date is the first of the month.
 */
module AppointmentCalendar {

  import opened Wrappers
  import opened Strings
  import opened Civil
  import opened Appointments
  import Lists
  import DateUtils

  /** A grid cell: the day number shown and whether it belongs to the shown month. */
  datatype CalendarDay = CalendarDay(date: int, isCurrentMonth: bool)

  /** Monday-first position of a `getDay()` value: 6 for Sunday, `weekday - 1` otherwise. */
  function StartOffset(weekday: int): (o: int)
    requires 0 <= weekday < 7
    ensures 0 <= o <= 6
  {
    if weekday == 0 then 6 else weekday - 1
  }

  /** The offset steps back from the first of the month to the Monday that starts its week. */
  lemma StartOffsetReachesMonday(first: int)
    ensures Weekday(first - StartOffset(Weekday(first))) == 1
    ensures first - StartOffset(Weekday(first)) == DateUtils.FirstDayOfWeek(first)
  {
  }

  /** `new Date(currentMonth); setMonth(getMonth() - 1)`. */
  function PrevCopy(c: Date): (r: Date)
    requires ValidDate(c)
    ensures ValidDate(r)
  {
    var p := PrevMonth(c.year, c.month);
    Roll(p.0, p.1, c.day)
  }

  /** `new Date(currentMonth); setMonth(getMonth() + 1)`. */
  function NextCopy(c: Date): (r: Date)
    requires ValidDate(c)
    ensures ValidDate(r)
  {
    var n := NextMonth(c.year, c.month);
    Roll(n.0, n.1, c.day)
  }

  /** The day number of the first of month (`y`, `m`). */
  function MonthStart(y: int, m: int): int
    requires 1 <= m <= 12
  {
    DayNumber(Date(y, m, 1))
  }

  /** `count` consecutive days from day number `start`, all with the same flag. */
  function Run(start: int, count: nat, current: bool): (r: seq<CalendarDay>)
    ensures |r| == count
    ensures forall k :: 0 <= k < count ==> r[k] == CalendarDay(start + k, current)
  {
    seq(count, k requires 0 <= k < count => CalendarDay(start + k, current))
  }

  /** Days `from`, `from + 1`, ... of month (`y`, `m`), `count` of them: `new Date(y, m, from + k)` for each `k`. */
  function Days(y: int, m: int, from: int, count: nat, current: bool): (r: seq<CalendarDay>)
    requires 1 <= m <= 12
    ensures r == Run(MonthStart(y, m) + from - 1, count, current)
  {
    var r := seq(count, k requires 0 <= k < count => CalendarDay(DayNumber(Date(y, m, from + k)), current));
    forall k | 0 <= k < count
      ensures r[k] == Run(MonthStart(y, m) + from - 1, count, current)[k]
    {
      DayNumberOfDay(y, m, from + k);
    }
    r
  }

  /** `7 - (length % 7)` trailing days when that is below 7, none otherwise. */
  function Remaining(length: nat): (k: nat)
    ensures k <= 6 && (length + k) % 7 == 0
  {
    if 7 - length % 7 < 7 then 7 - length % 7 else 0
  }

  /** How many days of the previous week the grid shows before the first of the month. */
  function Offset(c: Date): (o: int)
    requires ValidDate(c)
    ensures 0 <= o <= 6
  {
    StartOffset(Weekday(MonthStart(c.year, c.month)))
  }

  /** The day after the last day of the month of the "previous" copy. */
  function PrevEnd(c: Date): int
    requires ValidDate(c)
  {
    var p := PrevCopy(c);
    MonthStart(p.year, p.month) + DaysInMonth(p.year, p.month)
  }

  /** The first day of the month of the "next" copy. */
  function NextStart(c: Date): int
    requires ValidDate(c)
  {
    var n := NextCopy(c);
    MonthStart(n.year, n.month)
  }

  /** The first loop: the last `offset` days of the month of the "previous" copy. */
  function Leading(c: Date): (r: seq<CalendarDay>)
    requires ValidDate(c)
    ensures r == Run(PrevEnd(c) - Offset(c), Offset(c), false)
  {
    var p := PrevCopy(c);
    Days(p.year, p.month, DaysInMonth(p.year, p.month) - Offset(c) + 1, Offset(c), false)
  }

  /** The second loop: every day of the shown month. */
  function Current(c: Date): (r: seq<CalendarDay>)
    requires ValidDate(c)
    ensures r == Run(MonthStart(c.year, c.month), DaysInMonth(c.year, c.month), true)
  {
    Days(c.year, c.month, 1, DaysInMonth(c.year, c.month), true)
  }

  /** The third loop: the first days of the month of the "next" copy, up to a whole week. */
  function Trailing(c: Date): (r: seq<CalendarDay>)
    requires ValidDate(c)
    ensures r == Run(NextStart(c), Remaining(Offset(c) + DaysInMonth(c.year, c.month)), false)
  {
    var n := NextCopy(c);
    Days(n.year, n.month, 1, Remaining(Offset(c) + DaysInMonth(c.year, c.month)), false)
  }

  /**
   * The component's three loops, with the padding months taken from the rolled
   * copies. Whatever the copies roll to, the grid is four to six whole weeks
   * and exactly the cells after the `Offset` leading ones and before the
   * trailing ones are flagged as in the month.
   */
  function MonthGridAsWritten(c: Date): (g: seq<CalendarDay>)
    requires ValidDate(c)
    ensures |g| % 7 == 0 && 28 <= |g| <= 42
    ensures forall k :: 0 <= k < |g| ==> (g[k].isCurrentMonth <==> Offset(c) <= k < Offset(c) + DaysInMonth(c.year, c.month))
  {
    var offset, dim := Offset(c), DaysInMonth(c.year, c.month);
    var g := Leading(c) + Current(c) + Trailing(c);
    forall k | 0 <= k < |g|
      ensures g[k].isCurrentMonth <==> offset <= k < offset + dim
    {
      RunsAt(PrevEnd(c) - offset, offset, MonthStart(c.year, c.month), dim, NextStart(c), Remaining(offset + dim), k);
    }
    g
  }

  /**
   * The grid of month (`y`, `m`) with the real previous and next months: a
   * cell is flagged as in the month exactly when its day is one of the month's.
   */
  function MonthGrid(y: int, m: int): (g: seq<CalendarDay>)
    requires 1 <= m <= 12
    ensures |g| % 7 == 0 && 28 <= |g| <= 42
    ensures forall k :: 0 <= k < |g| ==> (g[k].isCurrentMonth <==> MonthStart(y, m) <= g[k].date < MonthStart(y, m) + DaysInMonth(y, m))
  {
    FirstOfMonthCopies(y, m);
    RunsShape(MonthStart(y, m), Offset(Date(y, m, 1)), DaysInMonth(y, m));
    MonthGridAsWritten(Date(y, m, 1))
  }

  /** Up to day 28 no copy rolls over, so the component draws the month's own grid. */
  lemma NoRollBefore29(c: Date)
    requires ValidDate(c) && c.day <= 28
    ensures MonthGridAsWritten(c) == MonthGrid(c.year, c.month)
  {
    var c1 := Date(c.year, c.month, 1);
    assert PrevCopy(c).year == PrevCopy(c1).year && PrevCopy(c).month == PrevCopy(c1).month;
    assert NextCopy(c).year == NextCopy(c1).year && NextCopy(c).month == NextCopy(c1).month;
    assert Leading(c) == Leading(c1) && Trailing(c) == Trailing(c1);
  }

  /**
   * The component's grid, cell by cell: the leading days count up to the
   * last day of the "previous" copy's month, then the shown month, then the
   * "next" copy's month from its first day.
   */
  lemma GridCells(c: Date, k: int)
    requires ValidDate(c)
    requires 0 <= k < Offset(c) + DaysInMonth(c.year, c.month) + Remaining(Offset(c) + DaysInMonth(c.year, c.month))
    ensures var dim := DaysInMonth(c.year, c.month);
      |MonthGridAsWritten(c)| == Offset(c) + dim + Remaining(Offset(c) + dim)
    ensures k < Offset(c) ==> MonthGridAsWritten(c)[k] == CalendarDay(PrevEnd(c) - Offset(c) + k, false)
    ensures Offset(c) <= k < Offset(c) + DaysInMonth(c.year, c.month) ==>
      MonthGridAsWritten(c)[k] == CalendarDay(MonthStart(c.year, c.month) + k - Offset(c), true)
    ensures Offset(c) + DaysInMonth(c.year, c.month) <= k ==>
      MonthGridAsWritten(c)[k] == CalendarDay(NextStart(c) + k - Offset(c) - DaysInMonth(c.year, c.month), false)
  {
    var dim := DaysInMonth(c.year, c.month);
    RunsAt(PrevEnd(c) - Offset(c), Offset(c), MonthStart(c.year, c.month), dim, NextStart(c), Remaining(Offset(c) + dim), k);
  }

  /** Indexing three runs placed one after another. */
  lemma RunsAt(a: int, na: nat, b: int, nb: nat, c: int, nc: nat, k: int)
    requires 0 <= k < na + nb + nc
    ensures var g := Run(a, na, false) + Run(b, nb, true) + Run(c, nc, false);
      |g| == na + nb + nc
      && (k < na ==> g[k] == CalendarDay(a + k, false))
      && (na <= k < na + nb ==> g[k] == CalendarDay(b + k - na, true))
      && (na + nb <= k ==> g[k] == CalendarDay(c + k - na - nb, false))
  {
  }

  /**
   * Three runs that continue one another, the first of `offset` <= 6 days and
   * the middle one a month long, padded to whole weeks: consecutive days,
   * whole weeks, four to six of them, in the middle run exactly for the
   * middle days.
   */
  lemma RunsShape(first: int, offset: nat, dim: nat)
    requires offset <= 6 && 28 <= dim <= 31
    ensures var g := Run(first - offset, offset, false) + Run(first, dim, true) + Run(first + dim, Remaining(offset + dim), false);
      |g| % 7 == 0 && 28 <= |g| <= 42
      && g[0].date == first - offset
      && (forall k :: 0 <= k < |g| ==> g[k].date == g[0].date + k)
      && (forall k :: 0 <= k < |g| ==> (g[k].isCurrentMonth <==> first <= g[k].date < first + dim))
  {
    var n := Remaining(offset + dim);
    var g := Run(first - offset, offset, false) + Run(first, dim, true) + Run(first + dim, n, false);
    forall k | 0 <= k < |g|
      ensures g[k] == CalendarDay(first - offset + k, offset <= k < offset + dim)
    {
      RunsAt(first - offset, offset, first, dim, first + dim, n, k);
    }
    RunsAt(first - offset, offset, first, dim, first + dim, n, 0);
  }

  /**
   * The month's grid is whole weeks of consecutive days from a Monday: the
   * `offset` days before the first, the month itself, and at most six days
   * after, and a cell belongs to the month exactly when its day does.
   */
  lemma MonthGridShape(y: int, m: int)
    requires 1 <= m <= 12
    ensures |MonthGrid(y, m)| % 7 == 0 && 28 <= |MonthGrid(y, m)| <= 42
    ensures MonthGrid(y, m)[0].date == MonthStart(y, m) - Offset(Date(y, m, 1))
    ensures Weekday(MonthGrid(y, m)[0].date) == 1
    ensures forall k :: 0 <= k < |MonthGrid(y, m)| ==> MonthGrid(y, m)[k].date == MonthGrid(y, m)[0].date + k
    ensures forall k :: 0 <= k < |MonthGrid(y, m)| ==>
      (MonthGrid(y, m)[k].isCurrentMonth <==> MonthStart(y, m) <= MonthGrid(y, m)[k].date < MonthStart(y, m) + DaysInMonth(y, m))
  {
    var first, offset, dim := MonthStart(y, m), Offset(Date(y, m, 1)), DaysInMonth(y, m);
    FirstOfMonthRuns(y, m);
    RunsShape(first, offset, dim);
    StartOffsetReachesMonday(first);
  }

  /** A month's own grid is the three runs that continue one another. */
  lemma FirstOfMonthRuns(y: int, m: int)
    requires 1 <= m <= 12
    ensures var first, offset, dim := MonthStart(y, m), Offset(Date(y, m, 1)), DaysInMonth(y, m);
      MonthGrid(y, m) == Run(first - offset, offset, false) + Run(first, dim, true) + Run(first + dim, Remaining(offset + dim), false)
  {
    FirstOfMonthCopies(y, m);
  }

  /** On the first of a month neither copy rolls over: the padding months are the real neighbours. */
  lemma FirstOfMonthCopies(y: int, m: int)
    requires 1 <= m <= 12
    ensures PrevEnd(Date(y, m, 1)) == MonthStart(y, m)
    ensures NextStart(Date(y, m, 1)) == MonthStart(y, m) + DaysInMonth(y, m)
  {
    var p := PrevMonth(y, m);
    NextMonthStart(p.0, p.1);
    NextMonthStart(y, m);
  }

  /** Day 31 of March 2025: the "previous month" copy rolls over to 3 March, so the leading days are 27-31 March instead of 24-28 February. */
  lemma March31LeadsWithMarch()
    ensures var g := MonthGridAsWritten(Date(2025, 3, 31));
      var first := DayNumber(Date(2025, 3, 1));
      |g| >= 5 && g[0].date == DayNumber(Date(2025, 3, 27)) && g[0].date > first
      && g[0].date != MonthGrid(2025, 3)[0].date
  {
    var c := Date(2025, 3, 31);
    assert MonthStart(2025, 3) == 20148 && Offset(c) == 5;
    assert PrevCopy(c) == Date(2025, 3, 3);
    assert PrevEnd(c) == 20179;
    GridCells(c, 0);
    MonthGridShape(2025, 3);
  }

  /** Day 31 of January 2025: the "next month" copy rolls over to 3 March, so the trailing days are 1-2 March instead of 1-2 February. */
  lemma January31TrailsWithMarch()
    ensures var g := MonthGridAsWritten(Date(2025, 1, 31));
      |g| == 35 && g[33].date == DayNumber(Date(2025, 3, 1))
      && g[33].date != MonthGrid(2025, 1)[33].date
  {
    var c := Date(2025, 1, 31);
    assert MonthStart(2025, 1) == 20089 && Offset(c) == 2;
    assert NextCopy(c) == Date(2025, 3, 3);
    assert NextStart(c) == 20148;
    GridCells(c, 33);
    GridCells(Date(2025, 1, 1), 0);
    MonthGridShape(2025, 1);
  }

  /** `prevMonthHandler`: the first of the previous month. */
  function PrevMonthHandler(c: Date): (r: Date)
    requires ValidDate(c)
    ensures ValidDate(r) && r.day == 1
    ensures NextMonth(r.year, r.month) == (c.year, c.month)
  {
    var p := PrevMonth(c.year, c.month);
    Date(p.0, p.1, 1)
  }

  /** `nextMonthHandler`: the first of the next month. */
  function NextMonthHandler(c: Date): (r: Date)
    requires ValidDate(c)
    ensures ValidDate(r) && r.day == 1
    ensures PrevMonth(r.year, r.month) == (c.year, c.month)
  {
    PrevOfNext(c.year, c.month);
    var n := NextMonth(c.year, c.month);
    Date(n.0, n.1, 1)
  }

  /** The two handlers undo each other, and after either one the grid is the right one. */
  lemma HandlersInverse(c: Date)
    requires ValidDate(c)
    ensures NextMonthHandler(PrevMonthHandler(c)) == Date(c.year, c.month, 1)
    ensures PrevMonthHandler(NextMonthHandler(c)) == Date(c.year, c.month, 1)
    ensures var r := PrevMonthHandler(c); MonthGridAsWritten(r) == MonthGrid(r.year, r.month)
    ensures var r := NextMonthHandler(c); MonthGridAsWritten(r) == MonthGrid(r.year, r.month)
  {
  }

  /** `getAppointmentCount(date)`: 0 without a list, else the number of appointments on that day. */
  function AppointmentCount(appts: Option<seq<Appointment>>, day: int): (n: nat)
    ensures appts.None? ==> n == 0
    ensures appts.Some? ==> n == |Lists.Filter(appts.value, OnDate(day))|
  {
    match appts
    case None => 0
    case Some(s) => |Lists.Filter(s, OnDate(day))|
  }

  /** `hasAppointments(date)`: false without a list, else whether some appointment is on that day. */
  predicate HasAppointments(appts: Option<seq<Appointment>>, day: int) {
    match appts
    case None => false
    case Some(s) => Lists.Any(s, OnDate(day))
  }

  /** A day has appointments exactly when its count is positive. */
  lemma HasIffCount(appts: Option<seq<Appointment>>, day: int)
    ensures HasAppointments(appts, day) <==> AppointmentCount(appts, day) > 0
    ensures HasAppointments(appts, day) <==> (appts.Some? && exists i :: 0 <= i < |appts.value| && OnDay(appts.value[i], day))
  {
    if appts.Some? {
      Lists.AnyIffFilterNonEmpty(appts.value, OnDate(day));
    }
  }

  /** The badge: "<n> cita" for one, "<n> citas" otherwise, shown only on days with appointments. */
  function Badge(appts: Option<seq<Appointment>>, day: int): (b: Option<string>)
    ensures b.Some? <==> AppointmentCount(appts, day) > 0
    ensures b.Some? ==> (b.value == NatToDecimal(AppointmentCount(appts, day))
      + (if AppointmentCount(appts, day) == 1 then " cita" else " citas"))
  {
    HasIffCount(appts, day);
    if HasAppointments(appts, day) then
      var n := AppointmentCount(appts, day);
      Some(NatToDecimal(n) + (if n == 1 then " cita" else " citas"))
    else
      None
  }

  /** The header: month name and year. */
  const MonthNames: seq<string> := ["Enero", "Febrero", "Marzo", "Abril", "Mayo", "Junio",
    "Julio", "Agosto", "Septiembre", "Octubre", "Noviembre", "Diciembre"]
}

=== FILE: appointment_detail.dfy ===
/**
 * The appointment detail panel: the duration text, the status label and badge
 * class for the English codes, and the status select whose change sends the
 * appointment back with only its status replaced.
 */
module AppointmentDetail {

  import opened Wrappers
  import opened Strings
  import opened Appointments
  import opened Statuses
  import AppointmentForm

  /** `appointment?.status || 'PENDING'`: the select's first value. */
  function InitialStatus(a: Option<Appointment>): (s: string)
    ensures s != ""
    ensures a.Some? && a.value.status != "" ==> s == a.value.status
    ensures (a.None? || a.value.status == "") ==> s == "PENDING"
  {
    if a.Some? && a.value.status != "" then a.value.status else "PENDING"
  }

  /** `getDuration`: "N/A" for no slots, a fixed label for 1..6, else `30·n minutos`. */
  function DurationText(slots: int): (s: string)
    ensures slots == 0 ==> s == "N/A"
  {
    if slots == 0 then "N/A"
    else if slots == 1 then "30 minutos"
    else if slots == 2 then "1 hora"
    else if slots == 3 then "1 hora 30 minutos"
    else if slots == 4 then "2 horas"
    else if slots == 5 then "2 horas 30 minutos"
    else if slots == 6 then "3 horas"
    else IntToDecimal(slots * 30) + " minutos"
  }

  /** The fixed labels are the ones the form's duration list offers for the same slot count. */
  lemma DurationMatchesForm(i: int)
    requires 0 <= i < 6
    ensures DurationText(i + 1) == AppointmentForm.DurationOptions[i].1
    ensures ParseIntPrefix(AppointmentForm.DurationOptions[i].0) == Some(i + 1)
  {
    AppointmentForm.DurationOptionValue(i);
  }

  /** Beyond six slots the text reads back as the number of minutes. */
  lemma LongDurationMinutes(slots: int)
    requires slots > 6
    ensures ParseIntPrefix(DurationText(slots)) == Some(30 * slots)
    ensures StartsWith(DurationText(slots), NatToDecimal(30 * slots))
  {
    var d := NatToDecimal(30 * slots);
    assert DurationText(slots) == d + " minutos";
    ParseDecimalThen(30 * slots, " minutos");
    assert (d + " minutos")[..|d|] == d;
  }

  /** The Spanish labels of the English codes. */
  function Label(s: Status): string {
    match s
    case Pending => "Sin confirmar"
    case Confirmed => "Confirmada"
    case WaitingRoom => "En sala de espera"
    case InProgress => "En curso"
    case Completed => "Completada"
    case Cancelled => "Cancelada"
  }

  /** `getStatusLabel`: the label of a known code, otherwise the code itself. */
  function StatusLabel(code: string): (text: string)
    ensures ParseStatus(code).None? ==> text == code
  {
    match ParseStatus(code)
    case Some(s) => Label(s)
    case None => code
  }

  /** The badge shows the same label the select offers for that code, and unknown codes unchanged. */
  lemma StatusLabelMatchesSelect(i: int)
    requires 0 <= i < 6
    ensures StatusLabel(AppointmentForm.StatusOptions[i].0) == AppointmentForm.StatusOptions[i].1
  {
    AppointmentForm.StatusOptionsAreCodes();
    ParseStatusCode(AllStatuses[i]);
  }

  const DefaultClass: string := "bg-gray-100 text-gray-800"

  function ClassOf(s: Status): string {
    match s
    case Pending => "bg-yellow-100 text-yellow-800"
    case Confirmed => "bg-green-100 text-green-800"
    case WaitingRoom => "bg-blue-100 text-blue-800"
    case InProgress => "bg-purple-100 text-purple-800"
    case Completed => "bg-gray-100 text-gray-800"
    case Cancelled => "bg-red-100 text-red-800"
  }

  /** `getStatusClass`: the class of a known code, grey otherwise. */
  function StatusClass(code: string): (c: string)
    ensures ParseStatus(code).None? ==> c == DefaultClass
  {
    match ParseStatus(code)
    case Some(s) => ClassOf(s)
    case None => DefaultClass
  }

  /** Only COMPLETED and unknown codes are grey. */
  lemma StatusClassGrey(code: string)
    ensures StatusClass(code) == DefaultClass <==> (ParseStatus(code).None? || code == "COMPLETED")
  {
    match ParseStatus(code)
    case Some(s) =>
      assert StatusCode(s) == code;
      assert ClassOf(s) == DefaultClass <==> s == Completed;
    case None =>
  }

  /** The six classes are pairwise different. */
  lemma ClassOfInjective(s: Status, t: Status)
    ensures ClassOf(s) == ClassOf(t) ==> s == t
  {
  }

  /** The other five codes have five different colours: a colour other than grey names its code. */
  lemma StatusClassNamesCode(code: string, other: string)
    ensures StatusClass(code) == StatusClass(other) && StatusClass(code) != DefaultClass ==> code == other
  {
    if StatusClass(code) == StatusClass(other) && StatusClass(code) != DefaultClass {
      var s, t := ParseStatus(code).value, ParseStatus(other).value;
      ClassOfInjective(s, t);
    }
  }

  /** The panel's own state: the select's value, the spinner and the error text. */
  datatype Panel = Panel(status: string, loading: bool, error: Option<string>)

  function InitialPanel(a: Option<Appointment>): (p: Panel)
    ensures p.status == InitialStatus(a) && !p.loading && p.error.None?
  {
    Panel(InitialStatus(a), false, None)
  }

  const UpdateError: string := "Error al actualizar el estado de la cita"

  /** The record `handleStatusChange` sends, and the one `onUpdate` receives. */
  function WithStatus(a: Appointment, newStatus: string): (r: Appointment)
    ensures r.status == newStatus
    ensures r.(status := a.status) == a
  {
    a.(status := newStatus)
  }

  /** While the update is in flight: the select already shows the new value. */
  function ChangeStarted(p: Panel, newStatus: string): (r: Panel)
    ensures r.status == newStatus && r.loading && r.error.None?
  {
    Panel(newStatus, true, None)
  }

  /** What the parent hears about a status change. */
  datatype Outcome = Outcome(panel: Panel, reported: Option<Appointment>)

  /**
   * The end of `handleStatusChange`: the spinner stops; on success the
   * parent's `onUpdate` (when given) receives the appointment with the new
   * status; on failure the error is shown and nothing is reported.
   */
  function ChangeFinished(a: Appointment, p: Panel, newStatus: string, succeeded: bool, hasOnUpdate: bool): (r: Outcome)
    ensures !r.panel.loading && r.panel.status == p.status
    ensures succeeded ==> r.panel.error.None? && (r.reported.Some? <==> hasOnUpdate)
    ensures !succeeded ==> r.panel.error == Some(UpdateError) && r.reported.None?
    ensures r.reported.Some? ==> r.reported.value.status == newStatus && r.reported.value.(status := a.status) == a
  {
    var reported := if succeeded && hasOnUpdate then Some(WithStatus(a, newStatus)) else None;
    Outcome(p.(loading := false, error := if succeeded then None else Some(UpdateError)), reported)
  }

  /** The whole change, from the select event to the end of the request. */
  function StatusChange(a: Appointment, p: Panel, newStatus: string, succeeded: bool, hasOnUpdate: bool): (r: Outcome)
    ensures r.panel.status == newStatus && !r.panel.loading
    ensures r.reported.Some? ==> succeeded && hasOnUpdate
  {
    ChangeFinished(a, ChangeStarted(p, newStatus), newStatus, succeeded, hasOnUpdate)
  }

  /**
   * After a failed change the select keeps showing the new value though the
   * appointment still has the old one, and the parent learns nothing.
   */
  lemma FailedChangeShowsUnsavedStatus(a: Appointment, p: Panel, newStatus: string, hasOnUpdate: bool)
    requires newStatus != a.status
    ensures var r := StatusChange(a, p, newStatus, false, hasOnUpdate);
      r.panel.status != a.status && r.reported.None? && r.panel.error == Some(UpdateError)
  {
  }

  /** A successful change reported to the parent differs from the old record in its status alone. */
  lemma ReportedChangesOnlyStatus(a: Appointment, p: Panel, newStatus: string)
    ensures var r := StatusChange(a, p, newStatus, true, true);
      r.reported == Some(a.(status := newStatus)) && r.panel == Panel(newStatus, false, None)
  {
  }

  /** What the panel draws. */
  datatype View =
    | Placeholder(text: string)
    | Details(duration: string, patient: string, doctor: string, statusLabel: string, statusClass: string,
              showsNotes: bool, error: Option<string>)

  const NoAppointment: string := "No hay información de la cita"

  /** Shown for a missing patient or doctor name. */
  const NotAvailable: string := "N/A"

  /** The rendered panel: the placeholder without an appointment, else its details. */
  function Render(a: Option<Appointment>, p: Panel): (v: View)
    ensures a.None? <==> v == Placeholder(NoAppointment)
    ensures a.Some? ==> (v.Details? && v.duration == DurationText(a.value.durationSlots)
      && (v.patient == if a.value.patientName != "" then a.value.patientName else NotAvailable)
      && (v.doctor == if a.value.doctorName != "" then a.value.doctorName else NotAvailable)
      && v.statusLabel == StatusLabel(a.value.status) && v.statusClass == StatusClass(a.value.status)
      && (v.showsNotes <==> a.value.notes != "") && v.error == p.error)
  {
    match a
    case None => Placeholder(NoAppointment)
    case Some(x) =>
      Details(DurationText(x.durationSlots), Or(x.patientName, NotAvailable), Or(x.doctorName, NotAvailable),
              StatusLabel(x.status), StatusClass(x.status), x.notes != "", p.error)
  }
}

=== FILE: appointment_form.dfy ===
/**
 * The appointment form (`AppointmentForm`): the form fields as the inputs hold
 * them (text), the prefill from an existing appointment, `handleChange`,
 * `validate`, the submitted record, and the three option lists.
 */
module AppointmentForm {

  import opened Wrappers
  import opened Strings
  import opened Civil
  import opened Clock
  import opened Appointments
  import Statuses

  /** The named inputs of the form. */
  datatype Field = PatientId | DoctorId | DateField | Time | DurationSlots | StatusField | Notes

  /** The form state; every value is the text its input holds, `""` when empty. */
  datatype Form = Form(
    patientId: string,
    doctorId: string,
    date: string,
    time: string,
    durationSlots: string,
    status: string,
    notes: string)

  function Get(f: Form, field: Field): string {
    match field
    case PatientId => f.patientId
    case DoctorId => f.doctorId
    case DateField => f.date
    case Time => f.time
    case DurationSlots => f.durationSlots
    case StatusField => f.status
    case Notes => f.notes
  }

  /** `{...form, [name]: value}`. */
  function Set(f: Form, field: Field, value: string): (r: Form)
    ensures Get(r, field) == value
    ensures forall g :: g != field ==> Get(r, g) == Get(f, g)
  {
    match field
    case PatientId => f.(patientId := value)
    case DoctorId => f.(doctorId := value)
    case DateField => f.(date := value)
    case Time => f.(time := value)
    case DurationSlots => f.(durationSlots := value)
    case StatusField => f.(status := value)
    case Notes => f.(notes := value)
  }

  /** The initial form: the `patientId` prop (or empty), no doctor or date, 08:00, one slot, PENDING. */
  function DefaultForm(patientIdProp: string): (f: Form)
    ensures f.patientId == patientIdProp && f.doctorId == "" && f.date == "" && f.notes == ""
    ensures TimeToMinutes(f.time) == Some(8 * 60)
    ensures ParseIntPrefix(f.durationSlots) == Some(1)
    ensures Statuses.ParseStatus(f.status) == Some(Statuses.Pending)
  {
    Form(patientIdProp, "", "", DefaultTime(), DefaultSlots(), DefaultStatus(), "")
  }

  /** The default time, 08:00. */
  function DefaultTime(): (t: string)
    ensures TimeToMinutes(t) == Some(8 * 60) && OnHalfHour(t)
  {
    var t := ClockLabel(8, 0);
    HalfHourLabel(t, 8, 0);
    t
  }

  /** The default duration, one slot. */
  function DefaultSlots(): (t: string)
    ensures ParseIntPrefix(t) == Some(1)
  {
    ParseAllDigits("1");
    "1"
  }

  /** The default status code, PENDING. */
  function DefaultStatus(): (t: string)
    ensures Statuses.ParseStatus(t) == Some(Statuses.Pending)
  {
    Statuses.ParseStatusCode(Statuses.Pending);
    Statuses.StatusCode(Statuses.Pending)
  }

  /**
   * The prefill from an appointment. `dateText` is the date part of
   * `toISOString()`, which depends on the time zone and is a parameter here;
   * the time is the local "HH:MM" of the start.
   */
  function Prefill(a: Appointment, dateText: string): (f: Form)
    ensures f.patientId == (if a.patientId.Some? then a.patientId.value else "")
    ensures f.doctorId == a.doctorId && f.date == dateText && f.notes == a.notes
    ensures TimeToMinutes(f.time) == Some(MinuteOfDay(a.start))
    ensures f.durationSlots == IntToDecimal(SlotsOf(a))
    ensures a.status != "" ==> f.status == a.status
    ensures a.status == "" ==> f.status == Statuses.StatusCode(Statuses.Pending)
  {
    Form(if a.patientId.Some? then a.patientId.value else "",
         a.doctorId,
         dateText,
         TimeLabel(MinuteOfDay(a.start)),
         IntToDecimal(SlotsOf(a)),
         if a.status != "" then a.status else Statuses.StatusCode(Statuses.Pending),
         a.notes)
  }

  /** The local "HH:MM" of a minute of the day. */
  function TimeLabel(minute: int): (t: string)
    requires 0 <= minute < MinutesPerDay
    ensures TimeToMinutes(t) == Some(minute)
  {
    HourAndMinute(minute);
    var h, m := minute / 60, minute % 60;
    ClockLabelMinutes(h, m);
    ClockLabel(h, m)
  }

  lemma HourAndMinute(minute: int)
    requires 0 <= minute < MinutesPerDay
    ensures 0 <= minute / 60 < 24 && 0 <= minute % 60 < 60
    ensures 60 * (minute / 60) + minute % 60 == minute
  {
  }

  /** The prefill effect: an appointment wins; else a `patientId` prop replaces only that field. */
  function PrefillEffect(prev: Form, appointment: Option<Appointment>, dateText: string, patientIdProp: string): (f: Form)
    ensures appointment.Some? ==> f == Prefill(appointment.value, dateText)
    ensures appointment.None? && patientIdProp != "" ==> (f.patientId == patientIdProp
      && forall g :: g != PatientId ==> Get(f, g) == Get(prev, g))
    ensures appointment.None? && patientIdProp == "" ==> f == prev
  {
    match appointment
    case Some(a) => Prefill(a, dateText)
    case None => if patientIdProp != "" then Set(prev, PatientId, patientIdProp) else prev
  }

  /** The errors shown under the inputs; a field with no entry shows none. */
  type Errors = map<Field, string>

  /**
   * `handleChange`: the named field takes the new value and loses its error;
   * every other field and error stays as it was.
   */
  function HandleChange(f: Form, errors: Errors, field: Field, value: string): (r: (Form, Errors))
    ensures Get(r.0, field) == value && field !in r.1
    ensures forall g :: g != field ==> Get(r.0, g) == Get(f, g)
    ensures forall g :: g != field ==> (g in r.1 <==> g in errors) && (g in r.1 ==> r.1[g] == errors[g])
  {
    (Set(f, field, value), if field in errors then errors - {field} else errors)
  }

  const PatientRequired: string := "El paciente es obligatorio"
  const DoctorRequired: string := "El doctor es obligatorio"
  const DateRequired: string := "La fecha es obligatoria"
  const TimeRequired: string := "La hora es obligatoria"
  const DurationRequired: string := "La duración es obligatoria"
  const HalfHourOnly: string := "La hora debe ser en punto (:00) o media hora (:30)"

  /** `parseInt(time.split(':')[1], 10)`; `None` is `NaN`, which a time without a colon gives. */
  function MinutesOf(time: string): Option<int> {
    var parts := Split(time, ':');
    if |parts| > 1 then ParseIntPrefix(parts[1]) else None
  }

  /** The time is on the hour or on the half hour. */
  predicate OnHalfHour(time: string) {
    MinutesOf(time) == Some(0) || MinutesOf(time) == Some(30)
  }

  /**
   * `validate`: one error per empty required field, and an error on the time
   * unless its minutes read 0 or 30 (that message replaces "required").
   */
  function Validate(f: Form): (e: Errors)
    ensures PatientId in e <==> f.patientId == ""
    ensures DoctorId in e <==> f.doctorId == ""
    ensures DateField in e <==> f.date == ""
    ensures DurationSlots in e <==> f.durationSlots == ""
    ensures Time in e <==> !OnHalfHour(f.time)
    ensures StatusField !in e && Notes !in e
    ensures Time in e ==> e[Time] == HalfHourOnly
  {
    var e0: Errors := map[];
    var e1 := if f.patientId == "" then e0[PatientId := PatientRequired] else e0;
    var e2 := if f.doctorId == "" then e1[DoctorId := DoctorRequired] else e1;
    var e3 := if f.date == "" then e2[DateField := DateRequired] else e2;
    var e4 := if f.time == "" then e3[Time := TimeRequired] else e3;
    var e5 := if f.durationSlots == "" then e4[DurationSlots := DurationRequired] else e4;
    var onGrid := OnHalfHour(f.time);
    if !onGrid then e5[Time := HalfHourOnly] else e5
  }

  /** `validate()` returns true: no error was recorded. */
  predicate Valid(f: Form) {
    |Validate(f)| == 0
  }

  /** The form is valid exactly when the four required texts are present and the time is on a half hour. */
  lemma ValidIff(f: Form)
    ensures Valid(f) <==> (f.patientId != "" && f.doctorId != "" && f.date != ""
      && f.durationSlots != "" && OnHalfHour(f.time))
  {
    var e := Validate(f);
    if !Valid(f) {
      var g :| g in e;
    }
  }

  /** The default form is never valid: the doctor and date are missing, and the patient unless a prop gave one. */
  lemma DefaultFormInvalid(patientIdProp: string)
    ensures !Valid(DefaultForm(patientIdProp))
    ensures var e := Validate(DefaultForm(patientIdProp));
      DoctorId in e && DateField in e && Time !in e && (PatientId in e <==> patientIdProp == "")
  {
    var f := DefaultForm(patientIdProp);
    assert f.time == DefaultTime();
    assert DoctorId in Validate(f);
  }

  /** The record handed to `onSubmit`. */
  datatype Payload = Payload(
    id: Option<string>,
    patientId: string,
    doctorId: string,
    start: Instant,
    end: Instant,
    durationSlots: int,
    status: string,
    notes: string)

  /** The outcome of pressing submit. */
  datatype Submission =
    | Rejected(errors: Errors)  // validation failed; `onSubmit` is not called
    | Throws                    // an unreadable hour, date or duration makes an invalid date; `toISOString` throws
    | Submitted(payload: Payload)

  /** The hour `handleSubmit` reads: `parseInt` of the text before the first colon. */
  function HoursOf(time: string): Option<int> {
    ParseIntPrefix(Split(time, ':')[0])
  }

  /**
   * `handleSubmit`. `day` is the day `new Date(form.date)` stands for (`None`
   * for an unreadable date); the start is that day at the form's hour and
   * minutes, the end `30 * durationSlots` minutes later, and the id the one of
   * the appointment being edited. The hour and the slot count are read with
   * their sign: a negative hour moves the start into an earlier day, and a
   * negative slot count puts the end before the start.
   */
  function Submit(f: Form, appointmentId: Option<string>, day: Option<int>): (s: Submission)
    ensures s.Rejected? <==> !Valid(f)
    ensures s.Rejected? ==> s.errors == Validate(f)
    ensures s.Throws? <==>
      Valid(f) && (day.None? || HoursOf(f.time).None? || ParseIntPrefix(f.durationSlots).None?)
    ensures s.Submitted? ==> (
      var p := s.payload;
      Valid(f) && day.Some? && HoursOf(f.time).Some?
      && p.id == appointmentId && p.patientId == f.patientId && p.doctorId == f.doctorId
      && p.status == f.status && p.notes == f.notes
      && ParseIntPrefix(f.durationSlots) == Some(p.durationSlots)
      && p.end - p.start == 30 * p.durationSlots * MsPerMinute
      && (DayOf(p.start) >= day.value <==> HoursOf(f.time).value >= 0)
      && p.start % MsPerMinute == 0)
  {
    if !Valid(f) then Rejected(Validate(f))
    else
      var hours := HoursOf(f.time);
      var minutes := MinutesOf(f.time);
      var slots := ParseIntPrefix(f.durationSlots);
      if day.None? || hours.None? || minutes.None? || slots.None? then Throws
      else
        var minute := 60 * hours.value + minutes.value;
        var start := AtMinute(day.value, minute);
        ValidIff(f);
        assert minute >= 0 <==> hours.value >= 0;
        AtMinuteSign(day.value, minute);
        var end := start + 30 * slots.value * MsPerMinute;
        Submitted(Payload(appointmentId, f.patientId, f.doctorId, start, end, slots.value, f.status, f.notes))
  }

  /** The hour option for row `k`: 8 + k/2 hours and 0 or 30 minutes. */
  function TimeOptions(): seq<string> {
    seq(24, k requires 0 <= k < 24 => TimeOption(k))
  }

  function TimeOption(k: int): string
    requires 0 <= k < 24
  {
    ClockLabel(8 + k / 2, 30 * (k % 2))
  }

  /** How many options the loop over hours 0..23 has produced before `hour`. */
  function EmittedBefore(hour: int): int {
    if hour <= 8 then 0 else if hour >= 20 then 24 else 2 * (hour - 8)
  }

  lemma OptionIndex(hour: int, j: int)
    requires 8 <= hour < 20 && 0 <= j < 2
    ensures var k := 2 * (hour - 8) + j; 0 <= k < 24 && k / 2 == hour - 8 && k % 2 == j
  {
  }

  /** The label the loop pushes for (`hour`, `30 * j`) is option 2·(hour − 8) + j. */
  lemma OptionAt(hour: int, j: int)
    requires 8 <= hour < 20 && 0 <= j < 2
    ensures |TimeOptions()| == 24
    ensures TimeOptions()[2 * (hour - 8) + j] == Pad2(hour) + ":" + Pad2(30 * j)
  {
    var k := 2 * (hour - 8) + j;
    OptionIndex(hour, j);
    var t := TimeOptions()[k];
    assert t == ClockLabel(hour, 30 * j);
    ClockLabelPadded(hour, 30 * j);
  }

  /** Pushing the label for (`hour`, `30 * j`) extends the list by the next option. */
  lemma PushOption(opts: seq<string>, hour: int, j: int)
    requires 8 <= hour < 20 && 0 <= j < 2
    requires |opts| == EmittedBefore(hour) + j && opts == TimeOptions()[..|opts|]
    ensures var next := opts + [Pad2(hour) + ":" + Pad2(30 * j)];
      |next| == EmittedBefore(hour) + j + 1 && next == TimeOptions()[..|next|]
  {
    var pushed := Pad2(hour) + ":" + Pad2(30 * j);
    OptionAt(hour, j);
    PrefixExtend(opts, TimeOptions(), pushed);
  }

  /** A prefix followed by the next element is the next-longer prefix. */
  lemma PrefixExtend(s: seq<string>, full: seq<string>, x: string)
    requires |s| < |full| && s == full[..|s|] && full[|s|] == x
    ensures s + [x] == full[..|s| + 1]
  {
  }

  /** Each hour of the outer loop adds two options inside the window and none outside it. */
  lemma EmittedStep(hour: int)
    requires 0 <= hour < 24
    ensures EmittedBefore(hour + 1) == EmittedBefore(hour) + (if 8 <= hour < 20 then 2 else 0)
  {
  }

  /** The whole list is its own 24-element prefix. */
  lemma AllOptions(opts: seq<string>)
    requires |opts| == 24 && opts == TimeOptions()[..24]
    ensures opts == TimeOptions()
  {
  }

  /**
   * The component's option list: every hour 0..23 with minutes 0 and 30, kept
   * only for hours 8..19, in order.
   */
  method BuildTimeOptions() returns (opts: seq<string>)
    ensures opts == TimeOptions()
  {
    opts := [];
    var hour := 0;
    while hour < 24
      invariant 0 <= hour <= 24
      invariant |opts| == EmittedBefore(hour) && opts == TimeOptions()[..|opts|]
    {
      var j := 0;
      while j < 2
        invariant 0 <= j <= 2
        invariant |opts| == EmittedBefore(hour) + (if 8 <= hour < 20 then j else 0)
        invariant opts == TimeOptions()[..|opts|]
      {
        if hour >= 8 && hour < 20 {
          PushOption(opts, hour, j);
          opts := opts + [Pad2(hour) + ":" + Pad2(30 * j)];
        }
        j := j + 1;
      }
      EmittedStep(hour);
      hour := hour + 1;
    }
    AllOptions(opts);
  }

  /** Option `k` of the list is the label for row `k`. */
  lemma OptionIsTimeOption(k: int)
    requires 0 <= k < 24
    ensures TimeOptions()[k] == TimeOption(k)
  {
  }

  /** Option `k` is 08:00 + 30·k minutes and always passes the half-hour rule. */
  lemma TimeOptionFacts(k: int)
    requires 0 <= k < 24
    ensures TimeToMinutes(TimeOption(k)) == Some(480 + 30 * k)
    ensures MinutesOf(TimeOption(k)) == Some(30 * (k % 2)) && OnHalfHour(TimeOption(k))
    ensures HoursOf(TimeOption(k)) == Some(8 + k / 2)
  {
    var h, m := OptionParts(k);
    var t := TimeOption(k);
    assert HoursOf(t) == Some(h) && MinutesOf(t) == Some(m) && OnHalfHour(t) && TimeToMinutes(t) == Some(60 * h + m) by {
      HalfHourLabel(t, h, m);
    }
  }

  /** The 24 options read as the half hours from 08:00 to 19:30, in order. */
  lemma TimeOptionsInOrder()
    ensures |TimeOptions()| == 24
    ensures forall k :: 0 <= k < 24 ==> TimeToMinutes(TimeOptions()[k]) == Some(480 + 30 * k)
  {
    forall k | 0 <= k < 24
      ensures TimeToMinutes(TimeOptions()[k]) == Some(480 + 30 * k)
    {
      TimeOptionFacts(k);
    }
  }

  /** Option `k` is the clock label of hour `8 + k / 2` and minute `30 * (k % 2)`. */
  lemma OptionParts(k: int) returns (h: nat, m: nat)
    requires 0 <= k < 24
    ensures h == 8 + k / 2 && m == 30 * (k % 2) && TimeOption(k) == ClockLabel(h, m)
    ensures h < 100 && (m == 0 || m == 30) && 60 * h + m == 480 + 30 * k
  {
    h, m := 8 + k / 2, 30 * (k % 2);
  }

  /** What the form reads from a clock label on the hour or the half hour. */
  lemma HalfHourLabel(t: string, h: nat, m: nat)
    requires h < 100 && (m == 0 || m == 30) && t == ClockLabel(h, m)
    ensures TimeToMinutes(t) == Some(60 * h + m)
    ensures MinutesOf(t) == Some(m) && OnHalfHour(t)
    ensures HoursOf(t) == Some(h)
  {
    ClockLabelMinutes(h, m);
    ClockLabelFields(h, m);
  }

  /** The duration options: slots 1..6 with their labels. */
  const DurationOptions: seq<(string, string)> := [
    ("1", "30 minutos"), ("2", "1 hora"), ("3", "1 hora 30 minutos"),
    ("4", "2 horas"), ("5", "2 horas 30 minutos"), ("6", "3 horas")]

  /** Option `i` submits `i + 1` slots. */
  lemma DurationOptionValue(i: int)
    requires 0 <= i < 6
    ensures ParseIntPrefix(DurationOptions[i].0) == Some(i + 1)
  {
    var s := DurationOptions[i].0;
    assert |s| == 1 && AllDigits(s) && DigitsValue(s) == i + 1;
    ParseAllDigits(s);
  }

  /** The status options: the six English codes with their labels. */
  const StatusOptions: seq<(string, string)> := [
    ("PENDING", "Sin confirmar"), ("CONFIRMED", "Confirmada"), ("WAITING_ROOM", "En sala de espera"),
    ("IN_PROGRESS", "En curso"), ("COMPLETED", "Completada"), ("CANCELLED", "Cancelada")]

  /** The status options are exactly the English vocabulary, in its order. */
  lemma StatusOptionsAreCodes()
    ensures |StatusOptions| == |Statuses.AllStatuses|
    ensures forall i :: 0 <= i < |StatusOptions| ==> StatusOptions[i].0 == Statuses.StatusCode(Statuses.AllStatuses[i])
  {
  }

  /** A valid form whose hour, minutes and duration read as numbers submits exactly those. */
  lemma SubmitAt(f: Form, appointmentId: Option<string>, day: int, h: nat, m: nat, n: int)
    requires Valid(f)
    requires HoursOf(f.time) == Some(h) && MinutesOf(f.time) == Some(m)
    requires ParseIntPrefix(f.durationSlots) == Some(n)
    ensures Submit(f, appointmentId, Some(day)) == Submitted(Payload(appointmentId, f.patientId, f.doctorId,
      AtMinute(day, 60 * h + m), AtMinute(day, 60 * h + m) + 30 * n * MsPerMinute, n, f.status, f.notes))
  {
  }

  /**
   * A form filled from the option lists submits a start at the option's time of
   * the chosen day and an end `30 * slots` minutes later.
   */
  lemma OptionsSubmit(f: Form, appointmentId: Option<string>, day: int, k: int, i: int)
    requires 0 <= k < 24 && 0 <= i < 6
    requires f.time == TimeOptions()[k] && f.durationSlots == DurationOptions[i].0
    requires f.patientId != "" && f.doctorId != "" && f.date != ""
    ensures Submit(f, appointmentId, Some(day)).Submitted?
    ensures var p := Submit(f, appointmentId, Some(day)).payload;
      DayOf(p.start) == day && MinuteOfDay(p.start) == 480 + 30 * k
      && p.durationSlots == i + 1 && p.end == p.start + 30 * (i + 1) * MsPerMinute
  {
    OptionIsTimeOption(k);
    TimeOptionFacts(k);
    DurationOptionValue(i);
    ValidIff(f);
    var h, m := 8 + k / 2, 30 * (k % 2);
    assert 60 * h + m == 480 + 30 * k;
    SubmitAt(f, appointmentId, day, h, m, i + 1);
    AtMinuteParts(day, 480 + 30 * k);
  }

  /**
   * Editing an appointment on the half-hour grid and submitting at once hands
   * back its slot count as stored, sign included: a stored negative count
   * submits an end before the start.
   */
  lemma PrefillThenSubmit(a: Appointment, dateText: string, day: int)
    requires a.patientId.Some? && a.patientId.value != "" && a.doctorId != "" && dateText != ""
    requires MinuteOfDay(a.start) % 30 == 0
    ensures var s := Submit(Prefill(a, dateText), a.id, Some(day));
      s.Submitted? && s.payload.durationSlots == SlotsOf(a)
      && DayOf(s.payload.start) == day && MinuteOfDay(s.payload.start) == MinuteOfDay(a.start)
      && s.payload.end - s.payload.start == 30 * SlotsOf(a) * MsPerMinute
      && (SlotsOf(a) < 0 ==> s.payload.end < s.payload.start)
  {
    var f := Prefill(a, dateText);
    var minute := MinuteOfDay(a.start);
    var h, m := PrefillReadsBack(a, dateText);
    SubmitAt(f, a.id, day, h, m, SlotsOf(a));
    AtMinuteParts(day, minute);
  }

  /** The prefilled form is valid and reads back the start's hour and minutes and the stored slot count. */
  lemma PrefillReadsBack(a: Appointment, dateText: string) returns (h: nat, m: nat)
    requires a.patientId.Some? && a.patientId.value != "" && a.doctorId != "" && dateText != ""
    requires MinuteOfDay(a.start) % 30 == 0
    ensures var f := Prefill(a, dateText);
      Valid(f) && HoursOf(f.time) == Some(h) && MinutesOf(f.time) == Some(m)
      && 60 * h + m == MinuteOfDay(a.start)
      && ParseIntPrefix(f.durationSlots) == Some(SlotsOf(a))
  {
    var f := Prefill(a, dateText);
    h, m := HalfHourParts(MinuteOfDay(a.start));
    assert f.time == ClockLabel(h, m);
    HalfHourLabel(f.time, h, m);
    ParseIntToDecimal(SlotsOf(a));
    ValidIff(f);
  }

  /** A minute on the half-hour grid splits into an hour below 24 and minutes 0 or 30. */
  lemma HalfHourParts(minute: int) returns (h: nat, m: nat)
    requires 0 <= minute < MinutesPerDay && minute % 30 == 0
    ensures h < 24 && (m == 0 || m == 30) && 60 * h + m == minute
    ensures h == minute / 60 && m == minute % 60
  {
    HourAndMinute(minute);
    h, m := minute / 60, minute % 60;
  }
}

=== FILE: appointments.dfy ===
/**
 * The appointment record the schedule components share, and the three list
 * updates the schedule page applies after the server answers: append on create,
 * replace-by-id on update, filter-by-id on delete.
 */
module Appointments {

  import opened Wrappers
  import opened Civil

  /**
   * An appointment. `durationSlots` counts half-hour rows; 0 stands for a
   * missing value (both are falsy in `durationSlots || 1`). Empty strings stand
   * for missing text fields.
   */
  datatype Appointment = Appointment(
    id: Option<string>,
    doctorId: string,
    patientId: Option<string>,
    start: Instant,
    durationSlots: int,
    status: string,
    patientName: string,
    doctorName: string,
    treatment: string,
    notes: string)

  /** `appointment.durationSlots || 1`: the number of rows an appointment spans. */
  function SlotsOf(a: Appointment): (n: int)
    ensures n != 0
    ensures a.durationSlots != 0 ==> n == a.durationSlots
  {
    if a.durationSlots == 0 then 1 else a.durationSlots
  }

  /** `new Date(a.start).toDateString() === date.toDateString()`. */
  predicate OnDay(a: Appointment, day: int) {
    DayOf(a.start) == day
  }

  /** `OnDay` as the test a `filter` or `some` applies. */
  function OnDate(day: int): Appointment -> bool {
    (a: Appointment) => OnDay(a, day)
  }

  /** The appointment belongs to this doctor, falls on this day and begins at minute-of-day `minute` (`None`, a `NaN` slot time, matches nothing). */
  predicate StartsAt(a: Appointment, doctorId: string, day: int, minute: Option<int>) {
    a.doctorId == doctorId && OnDay(a, day) && minute == Some(MinuteOfDay(a.start))
  }

  /** What a click asks the page to create: the doctor's column and the start instant. */
  datatype Draft = Draft(doctorId: string, start: Instant)

  /** How many appointments carry the id `id`. */
  function CountId(s: seq<Appointment>, id: Option<string>): nat {
    if |s| == 0 then 0 else (if s[0].id == id then 1 else 0) + CountId(s[1..], id)
  }

  /** `prev.filter(appt => appt.id !== id)`. */
  function RemoveById(s: seq<Appointment>, id: Option<string>): (r: seq<Appointment>)
    ensures |r| <= |s|
    ensures forall i :: 0 <= i < |r| ==> r[i].id != id && r[i] in s
    ensures forall i :: 0 <= i < |s| && s[i].id != id ==> s[i] in r
  {
    if |s| == 0 then []
    else (if s[0].id == id then [] else [s[0]]) + RemoveById(s[1..], id)
  }

  /** `prev.map(appt => appt.id === id ? v : appt)`. */
  function ReplaceById(s: seq<Appointment>, id: Option<string>, v: Appointment): (r: seq<Appointment>)
    ensures |r| == |s|
    ensures forall i :: 0 <= i < |s| && s[i].id != id ==> r[i] == s[i]
    ensures forall i :: 0 <= i < |s| && s[i].id == id ==> r[i] == v
  {
    if |s| == 0 then [] else [if s[0].id == id then v else s[0]] + ReplaceById(s[1..], id, v)
  }

  /** A delete removes exactly the elements carrying the id. */
  lemma {:induction false} RemoveByIdCount(s: seq<Appointment>, id: Option<string>)
    ensures |RemoveById(s, id)| + CountId(s, id) == |s|
  {
    if |s| > 0 {
      RemoveByIdCount(s[1..], id);
    }
  }

  /** A delete keeps the survivors in their original order. */
  lemma {:induction false} RemoveByIdConcat(a: seq<Appointment>, b: seq<Appointment>, id: Option<string>)
    ensures RemoveById(a + b, id) == RemoveById(a, id) + RemoveById(b, id)
  {
    if |a| == 0 {
      assert a + b == b;
    } else {
      assert (a + b)[1..] == a[1..] + b;
      RemoveByIdConcat(a[1..], b, id);
    }
  }

  /** A list without the id is untouched by a delete of that id. */
  lemma {:induction false} RemoveAbsentId(s: seq<Appointment>, id: Option<string>)
    requires CountId(s, id) == 0
    ensures RemoveById(s, id) == s
  {
    if |s| > 0 {
      RemoveAbsentId(s[1..], id);
    }
  }

  /** Deleting a freshly created appointment (with a new id) gives the list back. */
  lemma CreateThenDelete(s: seq<Appointment>, a: Appointment)
    requires CountId(s, a.id) == 0
    ensures RemoveById(s + [a], a.id) == s
  {
    RemoveByIdConcat(s, [a], a.id);
    RemoveAbsentId(s, a.id);
    assert RemoveById([a], a.id) == [];
  }

  /** Replacing and then deleting by the same id is just deleting. */
  lemma {:induction false} DeleteAfterReplace(s: seq<Appointment>, id: Option<string>, v: Appointment)
    requires v.id == id
    ensures RemoveById(ReplaceById(s, id, v), id) == RemoveById(s, id)
  {
    if |s| > 0 {
      DeleteAfterReplace(s[1..], id, v);
      assert ReplaceById(s, id, v)[1..] == ReplaceById(s[1..], id, v);
    }
  }
}

=== FILE: calendar_view.dfy ===
/**
 * The day calendar page (`calendar-view`): a date with day/week navigation,
 * an optional selected doctor, the three fixture doctors and their nine
 * appointments, one `DentistColumn` per shown doctor, the current-time line
 * and the extra "add" column.
 */
module CalendarView {

  import opened Wrappers
  import opened Civil
  import Lists
  import DentistColumn

  /** `new Date(2025, 4, 16)`: the initial date and the one "today" goes back to. */
  function FixedToday(): int {
    DayNumber(Date(2025, 5, 16))
  }

  /** The page state: the shown day, the view name and the selected doctor id. */
  datatype State = State(date: int, view: string, selectedDoctor: Option<string>)

  function Initial(): State {
    State(FixedToday(), "day", None)
  }

  /** One day in day view, a week in any other view. */
  function Step(view: string): (n: int)
    ensures n == 1 || n == 7
    ensures n == 1 <==> view == "day"
  {
    if view == "day" then 1 else 7
  }

  /** `handlePrevious`. */
  function Previous(s: State): (r: State)
    ensures r.date == s.date - Step(s.view)
    ensures r.view == s.view && r.selectedDoctor == s.selectedDoctor
  {
    s.(date := s.date - Step(s.view))
  }

  /** `handleNext`. */
  function Next(s: State): (r: State)
    ensures r.date == s.date + Step(s.view)
    ensures r.view == s.view && r.selectedDoctor == s.selectedDoctor
  {
    s.(date := s.date + Step(s.view))
  }

  /** Next undoes previous, and previous undoes next. */
  lemma NextUndoesPrevious(s: State)
    ensures Next(Previous(s)) == s && Previous(Next(s)) == s
  {
  }

  /** `handleToday`: always 16 May 2025, whatever the date was. */
  function Today(s: State): (r: State)
    ensures r.date == FixedToday() && r.view == s.view && r.selectedDoctor == s.selectedDoctor
  {
    s.(date := FixedToday())
  }

  /** "Today" forgets the navigation: moving first changes nothing. */
  lemma TodayForgetsNavigation(s: State)
    ensures Today(Next(s)) == Today(s) && Today(Previous(s)) == Today(s)
    ensures Weekday(Today(s).date) == 5
  {
  }

  /** `handleDoctorChange`: `e.target.value || null`. */
  function DoctorChange(s: State, value: string): (r: State)
    ensures value == "" ==> r.selectedDoctor == None
    ensures value != "" ==> r.selectedDoctor == Some(value)
    ensures r.date == s.date && r.view == s.view
  {
    s.(selectedDoctor := if value == "" then None else Some(value))
  }

  datatype Dentist = Dentist(id: string, name: string, avatar: string, appointments: int, patients: int)

  /** The three doctors of the fixture. */
  const Dentists: seq<Dentist> := [
    Dentist("1", "Dr. Martínez", "/placeholder.svg", 3, 3),
    Dentist("2", "Dra. Rodríguez", "/placeholder.svg", 3, 3),
    Dentist("3", "Dr. García", "/placeholder.svg", 3, 3)
  ]

  function HasId(id: string): Dentist -> bool {
    (d: Dentist) => d.id == id
  }

  /** `filteredDentists`: everyone when no doctor is selected, else the doctors with that id, in order. */
  function FilteredDentists(dentists: seq<Dentist>, selected: Option<string>): (r: seq<Dentist>)
    ensures selected.None? ==> r == dentists
    ensures selected.Some? ==> r == Lists.Filter(dentists, HasId(selected.value))
  {
    match selected
    case None => dentists
    case Some(id) => Lists.Filter(dentists, HasId(id))
  }

  /** The filtered list keeps exactly the selected doctors and their relative order. */
  lemma FilteredDentistsSelect(dentists: seq<Dentist>, id: string, a: seq<Dentist>, b: seq<Dentist>)
    requires dentists == a + b
    ensures var r := FilteredDentists(dentists, Some(id));
      (forall i :: 0 <= i < |r| ==> r[i].id == id && r[i] in dentists)
      && (forall i :: 0 <= i < |dentists| && dentists[i].id == id ==> dentists[i] in r)
      && r == FilteredDentists(a, Some(id)) + FilteredDentists(b, Some(id))
  {
    Lists.FilterConcat(a, b, HasId(id));
  }

  /** The appointments of one doctor, as the fixture groups them. */
  datatype DentistAppointments = DentistAppointments(dentistId: string, appointments: seq<DentistColumn.CalAppointment>)

  function Appt(id: string, patientName: string, startTime: string, endTime: string, treatment: string,
                status: string, color: string, startSlot: int, endSlot: int): DentistColumn.CalAppointment {
    DentistColumn.CalAppointment(id, patientName, startTime, endTime, treatment, status, color, startSlot, endSlot)
  }

  /** The nine appointments of the day, grouped by doctor. */
  const AllAppointments: seq<DentistAppointments> := [
    DentistAppointments("1", [
      Appt("1", "María López", "09:00", "10:00", "Revisión General", "finished", "pink", 0, 1),
      Appt("2", "Juan Pérez", "11:30", "12:30", "Limpieza Dental", "encounter", "green", 5, 6),
      Appt("3", "Carlos Ruiz", "15:00", "16:00", "Extracción", "registered", "blue", 12, 14)]),
    DentistAppointments("2", [
      Appt("4", "Ana Torres", "09:30", "10:30", "Blanqueamiento", "finished", "green", 1, 2),
      Appt("5", "Elena García", "12:00", "13:00", "Ortodoncia", "waiting", "yellow", 6, 7),
      Appt("6", "Pablo Martín", "14:30", "15:30", "Implante", "registered", "pink", 11, 12)]),
    DentistAppointments("3", [
      Appt("7", "Laura Díaz", "10:00", "11:00", "Empaste", "finished", "blue", 2, 3),
      Appt("8", "Javier Sánchez", "13:00", "14:00", "Revisión de Brackets", "encounter", "green", 8, 9),
      Appt("9", "Sofía Hernández", "16:00", "17:00", "Radiografía", "waiting", "yellow", 14, 15)])
  ]

  /** The per-doctor counts. */
  function Counts(all: seq<DentistAppointments>): (r: seq<nat>)
    ensures |r| == |all| && forall i :: 0 <= i < |all| ==> r[i] == |all[i].appointments|
  {
    seq(|all|, i requires 0 <= i < |all| => |all[i].appointments|)
  }

  /**
   * The `reduce` loop: `total + dentistAppts.appointments.length` from the
   * left. It adds the starting total to the sum of the per-doctor counts.
   */
  function CountFrom(all: seq<DentistAppointments>, total: nat): (r: nat)
    ensures r == total + Lists.Sum(Counts(all))
    decreases |all|
  {
    if |all| == 0 then total
    else
      assert Counts(all) == [|all[0].appointments|] + Counts(all[1..]);
      CountFrom(all[1..], total + |all[0].appointments|)
  }

  /** `totalAppointments`: the sum of the per-doctor counts. */
  function TotalAppointments(all: seq<DentistAppointments>): (r: nat)
    ensures r == Lists.Sum(Counts(all))
  {
    CountFrom(all, 0)
  }

  /** The total is the sum of the per-doctor counts: nine for the fixture. */
  lemma TotalIsSum(all: seq<DentistAppointments>)
    ensures TotalAppointments(all) == Lists.Sum(Counts(all))
    ensures TotalAppointments(AllAppointments) == 9
  {
  }

  /** `allAppointments.find(a => a.dentistId === id)?.appointments || []`. */
  function AppointmentsOf(all: seq<DentistAppointments>, id: string): (r: seq<DentistColumn.CalAppointment>)
    ensures (forall g :: g in all ==> g.dentistId != id) ==> r == []
    ensures r != [] ==> exists g :: g in all && g.dentistId == id && g.appointments == r
  {
    if |all| == 0 then []
    else if all[0].dentistId == id then all[0].appointments
    else AppointmentsOf(all[1..], id)
  }

  /** How a doctor's column is drawn. */
  datatype Column = Column(dentist: Dentist, appointments: seq<DentistColumn.CalAppointment>, showNotAvailable: bool, showBreakTime: bool)

  /** `find` returns the first group with the doctor's id: its appointments are the doctor's list. */
  lemma {:induction false} AppointmentsOfFirstMatch(all: seq<DentistAppointments>, id: string, i: nat)
    requires i < |all| && all[i].dentistId == id
    requires forall j :: 0 <= j < i ==> all[j].dentistId != id
    ensures AppointmentsOf(all, id) == all[i].appointments
  {
    if i > 0 {
      assert all[0].dentistId != id;
      AppointmentsOfFirstMatch(all[1..], id, i - 1);
    }
  }

  /** One doctor's column: the doctor's appointments from the fixture, with the break time always drawn. */
  function ColumnFor(d: Dentist, notAvailable: bool): Column {
    Column(d, AppointmentsOf(AllAppointments, d.id), notAvailable, true)
  }

  /** The columns as written: NOT AVAILABLE for the third column of the filtered list. */
  function ColumnsAsWritten(s: State): (cols: seq<Column>)
    ensures |cols| == |FilteredDentists(Dentists, s.selectedDoctor)|
    ensures forall i :: 0 <= i < |cols| ==> (cols[i].showNotAvailable <==> i == 2) && cols[i].showBreakTime
  {
    var shown := FilteredDentists(Dentists, s.selectedDoctor);
    seq(|shown|, i requires 0 <= i < |shown| =>
      ColumnFor(shown[i], i == 2))
  }

  /** The columns with NOT AVAILABLE tied to Dr. García (id "3"), the doctor it is meant for. */
  function Columns(s: State): (cols: seq<Column>)
    ensures |cols| == |FilteredDentists(Dentists, s.selectedDoctor)|
    ensures forall i :: 0 <= i < |cols| ==>
      cols[i].dentist == FilteredDentists(Dentists, s.selectedDoctor)[i]
      && (cols[i].showNotAvailable <==> cols[i].dentist.id == "3") && cols[i].showBreakTime
  {
    var shown := FilteredDentists(Dentists, s.selectedDoctor);
    seq(|shown|, i requires 0 <= i < |shown| =>
      ColumnFor(shown[i], shown[i].id == "3"))
  }

  /** Selecting Dr. García alone puts the column first, and as written it loses its NOT AVAILABLE areas. */
  lemma SelectingGarciaHidesNotAvailable(s: State)
    requires s.selectedDoctor == Some("3")
    ensures |ColumnsAsWritten(s)| == 1 && !ColumnsAsWritten(s)[0].showNotAvailable
    ensures |Columns(s)| == 1 && Columns(s)[0].showNotAvailable
  {
    var p := HasId("3");
    assert Dentists == [Dentists[0]] + [Dentists[1]] + [Dentists[2]];
    Lists.FilterConcat([Dentists[0]] + [Dentists[1]], [Dentists[2]], p);
    Lists.FilterConcat([Dentists[0]], [Dentists[1]], p);
    assert FilteredDentists(Dentists, s.selectedDoctor) == [Dentists[2]];
  }

  /** With no doctor selected both agree: only the third column, Dr. García's, shows NOT AVAILABLE. */
  lemma AllDoctorsAgree(s: State)
    requires s.selectedDoctor.None?
    ensures ColumnsAsWritten(s) == Columns(s)
  {
    var a, b := ColumnsAsWritten(s), Columns(s);
    forall i | 0 <= i < |a|
      ensures a[i] == b[i]
    {
      assert a[i] == ColumnFor(Dentists[i], i == 2);
      assert b[i] == ColumnFor(Dentists[i], Dentists[i].id == "3");
    }
  }

  /** The current-time line is drawn only between 08:00 and 20:00, the hours the slots cover. */
  predicate ShowTimeLine(currentHour: int) {
    currentHour >= 8 && currentHour < 20
  }

  lemma TimeLineInsideColumn(currentHour: int, currentMinute: int)
    requires 0 <= currentMinute < 60
    ensures ShowTimeLine(currentHour) <==>
      DentistColumn.Window.first <= 60 * currentHour + currentMinute < DentistColumn.Window.first + 60 * 12
  {
  }

  /** A row of the add column: top border, dashed border, and the add button. */
  datatype AddRow = AddRow(bordered: bool, dashed: bool, button: bool)

  function AddColumn(): (rows: seq<AddRow>)
    ensures |rows| == 25
    ensures forall i :: 0 <= i < 25 ==> (rows[i].dashed <==> i % 2 == 1) && (rows[i].bordered <==> i > 0)
    ensures forall i :: 0 <= i < 25 ==> (rows[i].button <==> i == 24)
  {
    seq(25, i => AddRow(i > 0, i % 2 != 0, i == 24))
  }
}

=== FILE: civil.dfy ===
/**
 * Civil calendar and local time, as the components see them through JavaScript's
 * `Date`: a day is an integer day number (0 is Thursday 1 January 1970), a civil
 * date is a (year, month, day) triple with month 1..12 (`getMonth() + 1`), and an
 * instant is an integer count of milliseconds since local midnight of day 0.
 * Time zones and daylight-saving shifts are not modelled: every day is 24 hours.
 */
module Civil {

  const MsPerMinute: int := 60000
  const MinutesPerDay: int := 1440
  const MsPerDay: int := 86400000

  /** A civil date. `day` may lie outside the month: `new Date(y, m, d)` rolls over. */
  datatype Date = Date(year: int, month: int, day: int)

  predicate IsLeapYear(y: int) {
    (y % 4 == 0 && y % 100 != 0) || y % 400 == 0
  }

  function YearLength(y: int): int {
    if IsLeapYear(y) then 366 else 365
  }

  function DaysInMonth(y: int, m: int): (n: int)
    requires 1 <= m <= 12
    ensures 28 <= n <= 31
  {
    if m == 2 then (if IsLeapYear(y) then 29 else 28)
    else if m == 4 || m == 6 || m == 9 || m == 11 then 30
    else 31
  }

  predicate ValidDate(d: Date) {
    1 <= d.month <= 12 && 1 <= d.day <= DaysInMonth(d.year, d.month)
  }

  /** Days in the months of year `y` that come before month `m`. */
  function DaysBeforeMonth(y: int, m: int): int
    requires 1 <= m <= 13
  {
    if m == 1 then 0 else DaysBeforeMonth(y, m - 1) + DaysInMonth(y, m - 1)
  }

  lemma DaysBeforeMonthYear(y: int)
    ensures DaysBeforeMonth(y, 13) == YearLength(y)
  {
    var feb := DaysInMonth(y, 2);
    assert DaysBeforeMonth(y, 2) == 31;
    assert DaysBeforeMonth(y, 3) == 31 + feb;
    assert DaysBeforeMonth(y, 4) == 62 + feb;
    assert DaysBeforeMonth(y, 5) == 92 + feb;
    assert DaysBeforeMonth(y, 6) == 123 + feb;
    assert DaysBeforeMonth(y, 7) == 153 + feb;
    assert DaysBeforeMonth(y, 8) == 184 + feb;
    assert DaysBeforeMonth(y, 9) == 215 + feb;
    assert DaysBeforeMonth(y, 10) == 245 + feb;
    assert DaysBeforeMonth(y, 11) == 276 + feb;
    assert DaysBeforeMonth(y, 12) == 306 + feb;
    assert DaysBeforeMonth(y, 13) == 337 + feb;
  }

  /** Days from 1 January of year 0 to 1 January of year `y` (proleptic Gregorian). */
  function DaysBeforeYear(y: int): int {
    365 * y + (y + 3) / 4 - (y + 99) / 100 + (y + 399) / 400
  }

  /** Consecutive years are `YearLength` days apart. */
  lemma YearStep(y: int)
    ensures DaysBeforeYear(y + 1) == DaysBeforeYear(y) + YearLength(y)
  {
    FourYearStep(y);
    CenturyStep(y);
    FourCenturyStep(y);
    DivisibilityChain(y);
    var leap := (if y % 4 == 0 then 1 else 0) - (if y % 100 == 0 then 1 else 0) + (if y % 400 == 0 then 1 else 0);
    assert leap == (if IsLeapYear(y) then 1 else 0);
  }

  /** A multiple of 400 is a multiple of 100, and a multiple of 100 a multiple of 4. */
  lemma DivisibilityChain(y: int)
    ensures y % 400 == 0 ==> y % 100 == 0
    ensures y % 100 == 0 ==> y % 4 == 0
  {
    if y % 400 == 0 {
      var k := 4 * (y / 400);
      assert y == 100 * k;
      HundredsMod(k);
    }
    if y % 100 == 0 {
      var k := 25 * (y / 100);
      assert y == 4 * k;
      FoursMod(k);
    }
  }

  lemma HundredsMod(k: int)
    ensures (100 * k) % 100 == 0
  {
  }

  lemma FoursMod(k: int)
    ensures (4 * k) % 4 == 0
  {
  }

  /** The count of leap days of the four-year rule grows by one exactly after a multiple of 4. */
  lemma FourYearStep(y: int)
    ensures (y + 4) / 4 == (y + 3) / 4 + (if y % 4 == 0 then 1 else 0)
  {
  }

  /** The count of century years grows by one exactly after a multiple of 100. */
  lemma CenturyStep(y: int)
    ensures (y + 100) / 100 == (y + 99) / 100 + (if y % 100 == 0 then 1 else 0)
  {
  }

  /** The count of four-century years grows by one exactly after a multiple of 400. */
  lemma FourCenturyStep(y: int)
    ensures (y + 400) / 400 == (y + 399) / 400 + (if y % 400 == 0 then 1 else 0)
  {
  }

  /** `DaysBeforeYear(1970)`: the day number origin. */
  const Epoch: int := 719528

  /** The day number of `new Date(year, month - 1, day)`. */
  function DayNumber(d: Date): int
    requires 1 <= d.month <= 12
  {
    DaysBeforeYear(d.year) + DaysBeforeMonth(d.year, d.month) + d.day - 1 - Epoch
  }

  lemma EpochIsDayZero()
    ensures DayNumber(Date(1970, 1, 1)) == 0
  {
  }

  /** The month after (`y`, `m`). */
  function NextMonth(y: int, m: int): (r: (int, int))
    requires 1 <= m <= 12
    ensures 1 <= r.1 <= 12
  {
    if m == 12 then (y + 1, 1) else (y, m + 1)
  }

  /** The month before (`y`, `m`). */
  function PrevMonth(y: int, m: int): (r: (int, int))
    requires 1 <= m <= 12
    ensures 1 <= r.1 <= 12
    ensures NextMonth(r.0, r.1) == (y, m)
  {
    if m == 1 then (y - 1, 12) else (y, m - 1)
  }

  lemma PrevOfNext(y: int, m: int)
    requires 1 <= m <= 12
    ensures PrevMonth(NextMonth(y, m).0, NextMonth(y, m).1) == (y, m)
  {
  }

  /** The first of the next month comes right after the last day of this one. */
  lemma NextMonthStart(y: int, m: int)
    requires 1 <= m <= 12
    ensures DayNumber(Date(NextMonth(y, m).0, NextMonth(y, m).1, 1))
         == DayNumber(Date(y, m, 1)) + DaysInMonth(y, m)
  {
    if m == 12 {
      YearStep(y);
      DaysBeforeMonthYear(y);
    }
  }

  /**
   * `new Date(y, m - 1, d)` for a day number `d` up to 31: a day past the end of
   * the month rolls over into the next month, as JavaScript normalises it.
   */
  function Roll(y: int, m: int, d: int): (r: Date)
    requires 1 <= m <= 12 && 1 <= d <= 31
    ensures ValidDate(r)
    ensures r.year == y && r.month == m <==> d <= DaysInMonth(y, m)
  {
    if d <= DaysInMonth(y, m) then Date(y, m, d)
    else
      var next := NextMonth(y, m);
      Date(next.0, next.1, d - DaysInMonth(y, m))
  }

  /** Rolling over names the same day: the day number is the one `d` counts from the first of the month. */
  lemma RollKeepsDay(y: int, m: int, d: int)
    requires 1 <= m <= 12 && 1 <= d <= 31
    ensures DayNumber(Roll(y, m, d)) == DayNumber(Date(y, m, d))
  {
    if d > DaysInMonth(y, m) {
      NextMonthStart(y, m);
    }
  }

  /** The day number of day `d` of a month is `d - 1` days after the first. */
  lemma DayNumberOfDay(y: int, m: int, d: int)
    requires 1 <= m <= 12
    ensures DayNumber(Date(y, m, d)) == DayNumber(Date(y, m, 1)) + d - 1
  {
  }

  /** JavaScript's `getDay()`: 0 is Sunday, 1 is Monday, ..., 6 is Saturday. */
  function Weekday(n: int): (w: int)
    ensures 0 <= w < 7
  {
    (n + 4) % 7
  }

  lemma WeekdayStep(n: int, k: int)
    ensures Weekday(n + k) == (Weekday(n) + k) % 7
  {
  }

  /** Lexicographic order on (year, month, day): the order `calculateAge` compares in. */
  predicate LexLe(a: Date, b: Date) {
    a.year < b.year
    || (a.year == b.year && (a.month < b.month || (a.month == b.month && a.day <= b.day)))
  }

  /** The `n`-th birthday of someone born on `b`: same month and day, `n` years later. */
  function Anniversary(b: Date, n: int): Date {
    Date(b.year + n, b.month, b.day)
  }

  /**
   * Age in whole years: the year difference, minus one while this year's
   * (month, day) has not been reached yet.
   */
  function Age(birth: Date, today: Date): (age: int)
    ensures LexLe(Anniversary(birth, age), today)
    ensures !LexLe(Anniversary(birth, age + 1), today)
  {
    var years := today.year - birth.year;
    if today.month < birth.month || (today.month == birth.month && today.day < birth.day) then
      years - 1
    else
      years
  }

  /** The age is never negative once the birth date has been reached. */
  lemma AgeNonNegative(birth: Date, today: Date)
    requires LexLe(birth, today)
    ensures Age(birth, today) >= 0
  {
  }

  /** Age is monotone in `today`. */
  lemma AgeMonotone(birth: Date, t1: Date, t2: Date)
    requires LexLe(t1, t2)
    ensures Age(birth, t1) <= Age(birth, t2)
  {
  }

  /** On the `n`-th birthday the age is exactly `n`, and the day before it is `n - 1`. */
  lemma AgeOnBirthday(birth: Date, n: int, dayBefore: Date)
    requires dayBefore.year == birth.year + n
    requires !LexLe(Anniversary(birth, n), dayBefore)
    ensures Age(birth, Anniversary(birth, n)) == n
    ensures Age(birth, dayBefore) == n - 1
  {
  }

  /** A local instant, in milliseconds since midnight of day 0. */
  type Instant = int

  /** The calendar day of an instant (what `toDateString()` identifies). */
  function DayOf(t: Instant): int {
    t / MsPerDay
  }

  /** `getHours() * 60 + getMinutes()`. */
  function MinuteOfDay(t: Instant): (m: int)
    ensures 0 <= m < MinutesPerDay
  {
    (t % MsPerDay) / MsPerMinute
  }

  /** `new Date(day); d.setHours(0, minute, 0, 0)`: the given minute of the given day, seconds zero. */
  function AtMinute(day: int, minute: int): Instant {
    day * MsPerDay + minute * MsPerMinute
  }

  lemma AtMinuteParts(day: int, minute: int)
    requires 0 <= minute < MinutesPerDay
    ensures DayOf(AtMinute(day, minute)) == day
    ensures MinuteOfDay(AtMinute(day, minute)) == minute
    ensures AtMinute(day, minute) % MsPerMinute == 0
  {
    var t := AtMinute(day, minute);
    assert 0 <= minute * MsPerMinute < MsPerDay;
    assert t / MsPerDay == day && t % MsPerDay == minute * MsPerMinute;
  }

  /** Any non-negative minute count past midnight lands on a whole minute, on that day or later. */
  lemma AtMinuteWhole(day: int, minute: int)
    requires 0 <= minute
    ensures AtMinute(day, minute) % MsPerMinute == 0
    ensures DayOf(AtMinute(day, minute)) >= day
  {
    var n := day * MinutesPerDay + minute;
    assert AtMinute(day, minute) == n * MsPerMinute;
    assert AtMinute(day, minute) >= day * MsPerDay;
  }

  /** A negative minute count, as `setHours` with a negative hour gives, lands on a whole minute of an earlier day. */
  lemma AtMinuteBefore(day: int, minute: int)
    requires minute < 0
    ensures AtMinute(day, minute) % MsPerMinute == 0
    ensures DayOf(AtMinute(day, minute)) < day
  {
    var t := AtMinute(day, minute);
    var n := day * MinutesPerDay + minute;
    assert t == n * MsPerMinute;
    assert t < day * MsPerDay;
    var q := t / MsPerDay;
    assert q * MsPerDay <= t;
    if q >= day {
      assert false;
    }
  }

  /** Whatever its sign, a minute count lands on a whole minute, on the given day or later exactly when it is not negative. */
  lemma AtMinuteSign(day: int, minute: int)
    ensures AtMinute(day, minute) % MsPerMinute == 0
    ensures DayOf(AtMinute(day, minute)) >= day <==> minute >= 0
  {
    if minute >= 0 {
      AtMinuteWhole(day, minute);
    } else {
      AtMinuteBefore(day, minute);
    }
  }
}

=== FILE: clock.dfy ===
/**
 * Clock labels "H:MM" / "HH:MM" and `timeToMinutes`, the conversion every
 * schedule view applies to its row labels: split at the colon, read both parts
 * with `Number`, and combine them as minutes of the day.
 */
module Clock {

  import opened Wrappers
  import opened Strings

  /** "HH:MM", two digits each: the first pair reads as `h`, the pair after the colon as `m`. */
  function ClockLabel(h: nat, m: nat): (r: string)
    requires h < 100 && m < 100
    ensures |r| == 5 && r[2] == ':'
    ensures IsDigit(r[0]) && IsDigit(r[1]) && 10 * DigitValue(r[0]) + DigitValue(r[1]) == h
    ensures IsDigit(r[3]) && IsDigit(r[4]) && 10 * DigitValue(r[3]) + DigitValue(r[4]) == m
  {
    [DigitChar(h / 10), DigitChar(h % 10), ':', DigitChar(m / 10), DigitChar(m % 10)]
  }

  /** The clock label is the two padded parts around a colon. */
  lemma ClockLabelPadded(h: nat, m: nat)
    requires h < 100 && m < 100
    ensures ClockLabel(h, m) == Pad2(h) + ":" + Pad2(m)
  {
    var a, b := Pad2(h), Pad2(m);
    FiveChars(a, b);
  }

  lemma FiveChars(a: string, b: string)
    requires |a| == 2 && |b| == 2
    ensures a + ":" + b == [a[0], a[1], ':', b[0], b[1]]
  {
  }

  /**
   * `timeString.split(':').map(Number)` followed by `hours * 60 + minutes`;
   * `None` is `NaN`. Without a colon the minutes are `undefined`, so the
   * result is `NaN`; a number read is never negative.
   */
  function TimeToMinutes(timeString: string): (r: Option<int>)
    ensures ':' !in timeString ==> r.None?
    ensures r.Some? ==> r.value >= 0
  {
    var parts := Split(timeString, ':');
    var hours := NumberValue(parts[0]);
    var minutes := if |parts| > 1 then NumberValue(parts[1]) else None;
    if hours.Some? && minutes.Some? then Some(hours.value * 60 + minutes.value) else None
  }

  /** A clock label splits at its colon into the two two-digit numbers. */
  lemma ClockLabelSplit(h: nat, m: nat)
    requires h < 100 && m < 100
    ensures Split(ClockLabel(h, m), ':') == [[DigitChar(h / 10), DigitChar(h % 10)], [DigitChar(m / 10), DigitChar(m % 10)]]
  {
    var a, b := [DigitChar(h / 10), DigitChar(h % 10)], [DigitChar(m / 10), DigitChar(m % 10)];
    assert ':' !in a && ':' !in b;
    assert ClockLabel(h, m) == a + [':'] + b;
    SplitTwo(a, b, ':');
  }

  /** Reading a clock label gives back its minute of the day. */
  lemma ClockLabelMinutes(h: nat, m: nat)
    requires h < 100 && m < 100
    ensures TimeToMinutes(ClockLabel(h, m)) == Some(60 * h + m)
  {
    DigitPairValue(h / 10, h % 10);
    DigitPairValue(m / 10, m % 10);
    ClockLabelSplit(h, m);
  }

  /** Both halves of a clock label parse back, as integer prefixes, to the hour and the minute. */
  lemma ClockLabelFields(h: nat, m: nat)
    requires h < 100 && m < 100
    ensures var parts := Split(ClockLabel(h, m), ':');
      |parts| == 2 && ParseIntPrefix(parts[0]) == Some(h) && ParseIntPrefix(parts[1]) == Some(m)
  {
    var a, b := [DigitChar(h / 10), DigitChar(h % 10)], [DigitChar(m / 10), DigitChar(m % 10)];
    ClockLabelSplit(h, m);
    DigitPairValue(h / 10, h % 10);
    DigitPairValue(m / 10, m % 10);
    ParseTwoDigits(a, h);
    ParseTwoDigits(b, m);
  }

  /** A two-digit string parses to its value. */
  lemma ParseTwoDigits(s: string, v: nat)
    requires |s| == 2 && AllDigits(s) && DigitsValue(s) == v
    ensures ParseIntPrefix(s) == Some(v)
  {
    ParseAllDigits(s);
  }

  /** A label with the hour printed as is (no padding) and two minute digits. */
  function UnpaddedLabel(h: nat, m: nat): string
    requires m < 100
  {
    NatToDecimal(h) + ":" + [DigitChar(m / 10), DigitChar(m % 10)]
  }

  /** Reading an unpadded label also gives back its minute of the day. */
  lemma UnpaddedLabelMinutes(h: nat, m: nat)
    requires m < 100
    ensures TimeToMinutes(UnpaddedLabel(h, m)) == Some(60 * h + m)
  {
    var a, b := NatToDecimal(h), [DigitChar(m / 10), DigitChar(m % 10)];
    DigitsValueOfDecimal(h);
    DigitPairValue(m / 10, m % 10);
    assert ':' !in a && ':' !in b;
    assert UnpaddedLabel(h, m) == a + [':'] + b;
    SplitTwo(a, b, ':');
  }
}

=== FILE: daily_schedule.dfy ===
/**
 * The day view of the schedule (`DailySchedule`): sixteen half-hour rows from
 * 09:00 to 16:30, one column per doctor. An appointment is drawn in the row
 * whose label equals its start time, as a block as tall as its slot count;
 * rows a block reaches from above are "occupied" and draw nothing; a click on
 * a free row asks for a new appointment starting at that row.
 */
module DailySchedule {

  import opened Wrappers
  import opened Strings
  import opened Civil
  import opened Appointments
  import opened Clock
  import SlotGrid
  import Statuses

  /** One row of the time column. */
  datatype Hour = Hour(time: string, isHalfHour: bool)

  /** The rows, as the component lists them. */
  const OperatingHours: seq<Hour> := [
    Hour("09:00", false), Hour("09:30", true),
    Hour("10:00", false), Hour("10:30", true),
    Hour("11:00", false), Hour("11:30", true),
    Hour("12:00", false), Hour("12:30", true),
    Hour("13:00", false), Hour("13:30", true),
    Hour("14:00", false), Hour("14:30", true),
    Hour("15:00", false), Hour("15:30", true),
    Hour("16:00", false), Hour("16:30", true)
  ]

  /** The rows as a slot window: 16 rows, the first at minute 540 (09:00). */
  const Window: SlotGrid.Window := SlotGrid.Window(540, 16)

  /** Row `i` of the literal table, checked digit by digit. */
  lemma RowChars(i: int)
    requires 0 <= i < 16
    ensures OperatingHours[i].time == ClockLabel(9 + i / 2, 30 * (i % 2))
  {
    if i < 8 {
      MorningChars(i);
    } else {
      AfternoonChars(i);
    }
  }

  lemma MorningChars(i: int)
    requires 0 <= i < 8
    ensures OperatingHours[i].time == ClockLabel(9 + i / 2, 30 * (i % 2))
  {
    if i == 0 {} else if i == 1 {} else if i == 2 {} else if i == 3 {}
    else if i == 4 {} else if i == 5 {} else if i == 6 {} else {}
  }

  lemma AfternoonChars(i: int)
    requires 8 <= i < 16
    ensures OperatingHours[i].time == ClockLabel(9 + i / 2, 30 * (i % 2))
  {
    if i == 8 {} else if i == 9 {} else if i == 10 {} else if i == 11 {}
    else if i == 12 {} else if i == 13 {} else if i == 14 {} else {}
  }

  /** Row `i` is labelled with hour 9 + i/2 and minute 0 or 30; the odd rows are the half hours. */
  lemma OperatingHoursShape()
    ensures |OperatingHours| == Window.count
    ensures forall i :: 0 <= i < 16 ==> OperatingHours[i].time == ClockLabel(9 + i / 2, 30 * (i % 2))
    ensures forall i :: 0 <= i < 16 ==> OperatingHours[i].isHalfHour == (i % 2 == 1)
  {
    forall i | 0 <= i < 16
      ensures OperatingHours[i].time == ClockLabel(9 + i / 2, 30 * (i % 2))
    {
      RowChars(i);
    }
  }

  lemma RowArithmetic(i: int)
    requires 0 <= i < 16
    ensures 60 * (9 + i / 2) + 30 * (i % 2) == 540 + 30 * i
  {
  }

  /** The clock label of row `i` reads as minute 540 + 30·i. */
  lemma RowLabelMinutes(i: int)
    requires 0 <= i < 16
    ensures TimeToMinutes(ClockLabel(9 + i / 2, 30 * (i % 2))) == Some(SlotGrid.RowMinute(Window, i))
  {
    RowArithmetic(i);
    ClockLabelMinutes(9 + i / 2, 30 * (i % 2));
  }

  /** Row `i` stands for minute 540 + 30·i. */
  lemma RowMinutes(i: int)
    requires 0 <= i < 16
    ensures TimeToMinutes(OperatingHours[i].time) == Some(SlotGrid.RowMinute(Window, i))
  {
    RowChars(i);
    RowLabelMinutes(i);
  }

  /** The position of the first appointment that `StartsAt` the given minute. */
  function FirstStart(appts: seq<Appointment>, doctorId: string, day: int, minute: Option<int>): (r: Option<nat>)
    ensures r.None? <==> forall j :: 0 <= j < |appts| ==> !StartsAt(appts[j], doctorId, day, minute)
    ensures r.Some? ==> r.value < |appts| && StartsAt(appts[r.value], doctorId, day, minute)
    ensures r.Some? ==> forall j :: 0 <= j < r.value ==> !StartsAt(appts[j], doctorId, day, minute)
  {
    if |appts| == 0 then None
    else if StartsAt(appts[0], doctorId, day, minute) then Some(0)
    else
      var k := FirstStart(appts[1..], doctorId, day, minute);
      if k.None? then
        assert forall j :: 1 <= j < |appts| ==> appts[j] == appts[1..][j - 1];
        None
      else
        Some(k.value + 1)
  }

  /** `findAppointment(doctorId, timeSlot)`: the first appointment starting in that row, if any. */
  function FindAppointment(appts: seq<Appointment>, day: int, doctorId: string, timeSlot: string): Option<Appointment> {
    var k := FirstStart(appts, doctorId, day, TimeToMinutes(timeSlot));
    if k.Some? then Some(appts[k.value]) else None
  }

  /** The appointment found for row `i` starts exactly at 540 + 30·i; none is found only when no appointment starts there. */
  lemma FindAppointmentAtRow(appts: seq<Appointment>, day: int, doctorId: string, i: int)
    requires 0 <= i < 16
    ensures var r := FindAppointment(appts, day, doctorId, OperatingHours[i].time);
      (r.Some? ==> r.value in appts && r.value.doctorId == doctorId && OnDay(r.value, day)
                   && MinuteOfDay(r.value.start) == 540 + 30 * i)
      && (r.None? <==> forall j :: 0 <= j < |appts| ==> !StartsAt(appts[j], doctorId, day, Some(540 + 30 * i)))
  {
    RowMinutes(i);
  }

  /** An appointment off the half-hour grid (a 09:15 start, say) is found in no row. */
  lemma OffGridNotFound(a: Appointment, doctorId: string, day: int, i: int)
    requires MinuteOfDay(a.start) % 30 != 0
    requires 0 <= i < 16
    ensures !StartsAt(a, doctorId, day, TimeToMinutes(OperatingHours[i].time))
  {
    RowMinutes(i);
    OnHalfHour(i);
  }

  lemma OnHalfHour(i: int)
    ensures (540 + 30 * i) % 30 == 0
  {
  }

  /**
   * `handleSlotClick(doctorId, timeSlot)` on row `i`: nothing when an appointment
   * starts in the row, otherwise a draft at the displayed day and the row's time,
   * with seconds and milliseconds zero.
   */
  function SlotClick(appts: seq<Appointment>, day: int, doctorId: string, i: int): (r: Option<Draft>)
    requires 0 <= i < 16
    ensures r.Some? <==> FindAppointment(appts, day, doctorId, OperatingHours[i].time).None?
    ensures r.Some? ==> (r.value.doctorId == doctorId && DayOf(r.value.start) == day
      && MinuteOfDay(r.value.start) == 540 + 30 * i && r.value.start % MsPerMinute == 0)
  {
    var time := OperatingHours[i].time;
    if FindAppointment(appts, day, doctorId, time).Some? then None
    else
      RowMinutes(i);
      var minutes := TimeToMinutes(time).value;
      AtMinuteParts(day, minutes);
      Some(Draft(doctorId, AtMinute(day, minutes)))
  }

  /** `operatingHours.findIndex(h => h.time === text)`, from row `k` on. */
  function IndexFrom(text: string, k: nat): (r: int)
    requires k <= 16
    ensures r == -1 || k <= r < 16
    ensures r >= 0 ==> OperatingHours[r].time == text
    ensures r >= 0 ==> forall j :: k <= j < r ==> OperatingHours[j].time != text
    ensures r == -1 <==> forall j :: k <= j < 16 ==> OperatingHours[j].time != text
    decreases 16 - k
  {
    if k == 16 then -1
    else if OperatingHours[k].time == text then k
    else IndexFrom(text, k + 1)
  }

  function LabelIndex(text: string): int {
    IndexFrom(text, 0)
  }

  /** The row whose label is a clock time inside the window. */
  lemma LabelIndexOfClock(h: nat, m: nat)
    requires h < 100 && (m == 0 || m == 30)
    ensures LabelIndex(ClockLabel(h, m)) == if 9 <= h <= 16 then 2 * (h - 9) + m / 30 else -1
  {
    if 9 <= h <= 16 {
      LabelIndexInWindow(h, m);
    } else {
      LabelIndexOutsideWindow(h, m);
    }
  }

  lemma LabelIndexInWindow(h: nat, m: nat)
    requires 9 <= h <= 16 && (m == 0 || m == 30)
    ensures LabelIndex(ClockLabel(h, m)) == 2 * (h - 9) + m / 30
  {
    var k := 2 * (h - 9) + m / 30;
    RowOfClock(h, m);
    var h', m' := 9 + k / 2, 30 * (k % 2);
    assert h' == h && m' == m;
    RowChars(k);
    assert OperatingHours[k].time == ClockLabel(h', m');
    LabelIndexOfRow(ClockLabel(h, m), k);
  }

  lemma LabelIndexOutsideWindow(h: nat, m: nat)
    requires h < 100 && (m == 0 || m == 30) && !(9 <= h <= 16)
    ensures LabelIndex(ClockLabel(h, m)) == -1
  {
    var text := ClockLabel(h, m);
    ClockLabelMinutes(h, m);
    forall i | 0 <= i < 16
      ensures TimeToMinutes(text) != Some(SlotGrid.RowMinute(Window, i))
    {
      assert SlotGrid.RowMinute(Window, i) == 540 + 30 * i;
    }
    LabelIndexOffGrid(text);
  }

  /** Rows have distinct labels: a label is found at its own row. */
  lemma LabelIndexOfRow(text: string, k: int)
    requires 0 <= k < 16 && OperatingHours[k].time == text
    ensures LabelIndex(text) == k
  {
    var r := LabelIndex(text);
    assert 0 <= r <= k;
    RowMinutes(r);
    RowMinutes(k);
  }

  /** A label that does not read as a row's minute is found in no row. */
  lemma LabelIndexOffGrid(text: string)
    requires forall i :: 0 <= i < 16 ==> TimeToMinutes(text) != Some(SlotGrid.RowMinute(Window, i))
    ensures LabelIndex(text) == -1
  {
    var r := LabelIndex(text);
    if r >= 0 {
      RowMinutes(r);
      assert false;
    }
  }

  /** Every row label has five characters, so no other text is found. */
  lemma LabelIndexOfOtherLength(text: string)
    requires |text| != 5
    ensures LabelIndex(text) == -1
  {
    forall j | 0 <= j < 16
      ensures OperatingHours[j].time != text
    {
      RowChars(j);
    }
  }

  /** The row index of a clock time on the grid, and back. */
  lemma RowOfClock(h: int, m: int)
    requires 9 <= h <= 16 && (m == 0 || m == 30)
    ensures var k := 2 * (h - 9) + m / 30;
      0 <= k < 16 && 9 + k / 2 == h && 30 * (k % 2) == m && 60 * h + m == 540 + 30 * k
  {
  }

  /** The two characters after the colon: `'00'` for minute 0 and `'30'` for any other minute. */
  function HalfLabel(minute: int): (s: string)
    ensures var mm := if minute == 0 then 0 else 30;
      s == [DigitChar(mm / 10), DigitChar(mm % 10)]
  {
    if minute == 0 then "00" else "30"
  }

  /**
   * The start label as the component builds it: `${hour}:${minutes === 0 ? '00' : '30'}`,
   * hour unpadded. It reads back as the start's hour and half hour, but it
   * has the rows' five characters only from 10:00 on.
   */
  function StartLabelAsWritten(t: Instant): (r: string)
    ensures var h, m := MinuteOfDay(t) / 60, MinuteOfDay(t) % 60;
      TimeToMinutes(r) == Some(60 * h + (if m == 0 then 0 else 30))
    ensures |r| == 5 <==> MinuteOfDay(t) >= 600
  {
    var h, m := MinuteOfDay(t) / 60, MinuteOfDay(t) % 60;
    var mm := if m == 0 then 0 else 30;
    UnpaddedLabelMinutes(h, mm);
    assert UnpaddedLabel(h, mm) == NatToDecimal(h) + ":" + HalfLabel(m);
    NatToDecimal(h) + ":" + HalfLabel(m)
  }

  /** The start label in the rows' own format, the hour padded to two digits: always five characters. */
  function StartLabel(t: Instant): (r: string)
    ensures var h, m := MinuteOfDay(t) / 60, MinuteOfDay(t) % 60;
      TimeToMinutes(r) == Some(60 * h + (if m == 0 then 0 else 30))
    ensures |r| == 5
  {
    var h, mm := MinuteOfDay(t) / 60, if MinuteOfDay(t) % 60 == 0 then 0 else 30;
    ClockLabelMinutes(h, mm);
    ClockLabel(h, mm)
  }

  /**
   * As written, starts before 10:00 are never found among the rows (their
   * label is "9:00", not "09:00"); later starts find the row of their hour,
   * and any non-zero minute counts as the half hour.
   */
  lemma StartIndexAsWritten(t: Instant)
    ensures var h, m := MinuteOfDay(t) / 60, MinuteOfDay(t) % 60;
      LabelIndex(StartLabelAsWritten(t)) == if 10 <= h <= 16 then 2 * (h - 9) + (if m == 0 then 0 else 1) else -1
  {
    var h, m := MinuteOfDay(t) / 60, MinuteOfDay(t) % 60;
    var mm := if m == 0 then 0 else 30;
    var text := StartLabelAsWritten(t);
    if h < 10 {
      assert |text| == 4;
      LabelIndexOfOtherLength(text);
    } else {
      DecimalOfTwoDigits(h);
      assert text == ClockLabel(h, mm);
      LabelIndexOfClock(h, mm);
    }
  }

  /** With the padded label every start from 09:00 to 16:59 finds its row. */
  lemma StartIndex(t: Instant)
    ensures var h, m := MinuteOfDay(t) / 60, MinuteOfDay(t) % 60;
      LabelIndex(StartLabel(t)) == if 9 <= h <= 16 then 2 * (h - 9) + (if m == 0 then 0 else 1) else -1
  {
    var h, m := MinuteOfDay(t) / 60, MinuteOfDay(t) % 60;
    var mm := if m == 0 then 0 else 30;
    LabelIndexOfClock(h, mm);
  }

  /** One appointment's part of `isSlotOccupiedFromAbove(doctorId, i)`, as written. */
  predicate OccupiesAsWritten(a: Appointment, doctorId: string, day: int, i: int) {
    a.doctorId == doctorId && OnDay(a, day)
    && var s := LabelIndex(StartLabelAsWritten(a.start));
       s != -1 && SlotGrid.ContinuesAt(s, SlotsOf(a), i)
  }

  /** `isSlotOccupiedFromAbove(doctorId, i)` as written. */
  predicate OccupiedFromAboveAsWritten(appts: seq<Appointment>, doctorId: string, day: int, i: int) {
    exists j :: 0 <= j < |appts| && OccupiesAsWritten(appts[j], doctorId, day, i)
  }

  /** One appointment's part of the occupancy test, with the start label padded. */
  predicate Occupies(a: Appointment, doctorId: string, day: int, i: int) {
    a.doctorId == doctorId && OnDay(a, day)
    && var s := LabelIndex(StartLabel(a.start));
       s != -1 && SlotGrid.ContinuesAt(s, SlotsOf(a), i)
  }

  predicate OccupiedFromAbove(appts: seq<Appointment>, doctorId: string, day: int, i: int) {
    exists j :: 0 <= j < |appts| && Occupies(appts[j], doctorId, day, i)
  }

  /**
   * An appointment that starts on row `s` occupies from above exactly the rows
   * strictly inside its block, so never its own first row.
   */
  lemma OccupiesBelowStart(a: Appointment, doctorId: string, day: int, s: nat, i: int)
    requires a.doctorId == doctorId && OnDay(a, day)
    requires SlotGrid.RowOf(Window, MinuteOfDay(a.start)) == Some(s)
    ensures Occupies(a, doctorId, day, i) <==> s < i < s + SlotsOf(a)
    ensures !Occupies(a, doctorId, day, s)
  {
    StartIndex(a.start);
  }

  /** As written, an appointment starting in the 09:00 hour occupies no row, whatever its length. */
  lemma NineOClockOccupiesNothingAsWritten(a: Appointment, doctorId: string, day: int, i: int)
    requires 540 <= MinuteOfDay(a.start) < 600
    ensures !OccupiesAsWritten(a, doctorId, day, i)
  {
    StartIndexAsWritten(a.start);
  }

  /** As written, a start at 10:15 is placed as if it were 10:30 (row 3). */
  lemma QuarterPastCountsAsHalfHour(a: Appointment, doctorId: string, day: int)
    requires MinuteOfDay(a.start) == 615
    ensures LabelIndex(StartLabelAsWritten(a.start)) == 3
    ensures LabelIndex(StartLabel(a.start)) == 3
  {
    StartIndexAsWritten(a.start);
    StartIndex(a.start);
  }

  /** What a row of a doctor's column shows. */
  datatype CellView =
    | Block(appointment: Appointment, height: int)  // an appointment card starting here
    | Free                                          // an empty, clickable row
    | Hidden                                        // covered by a card from above

  function CellWith(appts: seq<Appointment>, day: int, doctorId: string, i: int, occupied: bool): CellView
    requires 0 <= i < 16
  {
    var found := FindAppointment(appts, day, doctorId, OperatingHours[i].time);
    if found.Some? && !occupied then Block(found.value, SlotGrid.BlockHeight(SlotsOf(found.value)))
    else if !occupied && found.None? then Free
    else Hidden
  }

  /** The click rule: `!appointment && !isOccupied && handleSlotClick(...)`. */
  function ClickWith(appts: seq<Appointment>, day: int, doctorId: string, i: int, occupied: bool): Option<Draft>
    requires 0 <= i < 16
  {
    if FindAppointment(appts, day, doctorId, OperatingHours[i].time).None? && !occupied then
      SlotClick(appts, day, doctorId, i)
    else None
  }

  /** Row `i` of a column as the component renders it, hiding rows by the unpadded start label. */
  function CellAsWritten(appts: seq<Appointment>, day: int, doctorId: string, i: int): (v: CellView)
    requires 0 <= i < 16
    ensures v.Block? ==> (v.appointment in appts && v.appointment.doctorId == doctorId
      && MinuteOfDay(v.appointment.start) == 540 + 30 * i
      && v.height == SlotsOf(v.appointment) * SlotGrid.RowHeight)
    ensures v.Hidden? <==> OccupiedFromAboveAsWritten(appts, doctorId, day, i)
    ensures v.Free? <==>
      !OccupiedFromAboveAsWritten(appts, doctorId, day, i) && FindAppointment(appts, day, doctorId, OperatingHours[i].time).None?
  {
    FindAppointmentAtRow(appts, day, doctorId, i);
    CellWith(appts, day, doctorId, i, OccupiedFromAboveAsWritten(appts, doctorId, day, i))
  }

  /** Row `i` of a column with the padded start label: the corrected render. */
  function Cell(appts: seq<Appointment>, day: int, doctorId: string, i: int): (v: CellView)
    requires 0 <= i < 16
    ensures v.Block? ==> (v.appointment in appts && v.appointment.doctorId == doctorId
      && MinuteOfDay(v.appointment.start) == 540 + 30 * i
      && v.height == SlotsOf(v.appointment) * SlotGrid.RowHeight)
    ensures v.Hidden? <==> OccupiedFromAbove(appts, doctorId, day, i)
    ensures v.Free? <==>
      !OccupiedFromAbove(appts, doctorId, day, i) && FindAppointment(appts, day, doctorId, OperatingHours[i].time).None?
  {
    FindAppointmentAtRow(appts, day, doctorId, i);
    CellWith(appts, day, doctorId, i, OccupiedFromAbove(appts, doctorId, day, i))
  }

  /** A click creates a draft exactly on a free row, and then the draft starts at that row. */
  function CellClick(appts: seq<Appointment>, day: int, doctorId: string, i: int): (r: Option<Draft>)
    requires 0 <= i < 16
    ensures r.Some? <==> Cell(appts, day, doctorId, i) == Free
    ensures r.Some? ==> (r.value.doctorId == doctorId && DayOf(r.value.start) == day
      && MinuteOfDay(r.value.start) == 540 + 30 * i)
  {
    ClickWith(appts, day, doctorId, i, OccupiedFromAbove(appts, doctorId, day, i))
  }

  /** The click rule as written, with the unpadded start label. */
  function CellClickAsWritten(appts: seq<Appointment>, day: int, doctorId: string, i: int): (r: Option<Draft>)
    requires 0 <= i < 16
    ensures r.Some? ==> !OccupiedFromAboveAsWritten(appts, doctorId, day, i)
    ensures r.Some? ==> FindAppointment(appts, day, doctorId, OperatingHours[i].time).None?
  {
    ClickWith(appts, day, doctorId, i, OccupiedFromAboveAsWritten(appts, doctorId, day, i))
  }

  /**
   * A 09:00 appointment two slots long: as written the 09:30 row is not
   * occupied and a click there creates a second appointment under the card;
   * with the padded label the row is occupied and the click does nothing.
   */
  lemma NineOClockDoubleBooking()
    ensures var a := NineOClockPair();
      !OccupiedFromAboveAsWritten([a], "d1", 0, 1)
      && CellClickAsWritten([a], 0, "d1", 1).Some?
      && OccupiedFromAbove([a], "d1", 0, 1)
      && CellClick([a], 0, "d1", 1).None?
      && CellAsWritten([a], 0, "d1", 1) == Free
      && Cell([a], 0, "d1", 1) == Hidden
  {
    var a := NineOClockPair();
    NineOClockAsWritten(a);
    NineOClockPadded(a);
  }

  /** The two-slot 09:00 appointment of doctor "d1" on day 0. */
  function NineOClockPair(): (a: Appointment)
    ensures a.doctorId == "d1" && a.durationSlots == 2 && OnDay(a, 0) && MinuteOfDay(a.start) == 540
  {
    AtMinuteParts(0, 540);
    Appointment(Some("a1"), "d1", None, AtMinute(0, 540), 2, "PENDIENTE", "", "", "", "")
  }

  /** As written, row 1 under the 09:00 appointment is free and clickable. */
  lemma NineOClockAsWritten(a: Appointment)
    requires a.doctorId == "d1" && a.durationSlots == 2 && OnDay(a, 0) && MinuteOfDay(a.start) == 540
    ensures !OccupiedFromAboveAsWritten([a], "d1", 0, 1)
    ensures CellClickAsWritten([a], 0, "d1", 1).Some? && CellAsWritten([a], 0, "d1", 1) == Free
  {
    assert !StartsAt(a, "d1", 0, TimeToMinutes(OperatingHours[1].time)) by {
      RowMinutes(1);
    }
    NineOClockOccupiesNothingAsWritten(a, "d1", 0, 1);
  }

  /** With the padded label, row 1 under the 09:00 appointment is hidden and ignores clicks. */
  lemma NineOClockPadded(a: Appointment)
    requires a.doctorId == "d1" && a.durationSlots == 2 && OnDay(a, 0) && MinuteOfDay(a.start) == 540
    ensures OccupiedFromAbove([a], "d1", 0, 1)
    ensures CellClick([a], 0, "d1", 1).None? && Cell([a], 0, "d1", 1) == Hidden
  {
    StartIndex(a.start);
    assert Occupies([a][0], "d1", 0, 1);
  }

  /** The colour set of an appointment card, one Tailwind colour family. */
  datatype Palette = Palette(bg: string, border: string, text: string, icon: string)

  function Family(colour: string): Palette {
    Palette("bg-" + colour + "-100", "border-" + colour + "-200", "text-" + colour + "-800", "bg-" + colour + "-500")
  }

  /** `getStatusColor(status)`: one family per Spanish code, grey otherwise. */
  function StatusColor(status: string): Palette {
    match Statuses.ParseEstado(status)
    case Some(Pendiente) => Family("yellow")
    case Some(Confirmada) => Family("green")
    case Some(SalaEspera) => Family("gray")
    case Some(EnCurso) => Family("blue")
    case Some(Completada) => Family("pink")
    case Some(Cancelada) => Family("red")
    case None => Family("gray")
  }

  /** A card is grey exactly for the waiting-room code and for unknown codes. */
  lemma GreyCards(status: string)
    ensures StatusColor(status) == Family("gray")
      <==> Statuses.ParseEstado(status) in {None, Some(Statuses.SalaEspera)}
  {
    if StatusColor(status) == Family("gray") {
      match Statuses.ParseEstado(status)
      case Some(Pendiente) => FamilyInjective("yellow", "gray");
      case Some(Confirmada) => FamilyInjective("green", "gray");
      case Some(SalaEspera) =>
      case Some(EnCurso) => FamilyInjective("blue", "gray");
      case Some(Completada) => FamilyInjective("pink", "gray");
      case Some(Cancelada) => FamilyInjective("red", "gray");
      case None =>
    }
  }

  /** Different colour names give different palettes. */
  lemma FamilyInjective(c1: string, c2: string)
    requires Family(c1) == Family(c2)
    ensures c1 == c2
  {
    var b := Family(c1).bg;
    assert b[3..|b| - 4] == c1;
    assert Family(c2).bg[3..|b| - 4] == c2;
  }

  /** `getStatusText(status)`: English words for the Spanish codes, the raw code otherwise. */
  function StatusText(status: string): (t: string)
    ensures Statuses.ParseEstado(status).None? ==> t == status
  {
    match Statuses.ParseEstado(status)
    case Some(Completada) => "Finished"
    case Some(EnCurso) => "Encounter"
    case Some(Confirmada) => "Confirmed"
    case Some(Pendiente) => "Pending"
    case Some(SalaEspera) => "Waiting"
    case Some(Cancelada) => "Cancelled"
    case None => status
  }

  /** Known codes are told apart by their text. */
  lemma StatusTextDistinct(s1: string, s2: string)
    requires Statuses.ParseEstado(s1).Some? && Statuses.ParseEstado(s2).Some?
    requires StatusText(s1) == StatusText(s2)
    ensures s1 == s2
  {
    var e1, e2 := Statuses.ParseEstado(s1).value, Statuses.ParseEstado(s2).value;
    assert Statuses.EstadoCode(e1) == s1 && Statuses.EstadoCode(e2) == s2;
  }

  /** The lower-cased treatment names that have their own icon letter. */
  function KnownIcon(lower: string): Option<string> {
    if lower == "extracción" || lower == "extraction" then Some("E")
    else if lower == "limpieza" || lower == "scaling" then Some("L")
    else if lower == "blanqueamiento" || lower == "bleaching" then Some("B")
    else if lower == "revisión" || lower == "checkup" then Some("R")
    else None
  }

  /** `getIconLetter(treatment)`: 'C' when there is none, the letter of a known treatment, else the first letter upper-cased. */
  function IconLetter(treatment: string): (r: string)
    ensures |r| == 1
    ensures treatment == "" ==> r == "C"
    ensures treatment != "" && KnownIcon(ToLower(treatment)).None? ==> r == [UpperChar(treatment[0])]
  {
    if treatment == "" then "C"
    else match KnownIcon(ToLower(treatment))
      case Some(letter) => letter
      case None => [UpperChar(treatment[0])]
  }

  /** The known treatment names are recognised whatever their letter case. */
  lemma IconLetterIgnoresCase(t: string, u: string)
    requires ToLower(t) == ToLower(u)
    requires KnownIcon(ToLower(t)).Some?
    ensures IconLetter(t) == IconLetter(u)
    ensures IconLetter(t) in {"E", "L", "B", "R"}
  {
  }
}

=== FILE: date_utils.dfy ===
/**
 * The date helpers of `utils/dateUtils.js`: age from a birth date, the Monday
 * that starts a week, the seven days of that week, and the two interval tests.
 * Dates are day numbers (`Civil.Weekday` is `getDay()`), instants are integer
 * milliseconds, and "today" is a parameter.
 */
module DateUtils {

  import opened Wrappers
  import opened Civil

  /** `calculateAge(birthDate)`: 0 when no date is given, else the age in whole years on `today`. */
  function CalculateAge(birth: Option<Date>, today: Date): (age: int)
    ensures birth.None? ==> age == 0
    ensures birth.Some? ==> LexLe(Anniversary(birth.value, age), today)
    ensures birth.Some? ==> !LexLe(Anniversary(birth.value, age + 1), today)
  {
    match birth
    case None => 0
    case Some(b) => Age(b, today)
  }

  /** A birthday is never more than one step away: the age goes up by exactly one on it. */
  lemma AgeStepsOnBirthday(birth: Date, n: int, dayBefore: Date)
    requires dayBefore.year == birth.year + n
    requires !LexLe(Anniversary(birth, n), dayBefore)
    ensures CalculateAge(Some(birth), Anniversary(birth, n)) == CalculateAge(Some(birth), dayBefore) + 1
  {
    AgeOnBirthday(birth, n, dayBefore);
  }

  /** `getFirstDayOfWeek(date)`: `getDate() - getDay() + (getDay() === 0 ? -6 : 1)`. */
  function FirstDayOfWeek(n: int): (r: int)
    ensures Weekday(r) == 1
    ensures r <= n <= r + 6
    ensures Weekday(n) == 0 ==> r == n - 6
  {
    var day := Weekday(n);
    n - day + (if day == 0 then -6 else 1)
  }

  /** The Monday on or before `n` within six days is unique, so it is the one `FirstDayOfWeek` returns. */
  lemma FirstDayOfWeekUnique(n: int, m: int)
    requires Weekday(m) == 1 && m <= n <= m + 6
    ensures FirstDayOfWeek(n) == m
  {
    var r := FirstDayOfWeek(n);
    WeekdayStep(r, m - r);
    WeekdayStep(m, r - m);
  }

  /** Applied to a Monday it returns that day, so applying it twice is applying it once. */
  lemma FirstDayOfWeekIdempotent(n: int)
    ensures Weekday(n) == 1 ==> FirstDayOfWeek(n) == n
    ensures FirstDayOfWeek(FirstDayOfWeek(n)) == FirstDayOfWeek(n)
  {
    FirstDayOfWeekUnique(FirstDayOfWeek(n), FirstDayOfWeek(n));
  }

  /** `getWeekDays(date)`: the seven days from `getFirstDayOfWeek(date)`. */
  function WeekDays(n: int): (r: seq<int>)
    ensures |r| == 7
    ensures Weekday(r[0]) == 1
    ensures forall i :: 0 <= i < 7 ==> r[i] == r[0] + i
    ensures n in r
  {
    var first := FirstDayOfWeek(n);
    var r := seq(7, i => first + i);
    assert r[n - first] == n;
    r
  }

  /** Every day of the week has the same first day of week, and so the same week. */
  lemma WeekDaysShareWeek(n: int, i: int)
    requires 0 <= i < 7
    ensures FirstDayOfWeek(WeekDays(n)[i]) == FirstDayOfWeek(n)
    ensures WeekDays(WeekDays(n)[i]) == WeekDays(n)
  {
    FirstDayOfWeekUnique(WeekDays(n)[i], FirstDayOfWeek(n));
  }

  /** `dateRangesOverlap(s1, e1, s2, e2)`: `s1 < e2 && e1 > s2`. */
  predicate RangesOverlap(s1: int, e1: int, s2: int, e2: int) {
    s1 < e2 && e1 > s2
  }

  /** Overlap does not depend on the order of the two ranges, and ranges that only touch do not overlap. */
  lemma OverlapSymmetric(s1: int, e1: int, s2: int, e2: int)
    ensures RangesOverlap(s1, e1, s2, e2) == RangesOverlap(s2, e2, s1, e1)
    ensures e1 == s2 ==> !RangesOverlap(s1, e1, s2, e2)
  {
  }

  /**
   * For non-empty ranges, overlapping means sharing an instant, reading each
   * range as half-open [start, end).
   */
  lemma OverlapSharesInstant(s1: int, e1: int, s2: int, e2: int)
    requires s1 < e1 && s2 < e2
    ensures RangesOverlap(s1, e1, s2, e2) <==> exists t :: Within(t, s1, e1) && Within(t, s2, e2)
  {
    if RangesOverlap(s1, e1, s2, e2) {
      var t := if s1 < s2 then s2 else s1;
      assert Within(t, s1, e1) && Within(t, s2, e2);
    }
  }

  /** `t` lies in the half-open range [s, e). */
  predicate Within(t: int, s: int, e: int) {
    s <= t < e
  }

  /** `isDateInRange(date, start, end)`: the closed interval, both ends included. */
  predicate InRange(d: int, s: int, e: int) {
    d >= s && d <= e
  }

  /** Being in the closed range is overlapping it with the one-millisecond range at `d`. */
  lemma InRangeAsOverlap(d: int, s: int, e: int)
    ensures InRange(d, s, e) <==> RangesOverlap(d, d + 1, s, e + 1)
    ensures s <= e ==> InRange(s, s, e) && InRange(e, s, e)
  {
  }
}

=== FILE: dentist_column.dfy ===
/**
 * One doctor's column of the day calendar (`dentist-column`): 25 half-hour
 * slots from 08:00 to 20:00. Each appointment stores `startSlot`/`endSlot`
 * counted from 09:00 and is shifted by two to land on the column; later
 * appointments overwrite earlier ones. Empty slots past index 14 are grouped
 * into NOT AVAILABLE blocks, and slot 10 may show the break.
 */
module DentistColumn {

  import opened Wrappers
  import SlotGrid

  const SlotCount: int := 25
  /** The shift from the stored slot numbers to the column's. */
  const Shift: int := 2
  /** Slot 10 is 13:00. */
  const BreakTimeIndex: int := 10
  /** Only slots after this one (15:00) can be NOT AVAILABLE. */
  const LastWorkingSlot: int := 14

  /** The column's rows as a slot window: 25 rows from minute 480 (08:00). */
  const Window: SlotGrid.Window := SlotGrid.Window(480, 25)

  /** An appointment as the calendar view lists it. */
  datatype CalAppointment = CalAppointment(
    id: string,
    patientName: string,
    startTime: string,
    endTime: string,
    treatment: string,
    status: string,
    color: string,
    startSlot: int,
    endSlot: int)

  /** A slot of the column: empty, or a copy of an appointment with `isStart`. */
  datatype Slot = Empty | Taken(appointment: CalAppointment, isStart: bool)

  /** The fill loop writes `a` into slot `i`. */
  predicate Marks(a: CalAppointment, i: int) {
    a.startSlot + Shift <= i <= a.endSlot + Shift
  }

  /**
   * What slot `i` holds once every appointment has been written in list order:
   * the last appointment that marks it, flagged as the start on its first slot.
   */
  function SlotAt(appts: seq<CalAppointment>, i: int): (s: Slot)
    ensures s.Empty? <==> forall j :: 0 <= j < |appts| ==> !Marks(appts[j], i)
    ensures s.Taken? ==> exists j :: (0 <= j < |appts| && s.appointment == appts[j] && Marks(appts[j], i)
      && forall k :: j < k < |appts| ==> !Marks(appts[k], i))
    ensures s.Taken? ==> (s.isStart <==> i == s.appointment.startSlot + Shift)
    decreases |appts|
  {
    if |appts| == 0 then Empty
    else
      var n := |appts| - 1;
      var last := appts[n];
      if Marks(last, i) then
        Taken(last, i == last.startSlot + Shift)
      else
        var r := SlotAt(appts[..n], i);
        assert forall j :: 0 <= j < n ==> appts[..n][j] == appts[j];
        if r.Taken? then
          var j :| 0 <= j < n && r.appointment == appts[..n][j] && Marks(appts[..n][j], i)
            && forall k :: j < k < n ==> !Marks(appts[..n][k], i);
          assert r.appointment == appts[j] && forall k :: j < k < |appts| ==> !Marks(appts[k], i);
          r
        else
          r
  }

  /** The component's fill: 25 empty slots, then every appointment written over its shifted range. */
  method FillSlots(appts: seq<CalAppointment>) returns (slots: seq<Slot>)
    ensures |slots| == SlotCount
    ensures forall i :: 0 <= i < SlotCount ==> slots[i] == SlotAt(appts, i)
  {
    slots := seq(SlotCount, _ => Empty);
    var k := 0;
    while k < |appts|
      invariant 0 <= k <= |appts|
      invariant |slots| == SlotCount
      invariant forall j :: 0 <= j < SlotCount ==> slots[j] == SlotAt(appts[..k], j)
    {
      var a := appts[k];
      var s, e := a.startSlot + Shift, a.endSlot + Shift;
      var i := s;
      while i <= e
        invariant i == s || s < i <= e + 1
        invariant |slots| == SlotCount
        invariant forall j :: 0 <= j < SlotCount ==>
          slots[j] == (if s <= j < i then Taken(a, j == s) else SlotAt(appts[..k], j))
      {
        if 0 <= i < SlotCount {
          slots := slots[i := Taken(a, i == s)];
        }
        i := i + 1;
      }
      assert appts[..k + 1][..k] == appts[..k] && appts[..k + 1][k] == a;
      k := k + 1;
    }
    assert appts[..k] == appts;
  }

  /**
   * Last write wins: when a later appointment marks a slot and nothing after
   * it does, the slot shows that appointment, whatever was written before.
   */
  lemma LastWriteWins(appts: seq<CalAppointment>, k: int, i: int)
    requires 0 <= k < |appts| && Marks(appts[k], i)
    requires forall m :: k < m < |appts| ==> !Marks(appts[m], i)
    ensures SlotAt(appts, i) == Taken(appts[k], i == appts[k].startSlot + Shift)
  {
    var s := SlotAt(appts, i);
    var j :| 0 <= j < |appts| && s.appointment == appts[j] && Marks(appts[j], i)
      && forall m :: j < m < |appts| ==> !Marks(appts[m], i);
    assert j == k;
  }

  /** An earlier appointment whose first slot is overwritten by a different one has no card anywhere. */
  lemma OverwrittenCardVanishes(appts: seq<CalAppointment>, j: int, k: int)
    requires 0 <= j < k < |appts| && appts[j] != appts[k]
    requires Marks(appts[j], appts[j].startSlot + Shift) && Marks(appts[k], appts[j].startSlot + Shift)
    requires forall m :: k < m < |appts| ==> !Marks(appts[m], appts[j].startSlot + Shift)
    ensures forall i :: SlotAt(appts, i) != Taken(appts[j], true)
  {
    var p := appts[j].startSlot + Shift;
    LastWriteWins(appts, k, p);
    forall i
      ensures SlotAt(appts, i) != Taken(appts[j], true)
    {
      assert SlotAt(appts, i) == Taken(appts[j], true) ==> i == p;
    }
  }

  /** A stored slot `s` is drawn at minute 540 + 30·s: stored slots count from 09:00, not 08:00. */
  lemma ShiftedStart(s: int)
    ensures SlotGrid.RowMinute(Window, s + Shift) == 540 + SlotGrid.SlotMinutes * s
  {
  }

  /** `(endSlot - startSlot + 1) * 48`: one row height per marked slot, whatever the shift. */
  function CardHeight(a: CalAppointment): (h: int)
    ensures a.startSlot <= a.endSlot ==> h == SlotGrid.BlockHeight(|MarkedRange(a)|)
  {
    (a.endSlot - a.startSlot + 1) * SlotGrid.RowHeight
  }

  /** The slots the fill loop writes for `a`, in order. */
  function MarkedRange(a: CalAppointment): (r: seq<int>)
    ensures forall i :: 0 <= i < |r| ==> Marks(a, r[i])
    ensures forall i :: Marks(a, i) ==> i in r
  {
    var lo := a.startSlot + Shift;
    var r := if a.endSlot < a.startSlot then [] else seq(a.endSlot - a.startSlot + 1, i => lo + i);
    assert forall i :: Marks(a, i) ==> r[i - lo] == i;
    r
  }

  /** A NOT AVAILABLE block: slots `startIndex` to `endIndex`, both included. */
  datatype Block = Block(startIndex: int, endIndex: int)

  /** Slot `i` can be NOT AVAILABLE: it is past the working slots and empty. */
  predicate Free(slots: seq<Slot>, i: int)
    requires 0 <= i < |slots|
  {
    i > LastWorkingSlot && slots[i].Empty?
  }

  predicate InBlock(b: Block, i: int) {
    b.startIndex <= i <= b.endIndex
  }

  /**
   * The blocks are the maximal runs of free slots: each block is a run of free
   * slots that cannot be extended on either side, the blocks come in increasing
   * order with a gap between them, and every free slot lies in one of them.
   */
  predicate Grouping(slots: seq<Slot>, blocks: seq<Block>) {
    (forall k :: 0 <= k < |blocks| ==> MaximalRun(slots, blocks[k]))
    && Apart(blocks)
    && Covers(slots, blocks)
  }

  /** A run of free slots that cannot be extended on either side. */
  predicate MaximalRun(slots: seq<Slot>, b: Block) {
    0 <= b.startIndex <= b.endIndex < |slots|
    && (forall i :: b.startIndex <= i <= b.endIndex ==> Free(slots, i))
    && (b.startIndex == 0 || !Free(slots, b.startIndex - 1))
    && (b.endIndex == |slots| - 1 || !Free(slots, b.endIndex + 1))
  }

  /** The blocks come in increasing order with a gap between them. */
  predicate Apart(blocks: seq<Block>) {
    forall k, l :: 0 <= k < l < |blocks| ==> blocks[k].endIndex + 1 < blocks[l].startIndex
  }

  /** Every free slot lies in one of the blocks. */
  predicate Covers(slots: seq<Slot>, blocks: seq<Block>) {
    forall i :: 0 <= i < |slots| && Free(slots, i) ==> exists k :: 0 <= k < |blocks| && InBlock(blocks[k], i)
  }

  /**
   * The state of the grouping pass before slot `index`: `blocks` are finished
   * maximal runs ending before `index - 1`, `current` is the run still open
   * (ending at `index - 1`), and every free slot seen so far is in one of them.
   */
  predicate Scanned(slots: seq<Slot>, blocks: seq<Block>, current: Option<Block>, index: int) {
    0 <= index <= |slots|
    && (forall k :: 0 <= k < |blocks| ==>
      0 <= blocks[k].startIndex <= blocks[k].endIndex && blocks[k].endIndex + 1 < index
      && (forall i :: blocks[k].startIndex <= i <= blocks[k].endIndex ==> Free(slots, i))
      && (blocks[k].startIndex == 0 || !Free(slots, blocks[k].startIndex - 1))
      && !Free(slots, blocks[k].endIndex + 1))
    && (forall k, l :: 0 <= k < l < |blocks| ==> blocks[k].endIndex + 1 < blocks[l].startIndex)
    && (current.Some? ==>
      0 <= current.value.startIndex <= current.value.endIndex == index - 1
      && (forall i :: current.value.startIndex <= i < index ==> Free(slots, i))
      && (current.value.startIndex == 0 || !Free(slots, current.value.startIndex - 1))
      && (forall k :: 0 <= k < |blocks| ==> blocks[k].endIndex + 1 < current.value.startIndex))
    && (current.None? ==> index == 0 || !Free(slots, index - 1))
    && (forall i :: 0 <= i < index && Free(slots, i) ==>
      (exists k :: 0 <= k < |blocks| && InBlock(blocks[k], i))
      || (current.Some? && current.value.startIndex <= i))
  }

  /** A free slot opens a run or extends the open one. */
  lemma ScanFree(slots: seq<Slot>, blocks: seq<Block>, current: Option<Block>, index: int)
    requires Scanned(slots, blocks, current, index) && index < |slots| && Free(slots, index)
    ensures Scanned(slots, blocks, Some(Block(if current.None? then index else current.value.startIndex, index)), index + 1)
  {
  }

  /** A taken or early slot closes the open run. */
  lemma ScanClose(slots: seq<Slot>, blocks: seq<Block>, current: Option<Block>, index: int)
    requires Scanned(slots, blocks, current, index) && index < |slots| && !Free(slots, index) && current.Some?
    ensures Scanned(slots, blocks + [current.value], None, index + 1)
  {
    var after := blocks + [current.value];
    forall i | 0 <= i < index + 1 && Free(slots, i)
      ensures exists k :: 0 <= k < |after| && InBlock(after[k], i)
    {
      if current.value.startIndex <= i {
        assert InBlock(after[|blocks|], i);
      } else {
        var k :| 0 <= k < |blocks| && InBlock(blocks[k], i);
        assert InBlock(after[k], i);
      }
    }
  }

  /** A taken or early slot with no open run changes nothing. */
  lemma ScanSkip(slots: seq<Slot>, blocks: seq<Block>, index: int)
    requires Scanned(slots, blocks, None, index) && index < |slots| && !Free(slots, index)
    ensures Scanned(slots, blocks, None, index + 1)
  {
  }

  /** After the last slot, the open run (if any) is pushed. */
  function CloseLast(blocks: seq<Block>, current: Option<Block>): seq<Block> {
    if current.Some? then blocks + [current.value] else blocks
  }

  /** After the last slot, pushing the open run (if any) leaves exactly the grouping. */
  lemma ScanFinish(slots: seq<Slot>, blocks: seq<Block>, current: Option<Block>)
    requires Scanned(slots, blocks, current, |slots|)
    ensures Grouping(slots, CloseLast(blocks, current))
  {
    if current.Some? {
      FinishRuns(slots, blocks, current.value);
      FinishApart(slots, blocks, current.value);
      FinishCovers(slots, blocks, current.value);
    } else {
      assert forall k :: 0 <= k < |blocks| ==> MaximalRun(slots, blocks[k]);
    }
  }

  /** The finished runs and the last one are all maximal. */
  lemma FinishRuns(slots: seq<Slot>, blocks: seq<Block>, last: Block)
    requires Scanned(slots, blocks, Some(last), |slots|)
    ensures forall k :: 0 <= k < |blocks + [last]| ==> MaximalRun(slots, (blocks + [last])[k])
  {
    var after := blocks + [last];
    forall k | 0 <= k < |after|
      ensures MaximalRun(slots, after[k])
    {
      if k < |blocks| {
        assert after[k] == blocks[k];
      }
    }
  }

  /** The last run starts after a gap following every finished one. */
  lemma FinishApart(slots: seq<Slot>, blocks: seq<Block>, last: Block)
    requires Scanned(slots, blocks, Some(last), |slots|)
    ensures Apart(blocks + [last])
  {
    var after := blocks + [last];
    assert forall k :: 0 <= k < |blocks| ==> after[k] == blocks[k];
  }

  /** Every free slot lies in a finished run or in the last one. */
  lemma FinishCovers(slots: seq<Slot>, blocks: seq<Block>, last: Block)
    requires Scanned(slots, blocks, Some(last), |slots|)
    ensures Covers(slots, blocks + [last])
  {
    var after := blocks + [last];
    forall i | 0 <= i < |slots| && Free(slots, i)
      ensures exists k :: 0 <= k < |after| && InBlock(after[k], i)
    {
      if last.startIndex <= i {
        assert InBlock(after[|blocks|], i);
      } else {
        var k :| 0 <= k < |blocks| && InBlock(blocks[k], i);
        assert InBlock(after[k], i);
      }
    }
  }

  /**
   * One iteration of the grouping loop at slot `index`: a free slot opens a
   * run or extends the open one; any other slot closes the open run, if any.
   */
  function ScanStep(slots: seq<Slot>, blocks: seq<Block>, current: Option<Block>, index: int): (seq<Block>, Option<Block>)
    requires 0 <= index < |slots|
  {
    if Free(slots, index) then
      (blocks, Some(Block(if current.None? then index else current.value.startIndex, index)))
    else if current.Some? then (blocks + [current.value], None)
    else (blocks, None)
  }

  /** Each iteration keeps the scan invariant one slot further on. */
  lemma ScanStepKeeps(slots: seq<Slot>, blocks: seq<Block>, current: Option<Block>, index: int)
    requires Scanned(slots, blocks, current, index) && index < |slots|
    ensures var next := ScanStep(slots, blocks, current, index); Scanned(slots, next.0, next.1, index + 1)
  {
    if Free(slots, index) {
      ScanFree(slots, blocks, current, index);
    } else if current.Some? {
      ScanClose(slots, blocks, current, index);
    } else {
      ScanSkip(slots, blocks, index);
    }
  }

  /** Before the first slot nothing has been scanned. */
  lemma ScanStart(slots: seq<Slot>)
    ensures Scanned(slots, [], None, 0)
  {
  }

  /** The grouping loop from slot `index` on, then the final push of the open run. */
  function GroupFrom(slots: seq<Slot>, blocks: seq<Block>, current: Option<Block>, index: int): seq<Block>
    requires 0 <= index <= |slots|
    decreases |slots| - index
  {
    if index == |slots| then CloseLast(blocks, current)
    else
      var next := ScanStep(slots, blocks, current, index);
      GroupFrom(slots, next.0, next.1, index + 1)
  }

  /** Run from any scanned state, the loop ends in the grouping. */
  lemma {:induction false} GroupFromGroups(slots: seq<Slot>, blocks: seq<Block>, current: Option<Block>, index: int)
    requires Scanned(slots, blocks, current, index)
    ensures Grouping(slots, GroupFrom(slots, blocks, current, index))
    decreases |slots| - index
  {
    if index == |slots| {
      ScanFinish(slots, blocks, current);
    } else {
      ScanStepKeeps(slots, blocks, current, index);
      var next := ScanStep(slots, blocks, current, index);
      GroupFromGroups(slots, next.0, next.1, index + 1);
    }
  }

  /** The grouping effect: nothing when the column does not show NOT AVAILABLE, else one pass collecting runs. */
  function GroupBlocks(slots: seq<Slot>, showNotAvailable: bool): (blocks: seq<Block>)
    ensures !showNotAvailable ==> blocks == []
    ensures showNotAvailable ==> Grouping(slots, blocks)
  {
    if !showNotAvailable then []
    else
      ScanStart(slots);
      GroupFromGroups(slots, [], None, 0);
      GroupFrom(slots, [], None, 0)
  }

  /** Blocks that satisfy `Grouping` are pairwise disjoint, so a free slot lies in exactly one. */
  lemma BlockUnique(slots: seq<Slot>, blocks: seq<Block>, i: int, k: int, l: int)
    requires Grouping(slots, blocks)
    requires 0 <= k < |blocks| && 0 <= l < |blocks|
    requires InBlock(blocks[k], i) && InBlock(blocks[l], i)
    ensures k == l
  {

  }

  /** What one row of the column draws. */
  datatype RowView = RowView(
    card: Option<int>,           // the appointment card starting here, with its height
    breakTime: bool,             // the BREAK TIME area
    notAvailable: Option<int>,   // a NOT AVAILABLE block starting here, with its height
    strayNotAvailable: bool,     // a one-row NOT AVAILABLE outside every block
    halfHour: bool)              // dashed top border

  predicate StartsBlock(blocks: seq<Block>, index: int) {
    exists k :: 0 <= k < |blocks| && blocks[k].startIndex == index
  }

  predicate InTail(blocks: seq<Block>, index: int) {
    exists k :: 0 <= k < |blocks| && blocks[k].startIndex < index <= blocks[k].endIndex
  }

  /** `blocks.find(b => b.startIndex === index)`. */
  function BlockStartingAt(blocks: seq<Block>, index: int): (r: Option<Block>)
    ensures r.Some? <==> StartsBlock(blocks, index)
    ensures r.Some? ==> r.value in blocks && r.value.startIndex == index
  {
    if |blocks| == 0 then None
    else if blocks[0].startIndex == index then Some(blocks[0])
    else
      var r := BlockStartingAt(blocks[1..], index);
      assert StartsBlock(blocks[1..], index) ==> StartsBlock(blocks, index) by {
        if StartsBlock(blocks[1..], index) {
          var k :| 0 <= k < |blocks[1..]| && blocks[1..][k].startIndex == index;
          assert blocks[k + 1].startIndex == index;
        }
      }
      assert StartsBlock(blocks, index) ==> StartsBlock(blocks[1..], index) by {
        if StartsBlock(blocks, index) {
          var k :| 0 <= k < |blocks| && blocks[k].startIndex == index;
          assert blocks[1..][k - 1].startIndex == index;
        }
      }
      r
  }

  /** Row `index` of the column. */
  function Row(slots: seq<Slot>, blocks: seq<Block>, showNotAvailable: bool, showBreakTime: bool, index: int): (v: RowView)
    requires 0 <= index < |slots|
    ensures v.card.Some? <==> slots[index].Taken? && slots[index].isStart
    ensures v.card.Some? ==> v.card.value == CardHeight(slots[index].appointment)
    ensures v.breakTime <==> index == BreakTimeIndex && showBreakTime && slots[index].Empty?
    ensures v.notAvailable.Some? <==> showNotAvailable && StartsBlock(blocks, index)
    ensures v.halfHour <==> index % 2 == 1
  {
    var slot := slots[index];
    var block := BlockStartingAt(blocks, index);
    RowView(
      if slot.Taken? && slot.isStart then Some(CardHeight(slot.appointment)) else None,
      index == BreakTimeIndex && showBreakTime && slot.Empty?,
      if block.Some? && showNotAvailable
      then Some((block.value.endIndex - block.value.startIndex + 1) * SlotGrid.RowHeight)
      else None,
      slot.Empty? && showNotAvailable && index > LastWorkingSlot && !StartsBlock(blocks, index) && !InTail(blocks, index),
      index % 2 != 0)
  }

  /**
   * With the blocks the effect computes, every free slot is either the start
   * of exactly one drawn block or lies in a block's tail, never both, and the
   * one-row fallback is never drawn.
   */
  lemma NotAvailableOnce(slots: seq<Slot>, blocks: seq<Block>, showBreakTime: bool, index: int)
    requires Grouping(slots, blocks)
    requires 0 <= index < |slots| && Free(slots, index)
    ensures StartsBlock(blocks, index) != InTail(blocks, index)
    ensures !Row(slots, blocks, true, showBreakTime, index).strayNotAvailable
  {
    var k :| 0 <= k < |blocks| && InBlock(blocks[k], index);
    forall a | 0 <= a < |blocks| && InBlock(blocks[a], index)
      ensures a == k
    {
      BlockUnique(slots, blocks, index, a, k);
    }
    assert StartsBlock(blocks, index) <==> blocks[k].startIndex == index;
    assert InTail(blocks, index) <==> blocks[k].startIndex < index;
  }

  /** The break is drawn only at slot 10, and only when that slot is empty. */
  lemma BreakOnlyAtTen(slots: seq<Slot>, blocks: seq<Block>, showNotAvailable: bool, index: int)
    requires 0 <= index < |slots|
    requires Row(slots, blocks, showNotAvailable, true, index).breakTime
    ensures index == BreakTimeIndex && slots[index].Empty?
  {
  }
}

=== FILE: doctor_form.dfy ===
/**
 * The doctor form: two required fields, prefilled from the doctor being
 * edited, each change clearing its own error, and the form handed on only
 * when both fields are filled in.
 */
module DoctorForm {

  import opened Wrappers
  import opened Doctors

  datatype Form = Form(nombreCompleto: string, especialidad: string)

  const EmptyForm: Form := Form("", "")

  /** The error messages, keyed by input name. */
  type Errors = map<string, string>

  const NameRequired: string := "El nombre completo es obligatorio"
  const SpecialtyRequired: string := "La especialidad es obligatoria"

  /** The prefill effect: the edited doctor's two fields (a missing one read as ""), or the form unchanged when creating. */
  function Prefill(prev: Form, doctor: Option<Doctor>): (f: Form)
    ensures doctor.None? ==> f == prev
    ensures doctor.Some? ==> f.nombreCompleto == doctor.value.nombreCompleto && f.especialidad == doctor.value.especialidad
  {
    match doctor
    case None => prev
    case Some(d) => Form(d.nombreCompleto, d.especialidad)
  }

  /** The two inputs. */
  predicate IsField(name: string) {
    name == "nombreCompleto" || name == "especialidad"
  }

  /** `handleChange`: the named field takes the value and its error is cleared. */
  function HandleChange(f: Form, errors: Errors, name: string, value: string): (r: (Form, Errors))
    ensures name == "nombreCompleto" ==> r.0 == f.(nombreCompleto := value)
    ensures name == "especialidad" ==> r.0 == f.(especialidad := value)
    ensures !IsField(name) ==> r.0 == f
    ensures r.1 == errors - {name}
  {
    var form :=
      if name == "nombreCompleto" then f.(nombreCompleto := value)
      else if name == "especialidad" then f.(especialidad := value)
      else f;
    (form, errors - {name})
  }

  /** A change touches only its own field and its own error. */
  lemma ChangeIsLocal(f: Form, errors: Errors, name: string, value: string, other: string)
    requires IsField(name) && other != name
    ensures var r := HandleChange(f, errors, name, value);
      (other in errors ==> other in r.1 && r.1[other] == errors[other])
      && name !in r.1
      && (other == "nombreCompleto" ==> r.0.nombreCompleto == f.nombreCompleto)
      && (other == "especialidad" ==> r.0.especialidad == f.especialidad)
  {
  }

  /** `validate`: one message per empty field. */
  function Validate(f: Form): (e: Errors)
    ensures "nombreCompleto" in e <==> f.nombreCompleto == ""
    ensures "especialidad" in e <==> f.especialidad == ""
    ensures "nombreCompleto" in e ==> e["nombreCompleto"] == NameRequired
    ensures "especialidad" in e ==> e["especialidad"] == SpecialtyRequired
    ensures forall k :: k in e ==> IsField(k)
  {
    var e0: Errors := if f.nombreCompleto == "" then map["nombreCompleto" := NameRequired] else map[];
    if f.especialidad == "" then e0["especialidad" := SpecialtyRequired] else e0
  }

  predicate Valid(f: Form) {
    |Validate(f)| == 0
  }

  /** The form is valid exactly when both fields are filled in. */
  lemma ValidIff(f: Form)
    ensures Valid(f) <==> f.nombreCompleto != "" && f.especialidad != ""
  {
    if !Valid(f) {
      var k :| k in Validate(f);
    }
  }

  /** `handleSubmit`: the form as it stands when valid, nothing otherwise. */
  function Submit(f: Form): (r: Option<Form>)
    ensures r.Some? <==> f.nombreCompleto != "" && f.especialidad != ""
    ensures r.Some? ==> r.value == f
  {
    ValidIff(f);
    if Valid(f) then Some(f) else None
  }

  /** Editing a doctor with both fields and submitting at once hands on that doctor's two fields. */
  lemma EditUnchangedSubmits(prev: Form, d: Doctor)
    requires d.nombreCompleto != "" && d.especialidad != ""
    ensures Submit(Prefill(prev, Some(d))) == Some(Form(d.nombreCompleto, d.especialidad))
  {
  }
}

=== FILE: doctors.dfy ===
/** The doctor record as the staff pages receive it from the backend. */
module Doctors {

  /** A doctor; text fields hold "" when missing. */
  datatype Doctor = Doctor(id: string, nombreCompleto: string, especialidad: string)
}

=== FILE: doctors_page.dfy ===
/**
 * The staff page: every fetched doctor is shown with display fields derived
 * deterministically from its record (initials, working days, phone, e-mail,
 * services, full or part time), and the list is updated in place by the
 * delete, edit and create handlers.
 */
module DoctorsPage {

  import opened Wrappers
  import opened Strings
  import opened Lists
  import opened Doctors
  import PatientForm

  /** `doctor.nombreCompleto ? nombreCompleto.split(' ') : ['D', 'R']`. */
  function NameParts(name: string): (parts: seq<string>)
    ensures |parts| >= 1
    ensures name == "" ==> parts == ["D", "R"]
  {
    if name != "" then Split(name, ' ') else ["D", "R"]
  }

  /** The first character of the first two words; 'DR' when the name is missing. */
  function Initials(name: string): (s: string)
    ensures |s| <= 2
    ensures name == "" ==> s == "DR"
  {
    var parts := NameParts(name);
    FirstChar(parts[0]) + (if |parts| > 1 then FirstChar(parts[1]) else "")
  }

  /** A name made of two words separated by one space gives the first letter of each. */
  lemma InitialsOfTwoWords(first: string, last: string)
    requires first != "" && last != "" && ' ' !in first && ' ' !in last
    ensures Initials(first + " " + last) == [first[0], last[0]]
  {
    SplitTwo(first, last, ' ');
    assert first + " " + last == first + [' '] + last;
  }

  /** `id.slice(-4)`: the last four characters, or the whole id when shorter. */
  function Seed(id: string): (seed: string)
    ensures |seed| == if |id| < 4 then |id| else 4
    ensures seed == id[|id| - |seed|..]
  {
    if |id| < 4 then id else id[|id| - 4..]
  }

  /**
   * Day `i` is a working day when the character of the seed at `i mod |seed|`
   * has an even code; an empty seed reads `charCodeAt(NaN)` and gives no day.
   */
  predicate IsWorkingDay(seed: string, i: nat) {
    |seed| > 0 && (seed[i % |seed|] as int) % 2 == 0
  }

  /** The seed repeats: days `i` and `i + |seed|` are classified alike. */
  lemma WorkingDaysPeriodic(id: string, i: nat)
    ensures var seed := Seed(id); IsWorkingDay(seed, i) <==> IsWorkingDay(seed, i + |seed|)
  {
    var n := |Seed(id)|;
    if n == 1 {
      assert (i + 1) % 1 == i % 1;
    } else if n == 2 {
      assert (i + 2) % 2 == i % 2;
    } else if n == 3 {
      assert (i + 3) % 3 == i % 3;
    } else if n == 4 {
      assert (i + 4) % 4 == i % 4;
    }
  }

  /** The working days among `0 .. n - 1`, in increasing order. */
  function WorkingDaysBelow(seed: string, n: nat): (days: seq<nat>)
    ensures forall k :: 0 <= k < |days| ==> days[k] < n && IsWorkingDay(seed, days[k])
    ensures forall i: nat :: i < n && IsWorkingDay(seed, i) ==> i in days
    ensures forall k, l :: 0 <= k < l < |days| ==> days[k] < days[l]
  {
    if n == 0 then []
    else WorkingDaysBelow(seed, n - 1) + (if IsWorkingDay(seed, n - 1) then [n - 1] else [])
  }

  /** The week's working days, Sunday being 0: strictly increasing, each within `0..6`, and exactly the days the seed marks. */
  function WorkingDays(id: string): (days: seq<nat>)
    ensures forall k :: 0 <= k < |days| ==> days[k] < 7
    ensures forall i: nat :: i < 7 ==> (i in days <==> IsWorkingDay(Seed(id), i))
    ensures forall k, l :: 0 <= k < l < |days| ==> days[k] < days[l]
  {
    WorkingDaysBelow(Seed(id), 7)
  }

  /** An empty id has no working days at all. */
  lemma EmptyIdNoWorkingDays()
    ensures WorkingDays("") == []
  {
  }

  /** The sum of the character codes. */
  function CodeSum(s: string): nat {
    if |s| == 0 then 0 else CodeSum(s[..|s| - 1]) + s[|s| - 1] as int
  }

  /** The area code `100 + sum mod 900`. */
  function AreaCode(id: string): (n: nat)
    ensures 100 <= n < 1000
  {
    100 + CodeSum(id) % 900
  }

  /** The line number `1000 + sum mod 9000`. */
  function LineNumber(id: string): (n: nat)
    ensures 1000 <= n < 10000
  {
    1000 + CodeSum(id) % 9000
  }

  /** The phone: area code, " 555-", and the line number padded to four digits. */
  function Phone(id: string): (p: string)
    ensures |p| == 12
  {
    NatToDecimal(AreaCode(id)) + " 555-" + PadStart(NatToDecimal(LineNumber(id)), 4)
  }

  /** The phone is the three-digit area code, " 555-", and the four-digit line number, with no padding needed. */
  lemma PhoneLayout(id: string)
    ensures Phone(id) == NatToDecimal(AreaCode(id)) + " 555-" + NatToDecimal(LineNumber(id))
    ensures |NatToDecimal(AreaCode(id))| == 3 && |NatToDecimal(LineNumber(id))| == 4
  {
    var line := NatToDecimal(LineNumber(id));
    assert PadStart(line, 4) == line;
  }

  /** The phone reads back as its two numbers: three digits, " 555-", four digits. */
  lemma PhoneParts(id: string)
    ensures var p := Phone(id);
      p[..3] == NatToDecimal(AreaCode(id)) && p[3..8] == " 555-" && p[8..] == NatToDecimal(LineNumber(id))
      && ParseIntPrefix(p) == Some(AreaCode(id))
      && ParseIntPrefix(p[8..]) == Some(LineNumber(id))
  {
    PhoneLayout(id);
    var area := NatToDecimal(AreaCode(id));
    var line := NatToDecimal(LineNumber(id));
    var rest := " 555-" + line;
    var p := Phone(id);
    assert p == area + rest;
    assert p[..3] == area && p[3..] == rest;
    assert rest[..5] == " 555-" && rest[5..] == line;
    assert p[8..] == line;
    assert ParseIntPrefix(area + rest) == Some(AreaCode(id)) by {
      ParseDecimalThen(AreaCode(id), rest);
    }
    assert ParseIntPrefix(line) == Some(LineNumber(id)) by {
      ParseIntToDecimal(LineNumber(id));
    }
  }

  const MailDomain: string := "@avicena.com"

  /** The e-mail: the lowered first word of the name at the clinic's domain; 'd' when the name is missing. */
  function Email(name: string): (e: string)
    ensures e == ToLower(NameParts(name)[0]) + MailDomain
    ensures name == "" ==> e == "d" + MailDomain
  {
    ToLower(NameParts(name)[0]) + MailDomain
  }

  /** Lowering keeps a character plain: no whitespace, no '@'. */
  lemma LowerKeepsPlain(s: string)
    requires PatientForm.AllPlain(s)
    ensures PatientForm.AllPlain(ToLower(s))
  {
    forall i | 0 <= i < |s| ensures PatientForm.Plain(ToLower(s)[i]) {
      assert PatientForm.Plain(s[i]);
    }
  }

  /** A first word without '@' or whitespace gives an e-mail the patient form would accept. */
  lemma EmailIsValid(name: string)
    requires NameParts(name)[0] != "" && PatientForm.AllPlain(NameParts(name)[0])
    ensures PatientForm.EmailMatches(Email(name))
  {
    var local := ToLower(NameParts(name)[0]);
    LowerKeepsPlain(NameParts(name)[0]);
    assert Email(name) == local + ['@'] + "avicena" + ['.'] + "com";
    assert PatientForm.AllPlain("avicena") && PatientForm.AllPlain("com");
    PatientForm.PiecesOk(local, "avicena", "com");
    PatientForm.EmailOkIffMatches(Email(name));
  }

  const DentalService: string := "Dental service"
  const OralService: string := "Oral Disease service"

  /** The specialty mentions one of the characters. */
  predicate Mentions(especialidad: string, chars: set<char>) {
    exists i :: 0 <= i < |especialidad| && especialidad[i] in chars
  }

  /**
   * The services: 'Dental service' when the specialty holds 1, 3 or 5,
   * 'Oral Disease service' when it holds 2 or 4, and 'Dental service' alone
   * when neither applies.
   */
  function Services(especialidad: string): (s: seq<string>)
    ensures 1 <= |s| <= 2
    ensures OralService in s <==> Mentions(especialidad, {'2', '4'})
    ensures DentalService in s <==> Mentions(especialidad, {'1', '3', '5'}) || !Mentions(especialidad, {'2', '4'})
    ensures DentalService in s ==> s[0] == DentalService
  {
    var dental := Mentions(especialidad, {'1', '3', '5'});
    var oral := Mentions(especialidad, {'2', '4'});
    var s := (if dental then [DentalService] else []) + (if oral then [OralService] else []);
    if |s| == 0 then [DentalService] else s
  }

  /** Full time when the id's first character has an even code; an empty id reads NaN and is part time. */
  predicate IsFullTime(id: string) {
    |id| > 0 && (id[0] as int) % 2 == 0
  }

  /** The display fields the page derives for a doctor. */
  datatype Derived = Derived(initials: string, workingDays: seq<nat>, phone: string, email: string,
                             services: seq<string>, isFullTime: bool)

  /** A doctor as the page stores it; `derived` is missing for a record taken as the server sent it. */
  datatype Row = Row(doctor: Doctor, derived: Option<Derived>)

  /** The `enhancedDoctors` derivation for one doctor. */
  function Enhance(d: Doctor): (r: Row)
    ensures r.doctor == d && r.derived.Some?
    ensures r.derived.value.initials == Initials(d.nombreCompleto)
    ensures r.derived.value.workingDays == WorkingDays(d.id)
    ensures r.derived.value.phone == Phone(d.id) && r.derived.value.email == Email(d.nombreCompleto)
    ensures r.derived.value.services == Services(d.especialidad)
    ensures r.derived.value.isFullTime == IsFullTime(d.id)
  {
    Row(d, Some(Derived(Initials(d.nombreCompleto), WorkingDays(d.id), Phone(d.id), Email(d.nombreCompleto),
                        Services(d.especialidad), IsFullTime(d.id))))
  }

  /** The derivation depends on the record alone: the same doctor always gets the same display fields. */
  lemma EnhanceDeterministic(a: Doctor, b: Doctor)
    requires a.id == b.id && a.nombreCompleto == b.nombreCompleto && a.especialidad == b.especialidad
    ensures Enhance(a).derived == Enhance(b).derived
  {
  }

  /** Every row carries its display fields, as the table reads them. */
  predicate Renderable(rows: seq<Row>) {
    forall i :: 0 <= i < |rows| ==> rows[i].derived.Some?
  }

  /** The page's state; `deleting` is the id whose deletion is in progress. */
  datatype Page = Page(
    loading: bool,
    error: Option<string>,
    rows: seq<Row>,
    showForm: bool,
    editing: Option<Doctor>,
    formLoading: bool,
    deleting: Option<string>)

  const LoadError: string := "Error al cargar los doctores"
  const DeleteError: string := "Error al eliminar el doctor"
  const UpdateError: string := "Error al actualizar el doctor"
  const CreateError: string := "Error al crear el doctor"

  /** A doctor as the server sends it: `id` or `especialidad` may be missing (`None`). */
  datatype Received = Received(id: Option<string>, nombreCompleto: string, especialidad: Option<string>)

  /** The record has both fields the derivation reads without a guard. */
  predicate Complete(d: Received) {
    d.id.Some? && d.especialidad.Some?
  }

  predicate AllComplete(ds: seq<Received>) {
    forall i :: 0 <= i < |ds| ==> Complete(ds[i])
  }

  function AsDoctor(d: Received): Doctor
    requires Complete(d)
  {
    Doctor(d.id.value, d.nombreCompleto, d.especialidad.value)
  }

  /** The `response.map` of the derivation over complete records: one drawable row per record, in order. */
  function EnhanceAll(ds: seq<Received>): (rows: seq<Row>)
    requires AllComplete(ds)
    ensures |rows| == |ds| && Renderable(rows)
    ensures forall i :: 0 <= i < |ds| ==> rows[i] == Enhance(AsDoctor(ds[i]))
  {
    seq(|ds|, i requires 0 <= i < |ds| => Enhance(AsDoctor(ds[i])))
  }

  /**
   * `fetchDoctors`: an empty answer clears the list and a list of complete
   * records is enhanced in order. A record without `id` or `especialidad`
   * makes the derivation throw a `TypeError` (whose engine-given text is
   * `typeError`), and a failed request throws its own error; either way the
   * message is recorded and the list is kept.
   */
  function Fetched(p: Page, reply: Result<seq<Received>>, typeError: string): (r: Page)
    ensures !r.loading
    ensures reply.Ok? && AllComplete(reply.value) ==>
      |r.rows| == |reply.value| && Renderable(r.rows) && r.error == p.error
      && forall i :: 0 <= i < |reply.value| ==> r.rows[i] == Enhance(AsDoctor(reply.value[i]))
    ensures reply.Ok? && !AllComplete(reply.value) ==>
      r.rows == p.rows && r.error == Some(Or(typeError, LoadError))
    ensures reply.Err? ==> r.rows == p.rows && r.error == Some(Or(reply.message, LoadError))
  {
    match reply
    case Ok(ds) =>
      if AllComplete(ds) then p.(loading := false, rows := EnhanceAll(ds))
      else p.(loading := false, error := Some(Or(typeError, LoadError)))
    case Err(m) => p.(loading := false, error := Some(Or(m, LoadError)))
  }

  /** One record without an `id` loses the whole answer: nothing is drawn from it. */
  lemma MissingIdKeepsList(p: Page, ds: seq<Received>, i: int, typeError: string)
    requires 0 <= i < |ds| && ds[i].id.None? && typeError != ""
    ensures Fetched(p, Ok(ds), typeError).rows == p.rows
    ensures Fetched(p, Ok(ds), typeError).error == Some(typeError)
  {
    assert !Complete(ds[i]);
  }

  /** `handleAddDoctor` and `handleEditDoctor`: open the form, for a new doctor or for the given one. */
  function OpenForm(p: Page, doctor: Option<Doctor>): (r: Page)
    ensures r.showForm && r.editing == doctor && r.rows == p.rows
  {
    p.(showForm := true, editing := doctor)
  }

  /** The rows without the doctor with that id. */
  function WithoutDoctor(rows: seq<Row>, id: string): (r: seq<Row>)
    ensures forall i :: 0 <= i < |r| ==> r[i] in rows && r[i].doctor.id != id
    ensures forall i :: 0 <= i < |rows| && rows[i].doctor.id != id ==> rows[i] in r
  {
    Filter(rows, (row: Row) => row.doctor.id != id)
  }

  /**
   * `handleDeleteDoctor`, with the answer of the confirmation dialog as a
   * parameter: on success exactly the doctor with that id leaves the list;
   * on failure the error is recorded; the pending id is cleared either way.
   */
  function Delete(p: Page, id: string, confirmed: bool, outcome: Result<()>): (r: Page)
    ensures !confirmed ==> r == p
    ensures confirmed ==> r.deleting.None?
    ensures confirmed && outcome.Ok? ==> r.rows == WithoutDoctor(p.rows, id) && r.error == p.error
    ensures confirmed && outcome.Err? ==> r.rows == p.rows && r.error == Some(Or(outcome.message, DeleteError))
  {
    if !confirmed then p
    else match outcome
      case Ok(_) => p.(rows := WithoutDoctor(p.rows, id), deleting := None)
      case Err(m) => p.(error := Some(Or(m, DeleteError)), deleting := None)
  }

  /** The list after a saved form: the edited doctor's row replaced, or the new one appended, with `row` as the stored record. */
  function Saved(p: Page, row: Row): (rows: seq<Row>)
    ensures p.editing.Some? ==> |rows| == |p.rows|
    ensures p.editing.None? ==> |rows| == |p.rows| + 1
    ensures forall i :: 0 <= i < |rows| ==> rows[i] == row || rows[i] in p.rows
  {
    if p.editing.Some? then ReplaceWhere(p.rows, (r: Row) => r.doctor.id == p.editing.value.id, row)
    else p.rows + [row]
  }

  /** `handleSubmitForm` as written: the server's record is stored as it comes, without display fields. */
  function SubmitAsWritten(p: Page, reply: Result<Doctor>): (r: Page)
    ensures !r.formLoading
    ensures reply.Ok? ==> r.rows == Saved(p, Row(reply.value, None)) && !r.showForm
    ensures reply.Err? ==> (r.rows == p.rows && r.showForm == p.showForm
      && r.error == Some(Or(reply.message, if p.editing.Some? then UpdateError else CreateError)))
  {
    match reply
    case Ok(d) => p.(rows := Saved(p, Row(d, None)), showForm := false, formLoading := false)
    case Err(m) => p.(error := Some(Or(m, if p.editing.Some? then UpdateError else CreateError)), formLoading := false)
  }

  /** After creating a doctor as written, the table has a row without working days or services to draw. */
  lemma CreatedDoctorNotRenderable(p: Page, d: Doctor)
    requires p.editing.None?
    ensures !Renderable(SubmitAsWritten(p, Ok(d)).rows)
  {
    var rows := SubmitAsWritten(p, Ok(d)).rows;
    assert rows[|rows| - 1].derived.None?;
  }

  /** `handleSubmitForm` with the stored record enhanced like the fetched ones. */
  function Submit(p: Page, reply: Result<Doctor>): (r: Page)
    ensures !r.formLoading
    ensures reply.Ok? ==> r.rows == Saved(p, Enhance(reply.value)) && !r.showForm
    ensures reply.Err? ==> r == SubmitAsWritten(p, reply)
  {
    match reply
    case Ok(d) => p.(rows := Saved(p, Enhance(d)), showForm := false, formLoading := false)
    case Err(_) => SubmitAsWritten(p, reply)
  }

  /** Creating appends exactly one row, the new doctor, after the old ones. */
  lemma CreateAppends(p: Page, d: Doctor)
    requires p.editing.None?
    ensures var rows := Submit(p, Ok(d)).rows;
      |rows| == |p.rows| + 1 && rows[..|p.rows|] == p.rows && rows[|p.rows|] == Enhance(d)
  {
  }

  /** Editing replaces the rows of the edited doctor's id and keeps every other row in place. */
  lemma EditReplaces(p: Page, d: Doctor, i: int)
    requires p.editing.Some? && 0 <= i < |p.rows|
    ensures var rows := Submit(p, Ok(d)).rows;
      |rows| == |p.rows|
      && (p.rows[i].doctor.id == p.editing.value.id ==> rows[i] == Enhance(d))
      && (p.rows[i].doctor.id != p.editing.value.id ==> rows[i] == p.rows[i])
  {
  }

  /** Removing rows keeps every remaining row drawable. */
  lemma WithoutDoctorRenderable(rows: seq<Row>, id: string)
    requires Renderable(rows)
    ensures Renderable(WithoutDoctor(rows, id))
  {
    var r := WithoutDoctor(rows, id);
    forall i | 0 <= i < |r| ensures r[i].derived.Some? {
      var k :| 0 <= k < |rows| && rows[k] == r[i];
    }
  }

  /** A saved form keeps every row drawable when the stored record is enhanced. */
  lemma SubmitRenderable(p: Page, reply: Result<Doctor>)
    requires Renderable(p.rows)
    ensures Renderable(Submit(p, reply).rows)
  {
    if reply.Ok? {
      SavedRenderable(p, Enhance(reply.value));
    }
  }

  /** Saving a drawable row into a drawable list, by replacement or by appending, leaves it drawable. */
  lemma SavedRenderable(p: Page, row: Row)
    requires Renderable(p.rows) && row.derived.Some?
    ensures Renderable(Saved(p, row))
  {
    var rows := Saved(p, row);
    if p.editing.None? {
      forall i | 0 <= i < |rows| ensures rows[i].derived.Some? {
        if i == |p.rows| {
          assert rows[i] == row;
        } else {
          assert rows[i] == p.rows[i];
        }
      }
    }
  }

  /** With the stored record enhanced, every handler keeps every row drawable. */
  lemma HandlersKeepRenderable(p: Page, reply: Result<Doctor>, fetched: Result<seq<Received>>, typeError: string,
                               id: string, confirmed: bool, outcome: Result<()>)
    requires Renderable(p.rows)
    ensures Renderable(Submit(p, reply).rows)
    ensures Renderable(Delete(p, id, confirmed, outcome).rows)
    ensures Renderable(Fetched(p, fetched, typeError).rows)
  {
    SubmitRenderable(p, reply);
    DeleteRenderable(p, id, confirmed, outcome);
  }

  /** Deleting, confirmed or not, keeps every row drawable. */
  lemma DeleteRenderable(p: Page, id: string, confirmed: bool, outcome: Result<()>)
    requires Renderable(p.rows)
    ensures Renderable(Delete(p, id, confirmed, outcome).rows)
  {
    WithoutDoctorRenderable(p.rows, id);
  }
}

=== FILE: home_page.dfy ===
/**
 * The API overview page: four endpoint sections, each loaded once and shown
 * with a status badge, an expandable body and a response schema line, plus a
 * connection banner when every section failed.
 */
module HomePage {

  import opened Wrappers
  import opened Strings

  /** The four endpoint sections. */
  datatype Section = Patients | Doctors | Appointments | Odontogram

  /** One value per section. */
  datatype PerSection<T> = PerSection(patients: T, doctors: T, appointments: T, odontogram: T) {

    function Get(s: Section): T {
      match s
      case Patients => patients
      case Doctors => doctors
      case Appointments => appointments
      case Odontogram => odontogram
    }

    /** The same record with the value of one section replaced. */
    function With(s: Section, v: T): (r: PerSection<T>)
      ensures r.Get(s) == v
      ensures forall o :: o != s ==> r.Get(o) == Get(o)
    {
      match s
      case Patients => this.(patients := v)
      case Doctors => this.(doctors := v)
      case Appointments => this.(appointments := v)
      case Odontogram => this.(odontogram := v)
    }
  }

  /** A reply body as far as the page inspects it: arrays by their length, other objects opaque. */
  datatype Value = Null | Text(text: string) | Number(n: int) | Bool(b: bool) | Array(length: nat) | Object

  /** JavaScript truthiness of a reply. */
  predicate Truthy(v: Value) {
    match v
    case Null => false
    case Text(t) => t != ""
    case Number(n) => n != 0
    case Bool(b) => b
    case Array(_) => true
    case Object => true
  }

  /** One section's state; `error` is `None` for `null`. */
  datatype DataState = DataState(loading: bool, data: Value, error: Option<string>)

  const Loading: DataState := DataState(true, Null, None)

  const InitialData: PerSection<DataState> := PerSection(Loading, Loading, Loading, Loading)

  const InitialExpanded: PerSection<bool> := PerSection(false, false, false, false)

  /** The error is set: present and not empty. */
  predicate HasError(d: DataState) {
    d.error.Some? && d.error.value != ""
  }

  const HtmlMarker: string := "<!doctype html>"
  const HtmlError: string := "API responded with HTML instead of JSON. Check if backend is running correctly."
  const DefaultError: string := "Error loading data"
  const NoPatientsError: string := "No patients available to get odontogram"

  /** A text reply holding the HTML marker: the development server answered instead of the backend. */
  predicate IsHtml(v: Value) {
    v.Text? && Contains(v.text, HtmlMarker)
  }

  /**
   * `fetchData` for one section: a reply becomes the section's data unless
   * it is HTML, which counts as a failure; a failure records its message or
   * the default one. Loading ends either way.
   */
  function Fetch(d: PerSection<DataState>, s: Section, reply: Result<Value>): (r: PerSection<DataState>)
    ensures !r.Get(s).loading
    ensures forall o :: o != s ==> r.Get(o) == d.Get(o)
    ensures reply.Ok? && !IsHtml(reply.value) ==> r.Get(s) == DataState(false, reply.value, None)
    ensures reply.Ok? && IsHtml(reply.value) ==> r.Get(s) == DataState(false, Null, Some(HtmlError))
    ensures reply.Err? ==> r.Get(s) == DataState(false, Null, Some(Or(reply.message, DefaultError)))
  {
    var state :=
      match reply
      case Ok(v) => if IsHtml(v) then DataState(false, Null, Some(HtmlError)) else DataState(false, v, None)
      case Err(m) => DataState(false, Null, Some(Or(m, DefaultError)));
    d.With(s, state)
  }

  /** The length property the odontogram request reads from the patient reply; missing is treated as 0. */
  function LengthOf(v: Value): nat {
    match v
    case Text(t) => |t|
    case Array(n) => n
    case _ => 0
  }

  /** What the odontogram section does with the patient list: ask for the first patient's chart, or fail. */
  datatype Plan = RequestFirst | Fail(message: string)

  function OdontogramPlan(patients: Value): (p: Plan)
    ensures IsHtml(patients) ==> p == Fail(HtmlError)
    ensures !IsHtml(patients) ==> (p.RequestFirst? <==> Truthy(patients) && LengthOf(patients) > 0)
    ensures p.Fail? && !IsHtml(patients) ==> p.message == NoPatientsError
  {
    if IsHtml(patients) then Fail(HtmlError)
    else if Truthy(patients) && LengthOf(patients) > 0 then RequestFirst
    else Fail(NoPatientsError)
  }

  /** An empty patient list never requests an odontogram. */
  lemma EmptyListNoOdontogram()
    ensures OdontogramPlan(Array(0)) == Fail(NoPatientsError)
    ensures OdontogramPlan(Null) == Fail(NoPatientsError)
  {
  }

  /** Starting from the initial state, fetches keep each section consistent: loading sections hold nothing, a failure holds no data. */
  predicate Consistent(d: DataState) {
    (d.loading ==> d.data == Null && d.error.None?) && (d.error.Some? ==> d.data == Null && d.error.value != "")
  }

  lemma FetchKeepsConsistent(d: PerSection<DataState>, s: Section, reply: Result<Value>, o: Section)
    requires Consistent(d.Get(o))
    ensures Consistent(Fetch(d, s, reply).Get(o))
  {
  }

  /**
   * `statusText`: LOADING exactly while loading, whatever else is set;
   * SUCCESS only for truthy data without an error.
   */
  function StatusText(d: DataState): (r: string)
    ensures r in {"LOADING", "ERROR", "SUCCESS", "NO DATA"}
    ensures r == "LOADING" <==> d.loading
    ensures r == "SUCCESS" ==> Truthy(d.data) && !HasError(d)
  {
    if d.loading then "LOADING"
    else if HasError(d) then "ERROR"
    else if Truthy(d.data) then "SUCCESS"
    else "NO DATA"
  }

  datatype Colour = Red | Green | Grey

  /** `statusColor`: red on any error, even while loading; green once loaded with data; grey otherwise. */
  function StatusColor(d: DataState): (c: Colour)
    ensures c == Red <==> HasError(d)
    ensures c == Green ==> !d.loading && Truthy(d.data)
  {
    if HasError(d) then Red
    else if !d.loading && Truthy(d.data) then Green
    else Grey
  }

  /**
   * In a consistent section the badge's colour matches its text: red
   * exactly for ERROR, green exactly for SUCCESS, grey for LOADING and NO DATA.
   */
  lemma BadgeAgrees(d: DataState)
    requires Consistent(d)
    ensures StatusColor(d) == Red <==> StatusText(d) == "ERROR"
    ensures StatusColor(d) == Green <==> StatusText(d) == "SUCCESS"
    ensures StatusColor(d) == Grey <==> StatusText(d) in {"LOADING", "NO DATA"}
  {
  }

  /** The banner condition: every section has finished and holds an error. */
  predicate AllHaveErrors(d: PerSection<DataState>) {
    forall s: Section :: d.Get(s).error.Some? && !d.Get(s).loading
  }

  /** The banner appears exactly when all four fetches have failed, and never before all four have answered. */
  lemma AllHaveErrorsIff(d: PerSection<DataState>)
    ensures AllHaveErrors(d) <==> (d.patients.error.Some? && !d.patients.loading
      && d.doctors.error.Some? && !d.doctors.loading
      && d.appointments.error.Some? && !d.appointments.loading
      && d.odontogram.error.Some? && !d.odontogram.loading)
    ensures !AllHaveErrors(InitialData)
  {
    if AllHaveErrors(d) {
      assert d.Get(Patients) == d.patients && d.Get(Doctors) == d.doctors;
      assert d.Get(Appointments) == d.appointments && d.Get(Odontogram) == d.odontogram;
    } else {
      var s: Section :| !(d.Get(s).error.Some? && !d.Get(s).loading);
      assert s == Patients || s == Doctors || s == Appointments || s == Odontogram;
    }
    assert !(InitialData.Get(Patients).error.Some? && !InitialData.Get(Patients).loading);
  }

  /** Four failed fetches raise the banner. */
  lemma FourFailuresRaiseBanner(a: string, b: string, c: string, e: string)
    ensures AllHaveErrors(Fetch(Fetch(Fetch(Fetch(InitialData, Patients, Err(a)), Doctors, Err(b)), Appointments, Err(c)), Odontogram, Err(e)))
  {
    var d := Fetch(Fetch(Fetch(Fetch(InitialData, Patients, Err(a)), Doctors, Err(b)), Appointments, Err(c)), Odontogram, Err(e));
    AllHaveErrorsIff(d);
  }

  /** `toggleSection`: flips the one flag. */
  function Toggle(e: PerSection<bool>, s: Section): (r: PerSection<bool>)
    ensures r.Get(s) == !e.Get(s)
    ensures forall o :: o != s ==> r.Get(o) == e.Get(o)
  {
    e.With(s, !e.Get(s))
  }

  /** Toggling twice restores every flag. */
  lemma ToggleTwice(e: PerSection<bool>, s: Section)
    ensures Toggle(Toggle(e, s), s) == e
  {
    var r := Toggle(Toggle(e, s), s);
    assert forall o :: r.Get(o) == e.Get(o);
    assert r.patients == r.Get(Patients) && r.doctors == r.Get(Doctors);
    assert r.appointments == r.Get(Appointments) && r.odontogram == r.Get(Odontogram);
  }

  /** The expanded body of a section. */
  datatype Body = Spinner | RequestFailed(message: string) | NoData | Response(schema: string)

  /** The schema line: `Array[n]` for an array, 'Object' otherwise. */
  function Schema(v: Value): (s: string)
    ensures v.Array? ==> s == "Array[" + NatToDecimal(v.length) + "]"
    ensures !v.Array? ==> s == "Object"
  {
    if v.Array? then "Array[" + NatToDecimal(v.length) + "]" else "Object"
  }

  /** The body: spinner, failure, 'No data available' for a falsy or empty-array reply, otherwise the response and its schema. */
  function BodyOf(d: DataState): (b: Body)
    ensures d.loading <==> b.Spinner?
    ensures b.RequestFailed? <==> !d.loading && HasError(d)
    ensures b.Response? ==> Truthy(d.data) && d.data != Array(0) && b.schema == Schema(d.data)
    ensures !d.loading && !HasError(d) && (!Truthy(d.data) || d.data == Array(0)) ==> b.NoData?
  {
    if d.loading then Spinner
    else if HasError(d) then RequestFailed(d.error.value)
    else if !Truthy(d.data) || d.data == Array(0) then NoData
    else Response(Schema(d.data))
  }

  /** The schema names the array's length: reading the digits back gives it. */
  lemma SchemaLength(n: nat)
    ensures var s := Schema(Array(n)); StartsWith(s, "Array[") && ParseIntPrefix(s[6..]) == Some(n)
  {
    var s := Schema(Array(n));
    assert s[..6] == "Array[";
    assert s[6..] == NatToDecimal(n) + "]";
    ParseDecimalThen(n, "]");
  }

  /** An empty array succeeds in the badge yet shows 'No data available' in the body. */
  lemma EmptyArraySucceedsWithoutData()
    ensures StatusText(DataState(false, Array(0), None)) == "SUCCESS"
    ensures BodyOf(DataState(false, Array(0), None)) == NoData
  {
  }
}

=== FILE: layout.dfy ===
/**
 * The application frame: the top bar's page title and the sidebar's
 * highlighted menu entry, both read off the current pathname.
 */
module Layout {

  import opened Strings

  /** The four sidebar entries, in menu order. */
  datatype Link = ApiTest | PatientsLink | ScheduleLink | DoctorsLink

  /** The route each entry leads to. */
  function Route(l: Link): string {
    match l
    case ApiTest => "/"
    case PatientsLink => "/patients"
    case ScheduleLink => "/schedule"
    case DoctorsLink => "/doctors"
  }

  /** The text of each entry; the top bar uses the same words as titles. */
  function Label(l: Link): string {
    match l
    case ApiTest => "API Test"
    case PatientsLink => "Pacientes"
    case ScheduleLink => "Horario"
    case DoctorsLink => "Staff List"
  }

  const DefaultTitle: string := "Odoonto"

  /** `getPageTitle`: exactly "/" is the API test page, then the first section prefix that matches, else the application name. */
  function Title(path: string): (r: string)
    ensures path == "/" ==> r == Label(ApiTest)
    ensures forall l :: IsSection(l) && IsActive(path, Route(l)) ==> r == Label(l)
    ensures r == DefaultTitle <==> path != "/" && forall l :: IsSection(l) ==> !IsActive(path, Route(l))
  {
    SectionsExclusive(path, PatientsLink, ScheduleLink);
    SectionsExclusive(path, PatientsLink, DoctorsLink);
    SectionsExclusive(path, ScheduleLink, DoctorsLink);
    if path == "/" then Label(ApiTest)
    else if StartsWith(path, "/patients") then Label(PatientsLink)
    else if StartsWith(path, "/schedule") then Label(ScheduleLink)
    else if StartsWith(path, "/doctors") then Label(DoctorsLink)
    else DefaultTitle
  }

  /** The sidebar's `isActive`: the pathname starts with the route. */
  predicate IsActive(path: string, route: string) {
    StartsWith(path, route)
  }

  /** Whether an entry is drawn highlighted: a section entry when its route is active, the API test entry when "/" is and no section is. */
  predicate Highlighted(path: string, l: Link)
    ensures Highlighted(path, l) ==> StartsWith(path, "/")
  {
    SectionsUnderRoot(path);
    match l
    case ApiTest =>
      IsActive(path, "/") && !IsActive(path, "/patients") && !IsActive(path, "/doctors") && !IsActive(path, "/schedule")
    case _ => IsActive(path, Route(l))
  }

  /** A section entry: every entry but the API test one. */
  predicate IsSection(l: Link) {
    l != ApiTest
  }

  /** Two prefixes that differ at some index cannot both start the same path. */
  lemma PrefixesClash(path: string, a: string, b: string, i: nat)
    requires i < |a| && i < |b| && a[i] != b[i]
    ensures !(StartsWith(path, a) && StartsWith(path, b))
  {
    if StartsWith(path, a) && |b| <= |path| {
      assert path[..|b|][i] == path[..|a|][i] == a[i];
    }
  }

  /** No pathname lies under two sections. */
  lemma SectionsExclusive(path: string, l: Link, m: Link)
    requires IsSection(l) && IsSection(m) && l != m
    ensures !(IsActive(path, Route(l)) && IsActive(path, Route(m)))
  {
    PrefixesClash(path, Route(l), Route(m), 1);
  }

  /** Every section route starts with "/", so being under a section means being under "/". */
  lemma SectionUnderRoot(path: string, l: Link)
    requires IsActive(path, Route(l))
    ensures IsActive(path, "/")
  {
    assert path[..1] == path[..|Route(l)|][..1];
  }

  /** Every active section route puts the path under "/". */
  lemma SectionsUnderRoot(path: string)
    ensures forall l :: IsSection(l) && IsActive(path, Route(l)) ==> IsActive(path, "/")
  {
    forall l | IsSection(l) && IsActive(path, Route(l))
      ensures IsActive(path, "/")
    {
      SectionUnderRoot(path, l);
    }
  }

  /**
   * The title, stated without the order of the tests: each section's title
   * exactly for the paths under that section, "API Test" exactly for "/",
   * and the application name for everything else.
   */
  lemma TitleIff(path: string)
    ensures Title(path) == "API Test" <==> path == "/"
    ensures Title(path) == "Pacientes" <==> StartsWith(path, "/patients")
    ensures Title(path) == "Horario" <==> StartsWith(path, "/schedule")
    ensures Title(path) == "Staff List" <==> StartsWith(path, "/doctors")
    ensures Title(path) == DefaultTitle <==>
      path != "/" && !StartsWith(path, "/patients") && !StartsWith(path, "/schedule") && !StartsWith(path, "/doctors")
  {
    SectionsExclusive(path, PatientsLink, ScheduleLink);
    SectionsExclusive(path, PatientsLink, DoctorsLink);
    SectionsExclusive(path, ScheduleLink, DoctorsLink);
  }

  /** Any page under a section, e.g. a patient's detail page or the new-patient form, takes the section's title. */
  lemma SubpageKeepsTitle(l: Link, rest: string)
    requires IsSection(l)
    ensures Title(Route(l) + rest) == Label(l)
  {
    var path := Route(l) + rest;
    assert path[..|Route(l)|] == Route(l);
    TitleIff(path);
  }

  /** For any pathname starting with "/", exactly one sidebar entry is highlighted. */
  lemma ExactlyOneHighlighted(path: string)
    requires StartsWith(path, "/")
    ensures exists l :: Highlighted(path, l) && forall m :: Highlighted(path, m) ==> m == l
  {
    SectionsExclusive(path, PatientsLink, ScheduleLink);
    SectionsExclusive(path, PatientsLink, DoctorsLink);
    SectionsExclusive(path, ScheduleLink, DoctorsLink);
    if Highlighted(path, PatientsLink) {
      assert forall m :: Highlighted(path, m) ==> m == PatientsLink;
    } else if Highlighted(path, ScheduleLink) {
      assert forall m :: Highlighted(path, m) ==> m == ScheduleLink;
    } else if Highlighted(path, DoctorsLink) {
      assert forall m :: Highlighted(path, m) ==> m == DoctorsLink;
    } else {
      assert Highlighted(path, ApiTest);
    }
  }

  /** A pathname not starting with "/" (only the empty one, in a browser) highlights nothing. */
  lemma NothingHighlightedOffRoot(path: string, l: Link)
    requires !StartsWith(path, "/")
    ensures !Highlighted(path, l)
  {
    if l != ApiTest && Highlighted(path, l) {
      SectionUnderRoot(path, l);
    }
  }

  /**
   * Title and sidebar agree: a section's title shows exactly when its entry
   * is highlighted, and the "API Test" title implies its entry is highlighted.
   */
  lemma TitleAgreesWithSidebar(path: string, l: Link)
    ensures IsSection(l) ==> (Title(path) == Label(l) <==> Highlighted(path, l))
    ensures Title(path) == Label(ApiTest) ==> Highlighted(path, ApiTest)
  {
    TitleIff(path);
  }

  /** The converse fails: an unknown page highlights the API test entry under the generic title. */
  lemma UnknownPageHighlightsApiTest()
    ensures Highlighted("/settings", ApiTest)
    ensures Title("/settings") == DefaultTitle
  {
    var path := "/settings";
    assert StartsWith(path, path) && StartsWith(path, "/");
    PrefixesClash(path, path, "/patients", 1);
    PrefixesClash(path, path, "/doctors", 1);
    PrefixesClash(path, path, "/schedule", 2);
    TitleIff(path);
  }
}

=== FILE: lists.dfy ===
/**
 * The array operations the components use on their record lists
 * (`filter`, `map` with a conditional replacement, `some`, `find`, appending),
 * as pure functions over sequences.
 */
module Lists {

  import opened Wrappers

  /** `s.filter(p)`: the elements satisfying `p`, in their original order. */
  function Filter<T>(s: seq<T>, p: T -> bool): (r: seq<T>)
    ensures |r| <= |s|
    ensures forall i :: 0 <= i < |r| ==> r[i] in s && p(r[i])
    ensures forall i :: 0 <= i < |s| && p(s[i]) ==> s[i] in r
  {
    if |s| == 0 then [] else (if p(s[0]) then [s[0]] else []) + Filter(s[1..], p)
  }

  /** How many elements satisfy `p`. */
  function Count<T>(s: seq<T>, p: T -> bool): nat {
    if |s| == 0 then 0 else (if p(s[0]) then 1 else 0) + Count(s[1..], p)
  }

  /** The filtered list has one element per element that satisfies `p`. */
  lemma {:induction false} FilterCount<T>(s: seq<T>, p: T -> bool)
    ensures |Filter(s, p)| == Count(s, p)
  {
    if |s| > 0 {
      FilterCount(s[1..], p);
    }
  }

  /** Filtering distributes over concatenation, so it preserves the relative order. */
  lemma {:induction false} FilterConcat<T>(a: seq<T>, b: seq<T>, p: T -> bool)
    ensures Filter(a + b, p) == Filter(a, p) + Filter(b, p)
  {
    if |a| == 0 {
      assert a + b == b;
    } else {
      assert (a + b)[1..] == a[1..] + b;
      FilterConcat(a[1..], b, p);
    }
  }

  /** Filtering a list whose every element passes changes nothing. */
  lemma {:induction false} FilterKeepsAll<T>(s: seq<T>, p: T -> bool)
    requires forall i :: 0 <= i < |s| ==> p(s[i])
    ensures Filter(s, p) == s
  {
    if |s| > 0 {
      FilterKeepsAll(s[1..], p);
    }
  }

  /** Filtering twice with the same predicate is filtering once. */
  lemma FilterIdempotent<T>(s: seq<T>, p: T -> bool)
    ensures Filter(Filter(s, p), p) == Filter(s, p)
  {
    var r := Filter(s, p);
    FilterKeepsAll(r, p);
  }

  /** `s.map(x => p(x) ? v : x)`: every element satisfying `p` becomes `v`, the others stay in place. */
  function ReplaceWhere<T>(s: seq<T>, p: T -> bool, v: T): (r: seq<T>)
    ensures |r| == |s|
    ensures forall i :: 0 <= i < |s| && !p(s[i]) ==> r[i] == s[i]
    ensures forall i :: 0 <= i < |s| && p(s[i]) ==> r[i] == v
  {
    if |s| == 0 then [] else [if p(s[0]) then v else s[0]] + ReplaceWhere(s[1..], p, v)
  }

  /** `s.some(p)`. */
  predicate Any<T>(s: seq<T>, p: T -> bool) {
    exists i :: 0 <= i < |s| && p(s[i])
  }

  /** `s.findIndex(p)`, with `None` for -1. */
  function FindIndex<T>(s: seq<T>, p: T -> bool): (r: Option<nat>)
    ensures r.None? <==> !Any(s, p)
    ensures r.Some? ==> r.value < |s| && p(s[r.value])
    ensures r.Some? ==> forall j :: 0 <= j < r.value ==> !p(s[j])
  {
    if |s| == 0 then None
    else if p(s[0]) then Some(0)
    else
      var k := FindIndex(s[1..], p);
      if k.None? then
        assert forall i :: 1 <= i < |s| ==> s[i] == s[1..][i - 1];
        None
      else
        Some(k.value + 1)
  }

  /** Some element passes exactly when the filter is non-empty. */
  lemma {:induction false} AnyIffFilterNonEmpty<T>(s: seq<T>, p: T -> bool)
    ensures Any(s, p) <==> |Filter(s, p)| > 0
  {
    if |s| > 0 {
      AnyIffFilterNonEmpty(s[1..], p);
      if Any(s[1..], p) {
        var i :| 0 <= i < |s[1..]| && p(s[1..][i]);
        assert p(s[i + 1]);
      }
      if Any(s, p) && !p(s[0]) {
        var i :| 0 <= i < |s| && p(s[i]);
        assert p(s[1..][i - 1]);
      }
    }
  }

  /** The head of the filtered list is the first element that passes. */
  lemma {:induction false} FilterHead<T>(s: seq<T>, p: T -> bool)
    requires |Filter(s, p)| > 0
    ensures FindIndex(s, p).Some? && Filter(s, p)[0] == s[FindIndex(s, p).value]
  {
    if !p(s[0]) {
      assert Filter(s, p) == Filter(s[1..], p);
      FilterHead(s[1..], p);
    }
  }

  /** The sum of a list of naturals. */
  function Sum(s: seq<nat>): nat {
    if |s| == 0 then 0 else s[0] + Sum(s[1..])
  }

  /** Sums add up over concatenation. */
  lemma {:induction false} SumConcat(a: seq<nat>, b: seq<nat>)
    ensures Sum(a + b) == Sum(a) + Sum(b)
  {
    if |a| == 0 {
      assert a + b == b;
    } else {
      assert (a + b)[1..] == a[1..] + b;
      SumConcat(a[1..], b);
    }
  }
}

=== FILE: odontogram_service.dfy ===
/**
 * The odontogram records the front end exchanges, and the two pure helpers of
 * the odontogram service: the lesion command and the mapping from the
 * backend's `teeth` format to the view's `dientes` format.
 */
module OdontogramService {

  import opened Wrappers
  import opened Strings

  /** The lesions of one tooth, face name to lesion type. */
  type FaceMap = map<string, string>

  /** The view format: tooth id to its faces. */
  type ToothMap = map<string, FaceMap>

  /** A backend tooth record `{ faces: {...} }`; `faces` may be missing. */
  datatype ToothRecord = ToothRecord(faces: Option<FaceMap>)

  /**
   * An odontogram object as the components read it: the backend shape
   * `{ id, teeth }`, the view shape `{ dientes }`, or a mix. An empty id
   * stands for a missing one.
   */
  datatype Chart = Chart(id: string, odontogramId: string, teeth: Option<map<string, ToothRecord>>, dientes: Option<ToothMap>)

  /** The body of an add-lesion request. */
  datatype LesionCommand = LesionCommand(toothId: int, face: string, lesionType: string)

  /** `createLesionCommand`: a record of its three arguments. */
  function CreateLesionCommand(toothId: int, face: string, lesionType: string): (c: LesionCommand)
    ensures c.toothId == toothId && c.face == face && c.lesionType == lesionType
  {
    LesionCommand(toothId, face, lesionType)
  }

  /** The result of `mapOdontogramToViewFormat`. */
  datatype ViewFormat = ViewFormat(dientes: ToothMap, esTemporal: bool)

  /** A tooth id in an FDI primary-teeth quadrant: it starts with 5, 6, 7 or 8. */
  predicate IsPrimaryId(id: string) {
    StartsWith(id, "5") || StartsWith(id, "6") || StartsWith(id, "7") || StartsWith(id, "8")
  }

  /** `odontogram.teeth || {}`. */
  function TeethOf(c: Chart): map<string, ToothRecord> {
    if c.teeth.Some? then c.teeth.value else map[]
  }

  /**
   * `mapOdontogramToViewFormat`: nothing for no odontogram; otherwise every
   * tooth with a copy of its faces (none when it has no `faces`), marked as a
   * child chart when some tooth id is in a primary quadrant.
   */
  function MapToViewFormat(o: Option<Chart>): (r: Option<ViewFormat>)
    ensures o.None? <==> r.None?
    ensures r.Some? ==> (
      var teeth := TeethOf(o.value);
      r.value.dientes.Keys == teeth.Keys
      && (forall t :: t in teeth && teeth[t].faces.Some? ==> r.value.dientes[t] == teeth[t].faces.value)
      && (forall t :: t in teeth && teeth[t].faces.None? ==> r.value.dientes[t] == map[])
      && (r.value.esTemporal <==> exists t :: t in teeth && IsPrimaryId(t)))
  {
    match o
    case None => None
    case Some(c) =>
      var teeth := TeethOf(c);
      var dientes := map t | t in teeth :: if teeth[t].faces.Some? then teeth[t].faces.value else map[];
      Some(ViewFormat(dientes, exists t :: t in teeth && IsPrimaryId(t)))
  }

  /** Missing `teeth` reads as no teeth: an empty, adult chart. */
  lemma MissingTeethIsEmpty(c: Chart)
    requires c.teeth.None? || c.teeth == Some(map[])
    ensures MapToViewFormat(Some(c)) == Some(ViewFormat(map[], false))
  {
  }

  /** Mapping keeps every face of every tooth, so the view format can be mapped back. */
  lemma MapToViewFormatInverse(c: Chart)
    requires forall t :: t in TeethOf(c) ==> TeethOf(c)[t].faces.Some?
    ensures var v := MapToViewFormat(Some(c)).value;
      (map t | t in v.dientes :: ToothRecord(Some(v.dientes[t]))) == TeethOf(c)
  {
    var v := MapToViewFormat(Some(c)).value;
    var back := map t | t in v.dientes :: ToothRecord(Some(v.dientes[t]));
    assert forall t :: t in back ==> back[t] == TeethOf(c)[t];
  }
}

=== FILE: patient_detail_page.dfy ===
/**
 * The patient detail page: the age and address shown on the information
 * tab, the status badge of an appointment, the sex label, the child/adult
 * choice of the odontogram, and the save, delete and odontogram-update flows.
 */
module PatientDetailPage {

  import opened Wrappers
  import opened Strings
  import opened Civil
  import opened Patients
  import opened OdontogramService
  import PatientOdontogram

  /** What `calculateAge` returns: 'N/A' or a whole number of years. */
  datatype AgeText = NotAvailable | Years(n: int)

  /** `calculateAge`, with the stored birth date already read as a civil date (`None` when the text is empty). */
  function CalculateAge(birth: Option<Date>, today: Date): (a: AgeText)
    ensures birth.None? <==> a.NotAvailable?
    ensures a.Years? ==> LexLe(Anniversary(birth.value, a.n), today) && !LexLe(Anniversary(birth.value, a.n + 1), today)
  {
    match birth
    case None => NotAvailable
    case Some(b) => Years(Age(b, today))
  }

  /** `calculateAge(...) < 18`: 'N/A' compares as NaN, so a missing date is never a child. */
  predicate IsChild(a: AgeText)
    ensures IsChild(a) ==> a.Years?
  {
    a.Years? && a.n < 18
  }

  /** The odontogram uses the primary-teeth chart exactly when the patient has a birth date and is not yet eighteen on `today`. */
  lemma ChildChartIff(birth: Option<Date>, today: Date)
    ensures IsChild(CalculateAge(birth, today)) <==> birth.Some? && !LexLe(Anniversary(birth.value, 18), today)
  {
    if birth.Some? {
      var b := birth.value;
      var n := Age(b, today);
      if n < 18 {
        assert !LexLe(Anniversary(b, 18), today) by {
          if LexLe(Anniversary(b, 18), today) {
            assert LexLe(Anniversary(b, n + 1), today);
          }
        }
      }
    }
  }

  /** The five address fields the detail page prints: the table's four and then `estado`. */
  const DetailAddressFields: seq<string> := ["calle", "numero", "colonia", "ciudad", "estado"]

  /** The detail page's address line: the placeholder without an address, and a present street comes first. */
  function DetailAddress(direccion: Option<Address>): (s: string)
    ensures direccion.None? ==> s == NoAddress
    ensures direccion.Some? && Lookup(direccion.value, "calle") != "" ==> StartsWith(s, Lookup(direccion.value, "calle"))
  {
    FormatAddress(direccion, DetailAddressFields)
  }

  /**
   * The detail line is the table's line followed by the state: unchanged
   * without a state, the state alone when none of the table's four fields is
   * present, and otherwise the table's line, ", " and the state.
   */
  lemma DetailAddressExtendsTable(direccion: Option<Address>)
    ensures var fields := ["calle", "numero", "colonia", "ciudad"];
      var table := FormatAddress(direccion, fields);
      var detail := DetailAddress(direccion);
      (direccion.None? ==> detail == table == NoAddress)
      && (direccion.Some? ==> (
        var estado := Lookup(direccion.value, "estado");
        (estado == "" ==> detail == table)
        && (estado != "" && Parts(direccion.value, fields) == [] ==> detail == estado)
        && (estado != "" && Parts(direccion.value, fields) != [] ==> detail == table + ", " + estado)))
  {
    var fields := ["calle", "numero", "colonia", "ciudad"];
    assert DetailAddressFields == fields + ["estado"];
    if direccion.Some? {
      FormatAddressSnoc(direccion, fields, "estado");
    }
  }

  const GreenBadge: string := "bg-green-100 text-green-800"
  const YellowBadge: string := "bg-yellow-100 text-yellow-800"
  const BlueBadge: string := "bg-blue-100 text-blue-800"
  const PurpleBadge: string := "bg-purple-100 text-purple-800"
  const GreyBadge: string := "bg-gray-100 text-gray-800"

  /** `getStatusClass`: the lowered status selects the colour; a missing or unknown status is grey. */
  function StatusClass(status: Option<string>): (c: string)
    ensures c in {GreenBadge, YellowBadge, BlueBadge, PurpleBadge, GreyBadge}
    ensures status.None? ==> c == GreyBadge
  {
    if status.None? then GreyBadge
    else
      var s := ToLower(status.value);
      if s == "confirmed" then GreenBadge
      else if s == "pending" then YellowBadge
      else if s == "waiting_room" then BlueBadge
      else if s == "in_progress" then PurpleBadge
      else GreyBadge
  }

  /** The four statuses with a colour. */
  const ColouredStatuses: set<string> := {"confirmed", "pending", "waiting_room", "in_progress"}

  /**
   * The badge ignores case; it is grey exactly when the lowered status is
   * not one of the four, so 'COMPLETED' and 'CANCELLED' are grey; and the
   * four coloured statuses have four different colours.
   */
  lemma StatusClassFacts(status: string, other: string)
    ensures StatusClass(Some(status)) == StatusClass(Some(ToLower(status)))
    ensures StatusClass(Some(status)) == GreyBadge <==> ToLower(status) !in ColouredStatuses
    ensures ToLower(status) in ColouredStatuses && ToLower(other) in ColouredStatuses ==>
      (StatusClass(Some(status)) == StatusClass(Some(other)) <==> ToLower(status) == ToLower(other))
  {
    ToLowerIdempotent(status);
  }

  /** The sex shown on the information tab. */
  function SexLabel(sexo: string): (s: string)
    ensures sexo == "MASCULINO" ==> s == "Masculino"
    ensures sexo == "FEMENINO" ==> s == "Femenino"
    ensures sexo == "" ==> s == "No especificado"
    ensures sexo !in {"MASCULINO", "FEMENINO", ""} ==> s == sexo
  {
    if sexo == "MASCULINO" then "Masculino"
    else if sexo == "FEMENINO" then "Femenino"
    else if sexo != "" then sexo
    else "No especificado"
  }

  /** The two known codes are shown by name; every other value is shown as stored, so no shown label is empty. */
  lemma SexLabelNeverEmpty(sexo: string)
    ensures SexLabel(sexo) != ""
    ensures SexLabel(sexo) == sexo <==> sexo !in {"MASCULINO", "FEMENINO", ""}
  {
  }

  /** The page's state. `location` is the route the page navigated to, if any. */
  datatype Page = Page(
    loading: bool,
    error: Option<string>,
    patient: Option<Patient>,
    odontogram: Option<Chart>,
    isEditing: bool,
    saveLoading: bool,
    deleteLoading: bool,
    location: Option<string>)

  const SaveError: string := "Error al actualizar el paciente"
  const DeleteError: string := "Error al eliminar el paciente"
  const PatientsRoute: string := "/patients"

  /** `handleSavePatient`: the stored patient and the end of editing on success, the error on failure; the spinner stops either way. */
  function Save(p: Page, outcome: Result<Patient>): (r: Page)
    ensures !r.saveLoading
    ensures outcome.Ok? ==> r == p.(patient := Some(outcome.value), isEditing := false, saveLoading := false)
    ensures outcome.Err? ==> r == p.(error := Some(Or(outcome.message, SaveError)), saveLoading := false)
  {
    match outcome
    case Ok(updated) => p.(patient := Some(updated), isEditing := false, saveLoading := false)
    case Err(m) => p.(error := Some(Or(m, SaveError)), saveLoading := false)
  }

  /**
   * `handleDeletePatient`, with the answer of the confirmation dialog as a
   * parameter: nothing unless confirmed; on success the page goes to the
   * patient list; on failure it records the error and stops the spinner.
   */
  function Delete(p: Page, confirmed: bool, outcome: Result<()>): (r: Page)
    ensures !confirmed ==> r == p
    ensures confirmed && outcome.Ok? ==> r == p.(deleteLoading := true, location := Some(PatientsRoute))
    ensures confirmed && outcome.Err? ==> r == p.(error := Some(Or(outcome.message, DeleteError)), deleteLoading := false)
  {
    if !confirmed then p
    else match outcome
      case Ok(_) => p.(deleteLoading := true, location := Some(PatientsRoute))
      case Err(m) => p.(error := Some(Or(m, DeleteError)), deleteLoading := false)
  }

  /** The page leaves for the patient list only after a confirmed, successful delete. */
  lemma DeleteNavigatesOnlyOnSuccess(p: Page, confirmed: bool, outcome: Result<()>)
    requires p.location.None?
    ensures Delete(p, confirmed, outcome).location.Some? <==> confirmed && outcome.Ok?
    ensures Delete(p, confirmed, outcome).error != p.error ==> confirmed && outcome.Err?
  {
  }

  /** `handleOdontogramUpdate`: whatever the editor reports becomes the page's odontogram. */
  function OdontogramUpdated(p: Page, reported: Chart): (r: Page)
    ensures r.odontogram == Some(reported) && r.(odontogram := p.odontogram) == p
  {
    p.(odontogram := Some(reported))
  }

  /**
   * The page hands its odontogram back to the editor as `data`; what the
   * editor reports as written comes back with no lesions at all.
   */
  lemma UpdateRoundTripAsWritten(p: Page, e: PatientOdontogram.Editor, rep: PatientOdontogram.Report, patientId: string)
    ensures var q := OdontogramUpdated(p, PatientOdontogram.ReportAsData(rep));
      PatientOdontogram.Load(e, q.odontogram, patientId).toothData == map[]
  {
    PatientOdontogram.ReportFedBackWipesChart(e, rep, patientId);
  }

  /** With the report in the backend shape, the editor reloads exactly the chart it reported. */
  lemma UpdateRoundTrip(p: Page, e: PatientOdontogram.Editor, isEditable: bool, toothId: string, face: string,
                        reply: PatientOdontogram.Reply, patientId: string)
    ensures var c := PatientOdontogram.FaceClick(e, isEditable, true, toothId, face, reply);
      c.report.Some? ==> (
        var q := OdontogramUpdated(p, PatientOdontogram.ReportAsBackend(c.report.value));
        PatientOdontogram.Load(c.editor, q.odontogram, patientId) == c.editor)
  {
    PatientOdontogram.ReportRoundTrip(e, isEditable, toothId, face, reply, patientId);
  }

  /** What the page draws. */
  datatype Screen = Spinner | ErrorScreen(text: string) | NotFound | Details(patient: Patient)

  /** The early returns: loading, then any error, then a missing patient, then the tabs. */
  function ScreenOf(p: Page): (s: Screen)
    ensures p.loading <==> s.Spinner?
    ensures s.ErrorScreen? <==> !p.loading && p.error.Some? && p.error.value != ""
    ensures s.Details? ==> p.patient == Some(s.patient) && (p.error.None? || p.error.value == "")
  {
    if p.loading then Spinner
    else if p.error.Some? && p.error.value != "" then ErrorScreen(p.error.value)
    else if p.patient.None? then NotFound
    else Details(p.patient.value)
  }

  /**
   * A failed save or delete replaces the whole page with the error screen:
   * the page returns early on any error, so the error banner drawn inside
   * the details is never reached.
   */
  lemma FailureReplacesPage(p: Page, m: string)
    requires !p.loading
    ensures ScreenOf(Delete(p, true, Err(m))) == ErrorScreen(Or(m, DeleteError))
    ensures ScreenOf(Save(p, Err(m))) == ErrorScreen(Or(m, SaveError))
    ensures ScreenOf(p).Details? ==> p.error.None? || p.error.value == ""
  {
  }
}

=== FILE: patient_form.dfy ===
/**
 * The patient form: its fields and nested address, the prefill from an
 * existing patient, the change handler with its `direccion.` names, the
 * validation (required fields, at least nine phone digits, the e-mail
 * shape) and the submitted record.
 */
module PatientForm {

  import opened Wrappers
  import opened Strings
  import opened Civil
  import opened Patients

  /** The form's state; `direccion` holds the seven address fields and any other the inputs name. */
  datatype Form = Form(
    nombre: string,
    apellido: string,
    fechaNacimiento: string,
    sexo: string,
    telefono: string,
    email: string,
    direccion: Address)

  const AddressFields: seq<string> := ["calle", "numero", "colonia", "codigoPostal", "ciudad", "estado", "pais"]

  const Masculino: string := "MASCULINO"

  /** The empty form: every text empty, sex MASCULINO, the seven address fields empty. */
  function DefaultForm(): (f: Form)
    ensures f.sexo == Masculino && f.nombre == "" && f.telefono == "" && f.email == ""
    ensures f.apellido == "" && f.fechaNacimiento == ""
    ensures f.direccion.Keys == set k | k in AddressFields
    ensures forall k :: k in f.direccion ==> f.direccion[k] == ""
  {
    Form("", "", "", Masculino, "", "", map k | k in AddressFields :: "")
  }

  /**
   * The form filled from a patient. `birthText` is the date part of the
   * stored birth date in ISO form (`toISOString().split('T')[0]`), which
   * depends on the time zone and is a parameter here.
   */
  function Prefill(p: Patient, birthText: string): (f: Form)
    ensures f.nombre == p.nombre && f.apellido == p.apellido && f.telefono == p.telefono && f.email == p.email
    ensures f.fechaNacimiento == (if p.fechaNacimiento != "" then birthText else "")
    ensures f.sexo == Or(p.sexo, Masculino)
    ensures f.direccion.Keys == set k | k in AddressFields
    ensures forall k :: k in f.direccion ==> f.direccion[k] == (if p.direccion.Some? then Lookup(p.direccion.value, k) else "")
  {
    var dir := if p.direccion.Some? then p.direccion.value else map[];
    Form(p.nombre, p.apellido, if p.fechaNacimiento != "" then birthText else "", Or(p.sexo, Masculino),
         p.telefono, p.email, map k | k in AddressFields :: Lookup(dir, k))
  }

  /** The prefill effect: a patient replaces the whole form; without one the form is kept. */
  function PrefillEffect(prev: Form, patient: Option<Patient>, birthText: string): (f: Form)
    ensures patient.None? ==> f == prev
    ensures patient.Some? ==> f == Prefill(patient.value, birthText)
  {
    if patient.Some? then Prefill(patient.value, birthText) else prev
  }

  /** A patient with every field present comes back unchanged from the prefilled form. */
  lemma PrefillKeepsPatient(p: Patient)
    requires p.sexo != "" && p.direccion.Some? && p.direccion.value.Keys == set k | k in AddressFields
    ensures var f := Prefill(p, p.fechaNacimiento);
      f == Form(p.nombre, p.apellido, p.fechaNacimiento, p.sexo, p.telefono, p.email, p.direccion.value)
  {
    var f := Prefill(p, p.fechaNacimiento);
    assert forall k :: k in f.direccion ==> f.direccion[k] == p.direccion.value[k];
  }

  /** The error messages, keyed by input name. */
  type Errors = map<string, string>

  const AddressPrefix: string := "direccion."

  /** The top-level inputs. */
  const TopFields: seq<string> := ["nombre", "apellido", "fechaNacimiento", "sexo", "telefono", "email"]

  /** The value of a top-level input. */
  function Get(f: Form, name: string): string
    requires name in TopFields
  {
    if name == "nombre" then f.nombre
    else if name == "apellido" then f.apellido
    else if name == "fechaNacimiento" then f.fechaNacimiento
    else if name == "sexo" then f.sexo
    else if name == "telefono" then f.telefono
    else f.email
  }

  function Set(f: Form, name: string, value: string): (r: Form)
    requires name in TopFields
    ensures Get(r, name) == value && r.direccion == f.direccion
    ensures forall other :: other in TopFields && other != name ==> Get(r, other) == Get(f, other)
  {
    if name == "nombre" then f.(nombre := value)
    else if name == "apellido" then f.(apellido := value)
    else if name == "fechaNacimiento" then f.(fechaNacimiento := value)
    else if name == "sexo" then f.(sexo := value)
    else if name == "telefono" then f.(telefono := value)
    else f.(email := value)
  }

  /**
   * `handleChange`: a `direccion.X` name sets address field X (the text
   * between the first and second dot); a top-level name sets that field; the
   * error recorded under the name is cleared.
   */
  function HandleChange(f: Form, errors: Errors, name: string, value: string): (r: (Form, Errors))
    ensures StartsWith(name, AddressPrefix) ==> (
      r.0 == f.(direccion := f.direccion[AddressKey(name) := value]))
    ensures !StartsWith(name, AddressPrefix) && name in TopFields ==> (Get(r.0, name) == value
      && r.0.direccion == f.direccion && forall other :: other in TopFields && other != name ==> Get(r.0, other) == Get(f, other))
    ensures !StartsWith(name, AddressPrefix) && name !in TopFields ==> r.0 == f
    ensures r.1 == errors - {name}
  {
    var form :=
      if StartsWith(name, AddressPrefix) then
        f.(direccion := f.direccion[AddressKey(name) := value])
      else if name in TopFields then Set(f, name, value)
      else f;
    (form, errors - {name})
  }

  /** `name.split('.')[1]`: the address field an input named `direccion.X` edits. */
  function AddressKey(name: string): string
    requires StartsWith(name, AddressPrefix)
  {
    AddressSplit(name);
    Split(name, '.')[1]
  }

  /** A name with the `direccion.` prefix has a part after its first dot. */
  lemma AddressSplit(name: string)
    requires StartsWith(name, AddressPrefix)
    ensures |Split(name, '.')| >= 2
  {
    assert name[..9] == "direccion" && name[9] == '.';
    assert name == name[..9] + ['.'] + name[10..];
    SplitConcat(name[..9], name[10..], '.');
  }

  /** The input `direccion.X`, for a field name X without a dot, edits field X. */
  lemma AddressKeyOf(field: string)
    requires '.' !in field
    ensures StartsWith(AddressPrefix + field, AddressPrefix)
    ensures AddressKey(AddressPrefix + field) == field
  {
    var name := AddressPrefix + field;
    assert name[..|AddressPrefix|] == AddressPrefix;
    assert name == "direccion" + ['.'] + field;
    SplitTwo("direccion", field, '.');
  }

  /** Typing into an address input changes the address field it names and nothing else. */
  lemma AddressChangeOnlyThatField(f: Form, errors: Errors, name: string, value: string)
    requires StartsWith(name, AddressPrefix)
    ensures var r := HandleChange(f, errors, name, value).0; var key := AddressKey(name);
      key in r.direccion && r.direccion[key] == value
      && (forall k :: k in f.direccion && k != key ==> k in r.direccion && r.direccion[k] == f.direccion[k])
      && r.(direccion := f.direccion) == f
  {
  }

  const NombreRequired: string := "El nombre es obligatorio"
  const ApellidoRequired: string := "El apellido es obligatorio"
  const FechaRequired: string := "La fecha de nacimiento es obligatoria"
  const TelefonoRequired: string := "El teléfono es obligatorio"
  const TelefonoShort: string := "El teléfono debe tener al menos 9 dígitos"
  const EmailRequired: string := "El email es obligatorio"
  const EmailInvalid: string := "El email no es válido"

  /** `/^\d{9,}$/` on the phone with every non-digit removed: at least nine digits. */
  predicate PhoneOk(telefono: string)
    ensures PhoneOk(telefono) ==> |telefono| >= 9
  {
    |DigitsOf(telefono)| >= 9
  }

  /** Separators between the digits do not matter: the phone passes exactly when its digits do. */
  lemma PhoneIgnoresSeparators(a: string, sep: string, b: string)
    requires forall i :: 0 <= i < |sep| ==> !IsDigit(sep[i])
    ensures PhoneOk(a + sep + b) <==> PhoneOk(a + b)
  {
    DigitsOfConcat(a + sep, b);
    DigitsOfConcat(a, sep);
    DigitsOfConcat(a, b);
    NoDigits(sep);
  }

  lemma {:induction false} NoDigits(s: string)
    requires forall i :: 0 <= i < |s| ==> !IsDigit(s[i])
    ensures DigitsOf(s) == ""
    decreases |s|
  {
    if |s| > 0 {
      NoDigits(s[1..]);
    }
  }

  /** A character of `[^\s@]`. */
  predicate Plain(c: char) {
    !IsJsWhitespace(c) && c != '@'
  }

  predicate AllPlain(s: string) {
    forall i :: 0 <= i < |s| ==> Plain(s[i])
  }

  /**
   * `/^[^\s@]+@[^\s@]+\.[^\s@]+$/`: a non-empty local part, an '@', then a
   * non-empty name, a '.', and a non-empty rest, none of them holding '@' or
   * whitespace.
   */
  predicate EmailMatches(s: string)
    ensures EmailMatches(s) ==> |s| >= 5 && '@' in s
  {
    exists k, j :: 0 < k && k + 1 < j && j + 1 < |s| && s[k] == '@' && s[j] == '.'
      && AllPlain(s[..k]) && AllPlain(s[k + 1..j]) && AllPlain(s[j + 1..])
  }

  /**
   * The same test read piece by piece: no whitespace, exactly one '@' and not
   * at the start, and after it a '.' that is neither the first nor the last
   * character.
   */
  predicate EmailOk(s: string)
    ensures EmailOk(s) ==> |s| >= 5 && '@' in s
  {
    (forall i :: 0 <= i < |s| ==> !IsJsWhitespace(s[i]))
    && var k := IndexOf(s, '@');
    k >= 1 && var domain := s[k + 1..];
    '@' !in domain && |domain| >= 3 && '.' in domain[1..|domain| - 1]
  }

  /** An e-mail assembled from the regular expression's three plain pieces passes the piecewise test. */
  lemma PiecesOk(local: string, name: string, top: string)
    requires |local| > 0 && |name| > 0 && |top| > 0
    requires AllPlain(local) && AllPlain(name) && AllPlain(top)
    ensures EmailOk(local + ['@'] + name + ['.'] + top)
  {
    var s := local + ['@'] + name + ['.'] + top;
    var k := |local|;
    var domain := name + ['.'] + top;
    NoAt(local);
    assert s == local + ['@'] + domain;
    assert s[..k] == local && s[k] == '@';
    assert IndexOf(s, '@') == k;
    NoWhitespace(local, name, top);
    assert s[k + 1..] == domain;
    DomainOk(name, top);
  }

  /** A plain piece holds no '@'. */
  lemma NoAt(s: string)
    requires AllPlain(s)
    ensures '@' !in s
  {
    forall i | 0 <= i < |s| ensures s[i] != '@' {
      assert Plain(s[i]);
    }
  }

  /** Plain pieces joined by '@' and '.' hold no whitespace. */
  lemma NoWhitespace(local: string, name: string, top: string)
    requires AllPlain(local) && AllPlain(name) && AllPlain(top)
    ensures var s := local + ['@'] + name + ['.'] + top;
      forall i :: 0 <= i < |s| ==> !IsJsWhitespace(s[i])
  {
    var s := local + ['@'] + name + ['.'] + top;
    var k := |local|;
    forall i | 0 <= i < |s| ensures !IsJsWhitespace(s[i]) {
      if i < k {
        assert s[i] == local[i];
      } else if k < i < k + 1 + |name| {
        assert s[i] == name[i - k - 1];
      } else if i > k + 1 + |name| {
        assert s[i] == top[i - k - 2 - |name|];
      }
    }
  }

  /** The part after the '@': no further '@', and a '.' strictly inside it. */
  lemma DomainOk(name: string, top: string)
    requires |name| > 0 && |top| > 0 && AllPlain(name) && AllPlain(top)
    ensures var domain := name + ['.'] + top;
      '@' !in domain && |domain| >= 3 && '.' in domain[1..|domain| - 1]
  {
    var domain := name + ['.'] + top;
    forall i | 0 <= i < |domain| ensures domain[i] != '@' {
      if i < |name| {
        assert domain[i] == name[i];
      } else if i > |name| {
        assert domain[i] == top[i - |name| - 1];
      }
    }
    assert domain[1..|domain| - 1][|name| - 1] == '.';
  }

  /** Reading the regular expression's match piecewise. */
  lemma MatchesThenOk(s: string)
    requires EmailMatches(s)
    ensures EmailOk(s)
  {
    var k, j :| 0 < k && k + 1 < j && j + 1 < |s| && s[k] == '@' && s[j] == '.'
      && AllPlain(s[..k]) && AllPlain(s[k + 1..j]) && AllPlain(s[j + 1..]);
    var local, name, top := s[..k], s[k + 1..j], s[j + 1..];
    CutAt(s, k, j);
    PiecesOk(local, name, top);
  }

  /** A text cut at two positions is the three pieces around them. */
  lemma CutAt(s: string, k: int, j: int)
    requires 0 <= k < j < |s|
    ensures s == s[..k] + [s[k]] + s[k + 1..j] + [s[j]] + s[j + 1..]
  {
  }

  /** Cutting an e-mail that passes the piecewise test where the regular expression would. */
  lemma OkThenMatches(s: string)
    requires EmailOk(s)
    ensures EmailMatches(s)
  {
    var k := IndexOf(s, '@');
    var domain := s[k + 1..];
    var mid := domain[1..|domain| - 1];
    var i :| 0 <= i < |mid| && mid[i] == '.';
    var j := k + 2 + i;
    assert s[j] == '.';
    var local, name, top := s[..k], s[k + 1..j], s[j + 1..];
    assert AllPlain(local) by {
      forall x | 0 <= x < |local| ensures Plain(local[x]) {
        assert local[x] == s[x];
      }
    }
    assert AllPlain(name) by {
      forall x | 0 <= x < |name| ensures Plain(name[x]) {
        assert name[x] == domain[x];
        assert s[k + 1 + x] == domain[x];
      }
    }
    assert AllPlain(top) by {
      forall x | 0 <= x < |top| ensures Plain(top[x]) {
        assert top[x] == domain[j - k + x];
        assert s[j + 1 + x] == domain[j - k + x];
      }
    }
  }

  /** The piecewise reading is the regular expression. */
  lemma EmailOkIffMatches(s: string)
    ensures EmailOk(s) <==> EmailMatches(s)
  {
    if EmailMatches(s) {
      MatchesThenOk(s);
    }
    if EmailOk(s) {
      OkThenMatches(s);
    }
  }

  /** The names `validate` checks, in its order. */
  const CheckedFields: set<string> := {"nombre", "apellido", "fechaNacimiento", "telefono", "email"}

  /** The message `validate` records under one name, if any. */
  function FieldError(f: Form, name: string): Option<string> {
    if name == "nombre" then (if f.nombre == "" then Some(NombreRequired) else None)
    else if name == "apellido" then (if f.apellido == "" then Some(ApellidoRequired) else None)
    else if name == "fechaNacimiento" then (if f.fechaNacimiento == "" then Some(FechaRequired) else None)
    else if name == "telefono" then
      (if f.telefono == "" then Some(TelefonoRequired) else if !PhoneOk(f.telefono) then Some(TelefonoShort) else None)
    else if name == "email" then
      (if f.email == "" then Some(EmailRequired) else if !EmailOk(f.email) then Some(EmailInvalid) else None)
    else None
  }

  /**
   * `validate`: the three required names, the phone (required, then at least
   * nine digits) and the e-mail (required, then the shape).
   */
  function Validate(f: Form): (e: Errors)
    ensures "nombre" in e <==> f.nombre == ""
    ensures "apellido" in e <==> f.apellido == ""
    ensures "fechaNacimiento" in e <==> f.fechaNacimiento == ""
    ensures "telefono" in e <==> f.telefono == "" || !PhoneOk(f.telefono)
    ensures "telefono" in e ==> e["telefono"] == (if f.telefono == "" then TelefonoRequired else TelefonoShort)
    ensures "email" in e <==> f.email == "" || !EmailMatches(f.email)
    ensures "email" in e ==> e["email"] == (if f.email == "" then EmailRequired else EmailInvalid)
    ensures e.Keys <= CheckedFields
  {
    EmailOkIffMatches(f.email);
    map name | name in CheckedFields && FieldError(f, name).Some? :: FieldError(f, name).value
  }

  predicate Valid(f: Form) {
    |Validate(f)| == 0
  }

  /** The form is valid exactly when the three names are present, the phone has nine digits and the e-mail its shape. */
  lemma ValidIff(f: Form)
    ensures Valid(f) <==> (f.nombre != "" && f.apellido != "" && f.fechaNacimiento != ""
      && PhoneOk(f.telefono) && EmailMatches(f.email))
  {
    var e := Validate(f);
    if !Valid(f) {
      var g :| g in e;
    }
    if PhoneOk(f.telefono) {
      assert f.telefono != "";
    }
  }

  /** `handleSubmit`: the seven fields when the form is valid, nothing otherwise. */
  function Submit(f: Form): (r: Option<Form>)
    ensures r.Some? <==> Valid(f)
    ensures r.Some? ==> r.value == f
  {
    if Valid(f) then Some(f) else None
  }

  /** A freshly opened form cannot be submitted: all five checked names carry an error. */
  lemma DefaultFormRejected()
    ensures Submit(DefaultForm()).None?
    ensures Validate(DefaultForm()).Keys == CheckedFields
  {
  }

  /** The age shown next to the birth date: nothing for an empty date, else the age in whole years on `today`. */
  function AgeShown(birth: Option<Date>, today: Date): (r: Option<int>)
    ensures birth.None? <==> r.None?
    ensures r.Some? ==> LexLe(Anniversary(birth.value, r.value), today) && !LexLe(Anniversary(birth.value, r.value + 1), today)
  {
    match birth
    case None => None
    case Some(b) => Some(Age(b, today))
  }
}

=== FILE: patient_list.dfy ===
/**
 * The searchable, paginated patient list: a case-insensitive search over
 * name, surnames and phone, pages of ten, and the page controls.
 */
module PatientList {

  import opened Wrappers
  import opened Strings
  import opened Lists

  /** The fields the list reads; `None` is a missing property. */
  datatype Entry = Entry(id: string, nombre: Option<string>, apellidos: Option<string>, telefono: Option<string>)

  const ItemsPerPage: int := 10

  /** `field?.includes(term)`: false when the field is missing. */
  predicate FieldHas(field: Option<string>, term: string) {
    field.Some? && Contains(field.value, term)
  }

  /**
   * The search filter: the lowered search text occurs in the lowered name,
   * in the lowered surnames, or in the phone as written.
   */
  predicate Matches(e: Entry, search: string)
    ensures Matches(e, search) ==> e.nombre.Some? || e.apellidos.Some? || e.telefono.Some?
  {
    var term := ToLower(search);
    (e.nombre.Some? && Contains(ToLower(e.nombre.value), term))
    || (e.apellidos.Some? && Contains(ToLower(e.apellidos.value), term))
    || FieldHas(e.telefono, term)
  }

  /** With an empty search exactly the entries with at least one of the three fields are listed; an entry without any is never listed. */
  lemma EmptySearchMatches(e: Entry)
    ensures Matches(e, "") <==> e.nombre.Some? || e.apellidos.Some? || e.telefono.Some?
  {
    if e.nombre.Some? {
      EmptyContained(ToLower(e.nombre.value));
    }
    if e.apellidos.Some? {
      EmptyContained(ToLower(e.apellidos.value));
    }
    if e.telefono.Some? {
      EmptyContained(e.telefono.value);
    }
  }

  /** An entry with none of the three fields matches no search at all. */
  lemma NoFieldsNeverMatch(e: Entry, search: string)
    requires e.nombre.None? && e.apellidos.None? && e.telefono.None?
    ensures !Matches(e, search)
  {
  }

  /** `filteredPatients`. */
  function Filtered(patients: seq<Entry>, search: string): (r: seq<Entry>)
    ensures |r| <= |patients|
    ensures forall i :: 0 <= i < |r| ==> r[i] in patients && Matches(r[i], search)
    ensures forall i :: 0 <= i < |patients| && Matches(patients[i], search) ==> patients[i] in r
  {
    Filter(patients, (e: Entry) => Matches(e, search))
  }

  /** A slice bound as `Array.prototype.slice` reads it: negative counts from the end, then clamped to the array. */
  function SliceBound(k: int, n: nat): (b: nat)
    ensures b <= n
    ensures 0 <= k <= n ==> b == k
    ensures k > n ==> b == n
  {
    if k < 0 then (if n + k < 0 then 0 else n + k) else if k > n then n else k
  }

  /** `s.slice(start, end)`. */
  function Slice<T>(s: seq<T>, start: int, end: int): (r: seq<T>)
    ensures |r| <= |s|
  {
    var a := SliceBound(start, |s|);
    var b := SliceBound(end, |s|);
    if b <= a then [] else s[a..b]
  }

  /**
   * `currentPatients`: the slice from `(page - 1) * 10` to `page * 10`. Any
   * page number, even zero or a negative one, gives at most ten entries of
   * the list.
   */
  function Page<T>(filtered: seq<T>, page: int): (r: seq<T>)
    ensures |r| <= ItemsPerPage
    ensures forall i :: 0 <= i < |r| ==> r[i] in filtered
  {
    Slice(filtered, page * ItemsPerPage - ItemsPerPage, page * ItemsPerPage)
  }

  /** A page from one on holds at most ten entries, the ones from position `(page - 1) * 10` on. */
  lemma PageContents<T>(filtered: seq<T>, page: int)
    requires page >= 1
    ensures var r := Page(filtered, page);
      |r| <= ItemsPerPage
      && |r| == (if |filtered| <= (page - 1) * 10 then 0 else Min(10, |filtered| - (page - 1) * 10))
      && forall i :: 0 <= i < |r| ==> r[i] == filtered[(page - 1) * 10 + i]
  {
  }

  function Min(a: int, b: int): int {
    if a <= b then a else b
  }

  /** `Math.ceil(n / 10)`. */
  function TotalPages(n: nat): (t: nat)
    ensures n == 0 <==> t == 0
    ensures t > 0 ==> 10 * (t - 1) < n <= 10 * t
  {
    (n + 9) / 10
  }

  /** Pages one to `k` in order: ten entries per page until the list runs out. */
  function Pages<T>(filtered: seq<T>, k: nat): (r: seq<T>)
    ensures |r| == Min(10 * k, |filtered|)
  {
    if k == 0 then [] else Pages(filtered, k - 1) + Page(filtered, k)
  }

  /** The first `k` pages are the first `10 k` entries, or all of them. */
  lemma {:induction false} PagesPrefix<T>(filtered: seq<T>, k: nat)
    ensures Pages(filtered, k) == filtered[..Min(10 * k, |filtered|)]
  {
    if k > 0 {
      PagesPrefix(filtered, k - 1);
      var a := Min(10 * (k - 1), |filtered|);
      var b := Min(10 * k, |filtered|);
      assert Page(filtered, k) == filtered[a..b];
      assert filtered[..a] + filtered[a..b] == filtered[..b];
    }
  }

  /** Pages one to `totalPages`, read in order, are the filtered list: no entry is lost or repeated. */
  lemma PagesCoverList<T>(filtered: seq<T>)
    ensures Pages(filtered, TotalPages(|filtered|)) == filtered
  {
    PagesPrefix(filtered, TotalPages(|filtered|));
  }

  /** A page between one and `totalPages` is never empty; one beyond it always is. */
  lemma PageEmptyIff<T>(filtered: seq<T>, page: int)
    requires page >= 1
    ensures Page(filtered, page) == [] <==> page > TotalPages(|filtered|)
  {
    PageContents(filtered, page);
  }

  /** The list's state: the search text and the current page, starting at "" and 1. */
  datatype ListState = ListState(search: string, page: int)

  const InitialState: ListState := ListState("", 1)

  /** Typing in the search box keeps the current page. */
  function SetSearch(s: ListState, text: string): (r: ListState)
    ensures r.search == text && r.page == s.page
  {
    s.(search := text)
  }

  /** A page control: previous, next, or the numbered button with index `i` (showing `i + 1`). */
  datatype Control = Previous | Next | Numbered(i: nat)

  /** The controls are drawn only when there is more than one page. */
  predicate ShowControls(totalPages: int) {
    totalPages > 1
  }

  /** The previous button is disabled on page one, the next button on the last page. */
  predicate Disabled(c: Control, page: int, totalPages: int) {
    match c
    case Previous => page == 1
    case Next => page == totalPages
    case Numbered(_) => false
  }

  /**
   * Clicking a control: nothing when the controls are hidden, the control
   * is disabled, or the numbered button does not exist; otherwise the page
   * it names.
   */
  function Click(s: ListState, filteredCount: nat, c: Control): (r: ListState)
    ensures r.search == s.search
    ensures !ShowControls(TotalPages(filteredCount)) ==> r == s
    ensures c.Previous? && s.page == 1 ==> r == s
    ensures c.Next? && s.page == TotalPages(filteredCount) ==> r == s
    ensures ShowControls(TotalPages(filteredCount)) && c.Numbered? && c.i < TotalPages(filteredCount) ==> r.page == c.i + 1
  {
    var total := TotalPages(filteredCount);
    if !ShowControls(total) || Disabled(c, s.page, total) then s
    else match c
      case Previous => s.(page := s.page - 1)
      case Next => s.(page := s.page + 1)
      case Numbered(i) => if i < total then s.(page := i + 1) else s
  }

  /** The page never drops below one, whatever is clicked. */
  lemma ClickKeepsPagePositive(s: ListState, filteredCount: nat, c: Control)
    requires s.page >= 1
    ensures Click(s, filteredCount, c).page >= 1
  {
  }

  /** While the list does not shrink, clicks keep the page within `1..totalPages`. */
  lemma ClickKeepsPageInRange(s: ListState, filteredCount: nat, c: Control)
    requires 1 <= s.page <= TotalPages(filteredCount)
    ensures 1 <= Click(s, filteredCount, c).page <= TotalPages(filteredCount)
  {
  }

  /** What the list area shows. */
  datatype Body = NoPatients | Cards(entries: seq<Entry>)

  /** The list area: the "no patients" message for an empty page, else the page's cards. */
  function Render(patients: seq<Entry>, s: ListState): (b: Body)
    ensures b.Cards? ==> b.entries == Page(Filtered(patients, s.search), s.page) && |b.entries| > 0
    ensures b.NoPatients? <==> Page(Filtered(patients, s.search), s.page) == []
  {
    var page := Page(Filtered(patients, s.search), s.page);
    if |page| == 0 then NoPatients else Cards(page)
  }

  /**
   * The page is not reset by a search: on page two, a search that leaves ten
   * or fewer matches shows the "no patients" message although there are matches.
   */
  lemma NarrowSearchOnLaterPage(patients: seq<Entry>, s: ListState, text: string)
    requires s.page >= 2 && |Filtered(patients, text)| <= 10
    ensures Render(patients, SetSearch(s, text)) == NoPatients
  {
    PageEmptyIff(Filtered(patients, text), s.page);
  }
}

=== FILE: patient_odontogram.dfy ===
/**
 * The patient odontogram editor: it normalises the odontogram it is given
 * into a tooth → face → lesion map, draws the FDI tooth ids of a child or an
 * adult chart, and toggles a face's lesion on click, either from the
 * server's reply or, failing that, by editing its own map.
 */
module PatientOdontogram {

  import opened Wrappers
  import opened Strings
  import opened OdontogramService

  /** The editor's state: the lesion to paint, the spinner, the chart and its id. */
  datatype Editor = Editor(selectedLesion: string, loading: bool, toothData: ToothMap, odontogramId: Option<string>)

  function InitialEditor(): Editor {
    Editor("CARIES", false, map[], None)
  }

  /** The backend rule: each tooth with `faces` becomes its faces; teeth without are dropped. */
  function FromBackend(teeth: map<string, ToothRecord>): (m: ToothMap)
    ensures forall t :: t in m <==> t in teeth && teeth[t].faces.Some?
    ensures forall t :: t in m ==> m[t] == teeth[t].faces.value
  {
    map t | t in teeth && teeth[t].faces.Some? :: teeth[t].faces.value
  }

  /** `data.id || data.odontogramId`. */
  function IdOf(c: Chart): (r: Option<string>)
    ensures r.Some? ==> r.value != "" && (r.value == c.id || r.value == c.odontogramId)
    ensures r.None? <==> c.id == "" && c.odontogramId == ""
  {
    if c.id != "" then Some(c.id) else if c.odontogramId != "" then Some(c.odontogramId) else None
  }

  /**
   * The effect that runs when `data` or `patientId` change. A backend chart
   * is normalised, a view chart taken as it is, and a chart with neither
   * keeps the current map; with no data the map is emptied and the id
   * derived from the patient.
   */
  function Load(e: Editor, data: Option<Chart>, patientId: string): (r: Editor)
    ensures r.selectedLesion == e.selectedLesion && r.loading == e.loading
    ensures data.Some? && data.value.teeth.Some? ==> r.toothData == FromBackend(data.value.teeth.value)
    ensures data.Some? && data.value.teeth.None? && data.value.dientes.Some? ==> r.toothData == data.value.dientes.value
    ensures data.Some? && data.value.teeth.None? && data.value.dientes.None? ==> r.toothData == e.toothData
    ensures data.Some? ==> r.odontogramId == IdOf(data.value)
    ensures data.None? ==> r.toothData == map[]
    ensures data.None? && patientId != "" ==> r.odontogramId == Some("odontogram_" + patientId)
    ensures data.None? && patientId == "" ==> r.odontogramId == e.odontogramId
  {
    match data
    case Some(c) =>
      var teeth := if c.teeth.Some? then FromBackend(c.teeth.value)
        else if c.dientes.Some? then c.dientes.value
        else e.toothData;
      e.(toothData := teeth, odontogramId := IdOf(c))
    case None =>
      e.(toothData := map[], odontogramId := if patientId != "" then Some("odontogram_" + patientId) else e.odontogramId)
  }

  /** A view chart loads exactly as the service maps it, teeth without faces becoming empty teeth. */
  lemma LoadViewFormat(e: Editor, c: Chart, patientId: string)
    ensures var v := MapToViewFormat(Some(c)).value;
      Load(e, Some(Chart("", "", None, Some(v.dientes))), patientId).toothData.Keys == TeethOf(c).Keys
  {
  }

  /** What the component draws instead of, or as, the chart. */
  datatype Screen = MissingPatient | NoData | ChartScreen

  function ScreenOf(patientId: string, data: Option<Chart>, isEditable: bool): (s: Screen)
    ensures s == MissingPatient <==> patientId == ""
    ensures s == NoData <==> patientId != "" && data.None? && !isEditable
  {
    if patientId == "" then MissingPatient
    else if data.None? && !isEditable then NoData
    else ChartScreen
  }

  /** The ids of a child (primary) or adult (permanent) chart, upper arch first. */
  function TeethIds(isChild: bool): (ids: seq<string>)
    ensures |ids| == if isChild then 20 else 32
  {
    if isChild then
      ["55", "54", "53", "52", "51", "61", "62", "63", "64", "65",
       "85", "84", "83", "82", "81", "71", "72", "73", "74", "75"]
    else
      ["18", "17", "16", "15", "14", "13", "12", "11", "21", "22", "23", "24", "25", "26", "27", "28",
       "48", "47", "46", "45", "44", "43", "42", "41", "31", "32", "33", "34", "35", "36", "37", "38"]
  }

  /** The FDI two-digit id of position `p` in quadrant `q`. */
  function FdiId(q: nat, p: nat): (id: string)
    requires 1 <= q <= 8 && 1 <= p <= 8
    ensures |id| == 2 && IsDigit(id[0]) && IsDigit(id[1]) && DigitValue(id[0]) == q && DigitValue(id[1]) == p
  {
    [DigitChar(q), DigitChar(p)]
  }

  /** An FDI id: quadrant 1..4 with positions 1..8, or quadrant 5..8 with positions 1..5. */
  predicate IsFdi(id: string, primary: bool) {
    |id| == 2 && IsDigit(id[0]) && IsDigit(id[1])
    && (if primary then 5 <= DigitValue(id[0]) <= 8 && 1 <= DigitValue(id[1]) <= 5
        else 1 <= DigitValue(id[0]) <= 4 && 1 <= DigitValue(id[1]) <= 8)
  }

  /** The quadrant of entry `i`: right then left of the upper arch, then right then left of the lower. */
  function SlotQuadrant(isChild: bool, i: nat): nat {
    var n := if isChild then 5 else 8;
    var base := if isChild then 4 else 0;
    base + (if i < n then 1 else if i < 2 * n then 2 else if i < 3 * n then 4 else 3)
  }

  /** The position of entry `i`: counting towards the midline on the right, away from it on the left. */
  function SlotPosition(isChild: bool, i: nat): int {
    var n := if isChild then 5 else 8;
    if i < n then n - i else if i < 2 * n then i - n + 1 else if i < 3 * n then 3 * n - i else i - 3 * n + 1
  }

  /** Entry `i` of the list is the FDI id of its slot. */
  lemma TeethIdsFormula(isChild: bool, i: nat)
    requires i < |TeethIds(isChild)|
    ensures 1 <= SlotQuadrant(isChild, i) <= 8 && 1 <= SlotPosition(isChild, i) <= 8
    ensures TeethIds(isChild)[i] == FdiId(SlotQuadrant(isChild, i), SlotPosition(isChild, i))
  {
    var half := |TeethIds(isChild)| / 2;
    if i < half {
      UpperIdsFormula(isChild, i);
    } else {
      LowerIdsFormula(isChild, i);
    }
  }

  lemma UpperIdsFormula(isChild: bool, i: nat)
    requires i < |TeethIds(isChild)| / 2
    ensures 1 <= SlotQuadrant(isChild, i) <= 8 && 1 <= SlotPosition(isChild, i) <= 8
    ensures TeethIds(isChild)[i] == FdiId(SlotQuadrant(isChild, i), SlotPosition(isChild, i))
  {
  }

  lemma LowerIdsFormula(isChild: bool, i: nat)
    requires |TeethIds(isChild)| / 2 <= i < |TeethIds(isChild)|
    ensures 1 <= SlotQuadrant(isChild, i) <= 8 && 1 <= SlotPosition(isChild, i) <= 8
    ensures TeethIds(isChild)[i] == FdiId(SlotQuadrant(isChild, i), SlotPosition(isChild, i))
  {
  }

  /**
   * Every id is a distinct FDI id of the right dentition; the upper half holds
   * quadrants 1 and 2 (5 and 6), the lower half quadrants 4 and 3 (8 and 7).
   */
  lemma TeethIdsAreFdi(isChild: bool, i: nat, j: nat)
    requires i < |TeethIds(isChild)| && j < |TeethIds(isChild)|
    ensures var ids := TeethIds(isChild);
      IsFdi(ids[i], isChild) && (ids[i] == ids[j] <==> i == j)
      && (i < |ids| / 2 <==> Quadrant(ids[i]) in (if isChild then {5, 6} else {1, 2}))
      && IsPrimaryId(ids[i]) == isChild
  {
    var ids := TeethIds(isChild);
    TeethIdsFormula(isChild, i);
    TeethIdsFormula(isChild, j);
    var q, p := SlotQuadrant(isChild, i), SlotPosition(isChild, i);
    assert ids[i][0] == DigitChar(q);
    assert IsPrimaryId(ids[i]) <==> ids[i][..1] in {"5", "6", "7", "8"};
    assert ids[i][..1] == [DigitChar(q)];
  }

  /** The quadrant an id belongs to. */
  function Quadrant(id: string): nat
    requires |id| == 2 && IsDigit(id[0])
  {
    DigitValue(id[0])
  }

  /** The five faces the editor draws. */
  const Faces: seq<string> := ["VESTIBULAR", "PALATINO", "MESIAL", "DISTAL", "OCLUSAL"]

  /** The lesion palette: value, label and colour. */
  datatype LesionType = LesionType(value: string, text: string, color: string)

  const LesionTypes: seq<LesionType> := [
    LesionType("CARIES", "Caries", "bg-red-500"),
    LesionType("OBTURACION", "Obturación", "bg-green-500"),
    LesionType("CORONA", "Corona", "bg-yellow-500"),
    LesionType("AUSENTE", "Ausente", "bg-gray-500"),
    LesionType("ENDODONCIA", "Endodoncia", "bg-purple-500")
  ]

  /** `(toothData[toothId] || {})[face]`, with "" for a missing lesion. */
  function LesionAt(m: ToothMap, toothId: string, face: string): (l: string)
    ensures l != "" ==> toothId in m && face in m[toothId] && m[toothId][face] == l
    ensures toothId in m && face in m[toothId] ==> l == m[toothId][face]
  {
    if toothId in m && face in m[toothId] then m[toothId][face] else ""
  }

  /** `lesionTypes.find(l => l.value === lesion)`. */
  function FindLesionType(lesion: string): (r: Option<LesionType>)
    ensures r.Some? ==> r.value in LesionTypes && r.value.value == lesion
    ensures r.None? ==> forall k :: 0 <= k < |LesionTypes| ==> LesionTypes[k].value != lesion
  {
    if lesion == "CARIES" then Some(LesionTypes[0])
    else if lesion == "OBTURACION" then Some(LesionTypes[1])
    else if lesion == "CORONA" then Some(LesionTypes[2])
    else if lesion == "AUSENTE" then Some(LesionTypes[3])
    else if lesion == "ENDODONCIA" then Some(LesionTypes[4])
    else None
  }

  /** `getFaceColor`: white without a lesion, the palette colour of a known one, light grey otherwise. */
  function FaceColor(m: ToothMap, toothId: string, face: string): (c: string)
    ensures LesionAt(m, toothId, face) == "" ==> c == "bg-white"
    ensures LesionAt(m, toothId, face) != "" && FindLesionType(LesionAt(m, toothId, face)).None? ==> c == "bg-gray-200"
    ensures forall k :: 0 <= k < |LesionTypes| && LesionAt(m, toothId, face) == LesionTypes[k].value ==> c == LesionTypes[k].color
  {
    var lesion := LesionAt(m, toothId, face);
    if lesion == "" then "bg-white"
    else match FindLesionType(lesion)
      case Some(t) => t.color
      case None => "bg-gray-200"
  }

  /** The local removal: drop the face, and the tooth once it has no face left. */
  function RemoveFace(m: ToothMap, toothId: string, face: string): (r: ToothMap)
    ensures toothId !in m ==> r == m
    ensures toothId in m && m[toothId] - {face} == map[] ==> r == m - {toothId}
    ensures toothId in m && m[toothId] - {face} != map[] ==> r == m[toothId := m[toothId] - {face}]
  {
    if toothId in m then
      var faces := m[toothId] - {face};
      if faces == map[] then m - {toothId} else m[toothId := faces]
    else m
  }

  /** The local addition: paint the face, creating the tooth if needed. */
  function AddFace(m: ToothMap, toothId: string, face: string, lesion: string): (r: ToothMap)
    ensures toothId in m ==> r == m[toothId := m[toothId][face := lesion]]
    ensures toothId !in m ==> r == m[toothId := map[face := lesion]]
  {
    var faces := if toothId in m then m[toothId] else map[];
    m[toothId := faces[face := lesion]]
  }

  /** Removing touches only the clicked face: every other tooth and face keeps its lesion. */
  lemma RemoveFaceOnlyThatFace(m: ToothMap, toothId: string, face: string, t: string, f: string)
    requires t != toothId || f != face
    ensures LesionAt(RemoveFace(m, toothId, face), t, f) == LesionAt(m, t, f)
    ensures LesionAt(RemoveFace(m, toothId, face), toothId, face) == ""
    ensures toothId in RemoveFace(m, toothId, face) ==> RemoveFace(m, toothId, face)[toothId] != map[]
  {
    var r := RemoveFace(m, toothId, face);
    if t == toothId && toothId in m {
      var faces := m[toothId] - {face};
      assert f in m[t] <==> f in faces;
      if f in faces {
        assert faces != map[];
      }
    }
  }

  /** Adding touches only the clicked face. */
  lemma AddFaceOnlyThatFace(m: ToothMap, toothId: string, face: string, lesion: string, t: string, f: string)
    requires t != toothId || f != face
    ensures LesionAt(AddFace(m, toothId, face, lesion), t, f) == LesionAt(m, t, f)
    ensures LesionAt(AddFace(m, toothId, face, lesion), toothId, face) == lesion
  {
  }

  /**
   * Painting an empty face and clicking it again gives the chart back, unless
   * the tooth was present with no face at all; then it is gone.
   */
  lemma AddThenRemove(m: ToothMap, toothId: string, face: string, lesion: string)
    requires LesionAt(m, toothId, face) == "" && !(toothId in m && face in m[toothId])
    ensures toothId !in m || m[toothId] != map[] ==> RemoveFace(AddFace(m, toothId, face, lesion), toothId, face) == m
    ensures toothId in m && m[toothId] == map[] ==> RemoveFace(AddFace(m, toothId, face, lesion), toothId, face) == m - {toothId}
  {
    var a := AddFace(m, toothId, face, lesion);
    var faces := if toothId in m then m[toothId] else map[];
    assert a[toothId] - {face} == faces;
  }

  /** Clearing a painted face and painting it again with the same lesion gives the chart back. */
  lemma RemoveThenAdd(m: ToothMap, toothId: string, face: string)
    requires LesionAt(m, toothId, face) != ""
    ensures AddFace(RemoveFace(m, toothId, face), toothId, face, LesionAt(m, toothId, face)) == m
  {
    var l := LesionAt(m, toothId, face);
    var faces := m[toothId] - {face};
    assert faces[face := l] == m[toothId];
  }

  /** `!odontogramId`: no id, or an empty one. */
  predicate NoId(e: Editor) {
    e.odontogramId.None? || e.odontogramId.value == ""
  }

  /** The reply of the add/remove request: a failure, or an odontogram that may carry `teeth`. */
  datatype Reply = Failed | Replied(teeth: Option<map<string, ToothRecord>>)

  /** The record handed to `onUpdate`. */
  datatype Report = Report(id: string, teeth: ToothMap)

  datatype Click = Click(editor: Editor, report: Option<Report>)

  /**
   * `handleFaceClick` as written. The local fallback copies the outer map
   * only, so its edit of the clicked tooth is visible through the old map,
   * and that old map (not the new one) is what `onUpdate` receives.
   */
  function FaceClickAsWritten(e: Editor, isEditable: bool, hasOnUpdate: bool, toothId: string, face: string, reply: Reply): (r: Click)
    ensures !isEditable || e.loading || NoId(e) ==> r == Click(e, None)
    ensures reply.Failed? ==> r.editor == e && r.report.None?
    ensures r.editor.selectedLesion == e.selectedLesion && r.editor.loading == e.loading
    ensures r.editor.odontogramId == e.odontogramId
  {
    if !isEditable || e.loading || NoId(e) then Click(e, None)
    else match reply
      case Failed => Click(e, None)
      case Replied(teeth) =>
        var prev := e.toothData;
        var removing := LesionAt(prev, toothId, face) != "";
        var next :=
          if teeth.Some? then FromBackend(teeth.value)
          else if removing then RemoveFace(prev, toothId, face)
          else AddFace(prev, toothId, face, e.selectedLesion);
        var seen :=
          if teeth.Some? then prev
          else if removing then prev[toothId := prev[toothId] - {face}]
          else if toothId in prev then prev[toothId := prev[toothId][face := e.selectedLesion]]
          else prev;
        Click(e.(toothData := next), if hasOnUpdate then Some(Report(e.odontogramId.value, seen)) else None)
  }

  /** The reported map is the one from before the click, except for the fallback's shared tooth. */
  lemma ReportIsOldMap(e: Editor, toothId: string, face: string, teeth: map<string, ToothRecord>)
    requires !NoId(e) && !e.loading
    ensures var r := FaceClickAsWritten(e, true, true, toothId, face, Replied(Some(teeth)));
      r.report == Some(Report(e.odontogramId.value, e.toothData)) && r.editor.toothData == FromBackend(teeth)
    ensures var r := FaceClickAsWritten(e, true, true, toothId, face, Replied(None));
      toothId !in e.toothData ==> r.report.value.teeth == e.toothData && r.editor.toothData != e.toothData
  {
  }

  /** The local fallback toggles: a painted face is cleared, an empty one painted with the selected lesion. */
  lemma FallbackToggles(e: Editor, toothId: string, face: string)
    requires !NoId(e) && !e.loading
    ensures var r := FaceClickAsWritten(e, true, false, toothId, face, Replied(None));
      (LesionAt(e.toothData, toothId, face) != "" ==> r.editor.toothData == RemoveFace(e.toothData, toothId, face))
      && (LesionAt(e.toothData, toothId, face) == "" ==> r.editor.toothData == AddFace(e.toothData, toothId, face, e.selectedLesion))
      && LesionAt(r.editor.toothData, toothId, face) == (if LesionAt(e.toothData, toothId, face) == "" then e.selectedLesion else "")
  {
  }

  /**
   * The odontogram a report turns into when the parent stores it and hands it
   * back as `data`: `{ id, teeth }` with each tooth's face map read as a
   * backend tooth record. Face names are the five drawn faces, so none of
   * them is `faces` and the record has no `faces`.
   */
  function ReportAsData(rep: Report): (c: Chart)
    ensures c.teeth.Some? && c.teeth.value.Keys == rep.teeth.Keys
  {
    Chart(rep.id, "", Some(map t | t in rep.teeth :: ToothRecord(None)), None)
  }

  /** Fed back through the parent, any reported chart loads as an empty one: every lesion disappears. */
  lemma ReportFedBackWipesChart(e: Editor, rep: Report, patientId: string)
    ensures Load(e, Some(ReportAsData(rep)), patientId).toothData == map[]
    ensures Load(e, Some(ReportAsData(rep)), patientId).odontogramId == IdOf(ReportAsData(rep))
  {
  }

  /** A click whose report carries the new map in the backend shape. */
  function FaceClick(e: Editor, isEditable: bool, hasOnUpdate: bool, toothId: string, face: string, reply: Reply): (r: Click)
    ensures r.editor == FaceClickAsWritten(e, isEditable, hasOnUpdate, toothId, face, reply).editor
    ensures r.report.Some? ==> r.report.value.teeth == r.editor.toothData
    ensures r.report.Some? <==> FaceClickAsWritten(e, isEditable, hasOnUpdate, toothId, face, reply).report.Some?
  {
    var w := FaceClickAsWritten(e, isEditable, hasOnUpdate, toothId, face, reply);
    Click(w.editor, if w.report.Some? then Some(Report(w.report.value.id, w.editor.toothData)) else None)
  }

  /** The report in the backend shape the editor reads: every tooth wrapped as `{ faces }`. */
  function ReportAsBackend(rep: Report): (c: Chart)
    ensures c.teeth.Some? && c.teeth.value.Keys == rep.teeth.Keys
  {
    Chart(rep.id, "", Some(map t | t in rep.teeth :: ToothRecord(Some(rep.teeth[t]))), None)
  }

  /** Fed back in the backend shape, the report of a click loads as exactly the chart after the click. */
  lemma ReportRoundTrip(e: Editor, isEditable: bool, toothId: string, face: string, reply: Reply, patientId: string)
    ensures var r := FaceClick(e, isEditable, true, toothId, face, reply);
      r.report.Some? ==> Load(r.editor, Some(ReportAsBackend(r.report.value)), patientId) == r.editor
  {
    var r := FaceClick(e, isEditable, true, toothId, face, reply);
    if r.report.Some? {
      var m := r.report.value.teeth;
      var back := FromBackend(ReportAsBackend(r.report.value).teeth.value);
      assert forall t :: t in back ==> back[t] == m[t];
      assert back == m;
    }
  }
}

=== FILE: patients.dfy ===
/**
 * The patient record as the patient pages receive it, and the address line
 * the list and detail pages print from its `direccion` object.
 */
module Patients {

  import opened Wrappers
  import opened Strings

  /** An address object: field name to text; a missing field and "" are both absent. */
  type Address = map<string, string>

  /** `direccion.field`, "" when missing. */
  function Lookup(a: Address, field: string): (s: string)
    ensures field !in a ==> s == ""
    ensures field in a ==> s == a[field]
  {
    if field in a then a[field] else ""
  }

  /**
   * A patient from the backend. Text fields hold "" when missing;
   * `fechaNacimiento` is the stored birth-date text.
   */
  datatype Patient = Patient(
    id: string,
    nombre: string,
    apellido: string,
    fechaNacimiento: string,
    sexo: string,
    telefono: string,
    email: string,
    direccion: Option<Address>)

  /** The present values of `fields`, in the order of `fields`. */
  function Parts(a: Address, fields: seq<string>): (parts: seq<string>)
    ensures |parts| <= |fields|
    ensures forall i :: 0 <= i < |parts| ==> parts[i] != ""
    ensures (forall i :: 0 <= i < |fields| ==> Lookup(a, fields[i]) == "") <==> parts == []
    decreases |fields|
  {
    if |fields| == 0 then []
    else
      var rest := Parts(a, fields[1..]);
      assert forall i :: 1 <= i < |fields| ==> fields[i] == fields[1..][i - 1];
      if Lookup(a, fields[0]) != "" then [Lookup(a, fields[0])] + rest else rest
  }

  /** Adding a field at the end adds its value, when present, at the end. */
  lemma {:induction false} PartsSnoc(a: Address, fields: seq<string>, f: string)
    ensures Parts(a, fields + [f]) == Parts(a, fields) + (if Lookup(a, f) != "" then [Lookup(a, f)] else [])
    decreases |fields|
  {
    if |fields| > 0 {
      assert (fields + [f])[1..] == fields[1..] + [f];
      PartsSnoc(a, fields[1..], f);
    } else {
      assert (fields + [f])[1..] == [];
    }
  }

  const NoAddress: string := "Sin dirección registrada"

  /** `formatAddress`: the present fields joined with ", ", or the placeholder when there are none. */
  function FormatAddress(direccion: Option<Address>, fields: seq<string>): (s: string)
    ensures direccion.None? ==> s == NoAddress
    ensures direccion.Some? && Parts(direccion.value, fields) == [] ==> s == NoAddress
    ensures direccion.Some? && Parts(direccion.value, fields) != [] ==> s == Join(Parts(direccion.value, fields), ", ")
  {
    match direccion
    case None => NoAddress
    case Some(a) =>
      var parts := Parts(a, fields);
      if |parts| > 0 then Join(parts, ", ") else NoAddress
  }

  /** Joining one more piece appends the separator and the piece. */
  lemma {:induction false} JoinSnoc(parts: seq<string>, x: string, sep: string)
    requires |parts| > 0
    ensures Join(parts + [x], sep) == Join(parts, sep) + sep + x
    decreases |parts|
  {
    if |parts| > 1 {
      assert (parts + [x])[1..] == parts[1..] + [x];
      JoinSnoc(parts[1..], x, sep);
    } else {
      assert (parts + [x])[1..] == [x];
    }
  }

  /**
   * Printing one more field at the end: the old line gains ", " and the
   * value, the value alone replaces the placeholder, and an absent value
   * changes nothing.
   */
  lemma FormatAddressSnoc(direccion: Option<Address>, fields: seq<string>, f: string)
    requires direccion.Some?
    ensures var a := direccion.value; var v := Lookup(a, f); var before := FormatAddress(direccion, fields);
      var after := FormatAddress(direccion, fields + [f]);
      (v == "" ==> after == before)
      && (v != "" && Parts(a, fields) == [] ==> after == v)
      && (v != "" && Parts(a, fields) != [] ==> after == before + ", " + v)
  {
    var a := direccion.value;
    PartsSnoc(a, fields, f);
    if Lookup(a, f) == "" {
      assert Parts(a, fields + [f]) == Parts(a, fields);
    } else if Parts(a, fields) != [] {
      JoinSnoc(Parts(a, fields), Lookup(a, f), ", ");
    }
  }
}

=== FILE: patients_page.dfy ===
/**
 * The patients page: each backend patient becomes a table row with a
 * display name, phone, e-mail, address line and avatar initials, and the
 * avatar colour is looked up from the initials.
 */
module PatientsPage {

  import opened Wrappers
  import opened Strings
  import opened Patients

  /** The four address fields the table prints, in order. */
  const ListAddressFields: seq<string> := ["calle", "numero", "colonia", "ciudad"]

  const NoName: string := "Sin nombre"
  const NoSurname: string := "Sin apellido"
  const NoPhone: string := "Sin teléfono"
  const NoEmail: string := "Sin email"

  /** The fields of a row the model keeps; `registered`, `lastVisit` and `lastTreatment` are display placeholders. */
  datatype Row = Row(id: string, name: string, phone: string, email: string, address: string, initials: string)

  /** The avatar initials: the first character of the name and of the surname, either possibly missing. */
  function Initials(p: Patient): (s: string)
    ensures |s| == (if p.nombre != "" then 1 else 0) + (if p.apellido != "" then 1 else 0)
    ensures p.nombre != "" ==> s[0] == p.nombre[0]
    ensures p.apellido != "" ==> s[|s| - 1] == p.apellido[0]
  {
    FirstChar(p.nombre) + FirstChar(p.apellido)
  }

  /** The row for one patient. */
  function ToRow(p: Patient): (r: Row)
    ensures r.id == p.id
    ensures r.name == Trim(Or(p.nombre, NoName) + " " + Or(p.apellido, NoSurname))
    ensures r.phone == Or(p.telefono, NoPhone) && r.email == Or(p.email, NoEmail)
    ensures r.address == FormatAddress(p.direccion, ListAddressFields)
    ensures r.initials == Initials(p)
  {
    Row(p.id, Trim(Or(p.nombre, NoName) + " " + Or(p.apellido, NoSurname)),
        Or(p.telefono, NoPhone), Or(p.email, NoEmail), FormatAddress(p.direccion, ListAddressFields), Initials(p))
  }

  /** A name and surname without surrounding blanks are shown as "name surname"; a missing one is replaced by its placeholder. */
  lemma RowName(p: Patient)
    requires p.nombre == "" || !IsJsWhitespace(p.nombre[0])
    requires p.apellido == "" || !IsJsWhitespace(p.apellido[|p.apellido| - 1])
    ensures ToRow(p).name == Or(p.nombre, NoName) + " " + Or(p.apellido, NoSurname)
  {
    var s := Or(p.nombre, NoName) + " " + Or(p.apellido, NoSurname);
    assert s[0] == Or(p.nombre, NoName)[0];
    assert s[|s| - 1] == Or(p.apellido, NoSurname)[|Or(p.apellido, NoSurname)| - 1];
    TrimNoEdges(s);
  }

  /** The rows of the table: one per patient, in order, each keeping its patient's id. */
  function Rows(patients: seq<Patient>): (rows: seq<Row>)
    ensures |rows| == |patients|
    ensures forall i :: 0 <= i < |patients| ==> rows[i] == ToRow(patients[i]) && rows[i].id == patients[i].id
  {
    seq(|patients|, i requires 0 <= i < |patients| => ToRow(patients[i]))
  }

  const GreyAvatar: string := "bg-gray-100 text-gray-700"

  /**
   * `getAvatarColor`: the class for the whole initials string, grey when it
   * is not in the table; empty initials and initials of three or more
   * letters are always grey.
   */
  function AvatarColor(initials: string): (c: string)
    ensures |initials| == 0 || |initials| > 2 ==> c == GreyAvatar
  {
    if initials == "W" then "bg-orange-100 text-orange-700"
    else if initials == "M" || initials == "T" || initials == "A" || initials == "MM" then "bg-blue-100 text-blue-700"
    else if initials == "D" then "bg-pink-100 text-pink-700"
    else if initials == "N" || initials == "JH" then "bg-green-100 text-green-700"
    else if initials == "B" then "bg-amber-100 text-amber-700"
    else if initials == "J" then "bg-emerald-100 text-emerald-700"
    else if initials == "K" then "bg-rose-100 text-rose-700"
    else GreyAvatar
  }

  /** The initials with a colour of their own. */
  const ColouredInitials: set<string> := {"W", "M", "T", "D", "N", "B", "A", "J", "K", "MM", "JH"}

  /** An avatar is grey exactly when its initials are not one of the eleven keys. */
  lemma AvatarGreyIff(initials: string)
    ensures AvatarColor(initials) == GreyAvatar <==> initials !in ColouredInitials
  {
  }

  /**
   * A patient with both a name and a surname has two initials, so only "MM"
   * and "JH" give a colour; the one-letter keys are reached only when one of
   * the two is missing.
   */
  lemma AvatarOfFullName(p: Patient)
    requires p.nombre != "" && p.apellido != ""
    ensures AvatarColor(Initials(p)) != GreyAvatar <==> Initials(p) == "MM" || Initials(p) == "JH"
  {
    AvatarGreyIff(Initials(p));
  }

  /** The page's load state. */
  datatype PageState = PageState(loading: bool, error: Option<string>, rows: seq<Row>)

  const InitialPage: PageState := PageState(true, None, [])

  const LoadError: string := "Error al cargar los pacientes"

  /** The load effect: the rows on success, the message (or the default one) on failure; loading ends either way. */
  function Loaded(s: PageState, reply: Result<seq<Patient>>): (r: PageState)
    ensures !r.loading
    ensures reply.Ok? ==> r.rows == Rows(reply.value) && r.error == s.error
    ensures reply.Err? ==> r.rows == s.rows && r.error == Some(Or(reply.message, LoadError))
  {
    match reply
    case Ok(ps) => s.(loading := false, rows := Rows(ps))
    case Err(m) => s.(loading := false, error := Some(Or(m, LoadError)))
  }

  /** What the page shows: the spinner, the error, the empty-list notice, or the table. */
  datatype Screen = Spinner | ErrorMessage(text: string) | NoPatients | Table(rows: seq<Row>)

  const NoPatientsText: string := "No se encontraron pacientes"

  function ScreenOf(s: PageState): (v: Screen)
    ensures s.loading <==> v.Spinner?
    ensures v.ErrorMessage? <==> !s.loading && s.error.Some? && s.error.value != ""
    ensures v.ErrorMessage? ==> v.text == s.error.value
    ensures v.NoPatients? <==> !s.loading && !(s.error.Some? && s.error.value != "") && |s.rows| == 0
    ensures v.Table? ==> v.rows == s.rows && |v.rows| > 0
  {
    if s.loading then Spinner
    else if s.error.Some? && s.error.value != "" then ErrorMessage(s.error.value)
    else if |s.rows| == 0 then NoPatients
    else Table(s.rows)
  }

  /** A successful load of an empty list shows the notice, not an empty table. */
  lemma EmptyLoadShowsNotice()
    ensures ScreenOf(Loaded(InitialPage, Ok([]))) == NoPatients
  {
  }

  /** After a failed load the page always shows an error, never an empty table. */
  lemma FailedLoadShowsError(message: string)
    ensures ScreenOf(Loaded(InitialPage, Err(message))) == ErrorMessage(Or(message, LoadError))
  {
  }
}

=== FILE: schedule_page.dfy ===
/**
 * The schedule page (`SchedulePage`) as a state machine: each handler is a
 * function from the page state (and what the server answered, when it calls
 * the server) to the next page state. Server answers are parameters: `Some`
 * for a resolved call, `None` (or `false`) for a rejected one.
 *
 * The page renders its calendar without props, so no grid click reaches the
 * new-appointment or appointment-click handlers and `todayAppointments` is
 * computed but never drawn: those handlers and that list are modelled as
 * written, as functions nothing on screen calls.
 */
module SchedulePage {

  import opened Wrappers
  import opened Strings
  import opened Civil
  import opened Appointments
  import Lists
  import CalendarView

  datatype View = DayView | WeekView

  /** A doctor as the page lists them in the selector. */
  datatype Doctor = Doctor(id: string, nombreCompleto: string)

  /** The page state: everything the component keeps with `useState`. */
  datatype Page = Page(
    date: int,
    view: View,
    doctors: seq<Doctor>,
    appointments: seq<Appointment>,
    selectedDoctor: Option<string>,
    loading: bool,
    error: Option<string>,
    showNew: bool,
    showDetail: bool,
    showDelete: bool,
    current: Option<Appointment>)

  /** The first render: 16 May 2025, day view, nothing loaded, every modal closed. */
  function Initial(): (p: Page)
    ensures p.date == CalendarView.FixedToday() && p.view == DayView
    ensures p.appointments == [] && p.selectedDoctor.None? && p.current.None?
    ensures !p.loading && !p.showNew && !p.showDetail && !p.showDelete
  {
    Page(CalendarView.FixedToday(), DayView, [], [], None, false, None, false, false, false, None)
  }

  // ---------------------------------------------------------------- loading

  /** The random stand-ins for missing fields, chosen by `Math.random()`. */
  datatype Fallback = Fallback(patientNumber: int, statusPick: int, treatmentPick: int)

  predicate ValidFallback(f: Fallback) {
    1 <= f.patientNumber <= 5 && 0 <= f.statusPick < 4 && 0 <= f.treatmentPick < 4
  }

  const FallbackStatuses: seq<string> := ["PENDIENTE", "CONFIRMADA", "COMPLETADA", "EN_CURSO"]
  const FallbackTreatments: seq<string> := ["General Checkup", "Scaling", "Extraction", "Bleaching"]

  /**
   * The loaded record: missing patient name, status and treatment get the
   * random stand-ins, a missing or zero `durationSlots` becomes 1, and every
   * other field is the server's.
   */
  function Normalize(a: Appointment, f: Fallback): (r: Appointment)
    requires ValidFallback(f)
    ensures r.id == a.id && r.doctorId == a.doctorId && r.patientId == a.patientId
    ensures r.start == a.start && r.notes == a.notes
    ensures a.patientName != "" ==> r.patientName == a.patientName
    ensures a.status != "" ==> r.status == a.status
    ensures a.treatment != "" ==> r.treatment == a.treatment
    ensures a.durationSlots != 0 ==> r.durationSlots == a.durationSlots
    ensures a.durationSlots == 0 ==> r.durationSlots == 1
    ensures r.patientName != "" && r.status != "" && r.treatment != ""
  {
    a.(patientName := Or(a.patientName, "Paciente " + NatToDecimal(f.patientNumber)),
       status := Or(a.status, FallbackStatuses[f.statusPick]),
       treatment := Or(a.treatment, FallbackTreatments[f.treatmentPick]),
       durationSlots := if a.durationSlots == 0 then 1 else a.durationSlots)
  }

  /** Normalising keeps the rows an appointment spans, and a second pass changes nothing. */
  lemma NormalizeStable(a: Appointment, f: Fallback, g: Fallback)
    requires ValidFallback(f) && ValidFallback(g)
    ensures SlotsOf(Normalize(a, f)) == SlotsOf(a)
    ensures Normalize(Normalize(a, f), g) == Normalize(a, f)
  {
  }

  /** `appointmentsData.map(...)`, with stand-in `picks[i]` for record `i`. */
  function NormalizeAll(raw: seq<Appointment>, picks: seq<Fallback>): (r: seq<Appointment>)
    requires |picks| == |raw| && forall i :: 0 <= i < |picks| ==> ValidFallback(picks[i])
    ensures |r| == |raw|
    ensures forall i :: 0 <= i < |raw| ==> r[i] == Normalize(raw[i], picks[i])
  {
    seq(|raw|, i requires 0 <= i < |raw| => Normalize(raw[i], picks[i]))
  }

  /** After loading, every appointment spans at least its stored rows and no record has a zero span. */
  lemma LoadedSpans(raw: seq<Appointment>, picks: seq<Fallback>, i: int)
    requires |picks| == |raw| && forall i :: 0 <= i < |picks| ==> ValidFallback(picks[i])
    requires 0 <= i < |raw|
    ensures NormalizeAll(raw, picks)[i].durationSlots != 0
    ensures NormalizeAll(raw, picks)[i].id == raw[i].id
    ensures SlotsOf(NormalizeAll(raw, picks)[i]) == SlotsOf(raw[i])
  {
  }

  /** The effect sets `loading` before it asks the server. */
  function StartLoading(p: Page): (r: Page)
    ensures r.loading && r.(loading := p.loading) == p
  {
    p.(loading := true)
  }

  /**
   * Both requests resolved. The first doctor becomes the selected one when
   * there are doctors: the effect runs once, so the selection it tests is the
   * one of the first render, which is always empty.
   */
  function LoadSucceeded(p: Page, raw: seq<Appointment>, picks: seq<Fallback>, doctors: seq<Doctor>): (r: Page)
    requires |picks| == |raw| && forall i :: 0 <= i < |picks| ==> ValidFallback(picks[i])
    ensures r.appointments == NormalizeAll(raw, picks) && r.doctors == doctors
    ensures |doctors| > 0 ==> r.selectedDoctor == Some(doctors[0].id)
    ensures |doctors| == 0 ==> r.selectedDoctor == p.selectedDoctor
    ensures !r.loading && !r.showNew && !r.showDetail && !r.showDelete && r.current.None?
    ensures r.date == p.date && r.view == p.view && r.error == p.error
  {
    var selected := if |doctors| > 0 && Initial().selectedDoctor.None? then Some(doctors[0].id) else p.selectedDoctor;
    p.(appointments := NormalizeAll(raw, picks), doctors := doctors, selectedDoctor := selected,
       loading := false, showNew := false, showDetail := false, showDelete := false, current := None)
  }

  const LoadError: string := "Error al cargar los datos. Por favor, intenta de nuevo más tarde."

  /** A request failed: the error is shown and nothing else but `loading` changes. */
  function LoadFailed(p: Page): (r: Page)
    ensures r.error == Some(LoadError) && !r.loading
    ensures r.(error := p.error, loading := p.loading) == p
  {
    p.(error := Some(LoadError), loading := false)
  }

  /** What the page body shows: the spinner while loading, else the error, else the calendar. */
  datatype Body = Spinner | ErrorBox(message: string) | Calendar

  function BodyOf(p: Page): (b: Body)
    ensures b.Spinner? <==> p.loading
    ensures b.ErrorBox? <==> !p.loading && p.error.Some?
  {
    if p.loading then Spinner
    else if p.error.Some? then ErrorBox(p.error.value)
    else Calendar
  }

  // ------------------------------------------------------------- navigation

  /** The arrows: `handlePrevDay` / `handleNextDay` in day view, the week handlers otherwise. */
  function StepOf(v: View): (n: int)
    ensures n == (if v == DayView then 1 else 7)
  {
    match v
    case DayView => 1
    case WeekView => 7
  }

  function PrevPressed(p: Page): (r: Page)
    ensures r.date == p.date - (if p.view == DayView then 1 else 7)
    ensures r.(date := p.date) == p
  {
    p.(date := p.date - StepOf(p.view))
  }

  function NextPressed(p: Page): (r: Page)
    ensures r.date == p.date + (if p.view == DayView then 1 else 7)
    ensures r.(date := p.date) == p
  {
    p.(date := p.date + StepOf(p.view))
  }

  /** The two arrows undo each other, and only the date moves. */
  lemma ArrowsInverse(p: Page)
    ensures NextPressed(PrevPressed(p)) == p && PrevPressed(NextPressed(p)) == p
  {
  }

  /** The arrows move the same way as the calendar view's, whose day view is `"day"`. */
  lemma ArrowsMatchCalendarView(p: Page, c: CalendarView.State)
    requires c.date == p.date && (c.view == "day" <==> p.view == DayView)
    ensures NextPressed(p).date == CalendarView.Next(c).date
    ensures PrevPressed(p).date == CalendarView.Previous(c).date
  {
  }

  function SetView(p: Page, v: View): (r: Page)
    ensures r.view == v && r.(view := p.view) == p
  {
    p.(view := v)
  }

  function TodayPressed(p: Page): (r: Page)
    ensures r.date == DayNumber(Date(2025, 5, 16)) && Weekday(r.date) == 5
    ensures r.(date := p.date) == p
  {
    p.(date := CalendarView.FixedToday())
  }

  /** `handleDoctorChange`: the raw select value, `""` included. */
  function DoctorChange(p: Page, value: string): (r: Page)
    ensures r.selectedDoctor == Some(value) && r.(selectedDoctor := p.selectedDoctor) == p
  {
    p.(selectedDoctor := Some(value))
  }

  /** `selectedDoctor || ''`: what the select shows. */
  function SelectValue(p: Page): (v: string)
    ensures p.selectedDoctor.None? ==> v == ""
    ensures p.selectedDoctor.Some? ==> v == p.selectedDoctor.value
  {
    match p.selectedDoctor
    case None => ""
    case Some(id) => id
  }

  /** An option of the doctor select: the full name, or "Doctor <id>" without one. */
  function DoctorOption(d: Doctor): (text: string)
    ensures d.nombreCompleto != "" ==> text == d.nombreCompleto
    ensures d.nombreCompleto == "" ==> text == "Doctor " + d.id
  {
    Or(d.nombreCompleto, "Doctor " + d.id)
  }

  // --------------------------------------------------------- appointments

  /**
   * What the new-appointment handler takes: a doctor id (`""` when missing)
   * and a start (`None` when missing). The page wires no caller to it.
   * Any other field of the draft, which the handler spreads into the record,
   * is not carried here.
   */
  datatype DraftInput = DraftInput(doctorId: string, start: Option<Instant>)

  /** The record kept for the new-appointment form. */
  function NewRecord(d: DraftInput): Appointment
    requires d.start.Some?
  {
    Appointment(None, d.doctorId, None, d.start.value, 0, "PENDIENTE", "", "", "", "")
  }

  /** A record counts as having an id when the id is present and not empty. */
  predicate HasId(a: Appointment) {
    a.id.Some? && a.id.value != ""
  }

  /**
   * `handleNewAppointment`: nothing for a missing draft, doctor or start;
   * otherwise the draft with no id, no patient and status PENDIENTE, and the
   * new-appointment modal opens.
   */
  function NewAppointment(p: Page, d: Option<DraftInput>): (r: Page)
    ensures (d.None? || d.value.doctorId == "" || d.value.start.None?) ==> r == p
    ensures (d.Some? && d.value.doctorId != "" && d.value.start.Some?) ==> (
      r == p.(current := Some(NewRecord(d.value)), showNew := true)
      && r.current.value.id.None? && r.current.value.patientId.None? && r.current.value.status == "PENDIENTE"
      && r.current.value.doctorId == d.value.doctorId && r.current.value.start == d.value.start.value)
  {
    match d
    case None => p
    case Some(draft) =>
      if draft.doctorId == "" || draft.start.None? then p
      else p.(current := Some(NewRecord(draft)), showNew := true)
  }

  /** `handleAppointmentClick`: records without an id are ignored; others open the detail modal. */
  function AppointmentClick(p: Page, a: Option<Appointment>): (r: Page)
    ensures (a.None? || !HasId(a.value)) ==> r == p
    ensures (a.Some? && HasId(a.value)) ==> r == p.(current := a, showDetail := true)
  {
    match a
    case None => p
    case Some(appt) => if HasId(appt) then p.(current := a, showDetail := true) else p
  }

  /** `handleCreateAppointment` once the server answered: append and close, or leave everything. */
  function CreateFinished(p: Page, created: Option<Appointment>): (r: Page)
    ensures created.None? ==> r == p
    ensures created.Some? ==> r == p.(appointments := p.appointments + [created.value], showNew := false)
  {
    match created
    case None => p
    case Some(v) => p.(appointments := p.appointments + [v], showNew := false)
  }

  /** `handleUpdateAppointment(formData)` once the server answered: replace by the form's id and close. */
  function UpdateFinished(p: Page, formId: Option<string>, updated: Option<Appointment>): (r: Page)
    ensures updated.None? ==> r == p
    ensures updated.Some? ==> r == p.(appointments := ReplaceById(p.appointments, formId, updated.value), showDetail := false)
  {
    match updated
    case None => p
    case Some(v) => p.(appointments := ReplaceById(p.appointments, formId, v), showDetail := false)
  }

  /** `openDeleteConfirmDialog`: only for a current record with an id. */
  function OpenDeleteConfirm(p: Page): (r: Page)
    ensures (p.current.None? || !HasId(p.current.value)) ==> r == p
    ensures (p.current.Some? && HasId(p.current.value)) ==> r == p.(showDelete := true)
  {
    if p.current.Some? && HasId(p.current.value) then p.(showDelete := true) else p
  }

  /**
   * `handleDeleteAppointment`. Without a current record only the confirmation
   * closes. Otherwise the server is asked (`deleted` is its answer): on success
   * every record with the current id goes and every modal closes; on failure
   * nothing changes.
   */
  function DeleteFinished(p: Page, deleted: bool): (r: Page)
    ensures p.current.None? ==> r == p.(showDelete := false)
    ensures p.current.Some? && !deleted ==> r == p
    ensures p.current.Some? && deleted ==> (
      r == p.(appointments := RemoveById(p.appointments, p.current.value.id),
              showDetail := false, showDelete := false, current := None))
  {
    match p.current
    case None => p.(showDelete := false)
    case Some(c) =>
      if deleted then
        p.(appointments := RemoveById(p.appointments, c.id), showDetail := false, showDelete := false, current := None)
      else p
  }

  /** A failed server call changes neither the list nor any modal. */
  lemma FailuresChangeNothing(p: Page, formId: Option<string>)
    requires p.current.Some?
    ensures CreateFinished(p, None) == p && UpdateFinished(p, formId, None) == p && DeleteFinished(p, false) == p
  {
  }

  /** Creating a record with a fresh id, opening it, confirming and deleting it gives the list back and closes everything. */
  lemma CreateOpenDelete(p: Page, v: Appointment)
    requires HasId(v) && CountId(p.appointments, v.id) == 0
    ensures var q := DeleteFinished(OpenDeleteConfirm(AppointmentClick(CreateFinished(p, Some(v)), Some(v))), true);
      q.appointments == p.appointments && q.current.None?
      && !q.showNew && !q.showDetail && !q.showDelete
  {
    CreateThenDelete(p.appointments, v);
  }

  /** Updating a record and then deleting it is deleting it. */
  lemma UpdateThenDelete(p: Page, v: Appointment)
    requires p.current.Some? && v.id == p.current.value.id
    ensures DeleteFinished(UpdateFinished(p, v.id, Some(v)), true).appointments
         == DeleteFinished(p, true).appointments
  {
    DeleteAfterReplace(p.appointments, v.id, v);
  }

  // ---------------------------------------------------------------- modals

  /** The three modals are open when their flag is set and there is a current record. */
  predicate NewOpen(p: Page) { p.showNew && p.current.Some? }
  predicate DetailOpen(p: Page) { p.showDetail && p.current.Some? }
  predicate DeleteOpen(p: Page) { p.showDelete && p.current.Some? }

  /** `closeNewModal`: the current record is dropped only when the other two modals are closed. */
  function CloseNew(p: Page): (r: Page)
    ensures !r.showNew && r.showDetail == p.showDetail && r.showDelete == p.showDelete
    ensures (!p.showDetail && !p.showDelete) ==> r.current.None?
    ensures (p.showDetail || p.showDelete) ==> r.current == p.current
    ensures r.appointments == p.appointments
  {
    var r := p.(showNew := false);
    if !p.showDetail && !p.showDelete then r.(current := None) else r
  }

  /** `closeDetailModal`. */
  function CloseDetail(p: Page): (r: Page)
    ensures !r.showDetail && r.showNew == p.showNew && r.showDelete == p.showDelete
    ensures (!p.showNew && !p.showDelete) ==> r.current.None?
    ensures (p.showNew || p.showDelete) ==> r.current == p.current
    ensures r.appointments == p.appointments
  {
    var r := p.(showDetail := false);
    if !p.showNew && !p.showDelete then r.(current := None) else r
  }

  /** `closeDeleteConfirmModal`. */
  function CloseDelete(p: Page): (r: Page)
    ensures !r.showDelete && r.showNew == p.showNew && r.showDetail == p.showDetail
    ensures (!p.showNew && !p.showDetail) ==> r.current.None?
    ensures (p.showNew || p.showDetail) ==> r.current == p.current
    ensures r.appointments == p.appointments
  {
    var r := p.(showDelete := false);
    if !p.showNew && !p.showDetail then r.(current := None) else r
  }

  /** After any close the current record is kept exactly while some modal flag is still set. */
  lemma CloseKeepsCurrentWhileOpen(p: Page)
    requires p.current.Some?
    ensures CloseNew(p).current.Some? <==> (CloseNew(p).showDetail || CloseNew(p).showDelete)
    ensures CloseDetail(p).current.Some? <==> (CloseDetail(p).showNew || CloseDetail(p).showDelete)
    ensures CloseDelete(p).current.Some? <==> (CloseDelete(p).showNew || CloseDelete(p).showDetail)
  {
  }

  /** Cancelling the confirmation from the detail modal goes back to the detail of the same record. */
  lemma CancelDeleteBackToDetail(p: Page)
    requires DetailOpen(p) && HasId(p.current.value) && !p.showNew
    ensures var q := CloseDelete(OpenDeleteConfirm(p)); DetailOpen(q) && !DeleteOpen(q) && q.current == p.current
  {
  }

  // ----------------------------------------------------------------- today

  /** `todayAppointments`: the appointments on the shown day, in list order (computed, not drawn). */
  function TodayAppointments(p: Page): (r: seq<Appointment>)
    ensures forall i :: 0 <= i < |r| ==> r[i] in p.appointments && OnDay(r[i], p.date)
    ensures forall i :: 0 <= i < |p.appointments| && OnDay(p.appointments[i], p.date) ==> p.appointments[i] in r
  {
    Lists.Filter(p.appointments, OnDate(p.date))
  }

  /** A created record joins today's list, at the end, exactly when it is on the shown day. */
  lemma CreateJoinsToday(p: Page, v: Appointment)
    ensures TodayAppointments(CreateFinished(p, Some(v)))
         == TodayAppointments(p) + (if OnDay(v, p.date) then [v] else [])
  {
    Lists.FilterConcat(p.appointments, [v], OnDate(p.date));
  }
}

=== FILE: slot_grid.dfy ===
/**
 * The half-hour slot grid shared by the schedule views: a window of rows, each
 * 30 minutes after the previous one, the indexer that maps a start
 * minute-of-day to its row, and the rows a block of `span` slots covers.
 */
module SlotGrid {

  import opened Wrappers

  const SlotMinutes: int := 30

  /** Height in pixels of one row. */
  const RowHeight: int := 48

  /** `count` rows, the first at minute-of-day `first`. */
  datatype Window = Window(first: int, count: nat)

  function RowMinute(w: Window, i: int): int {
    w.first + SlotMinutes * i
  }

  /** The row starting exactly at `minute`, if the window has one. */
  function RowOf(w: Window, minute: int): (r: Option<nat>)
    ensures r.Some? ==> r.value < w.count && RowMinute(w, r.value) == minute
    ensures r.None? ==> forall i :: 0 <= i < w.count ==> RowMinute(w, i) != minute
  {
    var offset := minute - w.first;
    if offset < 0 || offset % SlotMinutes != 0 || offset / SlotMinutes >= w.count then None
    else Some(offset / SlotMinutes)
  }

  /** Every row is found again from its own start minute. */
  lemma RowOfRowMinute(w: Window, i: nat)
    requires i < w.count
    ensures RowOf(w, RowMinute(w, i)) == Some(i)
  {
  }

  /** A minute that is not on the half-hour grid of the window has no row. */
  lemma OffGridHasNoRow(w: Window, minute: int)
    requires (minute - w.first) % SlotMinutes != 0
    ensures RowOf(w, minute) == None
  {
  }

  /** Row `i` lies in the block of `span` rows starting at row `start`. */
  predicate Covers(start: int, span: int, i: int) {
    start <= i < start + span
  }

  /** Row `i` lies in the block but below its first row. */
  predicate ContinuesAt(start: int, span: int, i: int) {
    start < i < start + span
  }

  /** A block covers its first row and the rows it continues into, nothing else. */
  lemma CoversSplit(start: int, span: int, i: int)
    requires span >= 1
    ensures Covers(start, span, i) <==> i == start || ContinuesAt(start, span, i)
  {
  }

  /** The pixel height of a block of `span` rows. */
  function BlockHeight(span: int): (h: int)
    ensures span >= 1 ==> h >= RowHeight
    ensures h % RowHeight == 0 && h / RowHeight == span
  {
    span * RowHeight
  }
}

=== FILE: statuses.dfy ===
/**
 * The two appointment-status vocabularies of the front end. The schedule grids
 * and the schedule page use Spanish codes (`PENDIENTE`, ...); the appointment
 * form and detail panel use English codes (`PENDING`, ...). No code belongs to both.
 */
module Statuses {

  import opened Wrappers

  /** Spanish codes, as stored on appointments shown in the grids. */
  datatype Estado = Pendiente | Confirmada | SalaEspera | EnCurso | Completada | Cancelada

  const AllEstados: seq<Estado> := [Pendiente, Confirmada, SalaEspera, EnCurso, Completada, Cancelada]

  function EstadoCode(e: Estado): string {
    match e
    case Pendiente => "PENDIENTE"
    case Confirmada => "CONFIRMADA"
    case SalaEspera => "SALA_ESPERA"
    case EnCurso => "EN_CURSO"
    case Completada => "COMPLETADA"
    case Cancelada => "CANCELADA"
  }

  /** The Spanish status a raw code names, if any. */
  function ParseEstado(code: string): (r: Option<Estado>)
    ensures r.Some? ==> EstadoCode(r.value) == code
    ensures r.None? ==> forall e :: EstadoCode(e) != code
  {
    if code == "PENDIENTE" then Some(Pendiente)
    else if code == "CONFIRMADA" then Some(Confirmada)
    else if code == "SALA_ESPERA" then Some(SalaEspera)
    else if code == "EN_CURSO" then Some(EnCurso)
    else if code == "COMPLETADA" then Some(Completada)
    else if code == "CANCELADA" then Some(Cancelada)
    else None
  }

  lemma ParseEstadoCode(e: Estado)
    ensures ParseEstado(EstadoCode(e)) == Some(e)
  {
  }

  /** English codes, as offered by the appointment form. */
  datatype Status = Pending | Confirmed | WaitingRoom | InProgress | Completed | Cancelled

  const AllStatuses: seq<Status> := [Pending, Confirmed, WaitingRoom, InProgress, Completed, Cancelled]

  function StatusCode(s: Status): string {
    match s
    case Pending => "PENDING"
    case Confirmed => "CONFIRMED"
    case WaitingRoom => "WAITING_ROOM"
    case InProgress => "IN_PROGRESS"
    case Completed => "COMPLETED"
    case Cancelled => "CANCELLED"
  }

  /** The English status a raw code names, if any. */
  function ParseStatus(code: string): (r: Option<Status>)
    ensures r.Some? ==> StatusCode(r.value) == code
    ensures r.None? ==> forall s :: StatusCode(s) != code
  {
    if code == "PENDING" then Some(Pending)
    else if code == "CONFIRMED" then Some(Confirmed)
    else if code == "WAITING_ROOM" then Some(WaitingRoom)
    else if code == "IN_PROGRESS" then Some(InProgress)
    else if code == "COMPLETED" then Some(Completed)
    else if code == "CANCELLED" then Some(Cancelled)
    else None
  }

  lemma ParseStatusCode(s: Status)
    ensures ParseStatus(StatusCode(s)) == Some(s)
  {
  }

  /** The two vocabularies share no code. */
  lemma VocabulariesDisjoint(code: string)
    ensures !(ParseEstado(code).Some? && ParseStatus(code).Some?)
  {
  }
}

=== FILE: strings.dfy ===
/**
 * The handful of JavaScript string operations the components rely on, as pure
 * functions over `seq<char>`: decimal printing and parsing, `padStart`,
 * `toLowerCase`, `startsWith`, `includes`, `split`, `trim`, `join`, `charAt(0)`
 * and the `\s` / `\d` regular-expression classes.
 */
module Strings {

  import opened Wrappers

  predicate IsDigit(c: char) {
    '0' <= c <= '9'
  }

  function DigitValue(c: char): (d: nat)
    requires IsDigit(c)
    ensures d < 10
  {
    (c as int) - ('0' as int)
  }

  function DigitChar(d: nat): (c: char)
    requires d < 10
    ensures IsDigit(c) && DigitValue(c) == d
  {
    (('0' as int) + d) as char
  }

  predicate AllDigits(s: string) {
    forall i :: 0 <= i < |s| ==> IsDigit(s[i])
  }

  /** `n.toString()` for a non-negative integer. */
  function NatToDecimal(n: nat): (s: string)
    ensures 1 <= |s|
    ensures AllDigits(s)
    ensures n < 10 <==> |s| == 1
    ensures 10 <= n < 100 <==> |s| == 2
    ensures 100 <= n < 1000 <==> |s| == 3
    ensures 1000 <= n < 10000 <==> |s| == 4
    ensures |s| == 1 || s[0] != '0'
  {
    if n < 10 then [DigitChar(n)] else NatToDecimal(n / 10) + [DigitChar(n % 10)]
  }

  /** `n.toString()` for any integer: a minus sign in front of negative values. */
  function IntToDecimal(n: int): (s: string)
    ensures 1 <= |s|
    ensures n >= 0 ==> s == NatToDecimal(n)
    ensures n < 0 ==> s == "-" + NatToDecimal(-n)
  {
    if n >= 0 then NatToDecimal(n) else "-" + NatToDecimal(-n)
  }

  /** The value of a string of decimal digits; the empty string is 0, as `Number("")`. */
  function DigitsValue(s: string): nat
    requires AllDigits(s)
  {
    if |s| == 0 then 0 else DigitsValue(s[..|s| - 1]) * 10 + DigitValue(s[|s| - 1])
  }

  /** Parsing undoes printing. */
  lemma {:induction false} DigitsValueOfDecimal(n: nat)
    ensures DigitsValue(NatToDecimal(n)) == n
  {
    if n >= 10 {
      var s := NatToDecimal(n);
      assert s[..|s| - 1] == NatToDecimal(n / 10);
      DigitsValueOfDecimal(n / 10);
    }
  }

  /** A leading zero does not change the value of a digit string. */
  lemma {:induction false} LeadingZeroValue(s: string)
    requires AllDigits(s)
    ensures AllDigits("0" + s) && DigitsValue("0" + s) == DigitsValue(s)
  {
    if |s| > 0 {
      var t := "0" + s;
      assert t[..|t| - 1] == "0" + s[..|s| - 1];
      LeadingZeroValue(s[..|s| - 1]);
    }
  }

  /** `s.padStart(width, '0')`. */
  function PadStart(s: string, width: nat): (r: string)
    ensures |r| == if |s| >= width then |s| else width
    ensures r[|r| - |s|..] == s
    ensures forall i :: 0 <= i < |r| - |s| ==> r[i] == '0'
  {
    if |s| >= width then s else seq(width - |s|, _ => '0') + s
  }

  /** A zero-padded two-digit hour or minute, as `n.toString().padStart(2, '0')`. */
  function Pad2(n: nat): (r: string)
    requires n < 100
    ensures |r| == 2 && AllDigits(r) && DigitsValue(r) == n
    ensures r == [DigitChar(n / 10), DigitChar(n % 10)]
  {
    var d := NatToDecimal(n);
    DigitsValueOfDecimal(n);
    var r := if n < 10 then
      LeadingZeroValue(d);
      assert PadStart(d, 2) == "0" + d;
      PadStart(d, 2)
    else
      PadStart(d, 2);
    TwoDigits(r);
    r
  }

  /** A two-digit string is determined by its value. */
  lemma TwoDigits(r: string)
    requires |r| == 2 && AllDigits(r)
    ensures DigitsValue(r) < 100
    ensures r == [DigitChar(DigitsValue(r) / 10), DigitChar(DigitsValue(r) % 10)]
  {
    var a, b := DigitValue(r[0]), DigitValue(r[1]);
    assert r[..1][..0] == [];
    assert DigitsValue(r[..1]) == a;
    assert DigitsValue(r) == a * 10 + b;
    assert DigitChar(a) == r[0] && DigitChar(b) == r[1];
  }

  /** Two-digit numbers print with no padding needed. */
  lemma DecimalOfTwoDigits(n: nat)
    requires 10 <= n < 100
    ensures NatToDecimal(n) == [DigitChar(n / 10), DigitChar(n % 10)]
  {
    assert NatToDecimal(n) == NatToDecimal(n / 10) + [DigitChar(n % 10)];
    assert NatToDecimal(n / 10) == [DigitChar(n / 10)];
  }

  /** The value of a pair of digits. */
  lemma DigitPairValue(a: nat, b: nat)
    requires a < 10 && b < 10
    ensures AllDigits([DigitChar(a), DigitChar(b)])
    ensures DigitsValue([DigitChar(a), DigitChar(b)]) == 10 * a + b
  {
    var s := [DigitChar(a), DigitChar(b)];
    assert s[..1] == [DigitChar(a)] && s[..1][..0] == [];
    assert DigitsValue(s[..1]) == a;
    assert DigitsValue(s) == DigitsValue(s[..1]) * 10 + b;
  }

  /** `toUpperCase` on one character, the inverse of `LowerChar` on the letters it covers. */
  function UpperChar(c: char): (u: char)
    ensures u == c || LowerChar(u) == c
    ensures 'a' <= c <= 'z' ==> 'A' <= u <= 'Z'
  {
    if 'a' <= c <= 'z' || (0xE0 <= c as int <= 0xFE && c as int != 0xF7) then
      ((c as int) - 32) as char
    else
      c
  }

  /** `Number(s)` for the strings the components feed it: decimal digits, with "" read as 0. `None` is `NaN`. */
  function NumberValue(s: string): (r: Option<nat>)
    ensures r.Some? <==> AllDigits(s)
  {
    if AllDigits(s) then Some(DigitsValue(s)) else None
  }

  /**
   * `toLowerCase` on one character, for the ASCII letters and the upper-case
   * letters of Latin-1 (À..Þ except ×), which covers Spanish names.
   */
  function LowerChar(c: char): char {
    if 'A' <= c <= 'Z' || (0xC0 <= c as int <= 0xDE && c as int != 0xD7) then
      ((c as int) + 32) as char
    else
      c
  }

  function ToLower(s: string): (r: string)
    ensures |r| == |s|
    ensures forall i :: 0 <= i < |s| ==> r[i] == LowerChar(s[i])
  {
    seq(|s|, i requires 0 <= i < |s| => LowerChar(s[i]))
  }

  /** `a || b` on strings: the empty string is falsy. */
  function Or(a: string, b: string): (s: string)
    ensures a != "" ==> s == a
    ensures a == "" ==> s == b
  {
    if a != "" then a else b
  }

  /** Lowering twice is lowering once. */
  lemma ToLowerIdempotent(s: string)
    ensures ToLower(ToLower(s)) == ToLower(s)
  {
    assert forall i :: 0 <= i < |s| ==> LowerChar(LowerChar(s[i])) == LowerChar(s[i]);
  }

  predicate StartsWith(s: string, prefix: string) {
    |prefix| <= |s| && s[..|prefix|] == prefix
  }

  /** `s.includes(sub)`: `sub` occurs somewhere in `s`; the empty string occurs everywhere. */
  predicate Contains(s: string, sub: string) {
    exists i :: 0 <= i && i + |sub| <= |s| && OccursAt(s, sub, i)
  }

  /** `sub` occurs in `s` starting at position `i`. */
  predicate OccursAt(s: string, sub: string, i: int)
    requires 0 <= i && i + |sub| <= |s|
  {
    s[i..i + |sub|] == sub
  }

  lemma EmptyContained(s: string)
    ensures Contains(s, "")
  {
    assert OccursAt(s, "", 0);
  }

  lemma ContainsChar(s: string, c: char)
    ensures Contains(s, [c]) <==> c in s
  {
    if c in s {
      var i :| 0 <= i < |s| && s[i] == c;
      assert OccursAt(s, [c], i);
    }
    if Contains(s, [c]) {
      var i :| 0 <= i && i + 1 <= |s| && OccursAt(s, [c], i);
      assert s[i..i + 1][0] == s[i];
    }
  }

  /** Position of the first `c` in `s`, if any. */
  function IndexOf(s: string, c: char): (r: int)
    ensures -1 <= r < |s|
    ensures r == -1 <==> c !in s
    ensures r >= 0 ==> s[r] == c && c !in s[..r]
  {
    if |s| == 0 then -1
    else if s[0] == c then 0
    else
      var k := IndexOf(s[1..], c);
      if k == -1 then -1
      else
        assert s[..k + 1] == [s[0]] + s[1..][..k];
        k + 1
  }

  /** `s.split(c)` for a one-character separator, built one character at a time from the right. */
  function Split(s: string, c: char): (parts: seq<string>)
    ensures 1 <= |parts|
    ensures c !in s ==> parts == [s]
    decreases |s|
  {
    if |s| == 0 then [""]
    else
      var rest := Split(s[1..], c);
      if s[0] == c then [""] + rest
      else
        assert c !in s ==> rest == [s[1..]] && [s[0]] + s[1..] == s;
        [[s[0]] + rest[0]] + rest[1..]
  }

  /** Splitting at the first separator: the text before it, then the split of the text after it. */
  lemma {:induction false} SplitConcat(a: string, b: string, c: char)
    requires c !in a
    ensures Split(a + [c] + b, c) == [a] + Split(b, c)
    decreases |a|
  {
    var s := a + [c] + b;
    if |a| == 0 {
      assert s[0] == c && s[1..] == b;
    } else {
      assert s[0] == a[0] && s[1..] == a[1..] + [c] + b;
      SplitConcat(a[1..], b, c);
      assert [a[0]] + a[1..] == a;
    }
  }

  /** Joining the pieces with the separator gives the string back. */
  lemma {:induction false} JoinSplit(s: string, c: char)
    ensures Join(Split(s, c), [c]) == s
    decreases |s|
  {
    if |s| > 0 {
      var rest := Split(s[1..], c);
      JoinSplit(s[1..], c);
      if s[0] == c {
        JoinCons("", rest, [c]);
      } else if |rest| > 1 {
        assert rest == [rest[0]] + rest[1..];
        JoinCons(rest[0], rest[1..], [c]);
        JoinCons([s[0]] + rest[0], rest[1..], [c]);
      }
      assert s == [s[0]] + s[1..];
    }
  }

  /** Joining a list with at least two pieces puts the separator after the first. */
  lemma JoinCons(head: string, rest: seq<string>, sep: string)
    requires |rest| > 0
    ensures Join([head] + rest, sep) == head + sep + Join(rest, sep)
  {
    assert ([head] + rest)[1..] == rest;
  }

  /** Splitting `a + [c] + b` at `c`, when neither side holds a `c`, gives the two sides. */
  lemma SplitTwo(a: string, b: string, c: char)
    requires c !in a && c !in b
    ensures Split(a + [c] + b, c) == [a, b]
  {
    SplitConcat(a, b, c);
  }

  /** `parts.join(sep)`: "" for no parts; otherwise it starts with the first part. */
  function Join(parts: seq<string>, sep: string): (r: string)
    ensures |parts| == 0 ==> r == ""
    ensures |parts| > 0 ==> StartsWith(r, parts[0])
    decreases |parts|
  {
    if |parts| == 0 then ""
    else if |parts| == 1 then parts[0]
    else parts[0] + sep + Join(parts[1..], sep)
  }

  /** The characters of the `\s` class (the same set `trim` removes). */
  predicate IsJsWhitespace(c: char) {
    var n := c as int;
    (0x09 <= n <= 0x0D) || n == 0x20 || n == 0xA0 || n == 0x1680
    || (0x2000 <= n <= 0x200A) || n == 0x2028 || n == 0x2029 || n == 0x202F
    || n == 0x205F || n == 0x3000 || n == 0xFEFF
  }

  function TrimStart(s: string): (r: string)
    ensures |r| <= |s| && r == s[|s| - |r|..]
    ensures |r| == 0 || !IsJsWhitespace(r[0])
    ensures forall i :: 0 <= i < |s| - |r| ==> IsJsWhitespace(s[i])
  {
    if |s| > 0 && IsJsWhitespace(s[0]) then TrimStart(s[1..]) else s
  }

  function TrimEnd(s: string): (r: string)
    ensures |r| <= |s| && r == s[..|r|]
    ensures |r| == 0 || !IsJsWhitespace(r[|r| - 1])
    ensures forall i :: |r| <= i < |s| ==> IsJsWhitespace(s[i])
  {
    if |s| > 0 && IsJsWhitespace(s[|s| - 1]) then TrimEnd(s[..|s| - 1]) else s
  }

  /**
   * `s.trim()`: no whitespace is left at either end, and the result is empty
   * exactly when `s` is all whitespace.
   */
  function Trim(s: string): (r: string)
    ensures |r| == 0 || (!IsJsWhitespace(r[0]) && !IsJsWhitespace(r[|r| - 1]))
    ensures |r| == 0 <==> forall i :: 0 <= i < |s| ==> IsJsWhitespace(s[i])
    ensures exists k :: CutFrom(s, r, k)
  {
    var t := TrimStart(s);
    var r := TrimEnd(t);
    assert |r| > 0 ==> r[0] == t[0];
    TrimmedSlice(s, t, r);
    r
  }

  /** `r` is the slice of `s` at `k`, with only whitespace before and after it. */
  predicate CutFrom(s: string, r: string, k: int)
  {
    0 <= k && k + |r| <= |s| && r == s[k..k + |r|]
    && (forall i :: 0 <= i < k ==> IsJsWhitespace(s[i]))
    && (forall i :: k + |r| <= i < |s| ==> IsJsWhitespace(s[i]))
  }

  /** Cutting whitespace off the front and then the back leaves a slice of `s`. */
  lemma TrimmedSlice(s: string, t: string, r: string)
    requires |t| <= |s| && t == s[|s| - |t|..]
    requires forall i :: 0 <= i < |s| - |t| ==> IsJsWhitespace(s[i])
    requires |r| <= |t| && r == t[..|r|]
    requires forall i :: |r| <= i < |t| ==> IsJsWhitespace(t[i])
    ensures exists k :: CutFrom(s, r, k)
  {
    var k := |s| - |t|;
    assert r == s[k..k + |r|];
    forall i | k + |r| <= i < |s| ensures IsJsWhitespace(s[i]) {
      assert s[i] == t[i - k];
    }
    assert CutFrom(s, r, k);
  }

  /** A string with no whitespace at either end is its own trim. */
  lemma TrimNoEdges(s: string)
    requires |s| > 0 && !IsJsWhitespace(s[0]) && !IsJsWhitespace(s[|s| - 1])
    ensures Trim(s) == s
  {
  }

  /** `s.charAt(0)`: the first character, or "" for the empty string. */
  function FirstChar(s: string): (r: string)
    ensures |s| == 0 ==> r == ""
    ensures |s| > 0 ==> r == [s[0]]
  {
    if |s| == 0 then "" else s[..1]
  }

  /** `s.replace(/\D/g, '')`: the ASCII digits of `s`, in order. */
  function DigitsOf(s: string): (r: string)
    ensures AllDigits(r)
    ensures |r| <= |s|
  {
    if |s| == 0 then ""
    else (if IsDigit(s[0]) then [s[0]] else "") + DigitsOf(s[1..])
  }

  /** The value of the digit run at the front of `u`, `None` when there is none. */
  function DigitRun(u: string): (r: Option<nat>)
    ensures r.None? <==> |u| == 0 || !IsDigit(u[0])
  {
    var n := DigitPrefixLength(u, 0);
    if n == 0 then None else Some(DigitsValue(u[..n]))
  }

  /** A digit run read with a sign. */
  function Signed(run: Option<nat>, negative: bool): Option<int> {
    match run
    case None => None
    case Some(v) => var w: int := v; if negative then Some(-w) else Some(w)
  }

  /**
   * `parseInt(s, 10)`: leading whitespace skipped, then an optional '+' or '-',
   * then the longest run of digits, read with the sign; `None` stands for
   * `NaN`, which a missing digit run gives.
   */
  function ParseIntPrefix(s: string): (r: Option<int>)
  {
    var t := s[SpacePrefixLength(s, 0)..];
    var signed := |t| > 0 && (t[0] == '-' || t[0] == '+');
    Signed(DigitRun(if signed then t[1..] else t), signed && t[0] == '-')
  }

  /** The length of the whitespace run of `s` that starts at `from`. */
  function SpacePrefixLength(s: string, from: nat): (n: nat)
    requires from <= |s|
    ensures from <= n <= |s|
    ensures n == |s| || !IsJsWhitespace(s[n])
    decreases |s| - from
  {
    if from < |s| && IsJsWhitespace(s[from]) then SpacePrefixLength(s, from + 1) else from
  }

  /** A string that starts with a digit has neither whitespace nor a sign to skip. */
  lemma ParseUnsigned(s: string)
    requires |s| > 0 && IsDigit(s[0])
    ensures DigitRun(s).Some? && ParseIntPrefix(s) == Some(DigitRun(s).value as int)
  {
    assert !IsJsWhitespace(s[0]);
  }

  /** A minus sign before a digit string negates what `parseInt` reads. */
  lemma ParseNegative(s: string)
    requires |s| > 0 && IsDigit(s[0])
    ensures DigitRun(s).Some? && ParseIntPrefix("-" + s) == Some(-(DigitRun(s).value as int))
  {
    var t := "-" + s;
    assert !IsJsWhitespace(t[0]);
    assert t[1..] == s;
  }

  function DigitPrefixLength(s: string, from: nat): (n: nat)
    requires from <= |s|
    requires AllDigits(s[..from])
    ensures from <= n <= |s|
    ensures AllDigits(s[..n])
    ensures n == |s| || !IsDigit(s[n])
    decreases |s| - from
  {
    if from < |s| && IsDigit(s[from]) then
      assert s[..from + 1] == s[..from] + [s[from]];
      DigitPrefixLength(s, from + 1)
    else from
  }

  /** On a string of digits `parseInt` reads the whole string. */
  lemma ParseAllDigits(s: string)
    requires |s| > 0 && AllDigits(s)
    ensures ParseIntPrefix(s) == Some(DigitsValue(s))
  {
    var n := DigitPrefixLength(s, 0);
    assert n == |s|;
    assert s[..n] == s;
    ParseUnsigned(s);
  }

  /** The digit run of `d + rest` ends where `d` does when `rest` starts with a non-digit. */
  lemma {:induction false} DigitPrefixOfConcat(d: string, rest: string, from: nat)
    requires from <= |d| && AllDigits(d) && (|rest| == 0 || !IsDigit(rest[0]))
    requires AllDigits((d + rest)[..from])
    ensures DigitPrefixLength(d + rest, from) == |d|
    decreases |d| - from
  {
    var s := d + rest;
    if from < |d| {
      assert IsDigit(s[from]);
      assert s[..from + 1] == s[..from] + [s[from]];
      DigitPrefixOfConcat(d, rest, from + 1);
    }
  }

  /** `parseInt` of a number followed by a non-digit reads the number. */
  lemma ParseDecimalThen(n: nat, rest: string)
    requires |rest| == 0 || !IsDigit(rest[0])
    ensures ParseIntPrefix(NatToDecimal(n) + rest) == Some(n)
  {
    var d := NatToDecimal(n);
    assert (d + rest)[..0] == [];
    DigitPrefixOfConcat(d, rest, 0);
    assert (d + rest)[..|d|] == d;
    DigitsValueOfDecimal(n);
    ParseUnsigned(d + rest);
  }

  /** The digit run of a printed natural is that natural. */
  lemma DigitRunOfDecimal(m: nat)
    ensures var d := NatToDecimal(m); |d| > 0 && IsDigit(d[0]) && DigitRun(d) == Some(m)
  {
    var d := NatToDecimal(m);
    ParseDecimalThen(m, "");
    assert d + "" == d;
    ParseUnsigned(d);
  }

  /** `parseInt` reads back what `toString` printed, negative numbers included. */
  lemma ParseIntToDecimal(n: int)
    ensures ParseIntPrefix(IntToDecimal(n)) == Some(n)
  {
    if n < 0 {
      var d := NatToDecimal(-n);
      DigitRunOfDecimal(-n);
      ParseNegative(d);
    } else {
      var d := NatToDecimal(n);
      DigitRunOfDecimal(n);
      ParseUnsigned(d);
    }
  }

  /** Keeping the digits of two pieces is keeping the digits of each. */
  lemma {:induction false} DigitsOfConcat(a: string, b: string)
    ensures DigitsOf(a + b) == DigitsOf(a) + DigitsOf(b)
    decreases |a|
  {
    if |a| > 0 {
      assert (a + b)[1..] == a[1..] + b;
      DigitsOfConcat(a[1..], b);
    } else {
      assert a + b == b;
    }
  }

  /** A string of digits is its own digits. */
  lemma {:induction false} DigitsOfDigits(s: string)
    requires AllDigits(s)
    ensures DigitsOf(s) == s
    decreases |s|
  {
    if |s| > 0 {
      DigitsOfDigits(s[1..]);
    }
  }
}

=== FILE: time_column.dfy ===
/**
 * The hour labels to the left of the day calendar (`time-column`): 25 rows,
 * the whole hours 08:00 to 20:00 on even rows and unlabelled half hours in
 * between. Row `i` lines up with slot `i` of every doctor's column.
 */
module TimeColumn {

  import opened Wrappers
  import opened Strings
  import opened Clock
  import SlotGrid
  import DentistColumn

  datatype HourRow = HourRow(time: string, isHalfHour: bool)

  /** The table, as the component lists it. */
  const Hours: seq<HourRow> := [
    HourRow("08:00", false), HourRow("", true),
    HourRow("09:00", false), HourRow("", true),
    HourRow("10:00", false), HourRow("", true),
    HourRow("11:00", false), HourRow("", true),
    HourRow("12:00", false), HourRow("", true),
    HourRow("13:00", false), HourRow("", true),
    HourRow("14:00", false), HourRow("", true),
    HourRow("15:00", false), HourRow("", true),
    HourRow("16:00", false), HourRow("", true),
    HourRow("17:00", false), HourRow("", true),
    HourRow("18:00", false), HourRow("", true),
    HourRow("19:00", false), HourRow("", true),
    HourRow("20:00", false)
  ]

  /** Row `i` of the literal table: even rows are whole hours from 08:00, odd rows are unlabelled half hours. */
  predicate RowOk(i: int)
    requires 0 <= i < |Hours|
  {
    (Hours[i].isHalfHour <==> i % 2 == 1)
    && (i % 2 == 1 ==> Hours[i].time == "")
    && (i % 2 == 0 ==> Hours[i].time == ClockLabel(8 + i / 2, 0))
  }

  lemma RowShape(i: int)
    requires 0 <= i < 25
    ensures |Hours| == 25
    ensures Hours[i].isHalfHour <==> i % 2 == 1
    ensures i % 2 == 1 ==> Hours[i].time == ""
    ensures i % 2 == 0 ==> Hours[i].time == ClockLabel(8 + i / 2, 0)
  {
    if i < 4 {
      EarlyRows(i);
    } else if i < 8 {
      MorningRows(i);
    } else if i < 16 {
      MiddayRows(i);
    } else {
      EveningRows(i);
    }
  }

  lemma EarlyRows(i: int)
    requires 0 <= i < 4
    ensures RowOk(i)
  {
    if i == 0 {} else if i == 1 {} else if i == 2 {} else {}
  }

  lemma MorningRows(i: int)
    requires 4 <= i < 8
    ensures RowOk(i)
  {
    if i == 4 {} else if i == 5 {} else if i == 6 {} else {}
  }

  lemma MiddayRows(i: int)
    requires 8 <= i < 16
    ensures RowOk(i)
  {
    if i == 8 {} else if i == 9 {} else if i == 10 {} else if i == 11 {}
    else if i == 12 {} else if i == 13 {} else if i == 14 {} else {}
  }

  lemma EveningRows(i: int)
    requires 16 <= i < 25
    ensures RowOk(i)
  {
    if i == 16 {} else if i == 17 {} else if i == 18 {} else if i == 19 {}
    else if i == 20 {} else if i == 21 {} else if i == 22 {} else if i == 23 {} else {}
  }

  /** Row 2·k is hour 8 + k padded to two digits, then ":00". */
  lemma WholeHourLabel(k: int)
    requires 0 <= k <= 12
    ensures Hours[2 * k].time == Pad2(8 + k) + ":" + Pad2(0)
  {
    var i := 2 * k;
    assert i / 2 == k && i % 2 == 0;
    var t := Hours[i].time;
    assert t == ClockLabel(8 + k, 0) by { RowShape(i); }
    ClockLabelPadded(8 + k, 0);
  }

  /** `!hour.isHalfHour && hour.time`: the label drawn on row `i`, if any. */
  function ShownLabel(i: int): (r: Option<string>)
    requires 0 <= i < 25
    ensures r.Some? <==> i % 2 == 0
    ensures r.Some? ==> r.value != "" && r.value == Hours[i].time
  {
    RowShape(i);
    if !Hours[i].isHalfHour then Some(Hours[i].time) else None
  }

  /** The label on row 2·k is the clock label of hour 8 + k. */
  lemma ShownLabelIsClock(k: int)
    requires 0 <= k <= 12
    ensures ShownLabel(2 * k) == Some(ClockLabel(8 + k, 0))
  {
    var i := 2 * k;
    assert i / 2 == k && i % 2 == 0;
    RowShape(i);
  }

  /** The clock label of hour 8 + k reads as the start minute of slot 2·k of a doctor's column. */
  lemma HourMatchesSlot(k: int)
    requires 0 <= k <= 12
    ensures TimeToMinutes(ClockLabel(8 + k, 0)) == Some(SlotGrid.RowMinute(DentistColumn.Window, 2 * k))
  {
    ClockLabelMinutes(8 + k, 0);
  }

  /** Every drawn label, on row 2·k, reads as the start minute of the doctor-column slot beside it. */
  lemma LabelsMatchSlots(k: int)
    requires 0 <= k <= 12
    ensures ShownLabel(2 * k).Some?
    ensures TimeToMinutes(ShownLabel(2 * k).value) == Some(SlotGrid.RowMinute(DentistColumn.Window, 2 * k))
  {
    ShownLabelIsClock(k);
    HourMatchesSlot(k);
  }
}

=== FILE: tooth_chart.dfy ===
/**
 * The read-only tooth chart: each tooth shows five face colours taken from
 * its `caras` record with fixed fallbacks, a whole-tooth grey when it is
 * absent, and the teeth are laid out by FDI quadrant (upper right, upper
 * left, then the lower arch).
 */
module ToothChart {

  import opened Wrappers
  import opened Strings

  /** The chart's record of one tooth: its faces and its whole-tooth state; "" is a missing value. */
  datatype ToothData = ToothData(caras: Option<map<string, string>>, estado: string)

  /** `data?.caras?.[face]`, "" when anything on the way is missing. */
  function Cara(d: Option<ToothData>, face: string): (s: string)
    ensures s != "" ==> d.Some? && d.value.caras.Some? && face in d.value.caras.value && d.value.caras.value[face] == s
  {
    if d.Some? && d.value.caras.Some? && face in d.value.caras.value then d.value.caras.value[face] else ""
  }

  datatype FaceStatus = FaceStatus(top: string, bottom: string, left: string, right: string, center: string)

  /**
   * `faceStatus`: the top reads oclusal then superior, the centre vestibular,
   * lingual then palatino, the other three one face each; 'normal' when none is set.
   */
  function FaceStatusOf(d: Option<ToothData>): (f: FaceStatus)
    ensures Cara(d, "oclusal") != "" ==> f.top == Cara(d, "oclusal")
    ensures Cara(d, "oclusal") == "" && Cara(d, "superior") != "" ==> f.top == Cara(d, "superior")
    ensures Cara(d, "oclusal") == "" && Cara(d, "superior") == "" ==> f.top == "normal"
    ensures Cara(d, "vestibular") != "" ==> f.center == Cara(d, "vestibular")
    ensures Cara(d, "vestibular") == "" && Cara(d, "lingual") != "" ==> f.center == Cara(d, "lingual")
    ensures Cara(d, "vestibular") == "" && Cara(d, "lingual") == "" && Cara(d, "palatino") != "" ==> f.center == Cara(d, "palatino")
    ensures Cara(d, "vestibular") == "" && Cara(d, "lingual") == "" && Cara(d, "palatino") == "" ==> f.center == "normal"
    ensures f.bottom == Or(Cara(d, "inferior"), "normal") && f.left == Or(Cara(d, "mesial"), "normal")
    ensures f.right == Or(Cara(d, "distal"), "normal")
    ensures f.top != "" && f.bottom != "" && f.left != "" && f.right != "" && f.center != ""
  {
    FaceStatus(
      Or(Cara(d, "oclusal"), Or(Cara(d, "superior"), "normal")),
      Or(Cara(d, "inferior"), "normal"),
      Or(Cara(d, "mesial"), "normal"),
      Or(Cara(d, "distal"), "normal"),
      Or(Cara(d, "vestibular"), Or(Cara(d, "lingual"), Or(Cara(d, "palatino"), "normal"))))
  }

  /** A tooth without data, or without faces, draws every area as 'normal'. */
  lemma NoDataAllNormal(d: Option<ToothData>)
    requires d.None? || d.value.caras.None?
    ensures FaceStatusOf(d) == FaceStatus("normal", "normal", "normal", "normal", "normal")
  {
  }

  const DefaultColor: string := "#ecf0f1"

  /** `getColor`. */
  function Color(status: string): string {
    if status == "caries" then "#e74c3c"
    else if status == "tratamiento" then "#3498db"
    else if status == "obturado" then "#2ecc71"
    else if status == "ausente" then "#7f8c8d"
    else if status == "corona" then "#f1c40f"
    else DefaultColor
  }

  const KnownStatuses: seq<string> := ["caries", "tratamiento", "obturado", "ausente", "corona"]

  /** The five known states have five different colours, none of them the default; every other state is the default. */
  lemma ColorsDistinct(a: string, b: string)
    ensures Color(a) == DefaultColor <==> a !in KnownStatuses
    ensures a in KnownStatuses && b in KnownStatuses ==> (Color(a) == Color(b) <==> a == b)
  {
  }

  /** `data?.estado || 'normal'`. */
  function ToothStatus(d: Option<ToothData>): (s: string)
    ensures s != ""
    ensures d.None? || d.value.estado == "" ==> s == "normal"
  {
    if d.Some? && d.value.estado != "" then d.value.estado else "normal"
  }

  predicate IsAbsent(d: Option<ToothData>) {
    ToothStatus(d) == "ausente"
  }

  /** A tooth is absent exactly when its recorded state is 'ausente'. */
  lemma AbsentIff(d: Option<ToothData>)
    ensures IsAbsent(d) <==> d.Some? && d.value.estado == "ausente"
  {
  }

  /** The four quadrants as the chart lists them. */
  datatype Teeth = Teeth(upperRight: seq<int>, upperLeft: seq<int>, lowerLeft: seq<int>, lowerRight: seq<int>)

  const AdultTeeth: Teeth := Teeth(
    [18, 17, 16, 15, 14, 13, 12, 11],
    [21, 22, 23, 24, 25, 26, 27, 28],
    [31, 32, 33, 34, 35, 36, 37, 38],
    [48, 47, 46, 45, 44, 43, 42, 41])

  const ChildTeeth: Teeth := Teeth(
    [55, 54, 53, 52, 51],
    [61, 62, 63, 64, 65],
    [71, 72, 73, 74, 75],
    [85, 84, 83, 82, 81])

  function TeethFor(isChild: bool): Teeth {
    if isChild then ChildTeeth else AdultTeeth
  }

  function AllTeeth(t: Teeth): seq<int> {
    t.upperRight + t.upperLeft + t.lowerLeft + t.lowerRight
  }

  /** The first digit of a tooth number is its FDI quadrant, the second its position from the midline. */
  predicate InQuadrant(n: int, q: int, positions: int) {
    n / 10 == q && 1 <= n % 10 <= positions
  }

  /**
   * Each quadrant lists its own FDI numbers: eight per quadrant 1..4 for an
   * adult, five per quadrant 5..8 for a child, 32 and 20 distinct numbers in all.
   */
  lemma QuadrantsAreFdi(isChild: bool, i: int)
    ensures var t := TeethFor(isChild); var n := if isChild then 5 else 8; var b := if isChild then 4 else 0;
      |t.upperRight| == n && |t.upperLeft| == n && |t.lowerLeft| == n && |t.lowerRight| == n
      && (0 <= i < n ==> (InQuadrant(t.upperRight[i], b + 1, n) && InQuadrant(t.upperLeft[i], b + 2, n)
        && InQuadrant(t.lowerLeft[i], b + 3, n) && InQuadrant(t.lowerRight[i], b + 4, n)))
  {
  }

  /** Entry `i` of the full list as quadrant and position: four runs of `n`, counting towards, away, away and towards the midline. */
  function EntryNumber(isChild: bool, i: int): int {
    var n := if isChild then 5 else 8;
    var b := if isChild then 4 else 0;
    if i < n then 10 * (b + 1) + (n - i)
    else if i < 2 * n then 10 * (b + 2) + (i - n + 1)
    else if i < 3 * n then 10 * (b + 3) + (i - 2 * n + 1)
    else 10 * (b + 4) + (4 * n - i)
  }

  lemma AllTeethFormula(isChild: bool, i: int)
    requires 0 <= i < |AllTeeth(TeethFor(isChild))|
    ensures |AllTeeth(TeethFor(isChild))| == if isChild then 20 else 32
    ensures AllTeeth(TeethFor(isChild))[i] == EntryNumber(isChild, i)
  {
  }

  /** No tooth number is listed twice. */
  lemma {:induction false} AllTeethDistinct(isChild: bool, i: int, j: int)
    requires 0 <= i < |AllTeeth(TeethFor(isChild))| && 0 <= j < |AllTeeth(TeethFor(isChild))|
    ensures |AllTeeth(TeethFor(isChild))| == if isChild then 20 else 32
    ensures AllTeeth(TeethFor(isChild))[i] == AllTeeth(TeethFor(isChild))[j] <==> i == j
  {
    AllTeethFormula(isChild, i);
    AllTeethFormula(isChild, j);
  }

  function Reverse(s: seq<int>): (r: seq<int>)
    ensures |r| == |s| && forall i :: 0 <= i < |s| ==> r[i] == s[|s| - 1 - i]
  {
    seq(|s|, i requires 0 <= i < |s| => s[|s| - 1 - i])
  }

  /** Reversing a list keeps its elements. */
  lemma ReverseElements(s: seq<int>)
    ensures forall x :: x in Reverse(s) <==> x in s
  {
    var r := Reverse(s);
    forall x | x in s ensures x in r {
      var i :| 0 <= i < |s| && s[i] == x;
      assert r[|s| - 1 - i] == x;
    }
  }

  /** The upper row: upper right then upper left, every upper tooth once per listing and no other. */
  function UpperRow(t: Teeth): (r: seq<int>)
    ensures |r| == |t.upperRight| + |t.upperLeft|
    ensures forall x :: x in r <==> x in t.upperRight || x in t.upperLeft
  {
    t.upperRight + t.upperLeft
  }

  /** The lower row as written: both lower quadrants reversed, still exactly the lower teeth. */
  function LowerRowAsWritten(t: Teeth): (r: seq<int>)
    ensures |r| == |t.lowerRight| + |t.lowerLeft|
    ensures forall x :: x in r <==> x in t.lowerRight || x in t.lowerLeft
  {
    ReverseElements(t.lowerRight);
    ReverseElements(t.lowerLeft);
    Reverse(t.lowerRight) + Reverse(t.lowerLeft)
  }

  /** The lower row in the quadrants' own order, each tooth under its upper counterpart. */
  function LowerRow(t: Teeth): (r: seq<int>)
    ensures |r| == |t.lowerRight| + |t.lowerLeft|
    ensures forall x :: x in r <==> x in t.lowerRight || x in t.lowerLeft
  {
    t.lowerRight + t.lowerLeft
  }

  /** The tooth of the opposite arch on the same side and at the same position. */
  function Antagonist(n: int): int {
    var q := n / 10;
    var opposite := if q == 1 then 4 else if q == 2 then 3 else if q == 5 then 8 else if q == 6 then 7 else q;
    10 * opposite + n % 10
  }

  /** In the corrected lower row every column holds the antagonist of the tooth above it. */
  lemma LowerRowAligned(isChild: bool, k: int)
    requires 0 <= k < |UpperRow(TeethFor(isChild))|
    ensures |LowerRow(TeethFor(isChild))| == |UpperRow(TeethFor(isChild))|
    ensures LowerRow(TeethFor(isChild))[k] == Antagonist(UpperRow(TeethFor(isChild))[k])
  {
  }

  /** As written, each lower half is mirrored: column `k` shows the tooth the corrected row has at the other end of that half. */
  lemma LowerRowMirrored(t: Teeth, k: int)
    requires |t.lowerRight| == |t.lowerLeft| && 0 <= k < 2 * |t.lowerRight|
    ensures var n := |t.lowerRight|;
      LowerRowAsWritten(t)[k] == LowerRow(t)[if k < n then n - 1 - k else 3 * n - 1 - k]
  {
  }

  /** As written, the first column pairs 18 with 41 and the eighth pairs 11 with 48. */
  lemma LowerRowMisaligned()
    ensures LowerRowAsWritten(AdultTeeth)[0] == 41 && Antagonist(UpperRow(AdultTeeth)[0]) == 48
    ensures LowerRowAsWritten(AdultTeeth)[7] == 48 && Antagonist(UpperRow(AdultTeeth)[7]) == 41
  {
    LowerRowMirrored(AdultTeeth, 0);
    LowerRowMirrored(AdultTeeth, 7);
  }

  /** The tooth and face picked on the chart; no face means the whole tooth. */
  datatype Selection = Selection(tooth: Option<int>, face: Option<string>)

  /** `handleToothClick`: ignored unless the chart is editable. */
  function ToothClick(s: Selection, isEditable: bool, number: int, face: Option<string>): (r: Selection)
    ensures !isEditable ==> r == s
    ensures isEditable ==> r.tooth == Some(number) && r.face == face
  {
    if isEditable then Selection(Some(number), face) else s
  }

  /** Clicking a face of a tooth and then the tooth itself selects the whole tooth. */
  lemma WholeToothAfterFace(s: Selection, number: int, face: string)
    ensures ToothClick(ToothClick(s, true, number, Some(face)), true, number, None) == Selection(Some(number), None)
    ensures ToothClick(ToothClick(s, false, number, Some(face)), false, number, None) == s
  {
  }
}

=== FILE: weekly_schedule.dfy ===
/**
 * The week view of one doctor's schedule (`WeeklySchedule`): eighteen
 * half-hour rows labelled "9:00" to "17:30" without padding, seven day
 * columns from Monday. A cell shows the first appointment, in list order,
 * that starts exactly there; an empty cell offers a new appointment.
 */
module WeeklySchedule {

  import opened Wrappers
  import opened Strings
  import opened Civil
  import opened Clock
  import opened Appointments
  import Lists
  import Statuses
  import DateUtils

  /** The eighteen row labels, `${hour}:00` then `${hour}:30` for each hour from 9 to 17. */
  function OperatingHours(): seq<string> {
    seq(18, k requires 0 <= k < 18 => UnpaddedLabel(9 + k / 2, 30 * (k % 2)))
  }

  /** The component's loop, pushing the two labels of each hour in turn. */
  method BuildOperatingHours() returns (hours: seq<string>)
    ensures hours == OperatingHours()
  {
    hours := [];
    var hour := 9;
    while hour < 18
      invariant 9 <= hour <= 18
      invariant |hours| == 2 * (hour - 9)
      invariant forall i :: 0 <= i < |hours| ==> hours[i] == OperatingHours()[i]
    {
      HourPair(hour);
      hours := hours + [NatToDecimal(hour) + ":00", NatToDecimal(hour) + ":30"];
      hour := hour + 1;
    }
  }

  /** The two labels pushed for `hour` sit at rows 2·(hour − 9) and 2·(hour − 9) + 1. */
  lemma HourPair(hour: int)
    requires 9 <= hour < 18
    ensures OperatingHours()[2 * (hour - 9)] == NatToDecimal(hour) + ":00"
    ensures OperatingHours()[2 * (hour - 9) + 1] == NatToDecimal(hour) + ":30"
  {
    var k := 2 * (hour - 9);
    assert k / 2 == hour - 9 && k % 2 == 0 && (k + 1) / 2 == hour - 9 && (k + 1) % 2 == 1;
  }

  lemma RowSplit(i: int)
    requires 0 <= i < 18
    ensures i == 2 * (i / 2) + i % 2 && 0 <= i / 2 < 9 && (i % 2 == 0 || i % 2 == 1)
    ensures 60 * (9 + i / 2) + 30 * (i % 2) == 540 + 30 * i
  {
  }

  /** Row `i` reads as minute 540 + 30·i, so the rows are in increasing time order. */
  lemma RowMinutes(i: int)
    requires 0 <= i < 18
    ensures |OperatingHours()| == 18
    ensures TimeToMinutes(OperatingHours()[i]) == Some(540 + 30 * i)
  {
    RowSplit(i);
    UnpaddedLabelMinutes(9 + i / 2, 30 * (i % 2));
  }

  /** Later rows stand for later times. */
  lemma RowsIncreasing(i: int, j: int)
    requires 0 <= i < j < 18
    ensures var a, b := TimeToMinutes(OperatingHours()[i]), TimeToMinutes(OperatingHours()[j]);
      a.Some? && b.Some? && a.value < b.value
  {
    RowMinutes(i);
    RowMinutes(j);
  }

  /** The week's own `getWeekDays(startDate)`: back to Monday (six days back from a Sunday), then seven days. */
  function WeekDays(n: int): (r: seq<int>)
    ensures |r| == 7
  {
    var dayOfWeek := Weekday(n);
    var diff := if dayOfWeek == 0 then -6 else 1 - dayOfWeek;
    seq(7, i => n + diff + i)
  }

  /** The component's week is the one `dateUtils.getWeekDays` computes, so it starts on a Monday and contains the reference day. */
  lemma WeekDaysAgree(n: int)
    ensures WeekDays(n) == DateUtils.WeekDays(n)
    ensures Weekday(WeekDays(n)[0]) == 1 && n in WeekDays(n)
    ensures Weekday(n) == 0 ==> WeekDays(n)[0] == n - 6
  {
  }

  /** The column headers, Monday first. */
  const DayNames: seq<string> := ["Lun", "Mar", "Mié", "Jue", "Vie", "Sáb", "Dom"]

  /** The short Spanish name of a `getDay()` value (0 is Sunday). */
  function WeekdayName(w: int): string
    requires 0 <= w < 7
  {
    if w == 0 then "Dom" else DayNames[w - 1]
  }

  /** Header `i` names the weekday of column `i`. */
  lemma DayNamesMatchColumns(n: int, i: int)
    requires 0 <= i < 7
    ensures DayNames[i] == WeekdayName(Weekday(WeekDays(n)[i]))
  {
    WeekDaysAgree(n);
    WeekdayStep(WeekDays(n)[0], i);
  }

  /** The test `findAppointments` applies to each appointment for the cell (`day`, `timeSlot`). */
  function InCell(doctorId: string, day: int, timeSlot: string): Appointment -> bool {
    a => StartsAt(a, doctorId, day, TimeToMinutes(timeSlot))
  }

  /** `findAppointments(day, timeSlot)`: the doctor's appointments of that day starting at the slot, in list order. */
  function FindAppointments(appts: seq<Appointment>, doctorId: string, day: int, timeSlot: string): (r: seq<Appointment>)
    ensures forall i :: 0 <= i < |r| ==> r[i] in appts && StartsAt(r[i], doctorId, day, TimeToMinutes(timeSlot))
    ensures forall i :: 0 <= i < |appts| && StartsAt(appts[i], doctorId, day, TimeToMinutes(timeSlot)) ==> appts[i] in r
  {
    Lists.Filter(appts, InCell(doctorId, day, timeSlot))
  }

  /** The weekly card colours: tinted background and border, faded for finished and cancelled visits. */
  function Tint(colour: string, faded: bool): string {
    "bg-" + colour + "-100 border-" + colour + "-300" + (if faded then " opacity-60" else "")
  }

  /** `getStatusColor(status)`, with the grey tint for unknown codes. */
  function StatusColor(status: string): (c: string)
    ensures Statuses.ParseEstado(status).None? ==> c == Tint("gray", false)
  {
    match Statuses.ParseEstado(status)
    case Some(Pendiente) => Tint("yellow", false)
    case Some(Confirmada) => Tint("green", false)
    case Some(SalaEspera) => Tint("gray", false)
    case Some(EnCurso) => Tint("blue", false)
    case Some(Completada) => Tint("gray", true)
    case Some(Cancelada) => Tint("red", true)
    case None => Tint("gray", false)
  }

  /** Different tints are different strings. */
  lemma TintInjective(c1: string, f1: bool, c2: string, f2: bool)
    requires Tint(c1, f1) == Tint(c2, f2)
    ensures c1 == c2 && f1 == f2
  {
    var t := Tint(c1, f1);
    assert |t| == 2 * |c1| + 19 + (if f1 then 11 else 0);
    assert |t| == 2 * |c2| + 19 + (if f2 then 11 else 0);
    assert t[3..3 + |c1|] == c1;
    assert Tint(c2, f2)[3..3 + |c2|] == c2;
  }

  /** Only finished and cancelled visits are faded, and the plain grey tint marks the waiting room and unknown codes. */
  lemma StatusColorClasses(status: string)
    ensures (exists c :: StatusColor(status) == Tint(c, true))
      <==> Statuses.ParseEstado(status) in {Some(Statuses.Completada), Some(Statuses.Cancelada)}
    ensures StatusColor(status) == Tint("gray", false)
      <==> Statuses.ParseEstado(status) in {None, Some(Statuses.SalaEspera)}
  {
    var e := Statuses.ParseEstado(status);
    if c :| StatusColor(status) == Tint(c, true) {
      match e
      case Some(Pendiente) => TintInjective("yellow", false, c, true);
      case Some(Confirmada) => TintInjective("green", false, c, true);
      case Some(SalaEspera) => TintInjective("gray", false, c, true);
      case Some(EnCurso) => TintInjective("blue", false, c, true);
      case Some(Completada) =>
      case Some(Cancelada) =>
      case None => TintInjective("gray", false, c, true);
    }
    if StatusColor(status) == Tint("gray", false) {
      match e
      case Some(Pendiente) => TintInjective("yellow", false, "gray", false);
      case Some(Confirmada) => TintInjective("green", false, "gray", false);
      case Some(SalaEspera) =>
      case Some(EnCurso) => TintInjective("blue", false, "gray", false);
      case Some(Completada) => TintInjective("gray", true, "gray", false);
      case Some(Cancelada) => TintInjective("red", true, "gray", false);
      case None =>
    }
  }

  /** What one cell of the week grid shows. */
  datatype WeekCell =
    | Card(appointment: Appointment, span: int, colour: string)  // spans `span` rows from here
    | Empty                                                      // clickable

  /**
   * Cell (`day`, `timeSlot`): the first matching appointment only, spanning its
   * slot count (default 1); the others that start there are not drawn.
   */
  function Cell(appts: seq<Appointment>, doctorId: string, day: int, timeSlot: string): (v: WeekCell)
    ensures v.Empty? <==> forall j :: 0 <= j < |appts| ==> !StartsAt(appts[j], doctorId, day, TimeToMinutes(timeSlot))
    ensures v.Card? ==> exists j :: (0 <= j < |appts| && v.appointment == appts[j]
      && StartsAt(appts[j], doctorId, day, TimeToMinutes(timeSlot))
      && (forall k :: 0 <= k < j ==> !StartsAt(appts[k], doctorId, day, TimeToMinutes(timeSlot))))
    ensures v.Card? ==> v.span == SlotsOf(v.appointment) && v.colour == StatusColor(v.appointment.status)
  {
    var p := InCell(doctorId, day, timeSlot);
    var found := FindAppointments(appts, doctorId, day, timeSlot);
    Lists.AnyIffFilterNonEmpty(appts, p);
    if |found| > 0 then
      Lists.FilterHead(appts, p);
      var a := found[0];
      Card(a, SlotsOf(a), StatusColor(a.status))
    else
      Empty
  }

  /**
   * `handleSlotClick(day, timeSlot)` on row `i`: a draft for the doctor at the
   * row's time of that day only when no appointment starts in the cell.
   */
  function SlotClick(appts: seq<Appointment>, doctorId: string, day: int, i: int): (r: Option<Draft>)
    requires 0 <= i < 18
    ensures r.Some? <==> Cell(appts, doctorId, day, OperatingHours()[i]).Empty?
    ensures r.Some? ==> (r.value.doctorId == doctorId && DayOf(r.value.start) == day
      && MinuteOfDay(r.value.start) == 540 + 30 * i)
  {
    var timeSlot := OperatingHours()[i];
    if |FindAppointments(appts, doctorId, day, timeSlot)| == 0 then
      RowMinutes(i);
      Lists.AnyIffFilterNonEmpty(appts, InCell(doctorId, day, timeSlot));
      var minutes := TimeToMinutes(timeSlot).value;
      AtMinuteParts(day, minutes);
      Some(Draft(doctorId, AtMinute(day, minutes)))
    else
      Lists.AnyIffFilterNonEmpty(appts, InCell(doctorId, day, timeSlot));
      None
  }

  /** The whole grid: one row per label, one cell per day of the week; nothing without a doctor. */
  function Grid(doctor: Option<string>, week: int, appts: seq<Appointment>): (g: Option<seq<seq<WeekCell>>>)
    ensures g.None? <==> doctor.None?
    ensures g.Some? ==> (|g.value| == 18
      && forall i :: 0 <= i < 18 ==> |g.value[i]| == 7)
    ensures g.Some? ==> forall i, d :: 0 <= i < 18 && 0 <= d < 7 ==>
      g.value[i][d] == Cell(appts, doctor.value, WeekDays(week)[d], OperatingHours()[i])
  {
    match doctor
    case None => None
    case Some(id) =>
      RowMinutes(0);
      var days := WeekDays(week);
      Some(seq(18, i requires 0 <= i < 18 => seq(7, d requires 0 <= d < 7 => Cell(appts, id, days[d], OperatingHours()[i]))))
  }
}

=== FILE: wrappers.dfy ===
/** Option type used wherever the source has `null`, `undefined` or a missing field. */
module Wrappers {

  datatype Option<+T> = None | Some(value: T) {

    /** Returns the wrapped value, or `default` when there is none (the source's `x || default`). */
    function GetOr(default: T): T {
      match this
      case Some(v) => v
      case None => default
    }
  }

  /** The answer to a request: its value, or a failure with the error's message ("" when it has none). */
  datatype Result<T> = Ok(value: T) | Err(message: string)
}
